=== FILE: README.md ===
# styx health sync — a Dafny model of the ingest, rollup, summary, write-back and sync core

styx moves Apple Health data between an iPhone and a Convex backend, and
reads it back through a small private HTTP API.

**On the device**
- HealthKit samples are normalised into ingest samples with stable keys.
- The samples are uploaded in batches, with retries and a per-metric cursor.
- Pending write intents are pulled page by page, applied to HealthKit and acknowledged.

**On the server**
- Each ingest sample is validated and stamped with the day it falls on in its own time zone.
- Duplicates are skipped by sample key.
- The daily rollup of every affected day is recomputed.
- Write intents are queued with a retry backoff.
- Day, range and "yesterday" summaries are derived from the rollups.

**The HTTP boundary**
- Checks a bearer token.
- Parses query strings and JSON bodies.
- Maps every rejection to a status.

The model is pure functional Dafny:
- Stores are sequences and maps.
- Everything the program asks of the outside world becomes a parameter: the clock, time-zone formatting, HealthKit, SecureStore and the server calls.
- Each operation is a function or method whose contract states what the source promises.

| module | file | models |
|---|---|---|
| `Wrappers` | wrappers.dfy | `Option`, `Result` |
| `JsStrings` | js_strings.dfy | `trim`, `includes`, `split`, `toLowerCase` on ASCII |
| `JsNumbers` | js_numbers.dfy | JS numbers, `Number(string)`, decimal printing, `padStart(2, "0")` |
| `StringOrder` | string_order.dfy | JS string `<`, `<=` and `Array.prototype.sort` on strings |
| `Json` | json.dfy | parsed JSON values and field lookup |
| `HealthTypes` | health_types.dfy | the metric and sleep-category vocabularies |
| `HealthDomain` | health_domain.dfy | sample validation, day keys, the daily rollup |
| `HealthIngest` | health_ingest.dfy | `upsertRawSamples`, `listDaily`, `listRaw` |
| `Calendar` | calendar.dfy | `Date.UTC` arithmetic, `nextDayKey`, `subtractOneDayFromDayKey`, `buildDayRange` |
| `HealthSummary` | health_summary.dfy | `roundTo`, bands, insights, `summarizeDay`, `summarizeRange`, `yesterdayDayKey` |
| `SummaryQueries` | summary_queries.dfy | the daily, range and yesterday summary queries |
| `WriteIntents` | write_intents.dfy | the write-intent queue: upsert, ack, backoff, listings |
| `Paging` | paging.dfy | cursor pages over an ordered index |
| `Normalize` | normalize.dfy | HealthKit quantity and sleep samples to ingest samples |
| `SyncLogic` | sync_logic.dfy | cursor window, retry classification, retry with backoff |
| `Sync` | sync.dfy | `chunkSamples`, cursors, `runHealthSync` |
| `WriteBack` | writeback.dfy | `runHealthWriteBackWithDependencies` |
| `ApiCommon` | api_common.dfy | bearer token, query parameters, day keys, error answers |
| `HttpIngest` | http_ingest.dfy | `/health/ingest`, `/health/daily`, `/health/raw` |
| `HttpWriteIntents` | http_write_intents.dfy | the write-intent endpoints |
| `HttpSummary` | http_summary.dfy | the summary and structured-query endpoints |

## Model

| member | source | states |
|---|---|---|
| HealthTypes.FindMetric | packages/backend/convex/healthDomain.ts:13-20 | a metric is found only if it is listed and carries the name; not found means no listed metric has it |
| HealthTypes.HealthMetricsComplete | packages/backend/convex/healthTypes.ts:11-20 | HEALTH_METRICS lists all eight metrics, each exactly once |
| HealthTypes.MetricNameRoundTrip | packages/backend/convex/healthDomain.ts:13-20 | reading a metric's wire name gives the metric back; a name is accepted iff some metric has it |
| HealthTypes.FindSleepCategory | packages/backend/convex/healthDomain.ts:22-29 | a category is found only if it is listed and carries the name; not found means none has it |
| HealthTypes.SleepCategoryNameRoundTrip | packages/backend/convex/healthDomain.ts:22-29 | reading a category's name gives it back; a name is accepted iff some category has it |
| HealthDomain.DayKeyFromTimestamp | packages/backend/convex/healthDomain.ts:31-49 | outside the range `Date` accepts, the result is the invalid-date error; inside it, it is the zone formatter's answer |
| HealthDomain.FieldError | packages/backend/convex/healthDomain.ts:71-111 | no error iff every field check passes; a bad sample key is reported first |
| HealthDomain.ValidateAndPrepareSample | packages/backend/convex/healthDomain.ts:71-111 | accepted iff the sample is well formed and its day key can be computed; the result is the sample with that day key; a bad key is the first error |
| HealthDomain.WellFormedIsAggregatable | packages/backend/convex/healthDomain.ts:183-222 | a validated sample has integer times, an ordered interval and the reading its metric needs |
| HealthDomain.DurationMs | packages/backend/convex/healthDomain.ts:183-185 | the span from start to end when the end is not earlier, and 0 otherwise |
| HealthDomain.ApplyNumericExtends | packages/backend/convex/healthDomain.ts:149-159 | adding a reading keeps the accumulator a summary of the readings seen so far |
| HealthDomain.StatOfSummarizes | packages/backend/convex/healthDomain.ts:224-229 | the stat built from an accumulator has the average, minimum, maximum and count of its readings |
| HealthDomain.AccumulateTotals | packages/backend/convex/healthDomain.ts:231-280 | the step and active-energy totals are the sums and counts of those readings |
| HealthDomain.AccumulateStat | packages/backend/convex/healthDomain.ts:231-280 | the heart-rate, HRV, mass and fat accumulators summarise every reading of their metric |
| HealthDomain.AccumulateSleep | packages/backend/convex/healthDomain.ts:187-222 | each sleep bucket is the total duration of the segments of that stage |
| HealthDomain.FoldTotalMeaning | packages/backend/convex/healthDomain.ts:231-280 | a running total ends as the sum and count of the metric's readings |
| HealthDomain.DailyStat | packages/backend/convex/healthDomain.ts:231-280 | the rollup of a day describes every numeric metric's readings |
| HealthDomain.DailyRecordMeaning | packages/backend/convex/healthDomain.ts:231-316 | the corrected record: every total, count, stat and sleep bucket agrees with an independent fold of the day's samples, and total asleep time is the sum of the four asleep stages |
| HealthDomain.AsWrittenIgnoresDietary | packages/backend/convex/healthDomain.ts:283-315 | the rollup as written does not change when a dietary sample is added, while the corrected record counts it |
| HealthIngest.Keys | packages/backend/convex/healthInternal.ts:125-128 | a key is in the set iff some stored sample carries it |
| HealthIngest.Validation | packages/backend/convex/healthInternal.ts:124 | the validator used on ingest is `validateAndPrepareSample` with the zone formatter |
| HealthIngest.AddDay | packages/backend/convex/healthInternal.ts:152 | the affected days gain the new day and keep the old ones |
| HealthIngest.IngestSamples | packages/backend/convex/healthInternal.ts:123-153 | the loop succeeds iff every sample validates; inserted plus deduped grows by the batch size |
| HealthIngest.IngestPrefix | packages/backend/convex/healthInternal.ts:135-151 | the loop only appends rows, and inserted counts the appended rows |
| HealthIngest.IngestAppends | packages/backend/convex/healthInternal.ts:123-153 | the appended rows are exactly the first occurrences of keys not stored before |
| HealthIngest.IngestKeepsValid | packages/backend/convex/healthInternal.ts:123-153 | every stored row stays valid, and every key of the batch ends up stored |
| HealthIngest.IngestRows | packages/backend/convex/healthInternal.ts:135-149 | each new row carries the caller's device, the server time and the day key its validation gave |
| HealthIngest.IngestAffected | packages/backend/convex/healthInternal.ts:152 | the affected days are the old ones plus the day keys of the rows inserted |
| HealthIngest.IngestAllKnown | packages/backend/convex/healthInternal.ts:130-133 | a batch whose keys are all stored only raises deduped |
| HealthIngest.RowsOf | packages/backend/convex/healthInternal.ts:68-98 | the rows of one metric on one day, and only those |
| HealthIngest.CollectRows | packages/backend/convex/healthInternal.ts:68-98 | the rows of one day whose metric is listed, and only those |
| HealthIngest.CollectRowsAreTheDay | packages/backend/convex/healthInternal.ts:68-98 | collecting over HEALTH_METRICS gives every row of the day |
| HealthIngest.PrepareAll | packages/backend/convex/healthInternal.ts:68-98 | a successful preparation keeps the rows' samples, one for one, all well formed |
| HealthIngest.PrepareStoredRows | packages/backend/convex/healthInternal.ts:68-98 | valid stored rows always prepare, to their stored samples and day keys |
| HealthIngest.DayRow | packages/backend/convex/healthInternal.ts:159-172 | a day with no samples has no row; otherwise the row has the day, the first sample's zone and the server time |
| HealthIngest.RecomputeDay | packages/backend/convex/healthInternal.ts:157-180 | recomputing one day changes no other day's row and keeps rows keyed by their day |
| HealthIngest.RecomputeDays | packages/backend/convex/healthInternal.ts:157-180 | recomputing the affected days leaves every other day's row as it was |
| HealthIngest.RecomputeDaysMeaning | packages/backend/convex/healthInternal.ts:157-180 | over valid rows, recomputing always succeeds, and each affected day ends with exactly the row its samples give, or none |
| HealthIngest.UpsertRawSamples | packages/backend/convex/healthInternal.ts:108-189 | a batch over 500 is refused; on success inserted plus deduped is the batch size, and the recomputed days are sorted and distinct |
| HealthIngest.UpsertFailsOnlyOnBadInput | packages/backend/convex/healthInternal.ts:114-124 | the mutation fails iff the batch is too large or some sample is invalid |
| HealthIngest.UpsertRejectsInvalidSample | packages/backend/convex/healthInternal.ts:124 | one invalid sample fails the whole batch |
| HealthIngest.UpsertAppends | packages/backend/convex/healthInternal.ts:123-153 | the store gains exactly the first occurrences of new keys, every key of the batch is stored, and rows stay valid |
| HealthIngest.UpsertRecomputedDays | packages/backend/convex/healthInternal.ts:152-155 | the recomputed days are exactly the day keys of the inserted rows |
| HealthIngest.UpsertDailyRows | packages/backend/convex/healthInternal.ts:155-180 | each recomputed day holds the row its stored samples give; every other day is unchanged |
| HealthIngest.UpsertIdempotent | packages/backend/convex/healthInternal.ts:123-153 | sending the same batch again changes nothing and reports every sample as deduped |
| HealthIngest.CheckDayKey | packages/backend/convex/healthDomain.ts:57-61 | accepted iff the key has the YYYY-MM-DD shape |
| HealthIngest.CheckDayRange | packages/backend/convex/healthInternal.ts:100-106 | accepted iff both keys are well formed and `from <= to` as strings; says which check failed |
| HealthIngest.ListDaily | packages/backend/convex/healthInternal.ts:191-266 | the rows listed are exactly the stored rows with `from <= dayKey <= to`, in increasing key order |
| HealthIngest.InsertByStart | packages/backend/convex/healthInternal.ts:268-320 | insertion into the start-time index adds exactly one row |
| HealthIngest.InsertByStartSorted | packages/backend/convex/healthInternal.ts:268-320 | insertion keeps the index ordered by start time |
| HealthIngest.IndexScan | packages/backend/convex/healthInternal.ts:268-320 | the index range holds exactly the rows of the metric starting in the window, by start time |
| HealthIngest.ListRaw | packages/backend/convex/healthInternal.ts:268-320 | accepted iff the times are integers in order and the limit is 1..500; a page holds at most `limit` matching rows |
| HealthIngest.ListRawPages | packages/backend/convex/healthInternal.ts:268-320 | a page and the rest after its cursor together are the index range from the cursor on |
| Calendar.DaysInMonth | packages/backend/convex/healthSummaryInternal.ts:46-60 | every month of every year has 28 to 31 days |
| Calendar.NextAndSubtractInverse | packages/backend/convex/healthSummaryInternal.ts:46-60 | `nextDayKey` and `subtractOneDayFromDayKey` undo each other on printed dates from year 101 on |
| Calendar.KeyOfShape | packages/backend/convex/healthSummaryInternal.ts:46-60 | a printed date is a well-formed key iff its year is 1000..9999, and then it spells that date |
| Calendar.CalendarKeyIsPrinted | packages/backend/convex/healthSummaryInternal.ts:46-60 | a calendar key is the printed form of the date it spells |
| Calendar.DayKeyNeighbours | packages/backend/convex/healthSummary.ts:213-226 | on calendar keys, the next and previous keys are those of the next and previous days |
| Calendar.KeyOrder | packages/backend/convex/healthSummaryInternal.ts:62-70 | on four-digit-year dates, string order of keys is calendar order |
| Calendar.NextOfValidKey | packages/backend/convex/healthSummaryInternal.ts:46-60 | for any well-formed key, `nextDayKey` prints the day after the midnight `Date.UTC` makes of it |
| Calendar.DayRangeFrom | packages/backend/convex/healthSummaryInternal.ts:62-70 | the range is non-empty iff the start is a well-formed key `<= to`, and then it starts there |
| Calendar.DayRangeFromShape | packages/backend/convex/healthSummaryInternal.ts:62-70 | the range is a chain of `nextDayKey` steps, every key is well formed and `<= to`, and the key after the last fails the loop test |
| Calendar.BuildDayRange | packages/backend/convex/healthSummaryInternal.ts:62-70 | the corrected range is non-empty iff `from` is well formed and `<= to`, and starts at `from` |
| Calendar.BuildDayRangeCalendar | packages/backend/convex/healthSummaryInternal.ts:62-70 | between calendar keys, the range starts at `from`, ends at `to`, is strictly increasing and holds every calendar key between them |
| Calendar.DayRangeAsWritten | packages/backend/convex/healthSummaryInternal.ts:62-70 | the loop as written, bounded by fuel: every key pushed is `<= to`, and if it did not finish it used all its fuel |
| Calendar.AsWrittenDayRangeOverruns | packages/backend/convex/healthSummaryInternal.ts:62-70 | from "9999-12-31" to itself, the loop as written pushes "10000-01-01" second |
| Calendar.GuardedDayRangeAtLastKey | packages/backend/convex/healthSummaryInternal.ts:62-70 | the corrected range from "9999-12-31" to itself is that one day |
| Calendar.NextOfThreeDigitYearKey | packages/backend/convex/healthSummaryInternal.ts:46-60 | `nextDayKey("0100-01-01")` is "100-01-02": the year loses its padding |
| Calendar.AsWrittenThreeDigitYearDiverges | packages/backend/convex/healthSummaryInternal.ts:62-70 | from "0100-01-01" to "2000-01-01", the loop as written pushes "100-01-02" second, while the corrected range stops after one key |
| HealthSummary.MathRound | packages/backend/convex/healthSummary.ts:4-7 | `Math.round` gives the integer within half of `x`, ties upward |
| HealthSummary.MathRoundMonotone | packages/backend/convex/healthSummary.ts:4-7 | rounding never reverses order |
| HealthSummary.RoundToUnits | packages/backend/convex/healthSummary.ts:4-7 | `roundTo` gives a whole number of 10^-decimals units |
| HealthSummary.RoundToMonotone | packages/backend/convex/healthSummary.ts:4-7 | `roundTo` never reverses order |
| HealthSummary.RoundToWhole | packages/backend/convex/healthSummary.ts:4-7 | `roundTo` leaves whole numbers alone |
| HealthSummary.SleepBandIntervals | packages/backend/convex/healthSummary.ts:13-21 | short below 7 h, target from 7 to 9 h inclusive, extended above 9 h, and more sleep never lowers the band |
| HealthSummary.ActivityBandIntervals | packages/backend/convex/healthSummary.ts:23-31 | low below 300 kcal, moderate from 300 to 800 inclusive, high above 800, and monotone |
| HealthSummary.Fired | packages/backend/convex/healthSummary.ts:59-115 | the fired rules are exactly those that fire, in rule order |
| HealthSummary.RulesInOrder | packages/backend/convex/healthSummary.ts:59-115 | the rule list covers every insight, in source order |
| HealthSummary.InsightsFor | packages/backend/convex/healthSummary.ts:59-115 | an insight is present iff its rule fires, each carries its fixed text, in rule order |
| HealthSummary.InsightsMeaning | packages/backend/convex/healthSummary.ts:59-115 | the day's insights are exactly the firing rules, in rule order |
| HealthSummary.SleepEfficiency | packages/backend/convex/healthSummary.ts:41-42 | efficiency is 0 with no time in bed, and within 0..1 when asleep time does not exceed it |
| HealthSummary.SummarizeDay | packages/backend/convex/healthSummary.ts:33-171 | the summary keeps the day, zone and recompute time, and has zero efficiency with no time in bed |
| HealthSummary.SummaryInsights | packages/backend/convex/healthSummary.ts:48-115 | a summary's insights are exactly the rules firing on its bands and record, with their fixed texts, in order |
| HealthSummary.NoDataIffEmpty | packages/backend/convex/healthSummary.ts:49-57 | the no-data insight appears iff all eight sample counts are zero |
| HealthSummary.ShortSleepInsight | packages/backend/convex/healthSummary.ts:59-74 | under 7 h asleep gives the below-target insight and never the on-target one |
| HealthSummary.SummaryBands | packages/backend/convex/healthSummary.ts:44-46 | the bands follow the asleep hours and the active calories |
| HealthSummary.SummaryEfficiency | packages/backend/convex/healthSummary.ts:41-42 | the summary's efficiency is within 0..1, or 0 with no time in bed |
| HealthSummary.CalorieBalanceExample | packages/backend/convex/healthSummary.test.ts:46-57 | 2100 kcal eaten and 550 burnt give a balance of 1550 and a moderate band |
| HealthSummary.Summaries | packages/backend/convex/healthSummary.ts:180 | one day summary per record, in order |
| HealthSummary.SummarizeRange | packages/backend/convex/healthSummary.ts:173-211 | one summary per record and a day count equal to the record count; zero averages for no records |
| HealthSummary.AccumulateSums | packages/backend/convex/healthSummary.ts:188-194 | the five running totals are the sums of their day fields |
| HealthSummary.RangeTotalsMeaning | packages/backend/convex/healthSummary.ts:196-210 | the three totals are the rounded sums, and the two averages the rounded means, of the day summaries |
| HealthSummary.YesterdayDayKey | packages/backend/convex/healthSummary.ts:228-231 | succeeds iff today's key can be computed, and is then the key before it |
| HealthSummary.YesterdayIsPreviousDay | packages/backend/convex/healthSummary.ts:213-231 | when today is a calendar key, yesterday is the key of the previous calendar day |
| HealthSummary.YesterdayInLosAngeles | packages/backend/convex/healthSummary.test.ts:117-122 | on 2025-01-01 in Los Angeles, yesterday is "2024-12-31" |
| SummaryQueries.EmptyDailyMetricsRecord | packages/backend/convex/healthSummaryInternal.ts:8-44 | the placeholder keeps the day, zone and time, and has no data, no sleep and no energy |
| SummaryQueries.EmptySummaryInsights | packages/backend/convex/healthSummaryInternal.ts:8-44 | an empty day's insights are exactly short sleep, low activity and no data |
| SummaryQueries.RowOrEmpty | packages/backend/convex/healthSummaryInternal.ts:165-181 | the stored row if there is one, else the placeholder |
| SummaryQueries.CheckTimezone | packages/backend/convex/healthSummaryInternal.ts:146-150 | accepted iff the zone is not blank |
| SummaryQueries.GetDailySummary | packages/backend/convex/healthSummaryInternal.ts:160-181 | accepted iff the day is well formed and the zone not blank, in that order; a missing day reports no data |
| SummaryQueries.RangeRecords | packages/backend/convex/healthSummaryInternal.ts:189-211 | one record per day of the range, stored or placeholder |
| SummaryQueries.RowsBetween | packages/backend/convex/healthSummaryInternal.ts:189-211 | the rows read are exactly the stored rows with `from <= dayKey <= to` |
| SummaryQueries.GetRangeSummary | packages/backend/convex/healthSummaryInternal.ts:183-211 | accepted iff the keys are well formed, in order, with a zone, with the checks in that order; one summary per day of the range |
| SummaryQueries.RangeSummaryDays | packages/backend/convex/healthSummaryInternal.ts:183-211 | between calendar keys, the range summary covers every calendar day from `from` to `to`, each summarising its row or the placeholder |
| SummaryQueries.RecordsInRange | packages/backend/convex/healthSummaryInternal.ts:189-211 | reading the range's rows then filling the gaps gives each day's row or placeholder |
| SummaryQueries.GetYesterdaySummary | packages/backend/convex/healthSummaryInternal.ts:213-233 | a blank zone is refused; otherwise it succeeds iff yesterday's key can be computed, and summarises that day |
| SummaryQueries.YesterdaySummaryDay | packages/backend/convex/healthSummaryInternal.ts:213-233 | when today is a calendar key, the summary is of the previous calendar day |
| WriteIntents.AssertPayload | packages/backend/convex/healthWriteIntentsInternal.ts:38-62 | accepted iff the payload is valid; otherwise the first failing check, in source order, decides the message |
| WriteIntents.BackoffSchedule | packages/backend/convex/healthWriteIntentsInternal.ts:64-68 | the wait never shrinks, is 5 min × 2^n up to n = 6, and stays at 19,200,000 ms below the one-day cap |
| WriteIntents.FirstRetryWaitsTenMinutes | packages/backend/convex/healthWriteIntentsInternal.ts:64-68 | the first failure waits ten minutes |
| WriteIntents.FindIntent | packages/backend/convex/healthWriteIntentsInternal.ts:146-149 | the first row with the id, or none if no row has it |
| WriteIntents.NewIntent | packages/backend/convex/healthWriteIntentsInternal.ts:151-169 | a new intent is pending, never attempted and due now |
| WriteIntents.ResetIntent | packages/backend/convex/healthWriteIntentsInternal.ts:182-202 | re-sending an id resets it to pending and due now, clearing attempt data but keeping the creation time |
| WriteIntents.UpsertWriteIntent | packages/backend/convex/healthWriteIntentsInternal.ts:122-214 | accepted iff the payload is valid; a new id is appended, a known id is reset in place |
| WriteIntents.UpsertKeepsOnePerExternalId | packages/backend/convex/healthWriteIntentsInternal.ts:122-214 | upserting keeps at most one intent per id; created iff the id was unknown |
| WriteIntents.AckWriteIntent | packages/backend/convex/healthWriteIntentsInternal.ts:244-305 | unknown ids fail; otherwise only that id's row is patched |
| WriteIntents.AckOutcome | packages/backend/convex/healthWriteIntentsInternal.ts:262-291 | applied keeps attempts and records the uuid; skipped clears the failure; failed stays pending with one more attempt and a retry 10 min to 5 h 20 min later |
| WriteIntents.NeverFailed | packages/backend/convex/healthWriteIntentsInternal.ts:244-305 | no sequence of upserts and acks ever stores the status "failed" |
| WriteIntents.InsertByKey | packages/backend/convex/healthWriteIntentsInternal.ts:216-242 | insertion into the retry index adds exactly one intent |
| WriteIntents.InsertByKeySorted | packages/backend/convex/healthWriteIntentsInternal.ts:216-242 | insertion keeps the index ordered |
| WriteIntents.Scan | packages/backend/convex/healthWriteIntentsInternal.ts:216-242 | an index scan holds exactly the rows kept, in key order |
| WriteIntents.DueScan | packages/backend/convex/healthWriteIntentsInternal.ts:224-240 | the due scan holds exactly the pending intents due by now, by retry time |
| WriteIntents.ListPendingWriteIntents | packages/backend/convex/healthWriteIntentsInternal.ts:216-242 | accepted iff the limit is 1..200; a page of due intents by retry time; the cursor is null iff the listing is done, and page plus rest is the due scan from the cursor |
| WriteIntents.PageKeepsOrder | packages/backend/convex/healthWriteIntentsInternal.ts:216-242 | a page keeps the retry order |
| WriteIntents.ReadPending | packages/backend/convex/healthWriteIntentsInternal.ts:216-242 | following the cursors reads the due scan from the cursor on |
| WriteIntents.PendingPagesCoverDue | packages/backend/convex/healthWriteIntentsInternal.ts:216-242 | paging through from the start reads every due intent, in retry order |
| WriteIntents.ListWriteIntentStatuses | packages/backend/convex/healthWriteIntentsInternal.ts:307-331 | accepted iff the limit is 1..200; without a status the first `limit` intents; with one, intents of that status in creation order, and all of them when fewer than `limit` come back |
| Paging.PageOf | packages/backend/convex/healthInternal.ts:268-320 | a page is the next `limit` rows from the cursor; the cursor is null iff nothing is left |
| Paging.ReadAll | packages/backend/convex/healthInternal.ts:268-320 | following the cursors from `c` reads every row from `c` on |
| Normalize.MapSleepCategoryValue | apps/native/lib/health/normalize.ts:54-80 | the stage of a HealthKit code, and none for any other number |
| Normalize.SleepCodeRoundTrip | apps/native/lib/health/normalize.ts:54-80 | each stage's code maps back to it; numbers outside 0..5 map to none |
| Normalize.SampleKeyInjective | apps/native/lib/health/normalize.ts:50-52 | different metric and uuid pairs never share a sample key |
| Normalize.SampleKeyAccepted | apps/native/lib/health/normalize.ts:50-52 | a key built from a uuid of allowed characters, at most 177 long, passes server validation |
| Normalize.NormalizeQuantitySamples | apps/native/lib/health/normalize.ts:82-108 | every output carries the metric, the zone, a valid interval and a number reading |
| Normalize.KeptQuantity | apps/native/lib/health/normalize.ts:82-108 | the kept samples are exactly those with a valid interval |
| Normalize.KeptQuantityMapped | apps/native/lib/health/normalize.ts:82-108 | the output is the kept samples mapped one for one, in order |
| Normalize.QuantityExample | apps/native/lib/health/normalize.test.ts:33-64 | a 250-step sample normalises to the expected ingest sample |
| Normalize.NormalizeSleepSamples | apps/native/lib/health/normalize.ts:110-142 | the loop gives the specification's output: sleep segments in ms with a stage and a valid interval |
| Normalize.SleepSpecMembers | apps/native/lib/health/normalize.ts:110-142 | a sample appears iff it has a known code and a valid interval |
| Normalize.SleepExample | apps/native/lib/health/normalize.test.ts:65-92 | a REM segment is kept and an unknown code dropped |
| SyncLogic.BuildCursorWindow | apps/native/lib/health/sync-logic.ts:10-26 | the window ends now and starts one day before the last cursor, never below 0 |
| SyncLogic.WindowOverlapsLastDay | apps/native/lib/health/sync-logic.ts:10-26 | any time from a day before the cursor up to now is inside the window |
| SyncLogic.ShouldRetryHealthError | apps/native/lib/health/sync-logic.ts:28-52 | API errors retry iff there is no status or it is 408, 425, 429 or any status ≥ 500; other errors iff the lower-cased message names a transient word |
| SyncLogic.RetryIgnoresCase | apps/native/lib/health/sync-logic.ts:28-52 | the message test does not depend on letter case |
| SyncLogic.RetryStatusExamples | apps/native/lib/health/sync-logic.ts:28-52 | 408, 429, 503 and no status retry; 401 and 403 do not |
| SyncLogic.NetworkMessageRetried | apps/native/lib/health/sync-logic.ts:28-52 | "Network request failed" is retried |
| SyncLogic.RetryWaitSchedule | apps/native/lib/health/sync-logic.ts:54-74 | waits double from 500 ms and are capped at 8000 ms |
| SyncLogic.RetryFrom | apps/native/lib/health/sync-logic.ts:54-74 | every call before the last threw a retryable error; the last is returned, not retryable, or out of attempts; one wait between calls |
| SyncLogic.RetryWithBackoff | apps/native/lib/health/sync-logic.ts:54-74 | at least one call and at most `maxAttempts`; the outcome is the last call's |
| SyncLogic.RetryStopsAtFirstDecisiveCall | apps/native/lib/health/sync-logic.ts:54-74 | the retry loop stops at the first call that returns or may not be retried, after the scheduled waits |
| SyncLogic.ThreeAttemptsWaits | apps/native/lib/health/sync.ts:327-334 | the upload retry makes at most 3 calls, and its waits are a prefix of 500 ms then 1000 ms |
| Sync.ChunkSamples | apps/native/lib/health/sync.ts:137-147 | the batches concatenate to the input, each holds 1..batchSize samples, and all but the last are full |
| Sync.ParseNumberOrNull | apps/native/lib/health/sync.ts:33-44 | a stored cursor reads as the floor of the number it spells, every finite non-negative number reads as a value, and missing text gives null |
| Sync.CursorRoundTrip | apps/native/lib/health/sync.ts:149-160 | a written cursor reads back as the time written, or 0 if negative |
| Sync.WriteCursor | apps/native/lib/health/sync.ts:158-160 | writing one metric's cursor leaves the others |
| Sync.ToMetricStatsBase | apps/native/lib/health/sync.ts:173-183 | the stats start at zero with the metric and its window |
| Sync.UploadBatches | apps/native/lib/health/sync.ts:326-345 | succeeds iff every batch's upload returns, and then counts every sample uploaded |
| Sync.UploadDays | apps/native/lib/health/sync.ts:342-344 | a day is collected iff some batch's response recomputed it |
| Sync.UploadStopsAtFirstFailure | apps/native/lib/health/sync.ts:326-345 | a failed upload run stops at the first batch whose tries all failed |
| Sync.SyncMetric | apps/native/lib/health/sync.ts:317-349 | a metric's stats carry its previous cursor and the window end, and everything fetched is uploaded |
| Sync.SyncFrom | apps/native/lib/health/sync.ts:317-349 | the pass completes every metric iff nothing failed |
| Sync.SyncMetricDays | apps/native/lib/health/sync.ts:320-345 | a completed metric's days are exactly the days the server answered for the batches of its fetched window |
| Sync.SyncDays | apps/native/lib/health/sync.ts:317-345 | with distinct metrics, the pass collects exactly the days the server answered for its completed metrics, each fetched from the cursor stored before the pass |
| Sync.SyncTotals | apps/native/lib/health/sync.ts:339-340 | the run totals are the sums of the metric totals |
| Sync.CompletedCursorWritten | apps/native/lib/health/sync.ts:347 | every completed metric's cursor holds its window end |
| Sync.RunHealthSync | apps/native/lib/health/sync.ts:281-367 | unsupported, unavailable or unauthorised devices return their message and change nothing; otherwise the sync runs |
| Sync.CompletedSync | apps/native/lib/health/sync.ts:317-360 | a finished sync reports every metric in order, each fully uploaded with its cursor written, totals summed, and as days exactly the server's answered days, sorted without repeats |
| Sync.FailedSyncKeepsLaterCursors | apps/native/lib/health/sync.ts:317-349 | a failed sync keeps the last summary and has written the cursors of the metrics before the failure only |
| WriteBack.CountStatusPartition | apps/native/lib/health/writeback-core.ts:36-96 | applied, failed and skipped acks add up to all acks |
| WriteBack.ProcessIntents | apps/native/lib/health/writeback-core.ts:60-85 | without error, each intent got the ack for its apply result and the tally counts them; an error comes from an apply or an ack call |
| WriteBack.RunHealthWriteBack | apps/native/lib/health/writeback-core.ts:36-96 | no permission returns zero counts; a thrown permission request aborts; otherwise the pass meets the pass facts |
| WriteBack.PullPending | apps/native/lib/health/writeback-core.ts:48-93 | the page loop asks for at least one page and ends meeting the pass facts |
| WriteBack.PullPage | apps/native/lib/health/writeback-core.ts:48-93 | one round keeps the loop invariant or stops meeting the pass facts |
| WriteBack.ApplyPage | apps/native/lib/health/writeback-core.ts:60-85 | applying a listed page keeps the invariant or stops meeting the pass facts |
| WriteBack.TwoPageExample | apps/native/lib/health/writeback.test.ts:55-124 | two pages with applied, failed and skipped intents give pulled 3 and one of each, acked in order |
| WriteBack.TwoPagesListed | apps/native/lib/health/writeback.test.ts:55-124 | any finished pass over those two pages pulls the three intents in order |
| StringOrder.StrLtTransitive | packages/backend/convex/healthInternal.ts:100-106 | string order is transitive |
| StringOrder.StrLtTotal | packages/backend/convex/healthInternal.ts:100-106 | any two strings are equal or ordered |
| StringOrder.SortStrings | packages/backend/convex/healthInternal.ts:155 | the sorted days are strictly increasing and hold exactly the set's members |
| StringOrder.StrictlySortedUnique | packages/backend/convex/healthInternal.ts:155 | two strictly sorted lists of the same members are equal |
| JsStrings.Trim | packages/backend/convex/healthApiCommon.ts:27-29 | the result has no whitespace at either end, and is empty iff the input is all whitespace |
| JsStrings.TrimmedEdgesAreWhitespace | packages/backend/convex/healthApiCommon.ts:27-29 | what the trim drops from the start and from the end of the input is whitespace only |
| JsStrings.TrimRemovesOnlyEdges | packages/backend/convex/healthApiCommon.ts:27-29 | the input is exactly the dropped leading whitespace, then the trimmed string, then the dropped trailing whitespace |
| JsStrings.TrimIdempotent | packages/backend/convex/healthApiCommon.ts:27-29 | trimming twice is trimming once |
| JsStrings.Split | packages/backend/convex/healthSummaryInternal.ts:46-60 | at least one part, and no part holds the separator |
| JsStrings.ToLowerAscii | apps/native/lib/health/sync-logic.ts:28-52 | same length, each ASCII capital lowered |
| JsNumbers.NatToDecimal | packages/backend/convex/healthSummary.ts:213-226 | `String(n)` is canonical digits whose value is `n` |
| JsNumbers.DigitsValueInjective | packages/backend/convex/healthSummaryInternal.ts:46-60 | canonical digit strings of equal value are equal |
| JsNumbers.NumberOfIntDecimal | packages/backend/convex/healthApiCommon.ts:39-83 | `Number(String(i))` is `i` |
| ApiCommon.SecureTokenMatches | packages/backend/convex/healthApiCommon.ts:108-119 | the constant-time comparison accepts iff the strings are equal |
| ApiCommon.RequireBearerToken | packages/backend/convex/healthApiCommon.ts:121-173 | accepted iff a token is configured and the header is "Bearer " plus it; 500 iff no token is configured, 403 iff a non-blank wrong token was sent, else 401 |
| ApiCommon.BearerTokenAccepted | packages/backend/convex/healthApiCommon.ts:121-173 | "Bearer " plus a token is accepted iff its trim equals the configured token; a wrong non-blank token is a 403 |
| ApiCommon.ParseIntegerQueryParam | packages/backend/convex/healthApiCommon.ts:39-83 | accepted iff present, an integer by `Number`, and within the bounds; every rejection is a 400 |
| ApiCommon.IntegerQueryParamRoundTrip | packages/backend/convex/healthApiCommon.ts:39-83 | a printed integer within the bounds parses back to itself; an empty value reads as 0 |
| ApiCommon.ParseDayKeyWith | packages/backend/convex/healthApiCommon.ts:85-106 | accepted iff present and well formed; "required" when absent, the format message otherwise, 400 |
| ApiCommon.ParseDayRange | packages/backend/convex/healthHttpHandlers.ts:437-473 | accepted iff both keys are present and well formed and `from <= to`; every rejection is a 400 |
| ApiCommon.DayRangeOrderError | packages/backend/convex/healthHttpHandlers.ts:437-473 | two well-formed keys are refused iff `to < from`, with "from must be <= to" |
| ApiCommon.CursorParam | packages/backend/convex/healthHttpHandlers.ts:475-540 | an empty cursor is the same as none |
| ApiCommon.ThrownAnswer | packages/backend/convex/healthHttpHandlers.ts:469-472 | a thrown Error answers 400 with its message, anything else 400 with the fallback |
| ApiCommon.ParseBody | packages/backend/convex/healthHttpHandlers.ts:410-416 | an unreadable body is "Invalid JSON body" 400, otherwise the parser decides |
| ApiCommon.Answer | packages/backend/convex/healthHttpHandlers.ts:405-435 | succeeds iff authorised, the arguments parse and the call returns; the first failing step decides the answer |
| ApiCommon.ParseAll | packages/backend/convex/healthHttpHandlers.ts:244-254 | succeeds iff every item parses, keeping them one for one; otherwise the first failure is reported |
| Json.Get | packages/backend/convex/healthApiCommon.ts:23-25 | a field that is not undefined comes from an object that has it |
| Json.ObjOfGet | packages/backend/convex/healthHttpHandlers.ts:93-209 | an object built from distinct keys returns each value under its key |
| HttpIngest.ParseOptionalString | packages/backend/convex/healthHttpHandlers.ts:73-91 | absent is none, a string is kept, anything else is a 400 naming the field |
| HttpIngest.OptionalStringRoundTrip | packages/backend/convex/healthHttpHandlers.ts:73-91 | an optional string sent as a field parses back to itself |
| HttpIngest.FieldsError | packages/backend/convex/healthHttpHandlers.ts:93-193 | no error iff every field check passes; an unknown metric is "Invalid metric" |
| HttpIngest.SampleOfFields | packages/backend/convex/healthHttpHandlers.ts:195-208 | the parsed sample carries exactly the fields sent |
| HttpIngest.ParseIngestSample | packages/backend/convex/healthHttpHandlers.ts:93-209 | accepted iff the item is an object whose fields pass; a non-object is "Each sample must be an object"; every rejection is 400 |
| HttpIngest.SampleRoundTrip | packages/backend/convex/healthHttpHandlers.ts:93-209 | every sample of wire form survives being sent and parsed |
| HttpIngest.AcceptedSampleIsWellFormed | packages/backend/convex/healthHttpHandlers.ts:93-209 | a parsed sample whose key is valid passes every field check of the server's validation |
| HttpIngest.ParseIngestRequest | packages/backend/convex/healthHttpHandlers.ts:211-262 | accepted iff the body is shaped, has at most 500 samples and each parses; 413 iff shaped and too many; otherwise rejections are 400 |
| HttpIngest.ParseBatch | packages/backend/convex/healthHttpHandlers.ts:244-261 | the request keeps the device id and the samples one for one, or reports the first bad sample as 400 |
| HttpIngest.RequestRoundTrip | packages/backend/convex/healthHttpHandlers.ts:211-262 | every request of wire form with at most 500 samples survives being sent and parsed |
| HttpIngest.IngestThrownAnswer | packages/backend/convex/healthHttpHandlers.ts:430-434 | a thrown error is 413 iff its message names the batch limit, else 400 |
| HttpIngest.BatchErrorIs413 | packages/backend/convex/healthHttpHandlers.ts:430-434 | the mutation's batch-size error answers 413 |
| HttpIngest.HandleIngest | packages/backend/convex/healthHttpHandlers.ts:405-435 | success means the request parsed and the mutation returned its answer; failures are 400, 401, 403, 413 or 500, and 500 only when the token or the mutation is not configured |
| HttpIngest.HandleDaily | packages/backend/convex/healthHttpHandlers.ts:437-473 | success means both keys passed, the range check passed and the query answered; failures are 400, 401, 403 or 500 |
| HttpIngest.RawArgsPassListRaw | packages/backend/convex/healthHttpHandlers.ts:475-540 | arguments accepted by the handler are accepted by `listRaw` |
| HttpIngest.HandleRaw | packages/backend/convex/healthHttpHandlers.ts:475-540 | success means metric, times, limit and cursor passed and the query answered; failures are 400, 401, 403 or 500 |
| HttpWriteIntents.WriteMetricNameRoundTrip | packages/backend/convex/healthWriteIntentHttpHandlers.ts:35-37 | each write metric's name reads back as that metric |
| HttpWriteIntents.AckStatusNameRoundTrip | packages/backend/convex/healthWriteIntentHttpHandlers.ts:39-41 | each ack status's name reads back as that status |
| HttpWriteIntents.ParseTags | packages/backend/convex/healthWriteIntentHttpHandlers.ts:43-61 | accepted iff absent or an array of strings; absent is empty; each string is kept in order |
| HttpWriteIntents.TagsRoundTrip | packages/backend/convex/healthWriteIntentHttpHandlers.ts:43-61 | tags sent as an array parse back to themselves |
| HttpWriteIntents.PayloadOfFields | packages/backend/convex/healthWriteIntentHttpHandlers.ts:124-139 | the payload carries the fields sent and passes the mutation's payload check |
| HttpWriteIntents.ParseCreateBody | packages/backend/convex/healthWriteIntentHttpHandlers.ts:63-140 | accepted iff the body is an object whose fields pass; the first failing check's message, 400 |
| HttpWriteIntents.CreateRoundTrip | packages/backend/convex/healthWriteIntentHttpHandlers.ts:63-140 | every valid payload with tags survives being sent and parsed |
| HttpWriteIntents.AckOfFields | packages/backend/convex/healthWriteIntentHttpHandlers.ts:178-188 | the ack carries the id, status and optional fields sent |
| HttpWriteIntents.ParseAckBody | packages/backend/convex/healthWriteIntentHttpHandlers.ts:142-189 | accepted iff the body is an object whose fields pass; a parsed ack has a non-blank id |
| HttpWriteIntents.AckRoundTrip | packages/backend/convex/healthWriteIntentHttpHandlers.ts:142-189 | every ack with a non-blank id survives being sent and parsed |
| HttpWriteIntents.HandleCreateIntent | packages/backend/convex/healthWriteIntentHttpHandlers.ts:203-233 | success means the body parsed to a valid payload and the upsert answered; failures are 400, 401, 403 or 500 |
| HttpWriteIntents.ListArgsPassListPending | packages/backend/convex/healthWriteIntentHttpHandlers.ts:235-267 | a limit the handler accepts is accepted by `listPendingWriteIntents` |
| HttpWriteIntents.HandleListPending | packages/backend/convex/healthWriteIntentHttpHandlers.ts:235-267 | success means the limit passed and the query answered; failures are 400, 401, 403 or 500 |
| HttpWriteIntents.HandleAckIntent | packages/backend/convex/healthWriteIntentHttpHandlers.ts:269-296 | success means the body parsed and the mutation answered; failures are 400, 401, 403 or 500 |
| HttpSummary.ParseTimezone | packages/backend/convex/healthSummaryHttpHandlers.ts:38-44 | never blank: absent or blank is "UTC", anything else is kept |
| HttpSummary.ParseTimezoneInput | packages/backend/convex/healthSummaryHttpHandlers.ts:46-66 | accepted iff absent ("UTC") or a non-blank string; otherwise a 400 |
| HttpSummary.BlankZoneDisagreement | packages/backend/convex/healthSummaryHttpHandlers.ts:38-66 | a blank zone is UTC in a query string but refused in a body |
| HttpSummary.ParseUtterance | packages/backend/convex/healthSummaryHttpHandlers.ts:68-88 | accepted iff absent or a string; a string is kept |
| HttpSummary.QueryOfIntent | packages/backend/convex/healthSummaryHttpHandlers.ts:118-181 | accepted iff the intent's arguments pass; the query names the intent and carries the fields sent; an unknown intent is refused |
| HttpSummary.ParseStructuredQuery | packages/backend/convex/healthSummaryHttpHandlers.ts:90-182 | accepted iff an object with an intent, well-formed utterance and zone, and the intent's arguments; non-objects and missing intents get their own messages; all 400 |
| HttpSummary.QueryRoundTrip | packages/backend/convex/healthSummaryHttpHandlers.ts:90-182 | every well-formed query survives being sent and parsed |
| HttpSummary.HandleDailySummary | packages/backend/convex/healthSummaryHttpHandlers.ts:204-231 | success means the day key passed and the query answered for that day and zone; failures are 400, 401, 403 or 500 |
| HttpSummary.HandleRangeSummary | packages/backend/convex/healthSummaryHttpHandlers.ts:233-271 | success means both keys passed in order and the query answered; failures are 400, 401, 403 or 500 |
| HttpSummary.HandleYesterdaySummary | packages/backend/convex/healthSummaryHttpHandlers.ts:273-295 | succeeds iff authorised and the query answers for the zone |
| HttpSummary.RunQuery | packages/backend/convex/healthSummaryHttpHandlers.ts:318-372 | each intent runs its own summary query with the parsed arguments |
| HttpSummary.HandleQuery | packages/backend/convex/healthSummaryHttpHandlers.ts:297-379 | success means the body parsed to a query and running it answered; failures are 400, 401, 403 or 500 |

## Left out

**Representation choices**
- JS numbers are `JsNumber = Finite(real) | NonFinite`. NaN and both infinities are one value; `-0`, rounding to doubles and precision loss are not modelled.
- `HealthDomain.ZoneDayKey` stands for `Intl.DateTimeFormat` with a time zone. It is an abstract function from a time and a zone name to a key or an error, because the time-zone database is not part of this model.
- Convex cursors are row offsets into an ordered index (`Paging.PageOf`, `Paging.ReadAll`). Convex's opaque cursor strings are not modelled.
- JSON bodies are parsed `Json.JsValue` trees. `undefined` in a field stands for an absent field. Reading raw text (`request.json()`) is a `None` body.
- Strings are sequences of code points. JavaScript counts UTF-16 code units, so lengths of strings outside the BMP differ.

**Abstractions**
- JsStrings.ToLowerAscii: stands for `toLowerCase`, but lowers only `A`–`Z`. Messages such as "NETWORK" (Kelvin sign) are lowered to "network" by JavaScript and retried by the source, but not by `SyncLogic.ShouldRetryHealthError`.
- JsNumbers.NumberOfString: reads optional whitespace, a sign, digits and a decimal part. Exponent, hexadecimal, binary and octal forms are not modelled; "Infinity" with or without a sign reads as not finite.
- Sync.UploadBatches: the uploader is a pure function of a batch's content. Two equal batches therefore get the same outcome, although the server would dedupe the second.
- WriteBack.RunHealthWriteBack: the page loop is bounded by `maxPages` and reports `OutOfPages` when it stops early. The source loops until the listing has no cursor.
- Calendar.DayRangeAsWritten: the as-written loop takes a fuel bound, because the source's loop at "9999-12-31" runs for millions of iterations.
- HealthIngest.UpsertRawSamples: the validator is a parameter (`Validator`). Soundness is a ghost predicate, and `Validation(zone)` ties it to `ValidateAndPrepareSample`.
- Sync.ChunkSamples: requires a batch size of at least 1. With 0 the source's loop never advances; the caller always passes `HEALTH_SYNC_BATCH_SIZE`, which is 500.

**Calls not modelled**
- I/O and time are parameters: `Date.now()`, `fetchMetricSamples`, the upload call, `SecureStore`, `getOrCreateDeviceId`, `deviceTimezone`, HealthKit permission and availability checks, `applyToHealthKit`, and the ack call.
- The timers in `sleep` are the list of waits a retry run records.
- `parseSummary` and `getLastSyncSummary` (apps/native/lib/health/sync.ts:185-268) are not modelled. They read the cached summary back from storage, and the model keeps the summary as a value.
- `handleCapabilities` (packages/backend/convex/healthSummaryHttpHandlers.ts:381-460) and the OpenAPI document are not modelled. They return fixed descriptive JSON.
- Response bodies (`jsonResponse`, `dataResponse`, the `data`/`meta` envelopes) are not modelled. A handler's result is the value it wraps, or the error and status it answers.
- Handlers whose source has no "not configured" branch pass the dependency as always present. Their not-configured message is unused.

**Duplicated code**
- apps/native/lib/health/sync.ts:71-135 repeats `buildCursorWindow`, `shouldRetryHealthError` and `retryWithBackoff` from sync-logic.ts. Those are modelled once, in `SyncLogic`.
- packages/backend/convex/healthHttpHandlers.ts:57-398 repeats the helpers of healthApiCommon.ts. Those are modelled once, in `ApiCommon`.

**Where the model follows the corrected intent and not the code**
- HealthIngest.DayRow: stores the corrected record `BuildDailyAggregateRecord`, with dietary totals. The source stores the as-written literal without them (see Findings). packages/backend/convex/schema.ts:50-51 requires those fields, so the as-written insert would be rejected and the whole mutation rolled back. The ingest, listing and summary members therefore describe the corrected program.
- Calendar.BuildDayRange: the range `SummaryQueries.GetRangeSummary` uses is the corrected one. It stops at the first key that is not well formed, which differs from the source's loop for "9999-12-31" and for from-years 0100–0999 (see Findings).

**Where the model follows the code and not the corrected intent**
- HttpSummary.ParseTimezone: a blank zone in a query string becomes "UTC", while `HttpSummary.ParseTimezoneInput` refuses a blank zone in a body. This is the source's own asymmetry, kept as written.
- WriteIntents.AckWriteIntent: a failed ack stores the status "pending" with a later retry time, not "failed". The code does this, whatever the status list suggests.

## Findings

| source | as written | input that shows it | evidently intended | confidence | as-written member | corrected member |
|---|---|---|---|---|---|---|
| packages/backend/convex/healthDomain.ts:283-315 | the daily record literal has no `dietaryEnergyKcalTotal`/`dietaryEnergyKcalSamples` fields, and no sample updates a dietary total | a day with one `dietary_energy_kcal` sample of 2100 kcal: the record is unchanged by it | the record carries the sum and count of the day's dietary readings, as schema.ts:50-51 and healthSummary.ts:44 expect | high, not executed | HealthDomain.BuildRollup, HealthDomain.AsWrittenIgnoresDietary | HealthDomain.BuildDailyAggregateRecord, HealthDomain.DailyRecordMeaning |
| packages/backend/convex/healthSummaryInternal.ts:62-70 | `while (current <= to)` compares keys as strings, and `nextDayKey` prints the year unpadded | from = to = "9999-12-31": the next key "10000-01-01" sorts before "9999-12-31", so the loop keeps going; from = "0100-01-01", to = "2000-01-01": the next key is "100-01-02", which is still `<= to` | the calendar days from `from` to `to`, each once | high, not executed | Calendar.DayRangeAsWritten, Calendar.AsWrittenDayRangeOverruns, Calendar.AsWrittenThreeDigitYearDiverges | Calendar.BuildDayRange, Calendar.BuildDayRangeCalendar, Calendar.GuardedDayRangeAtLastKey |

=== FILE: api_common.dfy ===
/** The request checks shared by the private HTTP API
    (packages/backend/convex/healthApiCommon.ts): the bearer-token guard,
    integer query parameters, day keys, and the status answered for each
    rejection, and the shape every handler shares. A request's query
    parameters and headers are given as `Option<string>` (`null` when
    absent); a JSON body as a `JsValue`.
 */
module ApiCommon {
  import opened Wrappers
  import opened JsStrings
  import opened JsNumbers
  import opened StringOrder
  import opened HealthDomain
  import opened Json

  /** A rejected request: the `error` text of the JSON answer and its HTTP status. */
  datatype HttpError = HttpError(error: string, status: int)

  const ErrTokenNotConfigured := "PRIVATE_API_BEARER_TOKEN is not configured"
  const ErrMissingAuthorization := "Missing Authorization header"
  const ErrNotBearer := "Authorization header must use Bearer token"
  const ErrTokenRequired := "Bearer token is required"
  const ErrBadToken := "Invalid bearer token"
  const ErrDayKeyRequired := "day key is required"
  const ErrDayKeyFormat := "Invalid day key format. Expected YYYY-MM-DD"
  const ErrInvalidJson := "Invalid JSON body"
  const ErrFromAfterTo := "from must be <= to"

  const BearerPrefix := "Bearer "

  /** `isNonEmptyString` on a value that is a string or absent. */
  predicate IsPresent(s: Option<string>) {
    s.Some? && !IsBlank(s.value)
  }

  // ---------------------------------------------------------------- token comparison

  /** `charCodeAt`: the code of a character. */
  function Code(c: char): nat {
    c as int
  }

  /** `x ^ y` on non-negative operands, bit by bit from the lowest. */
  function BitXor(x: nat, y: nat): nat
    decreases x + y
  {
    if x == 0 && y == 0 then 0
    else 2 * BitXor(x / 2, y / 2) + (if x % 2 != y % 2 then 1 else 0)
  }

  /** `x | y` on non-negative operands, bit by bit from the lowest. */
  function BitOr(x: nat, y: nat): nat
    decreases x + y
  {
    if x == 0 && y == 0 then 0
    else 2 * BitOr(x / 2, y / 2) + (if x % 2 == 1 || y % 2 == 1 then 1 else 0)
  }

  /** The exclusive or of two codes is 0 exactly when they are equal. */
  lemma {:induction false} BitXorZero(x: nat, y: nat)
    ensures BitXor(x, y) == 0 <==> x == y
    decreases x + y
  {
    if !(x == 0 && y == 0) {
      BitXorZero(x / 2, y / 2);
    }
  }

  /** The or of two values is 0 exactly when both are. */
  lemma {:induction false} BitOrZero(x: nat, y: nat)
    ensures BitOr(x, y) == 0 <==> x == 0 && y == 0
    decreases x + y
  {
    if !(x == 0 && y == 0) {
      BitOrZero(x / 2, y / 2);
    }
  }

  /** The `mismatch` accumulator of `secureTokenMatches` after the first `n` positions. */
  function Mismatch(expected: string, actual: string, n: nat): nat
    requires n <= |expected| && n <= |actual|
  {
    if n == 0 then 0
    else BitOr(Mismatch(expected, actual, n - 1), BitXor(Code(expected[n - 1]), Code(actual[n - 1])))
  }

  /** The accumulator stays 0 exactly as long as the prefixes agree. */
  lemma {:induction false} MismatchZero(expected: string, actual: string, n: nat)
    requires n <= |expected| && n <= |actual|
    ensures Mismatch(expected, actual, n) == 0 <==> expected[..n] == actual[..n]
  {
    if n > 0 {
      MismatchZero(expected, actual, n - 1);
      var a, b := expected[n - 1], actual[n - 1];
      BitOrZero(Mismatch(expected, actual, n - 1), BitXor(Code(a), Code(b)));
      BitXorZero(Code(a), Code(b));
      PrefixStep(expected, actual, n);
    }
  }

  lemma PrefixStep(s: string, t: string, n: nat)
    requires 0 < n <= |s| && n <= |t|
    ensures s[..n] == t[..n] <==> s[..n - 1] == t[..n - 1] && s[n - 1] == t[n - 1]
  {
    assert s[..n] == s[..n - 1] + [s[n - 1]];
    assert t[..n] == t[..n - 1] + [t[n - 1]];
    if s[..n] == t[..n] {
      assert s[..n - 1] == s[..n][..n - 1];
      assert t[..n - 1] == t[..n][..n - 1];
    }
  }

  /** `secureTokenMatches`: a comparison that looks at every position; it
      accepts exactly the identical token. */
  function SecureTokenMatches(expected: string, actual: string): (ok: bool)
    ensures ok <==> expected == actual
  {
    if |expected| != |actual| then false
    else
      MismatchZero(expected, actual, |expected|);
      assert expected[..|expected|] == expected && actual[..|actual|] == actual;
      Mismatch(expected, actual, |expected|) == 0
  }

  // ---------------------------------------------------------------- bearer token

  /** The token an `Authorization` header carries: what follows the prefix, trimmed. */
  function BearerToken(header: string): string
    requires StartsWith(header, BearerPrefix)
  {
    Trim(header[|BearerPrefix|..])
  }

  /** A header that starts with `Bearer ` is not blank. */
  lemma PrefixedNotBlank(header: string)
    ensures StartsWith(header, BearerPrefix) ==> !IsBlank(header)
  {
    if StartsWith(header, BearerPrefix) {
      assert header[0] == 'B' && !IsJsWhitespace(header[0]);
    }
  }

  /** `requireBearerToken`, given the configured token (absent when unset)
      and the `Authorization` header (absent when missing). */
  function RequireBearerToken(configured: Option<string>, header: Option<string>): (r: Result<(), HttpError>)
    ensures r.Success? <==>
      && IsPresent(configured)
      && header.Some? && StartsWith(header.value, BearerPrefix)
      && BearerToken(header.value) == configured.value
    ensures r.Failure? ==> r.error.status in {401, 403, 500}
    ensures r.Failure? ==> (r.error.status == 500 <==> !IsPresent(configured))
    ensures r.Failure? ==> (r.error.status == 403 <==>
      IsPresent(configured) && header.Some? && StartsWith(header.value, BearerPrefix) && !IsBlank(BearerToken(header.value)))
    ensures r.Failure? && r.error.status == 403 ==> r.error.error == ErrBadToken
  {
    if !IsPresent(configured) then Failure(HttpError(ErrTokenNotConfigured, 500))
    else if !IsPresent(header) then
      PrefixedNotBlank(header.GetOr(""));
      Failure(HttpError(ErrMissingAuthorization, 401))
    else if !StartsWith(header.value, BearerPrefix) then Failure(HttpError(ErrNotBearer, 401))
    else
      var token := BearerToken(header.value);
      if IsBlank(token) then
        assert token != configured.value;
        Failure(HttpError(ErrTokenRequired, 401))
      else if !SecureTokenMatches(configured.value, token) then Failure(HttpError(ErrBadToken, 403))
      else Success(())
  }

  /** A client sending the header `Bearer <sent>` is let through exactly
      when `sent`, trimmed, is the configured token; any other non-blank
      token is answered 403. */
  lemma BearerTokenAccepted(configured: string, sent: string, header: string)
    requires !IsBlank(configured) && header == BearerPrefix + sent
    ensures RequireBearerToken(Some(configured), Some(header)).Success? <==> Trim(sent) == configured
    ensures Trim(sent) != configured && !IsBlank(sent) ==>
      RequireBearerToken(Some(configured), Some(header)) == Failure(HttpError(ErrBadToken, 403))
  {
    PrefixedHeader(sent);
    TrimIdempotent(sent);
    TokenAnswer(configured, header, Trim(sent));
  }

  lemma TokenAnswer(configured: string, header: string, token: string)
    requires !IsBlank(configured) && StartsWith(header, BearerPrefix) && BearerToken(header) == token
    ensures RequireBearerToken(Some(configured), Some(header)).Success? <==> token == configured
    ensures token != configured && !IsBlank(token) ==>
      RequireBearerToken(Some(configured), Some(header)) == Failure(HttpError(ErrBadToken, 403))
  {
    var r := RequireBearerToken(Some(configured), Some(header));
    assert IsPresent(Some(configured));
    if token != configured && !IsBlank(token) {
      assert r.Failure? && r.error.status == 403 && r.error.error == ErrBadToken;
    }
  }

  lemma PrefixedHeader(sent: string)
    ensures StartsWith(BearerPrefix + sent, BearerPrefix) && BearerToken(BearerPrefix + sent) == Trim(sent)
  {
    var header := BearerPrefix + sent;
    assert header[..|BearerPrefix|] == BearerPrefix;
    assert header[|BearerPrefix|..] == sent;
  }

  // ---------------------------------------------------------------- query parameters

  /** The text `${n}` writes for an integer bound. */
  function Decimal(n: int): string {
    IntToDecimal(n)
  }

  /** `parseIntegerQueryParam`: present, an integer by `Number(value)`, and
      within the optional bounds; every rejection is a 400. */
  function ParseIntegerQueryParam(value: Option<string>, name: string, min: Option<int>, max: Option<int>)
    : (r: Result<int, HttpError>)
    ensures r.Success? <==>
      && value.Some? && IsInteger(NumberOfString(value.value))
      && (min.Some? ==> min.value <= AsInt(NumberOfString(value.value)))
      && (max.Some? ==> AsInt(NumberOfString(value.value)) <= max.value)
    ensures r.Success? ==> NumberOfString(value.value) == Finite(r.value as real)
    ensures r.Failure? ==> r.error.status == 400
    ensures value.None? ==> r.Failure? && r.error.error == name + " is required"
  {
    if value.None? then Failure(HttpError(name + " is required", 400))
    else
      var parsed := NumberOfString(value.value);
      if !IsInteger(parsed) then Failure(HttpError(name + " must be an integer", 400))
      else if min.Some? && AsInt(parsed) < min.value then Failure(HttpError(name + " must be >= " + Decimal(min.value), 400))
      else if max.Some? && AsInt(parsed) > max.value then Failure(HttpError(name + " must be <= " + Decimal(max.value), 400))
      else Success(AsInt(parsed))
  }

  /** The decimal text of an integer within the bounds reads back as that
      integer; an empty parameter reads as 0, as `Number("")` does. */
  lemma IntegerQueryParamRoundTrip(i: int, name: string, min: Option<int>, max: Option<int>)
    requires (min.Some? ==> min.value <= i) && (max.Some? ==> i <= max.value)
    ensures ParseIntegerQueryParam(Some(IntToDecimal(i)), name, min, max) == Success(i)
    ensures ParseIntegerQueryParam(Some(""), name, None, None) == Success(0)
  {
    NumberOfIntDecimal(i);
    assert Trim("") == "";
  }

  // ---------------------------------------------------------------- day keys

  /** `parseDayKey`: present, then the `^\d{4}-\d{2}-\d{2}$` shape. The
      message for an absent key differs between the two copies of the
      function (healthApiCommon.ts and healthHttpHandlers.ts), so it is a
      parameter. */
  function ParseDayKeyWith(raw: Option<string>, missing: string): (r: Result<string, HttpError>)
    ensures r.Success? <==> raw.Some? && IsValidDayKey(raw.value)
    ensures r.Success? ==> r.value == raw.value
    ensures r.Failure? ==> r.error == HttpError(if raw.None? then missing else ErrDayKeyFormat, 400)
  {
    if raw.None? then Failure(HttpError(missing, 400))
    else if !IsValidDayKey(raw.value) then Failure(HttpError(ErrDayKeyFormat, 400))
    else Success(raw.value)
  }

  /** The shared `parseDayKey`. */
  function ParseDayKey(raw: Option<string>): (r: Result<string, HttpError>)
    ensures r.Success? <==> raw.Some? && IsValidDayKey(raw.value)
    ensures r.Success? ==> r.value == raw.value
    ensures raw.None? ==> r == Failure(HttpError(ErrDayKeyRequired, 400))
  {
    ParseDayKeyWith(raw, ErrDayKeyRequired)
  }

  /** The `from`/`to` pair of a range request: each key parsed in turn, then
      `from > to` (string order) refused. */
  function ParseDayRange(from: Option<string>, to: Option<string>, missing: string)
    : (r: Result<(string, string), HttpError>)
    ensures r.Success? <==>
      from.Some? && to.Some? && IsValidDayKey(from.value) && IsValidDayKey(to.value) && StrLe(from.value, to.value)
    ensures r.Success? ==> r.value == (from.value, to.value)
    ensures r.Failure? ==> r.error.status == 400
    ensures ParseDayKeyWith(from, missing).Failure? ==> r == Failure(ParseDayKeyWith(from, missing).error)
  {
    var f := ParseDayKeyWith(from, missing);
    if f.Failure? then Failure(f.error)
    else
      var t := ParseDayKeyWith(to, missing);
      if t.Failure? then Failure(t.error)
      else if StrLt(t.value, f.value) then
        StrLtAsymmetric(t.value, f.value);
        StrLtIrreflexive(f.value);
        Failure(HttpError(ErrFromAfterTo, 400))
      else
        StrLtTotal(f.value, t.value);
        Success((f.value, t.value))
  }

  /** A key that the range check rejects for its order is not rejected for its shape. */
  lemma DayRangeOrderError(from: string, to: string, missing: string)
    requires IsValidDayKey(from) && IsValidDayKey(to)
    ensures ParseDayRange(Some(from), Some(to), missing).Failure? <==> StrLt(to, from)
    ensures StrLt(to, from) ==> ParseDayRange(Some(from), Some(to), missing) == Failure(HttpError(ErrFromAfterTo, 400))
  {
    if StrLt(to, from) {
      StrLtAsymmetric(to, from);
      StrLtIrreflexive(from);
    } else {
      StrLtTotal(from, to);
    }
  }

  /** `cursor === null || cursor.length === 0 ? undefined : cursor`. */
  function CursorParam(cursor: Option<string>): (c: Option<string>)
    ensures c.Some? <==> cursor.Some? && |cursor.value| > 0
    ensures c.Some? ==> c.value == cursor.value
  {
    if cursor.None? || |cursor.value| == 0 then None else cursor
  }

  // ---------------------------------------------------------------- thrown errors

  /** What a dependency throws: an `Error` with its message, or anything else. */
  datatype Thrown = ErrorThrown(message: string) | OtherThrown

  /** The 400 answer for a dependency that threw: the error's message, or
      the handler's fallback text for a value that is not an `Error`. */
  function ThrownAnswer(t: Thrown, fallback: string): (e: HttpError)
    ensures e.status == 400
    ensures e.error == (if t.ErrorThrown? then t.message else fallback)
  {
    HttpError(if t.ErrorThrown? then t.message else fallback, 400)
  }

  // ---------------------------------------------------------------- the shape of a handler

  /** A JSON body as `request.json()` leaves it (absent when the text is not
      JSON), checked by `parse`; unparsable text is a 400. */
  function ParseBody<A>(body: Option<JsValue>, parse: JsValue -> Result<A, HttpError>): (r: Result<A, HttpError>)
    ensures body.None? ==> r == Failure(HttpError(ErrInvalidJson, 400))
    ensures body.Some? ==> r == parse(body.value)
  {
    if body.None? then Failure(HttpError(ErrInvalidJson, 400)) else parse(body.value)
  }

  /** Every handler in one shape: the token check, then the request check,
      then the Convex function behind the endpoint (absent when not
      configured, a 500), whose answer is passed on and whose thrown error
      becomes the answer `thrown` gives it. */
  function Answer<A, T>(auth: Result<(), HttpError>, args: Result<A, HttpError>,
                        call: Option<A -> Result<T, Thrown>>, notConfigured: string,
                        thrown: Thrown -> HttpError)
    : (r: Result<T, HttpError>)
    ensures r.Success? <==> auth.Success? && args.Success? && call.Some? && call.value(args.value).Success?
    ensures r.Success? ==> r.value == call.value(args.value).value
    ensures auth.Failure? ==> r == Failure(auth.error)
    ensures auth.Success? && args.Failure? ==> r == Failure(args.error)
    ensures auth.Success? && args.Success? && call.None? ==> r == Failure(HttpError(notConfigured, 500))
    ensures auth.Success? && args.Success? && call.Some? && call.value(args.value).Failure? ==>
      r == Failure(thrown(call.value(args.value).error))
  {
    if auth.Failure? then Failure(auth.error)
    else if args.Failure? then Failure(args.error)
    else if call.None? then Failure(HttpError(notConfigured, 500))
    else
      match call.value(args.value)
      case Success(answer) => Success(answer)
      case Failure(t) => Failure(thrown(t))
  }

  /** A loop that checks every element of an array in order and stops at
      the first rejection: all parsed, or the first element's failure. */
  function ParseAll<X, Y>(items: seq<X>, parse: X -> Result<Y, HttpError>): (r: Result<seq<Y>, HttpError>)
    ensures r.Success? <==> forall i | 0 <= i < |items| :: parse(items[i]).Success?
    ensures r.Success? ==> |r.value| == |items| && forall i | 0 <= i < |items| :: parse(items[i]) == Success(r.value[i])
    ensures r.Failure? ==> FirstFailure(items, parse, r.error)
  {
    if |items| == 0 then Success([])
    else
      match parse(items[0])
      case Failure(e) =>
        assert FirstFailureAt(items, parse, e, 0);
        Failure(e)
      case Success(y) =>
        var rest := ParseAll(items[1..], parse);
        ParseAllStep(items, parse);
        if rest.Failure? then
          Failure(rest.error)
        else
          Success([y] + rest.value)
  }

  /** The element at `i` is rejected with `e` and every earlier one passes. */
  predicate FirstFailureAt<X, Y>(items: seq<X>, parse: X -> Result<Y, HttpError>, e: HttpError, i: int) {
    && 0 <= i < |items| && parse(items[i]) == Failure(e)
    && forall j | 0 <= j < i :: parse(items[j]).Success?
  }

  ghost predicate FirstFailure<X, Y>(items: seq<X>, parse: X -> Result<Y, HttpError>, e: HttpError) {
    exists i | 0 <= i < |items| :: FirstFailureAt(items, parse, e, i)
  }

  /** Moving past an element that parses keeps the first failure first. */
  lemma ParseAllStep<X, Y>(items: seq<X>, parse: X -> Result<Y, HttpError>)
    requires |items| > 0 && parse(items[0]).Success?
    ensures forall e :: FirstFailure(items[1..], parse, e) ==> FirstFailure(items, parse, e)
    ensures forall i | 1 <= i < |items| :: items[i] == items[1..][i - 1]
  {
    forall e | FirstFailure(items[1..], parse, e)
      ensures FirstFailure(items, parse, e)
    {
      var i :| 0 <= i < |items| - 1 && FirstFailureAt(items[1..], parse, e, i);
      assert items[i + 1] == items[1..][i];
      forall j | 0 <= j < i + 1
        ensures parse(items[j]).Success?
      {
        if j > 0 {
          assert items[j] == items[1..][j - 1];
        }
      }
      assert FirstFailureAt(items, parse, e, i + 1);
    }
  }
}

=== FILE: calendar.dfy ===
/** UTC calendar arithmetic behind the day keys of the summary code
    (packages/backend/convex/healthSummary.ts and
    packages/backend/convex/healthSummaryInternal.ts): `Date.UTC` on the
    three parts of a key, a shift by one day of milliseconds, the `getUTC*`
    formatting back to `YYYY-MM-DD`, and the list of days between two keys.
 */
module Calendar {
  import opened JsStrings
  import opened JsNumbers
  import opened StringOrder
  import opened HealthDomain

  // ---------------------------------------------------------------- dates

  /** A proleptic Gregorian date; the year may be zero or negative. */
  datatype Ymd = Ymd(year: int, month: int, day: int)

  predicate IsLeapYear(y: int) {
    y % 4 == 0 && (y % 100 != 0 || y % 400 == 0)
  }

  function DaysInMonth(y: int, m: int): (n: int)
    ensures 28 <= n <= 31
  {
    if m == 2 then (if IsLeapYear(y) then 29 else 28)
    else if m == 4 || m == 6 || m == 9 || m == 11 then 30
    else 31
  }

  predicate ValidDate(d: Ymd) {
    1 <= d.month <= 12 && 1 <= d.day <= DaysInMonth(d.year, d.month)
  }

  type Date = d: Ymd | ValidDate(d) witness Ymd(1970, 1, 1)

  /** Calendar order: the earlier year, then the earlier month, then the earlier day. */
  predicate Before(a: Ymd, b: Ymd) {
    a.year < b.year || (a.year == b.year && (a.month < b.month || (a.month == b.month && a.day < b.day)))
  }

  /** The following day. */
  function Succ(d: Date): Date {
    if d.day < DaysInMonth(d.year, d.month) then Ymd(d.year, d.month, d.day + 1)
    else if d.month < 12 then Ymd(d.year, d.month + 1, 1)
    else Ymd(d.year + 1, 1, 1)
  }

  /** The preceding day. */
  function Pred(d: Date): Date {
    if d.day > 1 then Ymd(d.year, d.month, d.day - 1)
    else if d.month > 1 then Ymd(d.year, d.month - 1, DaysInMonth(d.year, d.month - 1))
    else Ymd(d.year - 1, 12, 31)
  }

  /** `Succ` is the very next date: later, and no date lies in between. */
  lemma SuccIsNext(d: Date, e: Date)
    ensures Before(d, Succ(d))
    ensures !(Before(d, e) && Before(e, Succ(d)))
  {
  }

  /** `Pred` undoes `Succ`, and the other way round. */
  lemma SuccPred(d: Date)
    ensures Pred(Succ(d)) == d
    ensures Succ(Pred(d)) == d
  {
  }

  function Abs(k: int): nat {
    if k < 0 then -k else k
  }

  /** The date `k` days after `d` (before it, for negative `k`). */
  function AddDays(d: Date, k: int): Date
    decreases Abs(k)
  {
    if k == 0 then d
    else if k > 0 then AddDays(Succ(d), k - 1)
    else AddDays(Pred(d), k + 1)
  }

  /** One day moves the year by at most one. */
  lemma {:induction false} AddDaysYearBound(d: Date, k: int)
    ensures d.year - Abs(k) <= AddDays(d, k).year <= d.year + Abs(k)
    decreases Abs(k)
  {
    if k > 0 {
      AddDaysYearBound(Succ(d), k - 1);
    } else if k < 0 {
      AddDaysYearBound(Pred(d), k + 1);
    }
  }

  /** Moving forward inside one month only changes the day of the month. */
  lemma {:induction false} AddDaysWithinMonth(d: Date, k: nat)
    requires d.day + k <= DaysInMonth(d.year, d.month)
    ensures AddDays(d, k) == Ymd(d.year, d.month, d.day + k)
    decreases k
  {
    if k > 0 {
      AddDaysWithinMonth(Succ(d), k - 1);
    }
  }

  // ---------------------------------------------------------------- Date.UTC

  /** The first and last days a Date can hold: time values within
      ±8.64e15 ms of the epoch (TimeClip, section 21.4.1.31 of ECMA-262). */
  const MinDate: Date := Ymd(-271821, 4, 20)
  const MaxDate: Date := Ymd(275760, 9, 13)

  predicate InTimeRange(d: Date) {
    !Before(d, MinDate) && !Before(MaxDate, d)
  }

  /** The time value of a UTC midnight: a day, or NaN. */
  datatype DayValue = Day(date: Date) | InvalidDate

  function Clip(d: Date): DayValue {
    if InTimeRange(d) then Day(d) else InvalidDate
  }

  /** ToIntegerOrInfinity on a finite number: truncation toward zero. */
  function Trunc(r: real): int {
    if r >= 0.0 then r.Floor else -((-r).Floor)
  }

  /** `Date.UTC` reads a year from 0 to 99 as 1900 to 1999. */
  function FullYear(y: int): int {
    if 0 <= y <= 99 then 1900 + y else y
  }

  /** MakeDay on integers: the first of the month `monthIndex` months after
      January of `year`, moved by `date - 1` days. Month and day overflow
      into the following months and years. */
  function MakeDay(year: int, monthIndex: int, date: int): Date {
    AddDays(Ymd(year + monthIndex / 12, monthIndex % 12 + 1, 1), date - 1)
  }

  /** `Date.UTC(year, monthIndex, date)`: NaN when any argument is NaN or
      infinite, or when the day is out of the time range. */
  function DateUtc(year: JsNumber, monthIndex: JsNumber, date: JsNumber): DayValue {
    if year.NonFinite? || monthIndex.NonFinite? || date.NonFinite? then InvalidDate
    else Clip(MakeDay(FullYear(Trunc(year.value)), Trunc(monthIndex.value), Trunc(date.value)))
  }

  /** `new Date(t + k * 86400000)` for the midnight time value `t`. */
  function ShiftDays(v: DayValue, k: int): DayValue {
    match v
    case InvalidDate => InvalidDate
    case Day(d) => Clip(AddDays(d, k))
  }

  /** `${String(getUTCFullYear())}-${month padded}-${day padded}`. */
  function KeyOf(d: Date): string {
    IntToDecimal(d.year) + "-" + Pad2(d.month) + "-" + Pad2(d.day)
  }

  /** The same formatting of a Date; an invalid Date prints NaN for every part. */
  function FormatDay(v: DayValue): string {
    match v
    case InvalidDate => "NaN-NaN-NaN"
    case Day(d) => KeyOf(d)
  }

  function MinusOne(n: JsNumber): JsNumber {
    match n
    case Finite(v) => Finite(v - 1.0)
    case NonFinite => NonFinite
  }

  /** `Number` of the `i`-th piece of `dayKey.split("-")`; a missing piece is
      `Number(undefined)`, NaN. */
  function KeyPart(k: string, i: nat): JsNumber {
    var parts := Split(k, '-');
    if i < |parts| then NumberOfString(parts[i]) else NonFinite
  }

  /** `Date.UTC(year, month - 1, day)` on the parts of a key. */
  function KeyMidnight(k: string): DayValue {
    DateUtc(KeyPart(k, 0), MinusOne(KeyPart(k, 1)), KeyPart(k, 2))
  }

  /** `nextDayKey`: one day after the key's UTC midnight, formatted back. */
  function NextDayKey(k: string): string {
    FormatDay(ShiftDays(KeyMidnight(k), 1))
  }

  /** `subtractOneDayFromDayKey`: one day before the key's UTC midnight, formatted back. */
  function SubtractOneDayFromDayKey(k: string): string {
    FormatDay(ShiftDays(KeyMidnight(k), -1))
  }

  // ---------------------------------------------------------------- reading keys back

  lemma TruncOfInt(x: int)
    ensures Trunc(x as real) == x
  {
  }

  lemma DigitsHaveNoDash(s: string)
    requires AllDigits(s)
    ensures '-' !in s
  {
    assert forall i :: 0 <= i < |s| ==> s[i] != '-';
  }

  /** A key with a non-negative year splits into its three printed parts. */
  lemma SplitKeyOf(d: Date)
    requires d.year >= 0
    ensures Split(KeyOf(d), '-') == [NatToDecimal(d.year), Pad2(d.month), Pad2(d.day)]
  {
    var y, m, dd := NatToDecimal(d.year), Pad2(d.month), Pad2(d.day);
    DigitsHaveNoDash(y);
    DigitsHaveNoDash(m);
    DigitsHaveNoDash(dd);
    assert KeyOf(d) == y + ['-'] + (m + ['-'] + dd);
    SplitFirst(y, m + ['-'] + dd, '-');
    SplitFirst(m, dd, '-');
    SplitNone(dd, '-');
  }

  /** The numbers read from a printed date with a non-negative year. */
  lemma KeyPartsOfKey(d: Date)
    requires d.year >= 0
    ensures KeyPart(KeyOf(d), 0) == Finite(d.year as real)
    ensures KeyPart(KeyOf(d), 1) == Finite(d.month as real)
    ensures KeyPart(KeyOf(d), 2) == Finite(d.day as real)
  {
    SplitKeyOf(d);
    var k := KeyOf(d);
    KeyPartOfDigits(k, 0, NatToDecimal(d.year));
    KeyPartOfDigits(k, 1, Pad2(d.month));
    KeyPartOfDigits(k, 2, Pad2(d.day));
    Pad2Value(d.month);
    Pad2Value(d.day);
  }

  lemma KeyPartOfDigits(k: string, i: nat, part: string)
    requires i < |Split(k, '-')| && Split(k, '-')[i] == part
    requires |part| > 0 && AllDigits(part)
    ensures KeyPart(k, i) == Finite(DigitsValue(part) as real)
  {
    NumberOfDigits(part);
  }

  /** `Date.UTC` of a date's own year, month index and day is that date. */
  lemma DateUtcOfDate(d: Date)
    requires 100 <= d.year <= 275759
    ensures DateUtc(Finite(d.year as real), Finite(d.month as real - 1.0), Finite(d.day as real)) == Day(d)
  {
    TruncOfInt(d.year);
    TruncOfInt(d.month - 1);
    assert (d.month - 1) as real == d.month as real - 1.0;
    TruncOfInt(d.day);
    var first: Date := Ymd(d.year, d.month, 1);
    assert MakeDay(d.year, d.month - 1, d.day) == AddDays(first, d.day - 1);
    AddDaysWithinMonth(first, d.day - 1);
  }

  /** Parsing a printed date with a year of at least 100 gives its midnight back. */
  lemma KeyMidnightOfKey(d: Date)
    requires 100 <= d.year <= 275759
    ensures KeyMidnight(KeyOf(d)) == Day(d)
  {
    KeyPartsOfKey(d);
    DateUtcOfDate(d);
  }

  /** `nextDayKey` of a printed date is the printed following date. */
  lemma NextDayKeyOf(d: Date)
    requires 100 <= d.year <= 275758
    ensures NextDayKey(KeyOf(d)) == KeyOf(Succ(d))
  {
    KeyMidnightOfKey(d);
    assert AddDays(d, 1) == Succ(d);
  }

  /** `subtractOneDayFromDayKey` of a printed date is the printed preceding date. */
  lemma SubtractOneDayOf(d: Date)
    requires 100 <= d.year <= 275758
    ensures SubtractOneDayFromDayKey(KeyOf(d)) == KeyOf(Pred(d))
  {
    KeyMidnightOfKey(d);
    assert AddDays(d, -1) == Pred(d);
  }

  /** The two helpers are inverse to each other on printed dates. */
  lemma NextAndSubtractInverse(d: Date)
    requires 101 <= d.year <= 275757
    ensures SubtractOneDayFromDayKey(NextDayKey(KeyOf(d))) == KeyOf(d)
    ensures NextDayKey(SubtractOneDayFromDayKey(KeyOf(d))) == KeyOf(d)
  {
    SubtractAfterNext(d);
    NextAfterSubtract(d);
  }

  lemma SubtractAfterNext(d: Date)
    requires 100 <= d.year <= 275757
    ensures SubtractOneDayFromDayKey(NextDayKey(KeyOf(d))) == KeyOf(d)
  {
    var e := Succ(d);
    assert e.year <= d.year + 1;
    NextDayKeyOf(d);
    SubtractOneDayOf(e);
    SuccPred(d);
  }

  lemma NextAfterSubtract(d: Date)
    requires 101 <= d.year <= 275758
    ensures NextDayKey(SubtractOneDayFromDayKey(KeyOf(d))) == KeyOf(d)
  {
    var p := Pred(d);
    assert p.year >= d.year - 1;
    SubtractOneDayOf(d);
    NextDayKeyOf(p);
    SuccPred(d);
  }

  // ---------------------------------------------------------------- calendar day keys

  /** The date a well-formed key spells, read digit group by digit group. */
  function SpelledDate(k: string): (d: Ymd)
    requires IsValidDayKey(k)
    ensures 0 <= d.year < 10000 && 0 <= d.month < 100 && 0 <= d.day < 100
  {
    DigitsValueBound(k[..4]);
    DigitsValueBound(k[5..7]);
    DigitsValueBound(k[8..]);
    assert Pow10(2) == 100 && Pow10(4) == 10000;
    Ymd(DigitsValue(k[..4]), DigitsValue(k[5..7]), DigitsValue(k[8..]))
  }

  /** A well-formed key that names a real calendar date whose year has four significant digits. */
  predicate IsCalendarDayKey(k: string) {
    IsValidDayKey(k) && ValidDate(SpelledDate(k)) && SpelledDate(k).year >= 1000
  }

  /** Printed dates are well-formed keys exactly for the years 1000 to 9999,
      and then they spell the date they print. */
  lemma KeyOfShape(d: Date)
    ensures IsValidDayKey(KeyOf(d)) <==> 1000 <= d.year <= 9999
    ensures 1000 <= d.year <= 9999 ==> IsCalendarDayKey(KeyOf(d)) && SpelledDate(KeyOf(d)) == d
  {
    var k := KeyOf(d);
    var m, dd := Pad2(d.month), Pad2(d.day);
    if d.year < 0 {
      assert k[0] == '-';
      assert !IsDigit('-');
    } else {
      var y := NatToDecimal(d.year);
      assert k == y + "-" + m + "-" + dd;
      DecimalLength(d.year, 2);
      DecimalLength(d.year, 3);
      assert Pow10(3) == 1000 && Pow10(4) == 10000;
      if 1000 <= d.year <= 9999 {
        assert |y| == 4;
        assert k[..4] == y && k[5..7] == m && k[8..] == dd;
        Pad2Value(d.month);
        Pad2Value(d.day);
      }
    }
  }

  /** A calendar day key is the printed form of the date it spells. */
  lemma CalendarKeyIsPrinted(k: string)
    requires IsCalendarDayKey(k)
    ensures KeyOf(SpelledDate(k)) == k
  {
    var d: Date := SpelledDate(k);
    var y := NatToDecimal(d.year);
    DecimalLength(d.year, 2);
    DecimalLength(d.year, 3);
    assert Pow10(3) == 1000 && Pow10(4) == 10000;
    DigitsValueInjective(y, k[..4]);
    Pad2Value(d.month);
    Pad2Value(d.day);
    DigitsValueInjective(Pad2(d.month), k[5..7]);
    DigitsValueInjective(Pad2(d.day), k[8..]);
    assert k == k[..4] + "-" + k[5..7] + "-" + k[8..];
  }

  /** For calendar day keys, `nextDayKey` returns the key of the following
      day, and `subtractOneDayFromDayKey` that of the preceding day. */
  lemma DayKeyNeighbours(k: string)
    requires IsCalendarDayKey(k)
    ensures var d: Date := SpelledDate(k);
      NextDayKey(k) == KeyOf(Succ(d)) && SubtractOneDayFromDayKey(k) == KeyOf(Pred(d))
  {
    CalendarKeyIsPrinted(k);
    var d: Date := SpelledDate(k);
    NextDayKeyOf(d);
    SubtractOneDayOf(d);
  }

  // ---------------------------------------------------------------- key order

  lemma {:induction false} StrLtDigits(a: string, b: string)
    requires |a| == |b| && AllDigits(a) && AllDigits(b)
    ensures StrLt(a, b) <==> DigitsValue(a) < DigitsValue(b)
  {
    if |a| > 0 {
      var n := |a| - 1;
      StrLtDigits(a[..n], b[..n]);
      assert a == a[..n] + [a[n]] && b == b[..n] + [b[n]];
      StrLtConcat(a[..n], [a[n]], b[..n], [b[n]]);
      DigitsValueInjective(a[..n], b[..n]);
    }
  }

  /** A leading digit group of a fixed width followed by a dash decides a
      string comparison by its value, and on a tie the rests decide. */
  lemma GroupThenRest(x: string, rx: string, y: string, ry: string)
    requires |x| == |y| && AllDigits(x) && AllDigits(y)
    ensures StrLt(x + (['-'] + rx), y + (['-'] + ry))
      <==> DigitsValue(x) < DigitsValue(y) || (DigitsValue(x) == DigitsValue(y) && StrLt(rx, ry))
  {
    StrLtConcat(x, ['-'] + rx, y, ['-'] + ry);
    StrLtConcat(['-'], rx, ['-'], ry);
    StrLtIrreflexive(['-']);
    StrLtDigits(x, y);
    DigitsValueInjective(x, y);
  }

  /** A well-formed key is its three digit groups joined by dashes. */
  lemma DashedKey(k: string)
    requires IsValidDayKey(k)
    ensures k == k[..4] + (['-'] + (k[5..7] + (['-'] + k[8..])))
  {
  }

  /** On printed dates of four-digit years, string order is calendar order. */
  lemma KeyOrder(a: Date, b: Date)
    requires 1000 <= a.year <= 9999 && 1000 <= b.year <= 9999
    ensures StrLt(KeyOf(a), KeyOf(b)) <==> Before(a, b)
  {
    KeyOfShape(a);
    KeyOfShape(b);
    var ka, kb := KeyOf(a), KeyOf(b);
    DashedKey(ka);
    DashedKey(kb);
    var ra, rb := ka[5..7] + (['-'] + ka[8..]), kb[5..7] + (['-'] + kb[8..]);
    GroupThenRest(ka[..4], ra, kb[..4], rb);
    GroupThenRest(ka[5..7], ka[8..], kb[5..7], kb[8..]);
    StrLtDigits(ka[8..], kb[8..]);
  }

  // ---------------------------------------------------------------- buildDayRange

  /** The midnight `Date.UTC` makes of a well-formed key's parts; months and
      days past the end of their range overflow into later ones. */
  function KeyDate(k: string): (d: Date)
    requires IsValidDayKey(k)
    ensures 0 <= d.year <= 10106
  {
    var s := SpelledDate(k);
    var first: Date := Ymd(FullYear(s.year) + (s.month - 1) / 12, (s.month - 1) % 12 + 1, 1);
    AddDaysYearBound(first, s.day - 1);
    MakeDay(FullYear(s.year), s.month - 1, s.day)
  }

  /** A well-formed key splits into its three digit groups. */
  lemma SplitValidKey(k: string)
    requires IsValidDayKey(k)
    ensures Split(k, '-') == [k[..4], k[5..7], k[8..]]
  {
    DigitsHaveNoDash(k[..4]);
    DigitsHaveNoDash(k[5..7]);
    DigitsHaveNoDash(k[8..]);
    assert k == k[..4] + ['-'] + (k[5..7] + ['-'] + k[8..]);
    SplitFirst(k[..4], k[5..7] + ['-'] + k[8..], '-');
    SplitFirst(k[5..7], k[8..], '-');
    SplitNone(k[8..], '-');
  }

  /** The numbers read from a well-formed key are its digit groups. */
  lemma KeyPartsOfValidKey(k: string)
    requires IsValidDayKey(k)
    ensures var s := SpelledDate(k);
      && KeyPart(k, 0) == Finite(s.year as real)
      && KeyPart(k, 1) == Finite(s.month as real)
      && KeyPart(k, 2) == Finite(s.day as real)
  {
    SplitValidKey(k);
    KeyPartOfDigits(k, 0, k[..4]);
    KeyPartOfDigits(k, 1, k[5..7]);
    KeyPartOfDigits(k, 2, k[8..]);
  }

  /** Every well-formed key has a valid midnight: `KeyDate`. */
  lemma KeyMidnightOfValidKey(k: string)
    requires IsValidDayKey(k)
    ensures KeyMidnight(k) == Day(KeyDate(k))
  {
    var s := SpelledDate(k);
    var y, m, d := s.year, s.month, s.day;
    assert y < 10000 && m < 100 && d < 100;
    KeyMidnightOfParts(k);
    DateUtcOfDigits(y, m, d);
    KeyDateIs(k);
  }

  lemma KeyDateIs(k: string)
    requires IsValidDayKey(k)
    ensures var s := SpelledDate(k);
      KeyDate(k) == MakeDay(FullYear(s.year), s.month - 1, s.day)
  {
  }

  lemma KeyMidnightOfParts(k: string)
    requires IsValidDayKey(k)
    ensures var s := SpelledDate(k);
      KeyMidnight(k) == DateUtc(Finite(s.year as real), MinusOne(Finite(s.month as real)), Finite(s.day as real))
  {
    KeyPartsOfValidKey(k);
  }

  /** `Date.UTC` of digit groups of a well-formed key lands inside the time range. */
  lemma DateUtcOfDigits(y: nat, m: nat, d: nat)
    requires y < 10000 && m < 100 && d < 100
    ensures DateUtc(Finite(y as real), MinusOne(Finite(m as real)), Finite(d as real))
      == Day(MakeDay(FullYear(y), m - 1, d))
  {
    TruncOfInt(y);
    TruncOfInt(m - 1);
    assert (m - 1) as real == m as real - 1.0;
    TruncOfInt(d);
    var first: Date := Ymd(FullYear(y) + (m - 1) / 12, (m - 1) % 12 + 1, 1);
    AddDaysYearBound(first, d - 1);
    assert InTimeRange(MakeDay(FullYear(y), m - 1, d));
  }

  /** `nextDayKey` of any well-formed key prints the day after its midnight. */
  lemma NextOfValidKey(k: string)
    requires IsValidDayKey(k)
    ensures NextDayKey(k) == KeyOf(Succ(KeyDate(k)))
  {
    KeyMidnightOfValidKey(k);
    assert AddDays(KeyDate(k), 1) == Succ(KeyDate(k));
  }

  /** On calendar day keys, `Date.UTC` keeps the spelled date as it is. */
  lemma CalendarKeyDate(k: string)
    requires IsCalendarDayKey(k)
    ensures KeyDate(k) == SpelledDate(k)
  {
    var s: Date := SpelledDate(k);
    var first: Date := Ymd(s.year, s.month, 1);
    assert MakeDay(s.year, s.month - 1, s.day) == AddDays(first, s.day - 1);
    AddDaysWithinMonth(first, s.day - 1);
  }

  /** A position of a date in calendar order. */
  function Ordinal(d: Ymd): int {
    d.year * 512 + d.month * 32 + d.day
  }

  /** How far the loop can still run from key `k`: the distance in ordinals
      to the end of the keys `nextDayKey` can reach; 0 for other text. */
  function RangeMeasure(k: string): nat {
    if IsValidDayKey(k) then 10107 * 512 - Ordinal(KeyDate(k)) else 0
  }

  /** Each step from a well-formed key either leaves the well-formed keys or moves forward in the calendar. */
  lemma NextKeyAdvances(k: string)
    requires IsValidDayKey(k)
    ensures RangeMeasure(NextDayKey(k)) < RangeMeasure(k)
  {
    NextOfValidKey(k);
    var e := Succ(KeyDate(k));
    if IsValidDayKey(KeyOf(e)) {
      KeyOfShape(e);
      CalendarKeyDate(KeyOf(e));
    }
  }

  /** The loop of `buildDayRange` from `current`, also stopping at the first
      key that is not a well-formed day key. */
  function DayRangeFrom(current: string, to: string): (days: seq<string>)
    ensures |days| > 0 <==> IsValidDayKey(current) && StrLe(current, to)
    ensures |days| > 0 ==> days[0] == current
    decreases RangeMeasure(current)
  {
    if IsValidDayKey(current) && StrLe(current, to) then
      NextKeyAdvances(current);
      [current] + DayRangeFrom(NextDayKey(current), to)
    else
      []
  }

  /** Every key is a well-formed day key no later than `to`. */
  predicate AllUpTo(days: seq<string>, to: string) {
    |days| == 0 || (IsValidDayKey(days[0]) && StrLe(days[0], to) && AllUpTo(days[1..], to))
  }

  /** Each key is `nextDayKey` of the one before. */
  predicate Chained(days: seq<string>) {
    |days| <= 1 || (days[1] == NextDayKey(days[0]) && Chained(days[1..]))
  }

  /** The range is a chain of well-formed keys no later than `to`, and the
      key after its last one fails the loop condition. */
  lemma {:induction false} DayRangeFromShape(current: string, to: string)
    ensures var days := DayRangeFrom(current, to);
      && AllUpTo(days, to)
      && Chained(days)
      && (|days| > 0 ==>
            var after := NextDayKey(days[|days| - 1]);
            !(IsValidDayKey(after) && StrLe(after, to)))
    decreases RangeMeasure(current)
  {
    var days := DayRangeFrom(current, to);
    if |days| > 0 {
      var n := NextDayKey(current);
      NextKeyAdvances(current);
      DayRangeFromShape(n, to);
      var rest := DayRangeFrom(n, to);
      assert days == [current] + rest;
      assert days[1..] == rest;
      assert |rest| > 0 ==> days[|days| - 1] == rest[|rest| - 1];
    }
  }

  /** `buildDayRange(from, to)` with the guard that keeps it finite: the
      keys from `from` on, one day apart, while they are well-formed and `<= to`. */
  function BuildDayRange(from: string, to: string): (days: seq<string>)
    ensures |days| > 0 <==> IsValidDayKey(from) && StrLe(from, to)
    ensures |days| > 0 ==> days[0] == from
  {
    DayRangeFrom(from, to)
  }

  lemma StrLeAntisymmetric(a: string, b: string)
    requires StrLe(a, b) && StrLe(b, a)
    ensures a == b
  {
    StrLtAsymmetric(a, b);
  }

  /** A calendar key before `to` steps to a calendar key no later than `to`,
      and nothing lies strictly between the two keys. */
  lemma StepWithinRange(current: string, to: string)
    requires IsCalendarDayKey(current) && IsCalendarDayKey(to) && StrLt(current, to)
    ensures var n := NextDayKey(current);
      && IsCalendarDayKey(n) && StrLt(current, n) && StrLe(n, to)
      && forall k :: IsCalendarDayKey(k) && StrLt(current, k) ==> StrLe(n, k)
  {
    var c: Date := SpelledDate(current);
    var t: Date := SpelledDate(to);
    CalendarKeyIsPrinted(current);
    CalendarKeyIsPrinted(to);
    DayKeyNeighbours(current);
    var e := Succ(c);
    SuccIsNext(c, t);
    KeyOrder(c, t);
    assert e == t || Before(e, t);
    KeyOfShape(e);
    KeyOrder(e, t);
    KeyOrder(c, e);
    forall k | IsCalendarDayKey(k) && StrLt(current, k)
      ensures StrLe(NextDayKey(current), k)
    {
      var kd: Date := SpelledDate(k);
      CalendarKeyIsPrinted(k);
      KeyOrder(c, kd);
      SuccIsNext(c, kd);
      assert kd == e || Before(e, kd);
      KeyOfShape(kd);
      KeyOrder(e, kd);
    }
  }

  /** From a calendar key, the next key is not `<=` that key itself. */
  lemma StepLeavesKey(current: string)
    requires IsCalendarDayKey(current)
    ensures var n := NextDayKey(current);
      !(IsValidDayKey(n) && StrLe(n, current))
  {
    var c: Date := SpelledDate(current);
    CalendarKeyIsPrinted(current);
    DayKeyNeighbours(current);
    var n := NextDayKey(current);
    SuccIsNext(c, c);
    KeyOfShape(Succ(c));
    if IsValidDayKey(n) {
      KeyOrder(c, Succ(c));
      StrLtAsymmetric(current, n);
      StrLtIrreflexive(current);
    }
  }

  /** Strictly increasing, one neighbour at a time. */
  predicate Increasing(days: seq<string>) {
    |days| <= 1 || (StrLt(days[0], days[1]) && Increasing(days[1..]))
  }

  lemma {:induction false} IncreasingSorted(days: seq<string>)
    requires Increasing(days)
    ensures StrictlySorted(days)
  {
    if |days| > 1 {
      IncreasingSorted(days[1..]);
      forall j | 1 <= j < |days|
        ensures StrLt(days[0], days[j])
      {
        assert days[j] == days[1..][j - 1];
        if j > 1 {
          assert days[1] == days[1..][0];
          StrLtTransitive(days[0], days[1], days[j]);
        }
      }
      forall i, j | 1 <= i < j < |days|
        ensures StrLt(days[i], days[j])
      {
        assert days[i] == days[1..][i - 1] && days[j] == days[1..][j - 1];
      }
    }
  }

  /** One turn of the loop: a key that passes the condition is followed by
      the range from the next key. */
  lemma DayRangeFromCons(current: string, to: string)
    requires IsValidDayKey(current) && StrLe(current, to)
    ensures DayRangeFrom(current, to) == [current] + DayRangeFrom(NextDayKey(current), to)
  {
  }

  lemma IncreasingCons(x: string, rest: seq<string>)
    requires |rest| > 0 && StrLt(x, rest[0]) && Increasing(rest)
    ensures Increasing([x] + rest) && ([x] + rest)[|rest|] == rest[|rest| - 1]
  {
    assert ([x] + rest)[1..] == rest;
  }

  /** Between two calendar day keys, the range ends at `to`, increases, and
      holds only calendar keys. */
  lemma {:induction false} DayRangeFromEndsAtTo(current: string, to: string)
    requires IsCalendarDayKey(current) && IsCalendarDayKey(to) && StrLe(current, to)
    ensures var days := DayRangeFrom(current, to);
      && |days| > 0
      && days[|days| - 1] == to
      && Increasing(days)
    decreases RangeMeasure(current)
  {
    DayRangeFromCons(current, to);
    var n := NextDayKey(current);
    if current == to {
      StepLeavesKey(current);
      assert DayRangeFrom(n, to) == [];
    } else {
      StepWithinRange(current, to);
      NextKeyAdvances(current);
      DayRangeFromEndsAtTo(n, to);
      IncreasingCons(current, DayRangeFrom(n, to));
    }
  }

  /** Between two calendar day keys, every calendar key from `current` to `to` is in the range. */
  lemma {:induction false} DayRangeFromCovers(current: string, to: string, k: string)
    requires IsCalendarDayKey(current) && IsCalendarDayKey(to)
    requires IsCalendarDayKey(k) && StrLe(current, k) && StrLe(k, to)
    ensures k in DayRangeFrom(current, to)
    decreases RangeMeasure(current)
  {
    var days := DayRangeFrom(current, to);
    if k != current {
      assert StrLt(current, to) by {
        if k != to {
          StrLtTransitive(current, k, to);
        }
      }
      StepWithinRange(current, to);
      var n := NextDayKey(current);
      NextKeyAdvances(current);
      DayRangeFromCovers(n, to, k);
      assert days == [current] + DayRangeFrom(n, to);
    }
  }

  /** For calendar day keys `from <= to`, the range is exactly the calendar
      days from `from` to `to`: it starts at `from`, ends at `to`, is
      strictly increasing, and contains every calendar key in between. */
  lemma BuildDayRangeCalendar(from: string, to: string)
    requires IsCalendarDayKey(from) && IsCalendarDayKey(to) && StrLe(from, to)
    ensures var days := BuildDayRange(from, to);
      && |days| > 0 && days[0] == from && days[|days| - 1] == to
      && StrictlySorted(days)
      && forall k :: IsCalendarDayKey(k) && StrLe(from, k) && StrLe(k, to) ==> k in days
  {
    var days := BuildDayRange(from, to);
    assert days == DayRangeFrom(from, to);
    DayRangeFromSorted(from, to);
    DayRangeFromCoversAll(from, to);
  }

  lemma DayRangeFromSorted(from: string, to: string)
    requires IsCalendarDayKey(from) && IsCalendarDayKey(to) && StrLe(from, to)
    ensures var days := DayRangeFrom(from, to);
      |days| > 0 && days[|days| - 1] == to && StrictlySorted(days)
  {
    DayRangeFromEndsAtTo(from, to);
    IncreasingSorted(DayRangeFrom(from, to));
  }

  lemma DayRangeFromCoversAll(from: string, to: string)
    requires IsCalendarDayKey(from) && IsCalendarDayKey(to)
    ensures forall k :: IsCalendarDayKey(k) && StrLe(from, k) && StrLe(k, to) ==> k in DayRangeFrom(from, to)
  {
    forall k | IsCalendarDayKey(k) && StrLe(from, k) && StrLe(k, to)
      ensures k in DayRangeFrom(from, to)
    {
      DayRangeFromCovers(from, to, k);
    }
  }

  /** The loop of `buildDayRange` exactly as written (`while (current <= to)`),
      stepping with `next` (`nextDayKey` in the source) and run for at most
      `fuel` iterations: the keys pushed, and whether the condition turned
      false within that many iterations. */
  function DayRangeAsWritten(current: string, to: string, fuel: nat, next: string -> string): (r: (seq<string>, bool))
    ensures |r.0| <= fuel
    ensures !r.1 ==> |r.0| == fuel
    ensures forall i :: 0 <= i < |r.0| ==> StrLe(r.0[i], to)
    decreases fuel
  {
    if !StrLe(current, to) then ([], true)
    else if fuel == 0 then ([], false)
    else
      var rest := DayRangeAsWritten(next(current), to, fuel - 1, next);
      ([current] + rest.0, rest.1)
  }

  lemma LastFourDigitDayKeys()
    ensures KeyOf(Ymd(9999, 12, 31)) == "9999-12-31"
    ensures KeyOf(Ymd(10000, 1, 1)) == "10000-01-01"
  {
    LastFourDigitDayKey();
    FirstFiveDigitDayKey();
  }

  lemma LastFourDigitDayKey()
    ensures KeyOf(Ymd(9999, 12, 31)) == "9999-12-31"
  {
    assert NatToDecimal(9) == "9" && NatToDecimal(99) == "99" && NatToDecimal(999) == "999";
    assert IntToDecimal(9999) == "9999";
    assert Pad2(12) == "12" && Pad2(31) == "31";
  }

  lemma FirstFiveDigitDayKey()
    ensures KeyOf(Ymd(10000, 1, 1)) == "10000-01-01"
  {
    assert NatToDecimal(1) == "1" && NatToDecimal(10) == "10" && NatToDecimal(100) == "100";
    assert NatToDecimal(1000) == "1000" && IntToDecimal(10000) == "10000";
    assert Pad2(1) == "01";
  }

  /** The day after 9999-12-31 prints with a five-digit year. */
  lemma NextOfLastFourDigitDay(key: string)
    requires key == "9999-12-31"
    ensures NextDayKey(key) == "10000-01-01"
  {
    var last: Date := Ymd(9999, 12, 31);
    LastFourDigitDayKeys();
    NextDayKeyOf(last);
    assert Succ(last) == Ymd(10000, 1, 1);
  }

  lemma FiveDigitKeySortsFirst(next: string, key: string)
    requires next == "10000-01-01" && key == "9999-12-31"
    ensures StrLt(next, key)
  {
    assert next[0] == '1' && key[0] == '9';
  }

  /** One round of the as-written loop: push `current`, move to the next key. */
  lemma AsWrittenStep(current: string, to: string, fuel: nat, next: string -> string)
    requires StrLe(current, to) && fuel > 0
    ensures var r := DayRangeAsWritten(current, to, fuel, next);
      r.0 == [current] + DayRangeAsWritten(next(current), to, fuel - 1, next).0
  {
  }

  /** The as-written loop pushes `current` first whenever it enters the body. */
  lemma AsWrittenFirst(current: string, to: string, fuel: nat, next: string -> string)
    requires StrLe(current, to) && fuel > 0
    ensures var r := DayRangeAsWritten(current, to, fuel, next);
      |r.0| > 0 && r.0[0] == current
  {
  }

  /** From "9999-12-31" to itself, the loop as written pushes "10000-01-01"
      as its second key: that key sorts before "9999-12-31" as a string,
      although it is the day after. */
  lemma AsWrittenDayRangeOverruns(key: string, fuel: nat)
    requires key == "9999-12-31" && fuel >= 2
    ensures var r := DayRangeAsWritten(key, key, fuel, NextDayKey);
      |r.0| >= 2 && r.0[1] == "10000-01-01"
  {
    NextOfLastFourDigitDay(key);
    FiveDigitKeySortsFirst(NextDayKey(key), key);
    AsWrittenSecondKey(key, fuel, NextDayKey);
  }

  /** A step that goes back in string order is pushed too. */
  lemma AsWrittenSecondKey(key: string, fuel: nat, next: string -> string)
    requires fuel >= 2 && StrLt(next(key), key)
    ensures var r := DayRangeAsWritten(key, key, fuel, next);
      |r.0| >= 2 && r.0[1] == next(key)
  {
    AsWrittenStep(key, key, fuel, next);
    AsWrittenFirst(next(key), key, fuel - 1, next);
  }

  lemma LastFourDigitKeyIsValid(key: string)
    requires key == "9999-12-31"
    ensures IsValidDayKey(key)
  {
  }

  lemma NextOfLastFourDigitKeyIsInvalid(key: string, next: string)
    requires key == "9999-12-31" && next == NextDayKey(key)
    ensures !IsValidDayKey(next)
  {
    NextOfLastFourDigitDay(key);
    assert |next| == 11;
  }

  /** The guarded range from a valid key whose successor is not a valid key is that key alone. */
  lemma GuardedRangeStops(key: string, next: string)
    requires IsValidDayKey(key) && next == NextDayKey(key) && !IsValidDayKey(next)
    ensures BuildDayRange(key, key) == [key]
  {
    assert StrLe(key, key);
    assert DayRangeFrom(next, key) == [];
  }

  /** The guarded range from "9999-12-31" to itself is that one key. */
  lemma GuardedDayRangeAtLastKey(key: string)
    requires key == "9999-12-31"
    ensures BuildDayRange(key, key) == [key]
  {
    LastFourDigitKeyIsValid(key);
    NextOfLastFourDigitKeyIsInvalid(key, NextDayKey(key));
    GuardedRangeStops(key, NextDayKey(key));
  }

  // ---------------------------------------------------------------- three-digit years

  /** "0100-01-01" is a well-formed key spelling 1 January of the year 100. */
  lemma ThreeDigitYearKeySpells(key: string)
    requires key == "0100-01-01"
    ensures IsValidDayKey(key) && SpelledDate(key) == Ymd(100, 1, 1)
  {
    assert key[0] == '0' && key[1] == '1' && key[2] == '0' && key[3] == '0';
    assert key[4] == '-' && key[5] == '0' && key[6] == '1' && key[7] == '-' && key[8] == '0' && key[9] == '1';
    assert key[..4] == "0100" && key[5..7] == "01" && key[8..] == "01";
    assert "0100"[0] == '0' && "0100"[1] == '1' && "0100"[2] == '0';
    assert "0100"[..3] == "010" && "010"[..2] == "01" && "01"[..1] == "0";
    assert DigitsValue("0") == 0 && DigitsValue("01") == 1;
    assert DigitsValue("010") == 10 && DigitsValue("0100") == 100;
  }

  /** The key after a key spelling 1 January 100 is that of 2 January 100. */
  lemma NextOfFirstDayOfHundred(key: string)
    requires IsValidDayKey(key) && SpelledDate(key) == Ymd(100, 1, 1)
    ensures NextDayKey(key) == KeyOf(Ymd(100, 1, 2))
  {
    NextOfValidKey(key);
    KeyDateIs(key);
    assert KeyDate(key) == Ymd(100, 1, 1);
  }

  lemma KeyOfSecondDayOfHundred()
    ensures KeyOf(Ymd(100, 1, 2)) == "100-01-02"
  {
    assert NatToDecimal(1) == "1" && NatToDecimal(10) == "10" && IntToDecimal(100) == "100";
    assert Pad2(1) == "01" && Pad2(2) == "02";
  }

  /** `nextDayKey` drops the leading zero of a three-digit year:
      the day after "0100-01-01" prints as "100-01-02". */
  lemma NextOfThreeDigitYearKey(key: string)
    requires key == "0100-01-01"
    ensures NextDayKey(key) == "100-01-02"
  {
    ThreeDigitYearKeySpells(key);
    NextOfFirstDayOfHundred(key);
    KeyOfSecondDayOfHundred();
  }

  /** A step that stays `<= to` in string order is pushed by the loop as written. */
  lemma AsWrittenSecondKeyUpTo(key: string, to: string, fuel: nat, next: string -> string)
    requires fuel >= 2 && StrLe(key, to) && StrLe(next(key), to)
    ensures var r := DayRangeAsWritten(key, to, fuel, next);
      |r.0| >= 2 && r.0[1] == next(key)
  {
    AsWrittenStep(key, to, fuel, next);
    AsWrittenFirst(next(key), to, fuel - 1, next);
  }

  /** The guarded range from a valid key whose successor is not a valid key is that key alone. */
  lemma GuardedRangeStopsBefore(key: string, to: string, next: string)
    requires IsValidDayKey(key) && StrLe(key, to) && next == NextDayKey(key) && !IsValidDayKey(next)
    ensures BuildDayRange(key, to) == [key]
  {
    assert DayRangeFrom(next, to) == [];
  }

  /** From "0100-01-01" to "2000-01-01", the loop as written pushes
      "100-01-02" as its second key ("100-01-02" <= "2000-01-01" as strings),
      while the guarded range stops after the first key. */
  lemma AsWrittenThreeDigitYearDiverges(key: string, to: string, fuel: nat)
    requires key == "0100-01-01" && to == "2000-01-01" && fuel >= 2
    ensures var r := DayRangeAsWritten(key, to, fuel, NextDayKey);
      |r.0| >= 2 && r.0[1] == "100-01-02"
    ensures BuildDayRange(key, to) == [key]
  {
    var next := NextDayKey(key);
    NextOfThreeDigitYearKey(key);
    ThreeDigitYearKeySpells(key);
    assert StrLt(key, to) by { assert key[0] == '0' && to[0] == '2'; }
    assert StrLt(next, to) by { assert next[0] == '1' && to[0] == '2'; }
    AsWrittenSecondKeyUpTo(key, to, fuel, NextDayKey);
    assert |next| == 9;
    GuardedRangeStopsBefore(key, to, next);
  }
}

=== FILE: health_domain.dfy ===
/** Sample validation and the per-day rollup of the backend
    (packages/backend/convex/healthDomain.ts).
 */
module HealthDomain {
  import opened Wrappers
  import opened JsStrings
  import opened JsNumbers
  import opened HealthTypes

  // ---------------------------------------------------------------- key formats

  predicate IsSampleKeyChar(c: char) {
    ('A' <= c <= 'Z') || ('a' <= c <= 'z') || ('0' <= c <= '9')
    || c == '.' || c == '_' || c == ':' || c == '|' || c == '-'
  }

  /** SAMPLE_KEY_PATTERN: 1 to 200 characters from `[A-Za-z0-9._:|-]`. */
  predicate IsValidSampleKey(k: string) {
    1 <= |k| <= 200 && forall i :: 0 <= i < |k| ==> IsSampleKeyChar(k[i])
  }

  /** DAY_KEY_PATTERN: four digits, `-`, two digits, `-`, two digits, nothing more. */
  predicate IsValidDayKey(k: string) {
    |k| == 10 && AllDigits(k[..4]) && k[4] == '-' && AllDigits(k[5..7]) && k[7] == '-' && AllDigits(k[8..])
  }

  /** The largest magnitude of a valid Date time value, in ms (TimeClip, section 21.4.1.31 of ECMA-262). */
  const MaxTimeMs: int := 8_640_000_000_000_000

  /** `Intl.DateTimeFormat("en-CA", { timeZone })` applied to an instant:
      the calendar day in that zone, or the RangeError text for an unknown zone. */
  type ZoneDayKey = (int, string) -> Result<string, string>

  /** `dayKeyFromTimestamp` on an integral instant: outside the Date range
      it throws; inside, the zone's calendar day (or the zone's error). */
  function DayKeyFromTimestamp(ms: int, timezone: string, zone: ZoneDayKey): (r: Result<string, string>)
    ensures !(-MaxTimeMs <= ms <= MaxTimeMs) ==> r == Failure(ErrInvalidDate)
    ensures -MaxTimeMs <= ms <= MaxTimeMs ==> r == zone(ms, timezone)
  {
    if !(-MaxTimeMs <= ms <= MaxTimeMs) then Failure(ErrInvalidDate) else zone(ms, timezone)
  }

  /** PreparedHealthSample: the sample as received, plus the day it falls on. */
  datatype Prepared = Prepared(sample: IngestSample, dayKey: string)

  const ErrSampleKey := "Invalid sampleKey format"
  const ErrStartTime := "startTimeMs must be an integer millisecond timestamp"
  const ErrEndTime := "endTimeMs must be an integer millisecond timestamp"
  const ErrTimeOrder := "endTimeMs must be >= startTimeMs"
  const ErrUnit := "unit is required"
  const ErrTimezone := "timezone is required"
  const ErrCategory := "categoryValue is required for sleep_segment"
  const ErrValue := "valueNumber is required and must be finite for numeric metrics"
  const ErrInvalidDate := "timestampMs must produce a valid date"

  /** Every check `validateAndPrepareSample` makes on the sample itself. */
  predicate SampleIsWellFormed(s: IngestSample) {
    && FieldsAreWellFormed(s)
    && -MaxTimeMs <= AsInt(s.startTimeMs) <= MaxTimeMs
  }

  /** The same checks but the range of the start instant. */
  predicate FieldsAreWellFormed(s: IngestSample) {
    && IsValidSampleKey(s.sampleKey)
    && IsInteger(s.startTimeMs)
    && IsInteger(s.endTimeMs)
    && AsInt(s.endTimeMs) >= AsInt(s.startTimeMs)
    && !IsBlank(s.unit)
    && !IsBlank(s.timezone)
    && (if s.metric == SleepSegment then s.categoryValue.Some?
        else s.valueNumber.Some? && s.valueNumber.value.Finite?)
  }

  /** The field checks of `validateAndPrepareSample`, in source order; the
      first that fails names its message. */
  function FieldError(s: IngestSample): (e: Option<string>)
    ensures e.None? <==> FieldsAreWellFormed(s)
    ensures !IsValidSampleKey(s.sampleKey) ==> e == Some(ErrSampleKey)
  {
    if !IsValidSampleKey(s.sampleKey) then Some(ErrSampleKey)
    else if !IsInteger(s.startTimeMs) then Some(ErrStartTime)
    else if !IsInteger(s.endTimeMs) then Some(ErrEndTime)
    else if AsInt(s.endTimeMs) < AsInt(s.startTimeMs) then Some(ErrTimeOrder)
    else if IsBlank(s.unit) then Some(ErrUnit)
    else if IsBlank(s.timezone) then Some(ErrTimezone)
    else if s.metric == SleepSegment && s.categoryValue.None? then Some(ErrCategory)
    else if s.metric != SleepSegment && !(s.valueNumber.Some? && s.valueNumber.value.Finite?) then Some(ErrValue)
    else None
  }

  /** `validateAndPrepareSample`: the checks in source order, each failing
      with its own message, then the day key of the start instant. */
  function ValidateAndPrepareSample(s: IngestSample, zone: ZoneDayKey): (r: Result<Prepared, string>)
    ensures r.Success? <==> SampleIsWellFormed(s) && zone(AsInt(s.startTimeMs), s.timezone).Success?
    ensures r.Success? ==> r.value == Prepared(s, zone(AsInt(s.startTimeMs), s.timezone).value)
    ensures !IsValidSampleKey(s.sampleKey) ==> r == Failure(ErrSampleKey)
  {
    match FieldError(s)
    case Some(e) => Failure(e)
    case None =>
      match DayKeyFromTimestamp(AsInt(s.startTimeMs), s.timezone, zone)
      case Failure(e) => Failure(e)
      case Success(day) => Success(Prepared(s, day))
  }

  /** What the rollup relies on: integral times and, for numeric metrics, a finite reading. */
  predicate Aggregatable(s: IngestSample) {
    && IsInteger(s.startTimeMs)
    && IsInteger(s.endTimeMs)
    && (s.metric != SleepSegment ==> s.valueNumber.Some? && s.valueNumber.value.Finite?)
  }

  lemma WellFormedIsAggregatable(s: IngestSample)
    requires SampleIsWellFormed(s)
    ensures Aggregatable(s)
  {
  }

  predicate AllWellFormed(ps: seq<Prepared>) {
    forall i :: 0 <= i < |ps| ==> Aggregatable(ps[i].sample)
  }

  /** `durationMs`: the span from start to end, or 0 when the end comes
      before the start. */
  function DurationMs(s: IngestSample): (d: int)
    requires IsInteger(s.startTimeMs) && IsInteger(s.endTimeMs)
    ensures d >= 0
    ensures AsInt(s.endTimeMs) >= AsInt(s.startTimeMs) ==> d == AsInt(s.endTimeMs) - AsInt(s.startTimeMs)
    ensures AsInt(s.endTimeMs) < AsInt(s.startTimeMs) ==> d == 0
  {
    var span := AsInt(s.endTimeMs) - AsInt(s.startTimeMs);
    if span < 0 then 0 else span
  }

  /** The reading of a well-formed sample of a numeric metric. */
  function Reading(s: IngestSample): real
    requires Aggregatable(s) && s.metric != SleepSegment
  {
    s.valueNumber.value.value
  }

  // ---------------------------------------------------------------- accumulators

  /** NumericAccumulator; min and max read 0 until the first value. */
  datatype NumericAccumulator = NumericAccumulator(sum: real, min: real, max: real, count: nat)

  const EmptyNumeric := NumericAccumulator(0.0, 0.0, 0.0, 0)

  function MinReal(a: real, b: real): real { if a <= b then a else b }
  function MaxReal(a: real, b: real): real { if a >= b then a else b }

  /** `applyNumeric`: non-finite values are skipped. */
  function ApplyNumeric(acc: NumericAccumulator, v: JsNumber): NumericAccumulator {
    match v
    case NonFinite => acc
    case Finite(x) =>
      var next := acc.count + 1;
      NumericAccumulator(
        acc.sum + x,
        if next == 1 then x else MinReal(acc.min, x),
        if next == 1 then x else MaxReal(acc.max, x),
        next)
  }

  function AddToTotal(t: Total, x: real): Total {
    Total(t.total + x, t.samples + 1)
  }

  /** DailyAccumulator, without the day key and zone it merely carries. */
  datatype Accumulator = Accumulator(
    steps: Total,
    activeEnergy: Total,
    restingHeartRate: NumericAccumulator,
    hrvSdnn: NumericAccumulator,
    bodyMass: NumericAccumulator,
    bodyFat: NumericAccumulator,
    sleep: SleepTotals)

  const EmptyAccumulator := Accumulator(
    Total(0.0, 0), Total(0.0, 0), EmptyNumeric, EmptyNumeric, EmptyNumeric, EmptyNumeric,
    SleepTotals(0, 0, 0, 0, 0, 0, 0))

  /** `addSleepSegment`: counts the segment and adds its duration to its category. */
  function AddSleepSegment(t: SleepTotals, s: IngestSample): SleepTotals
    requires IsInteger(s.startTimeMs) && IsInteger(s.endTimeMs)
  {
    match s.categoryValue
    case None => t
    case Some(c) =>
      var d := DurationMs(s);
      var t := t.(sampleCount := t.sampleCount + 1);
      match c
      case InBed => t.(inBedMs := t.inBedMs + d)
      case Awake => t.(awakeMs := t.awakeMs + d)
      case Asleep => t.(asleepMs := t.asleepMs + d)
      case AsleepRem => t.(remMs := t.remMs + d)
      case AsleepCore => t.(coreMs := t.coreMs + d)
      case AsleepDeep => t.(deepMs := t.deepMs + d)
  }

  /** One iteration of the loop of `buildDailyAggregateRecord`, as written:
      there is no branch for dietary_energy_kcal. */
  function AddSample(acc: Accumulator, s: IngestSample): Accumulator
    requires Aggregatable(s)
  {
    if s.metric == StepCount && s.valueNumber.Some? then acc.(steps := AddToTotal(acc.steps, Reading(s)))
    else if s.metric == ActiveEnergyKcal && s.valueNumber.Some? then acc.(activeEnergy := AddToTotal(acc.activeEnergy, Reading(s)))
    else if s.metric == RestingHeartRateBpm && s.valueNumber.Some? then acc.(restingHeartRate := ApplyNumeric(acc.restingHeartRate, s.valueNumber.value))
    else if s.metric == HrvSdnnMs && s.valueNumber.Some? then acc.(hrvSdnn := ApplyNumeric(acc.hrvSdnn, s.valueNumber.value))
    else if s.metric == BodyMassKg && s.valueNumber.Some? then acc.(bodyMass := ApplyNumeric(acc.bodyMass, s.valueNumber.value))
    else if s.metric == BodyFatPercent && s.valueNumber.Some? then acc.(bodyFat := ApplyNumeric(acc.bodyFat, s.valueNumber.value))
    else if s.metric == SleepSegment then acc.(sleep := AddSleepSegment(acc.sleep, s))
    else acc
  }

  /** The loop of `buildDailyAggregateRecord`, left to right. */
  function Accumulate(acc: Accumulator, ps: seq<Prepared>): Accumulator
    requires AllWellFormed(ps)
    decreases |ps|
  {
    if |ps| == 0 then acc else Accumulate(AddSample(acc, ps[0].sample), ps[1..])
  }

  /** `averageFromAccumulator` with min, max and count alongside. */
  function StatOf(acc: NumericAccumulator): Stat {
    Stat(if acc.count == 0 then 0.0 else acc.sum / (acc.count as real), acc.min, acc.max, acc.count)
  }

  /** The fields of a daily row that `buildDailyAggregateRecord` emits as
      written: a HealthDailyMetricsRecord without its two dietary fields. */
  datatype RollupCore = RollupCore(
    dayKey: string,
    timezone: string,
    steps: Total,
    activeEnergy: Total,
    restingHeartRate: Stat,
    hrvSdnn: Stat,
    bodyMass: Stat,
    bodyFat: Stat,
    sleep: SleepTotals,
    sleepTotalAsleepMs: int,
    recomputedAtMs: int)

  /** `buildDailyAggregateRecord` as written. */
  function BuildRollup(dayKey: string, timezone: string, ps: seq<Prepared>, recomputedAtMs: int): RollupCore
    requires AllWellFormed(ps)
  {
    var a := Accumulate(EmptyAccumulator, ps);
    RollupCore(
      dayKey, timezone, a.steps, a.activeEnergy,
      StatOf(a.restingHeartRate), StatOf(a.hrvSdnn), StatOf(a.bodyMass), StatOf(a.bodyFat),
      a.sleep, a.sleep.asleepMs + a.sleep.remMs + a.sleep.coreMs + a.sleep.deepMs,
      recomputedAtMs)
  }

  /** Left fold of the readings of metric `m` into a running total: the
      dietary branch the rollup lacks. */
  function FoldTotal(t: Total, ps: seq<Prepared>, m: Metric): Total
    requires AllWellFormed(ps) && m != SleepSegment
    decreases |ps|
  {
    if |ps| == 0 then t
    else FoldTotal(if ps[0].sample.metric == m then AddToTotal(t, Reading(ps[0].sample)) else t, ps[1..], m)
  }

  /** `buildDailyAggregateRecord` corrected: the rollup as written plus the
      dietary totals that HealthDailyMetricsRecord and the table require. */
  function BuildDailyAggregateRecord(dayKey: string, timezone: string, ps: seq<Prepared>, recomputedAtMs: int): DailyRecord
    requires AllWellFormed(ps)
  {
    var c := BuildRollup(dayKey, timezone, ps, recomputedAtMs);
    DailyRecord(
      c.dayKey, c.timezone, c.steps, c.activeEnergy, FoldTotal(Total(0.0, 0), ps, DietaryEnergyKcal),
      c.restingHeartRate, c.hrvSdnn, c.bodyMass, c.bodyFat, c.sleep, c.sleepTotalAsleepMs, c.recomputedAtMs)
  }

  // ---------------------------------------------------------------- reference definitions

  function Sum(xs: seq<real>): real {
    if |xs| == 0 then 0.0 else xs[0] + Sum(xs[1..])
  }

  /** The readings of metric `m`, in sample order. */
  function Readings(ps: seq<Prepared>, m: Metric): seq<real>
    requires AllWellFormed(ps) && m != SleepSegment
  {
    if |ps| == 0 then [] else ReadingOf(ps[0].sample, m) + Readings(ps[1..], m)
  }

  /** The reading one sample contributes to metric `m`: none, or its value. */
  function ReadingOf(s: IngestSample, m: Metric): seq<real>
    requires Aggregatable(s) && m != SleepSegment
  {
    if s.metric == m then [Reading(s)] else []
  }

  /** The number of sleep segments that carry a category. */
  function SleepSegments(ps: seq<Prepared>): nat {
    if |ps| == 0 then 0
    else (if ps[0].sample.metric == SleepSegment && ps[0].sample.categoryValue.Some? then 1 else 0) + SleepSegments(ps[1..])
  }

  /** The total duration of the sleep segments of category `c`. */
  function SleepMs(ps: seq<Prepared>, c: SleepCategory): int
    requires AllWellFormed(ps)
  {
    if |ps| == 0 then 0 else SegmentMs(ps[0].sample, c) + SleepMs(ps[1..], c)
  }

  /** `st` is what the source reports for readings `xs`: their count and
      mean, and their least and greatest element (0 and 0 when there are none). */
  predicate StatDescribes(st: Stat, xs: seq<real>) {
    && st.samples == |xs|
    && st.avg == (if |xs| == 0 then 0.0 else Sum(xs) / (|xs| as real))
    && (|xs| == 0 ==> st.min == 0.0 && st.max == 0.0)
    && (|xs| > 0 ==> st.min in xs && st.max in xs)
    && (forall i :: 0 <= i < |xs| ==> st.min <= xs[i] <= st.max)
  }

  /** The accumulator has seen exactly the readings `xs`. */
  predicate Summarizes(acc: NumericAccumulator, xs: seq<real>) {
    && acc.count == |xs|
    && acc.sum == Sum(xs)
    && (|xs| == 0 ==> acc.min == 0.0 && acc.max == 0.0)
    && (|xs| > 0 ==> acc.min in xs && acc.max in xs)
    && (forall i :: 0 <= i < |xs| ==> acc.min <= xs[i] <= acc.max)
  }

  // ---------------------------------------------------------------- lemmas

  lemma {:induction false} SumAppend(xs: seq<real>, ys: seq<real>)
    ensures Sum(xs + ys) == Sum(xs) + Sum(ys)
    decreases |xs|
  {
    if |xs| > 0 {
      SumAppend(xs[1..], ys);
      assert (xs + ys)[1..] == xs[1..] + ys;
    } else {
      assert xs + ys == ys;
    }
  }

  /** Applying a finite reading extends what the accumulator summarizes. */
  lemma ApplyNumericExtends(acc: NumericAccumulator, xs: seq<real>, x: real)
    requires Summarizes(acc, xs)
    ensures Summarizes(ApplyNumeric(acc, Finite(x)), xs + [x])
  {
    SumAppend(xs, [x]);
    var ys := xs + [x];
    var a := ApplyNumeric(acc, Finite(x));
    assert ys[|xs|] == x;
    if |xs| > 0 {
      assert acc.min in xs && acc.max in xs;
      assert acc.min in ys && acc.max in ys;
    }
    forall i | 0 <= i < |ys|
      ensures a.min <= ys[i] <= a.max
    {
      if i < |xs| { assert ys[i] == xs[i]; }
    }
  }

  lemma StatOfSummarizes(acc: NumericAccumulator, xs: seq<real>)
    requires Summarizes(acc, xs)
    ensures StatDescribes(StatOf(acc), xs)
  {
  }

  /** Peels the first sample off the readings of `m`. */
  lemma ReadingsHead(ps: seq<Prepared>, m: Metric)
    requires AllWellFormed(ps) && m != SleepSegment && |ps| > 0
    ensures Sum(Readings(ps, m)) == (if ps[0].sample.metric == m then Reading(ps[0].sample) else 0.0) + Sum(Readings(ps[1..], m))
    ensures |Readings(ps, m)| == (if ps[0].sample.metric == m then 1 else 0) + |Readings(ps[1..], m)|
  {
    SumAppend(ReadingOf(ps[0].sample, m), Readings(ps[1..], m));
  }

  lemma NumericOfAddSample(acc: Accumulator, s: IngestSample, m: Metric)
    requires Aggregatable(s) && m in {RestingHeartRateBpm, HrvSdnnMs, BodyMassKg, BodyFatPercent}
    ensures NumericOf(AddSample(acc, s), m)
         == if s.metric == m then ApplyNumeric(NumericOf(acc, m), Finite(Reading(s))) else NumericOf(acc, m)
  {
  }

  lemma {:induction false} AccumulateTotals(acc: Accumulator, ps: seq<Prepared>)
    requires AllWellFormed(ps)
    ensures Accumulate(acc, ps).steps
         == Total(acc.steps.total + Sum(Readings(ps, StepCount)), acc.steps.samples + |Readings(ps, StepCount)|)
    ensures Accumulate(acc, ps).activeEnergy
         == Total(acc.activeEnergy.total + Sum(Readings(ps, ActiveEnergyKcal)), acc.activeEnergy.samples + |Readings(ps, ActiveEnergyKcal)|)
    decreases |ps|
  {
    if |ps| > 0 {
      var s := ps[0].sample;
      ReadingsHead(ps, StepCount);
      ReadingsHead(ps, ActiveEnergyKcal);
      TotalsStep(acc, s);
      AccumulateTotals(AddSample(acc, s), ps[1..]);
    }
  }

  lemma TotalsStep(acc: Accumulator, s: IngestSample)
    requires Aggregatable(s)
    ensures AddSample(acc, s).steps == if s.metric == StepCount then AddToTotal(acc.steps, Reading(s)) else acc.steps
    ensures AddSample(acc, s).activeEnergy
         == if s.metric == ActiveEnergyKcal then AddToTotal(acc.activeEnergy, Reading(s)) else acc.activeEnergy
  {
  }

  /** Selects the numeric accumulator of a sampled metric. */
  function NumericOf(acc: Accumulator, m: Metric): NumericAccumulator
    requires m in {RestingHeartRateBpm, HrvSdnnMs, BodyMassKg, BodyFatPercent}
  {
    match m
    case RestingHeartRateBpm => acc.restingHeartRate
    case HrvSdnnMs => acc.hrvSdnn
    case BodyMassKg => acc.bodyMass
    case BodyFatPercent => acc.bodyFat
  }

  lemma {:induction false} AccumulateStat(acc: Accumulator, ps: seq<Prepared>, m: Metric, xs: seq<real>)
    requires AllWellFormed(ps)
    requires m in {RestingHeartRateBpm, HrvSdnnMs, BodyMassKg, BodyFatPercent}
    requires Summarizes(NumericOf(acc, m), xs)
    ensures Summarizes(NumericOf(Accumulate(acc, ps), m), xs + Readings(ps, m))
    decreases |ps|
  {
    if |ps| == 0 {
      assert xs + [] == xs;
    } else {
      var s := ps[0].sample;
      StatStep(acc, s, m, xs);
      AccumulateStat(AddSample(acc, s), ps[1..], m, xs + ReadingOf(s, m));
      ReadingsCons(ps, m, xs);
    }
  }

  /** One sample keeps the summary of a numeric metric in step with its readings. */
  lemma StatStep(acc: Accumulator, s: IngestSample, m: Metric, xs: seq<real>)
    requires Aggregatable(s)
    requires m in {RestingHeartRateBpm, HrvSdnnMs, BodyMassKg, BodyFatPercent}
    requires Summarizes(NumericOf(acc, m), xs)
    ensures Summarizes(NumericOf(AddSample(acc, s), m), xs + ReadingOf(s, m))
  {
    NumericOfAddSample(acc, s, m);
    if s.metric == m {
      ApplyNumericExtends(NumericOf(acc, m), xs, Reading(s));
    } else {
      assert xs + ReadingOf(s, m) == xs;
    }
  }

  lemma ReadingsCons(ps: seq<Prepared>, m: Metric, xs: seq<real>)
    requires AllWellFormed(ps) && m != SleepSegment && |ps| > 0
    ensures xs + Readings(ps, m) == (xs + ReadingOf(ps[0].sample, m)) + Readings(ps[1..], m)
  {
    assert Readings(ps, m) == ReadingOf(ps[0].sample, m) + Readings(ps[1..], m);
  }

  lemma {:induction false} AccumulateSleep(acc: Accumulator, ps: seq<Prepared>)
    requires AllWellFormed(ps)
    ensures Accumulate(acc, ps).sleep == SleepTotals(
           acc.sleep.sampleCount + SleepSegments(ps),
           acc.sleep.inBedMs + SleepMs(ps, InBed),
           acc.sleep.asleepMs + SleepMs(ps, Asleep),
           acc.sleep.awakeMs + SleepMs(ps, Awake),
           acc.sleep.remMs + SleepMs(ps, AsleepRem),
           acc.sleep.coreMs + SleepMs(ps, AsleepCore),
           acc.sleep.deepMs + SleepMs(ps, AsleepDeep))
    decreases |ps|
  {
    if |ps| > 0 {
      var s := ps[0].sample;
      var next := AddSample(acc, s);
      SleepStep(acc, s);
      assert Accumulate(acc, ps) == Accumulate(next, ps[1..]);
      AccumulateSleep(next, ps[1..]);
    }
  }

  /** The sleep duration one sample adds to category `c`. */
  function SegmentMs(s: IngestSample, c: SleepCategory): int
    requires IsInteger(s.startTimeMs) && IsInteger(s.endTimeMs)
  {
    if s.metric == SleepSegment && s.categoryValue == Some(c) then DurationMs(s) else 0
  }

  lemma SleepStep(acc: Accumulator, s: IngestSample)
    requires Aggregatable(s)
    ensures AddSample(acc, s).sleep == SleepTotals(
           acc.sleep.sampleCount + (if s.metric == SleepSegment && s.categoryValue.Some? then 1 else 0),
           acc.sleep.inBedMs + SegmentMs(s, InBed),
           acc.sleep.asleepMs + SegmentMs(s, Asleep),
           acc.sleep.awakeMs + SegmentMs(s, Awake),
           acc.sleep.remMs + SegmentMs(s, AsleepRem),
           acc.sleep.coreMs + SegmentMs(s, AsleepCore),
           acc.sleep.deepMs + SegmentMs(s, AsleepDeep))
  {
  }

  lemma {:induction false} FoldTotalMeaning(t: Total, ps: seq<Prepared>, m: Metric)
    requires AllWellFormed(ps) && m != SleepSegment
    ensures FoldTotal(t, ps, m) == Total(t.total + Sum(Readings(ps, m)), t.samples + |Readings(ps, m)|)
    decreases |ps|
  {
    if |ps| > 0 {
      var s := ps[0].sample;
      ReadingsHead(ps, m);
      FoldTotalMeaning(if s.metric == m then AddToTotal(t, Reading(s)) else t, ps[1..], m);
    }
  }

  lemma DailyStat(ps: seq<Prepared>, m: Metric)
    requires AllWellFormed(ps)
    requires m in {RestingHeartRateBpm, HrvSdnnMs, BodyMassKg, BodyFatPercent}
    ensures StatDescribes(StatOf(NumericOf(Accumulate(EmptyAccumulator, ps), m)), Readings(ps, m))
  {
    AccumulateStat(EmptyAccumulator, ps, m, []);
    assert [] + Readings(ps, m) == Readings(ps, m);
    StatOfSummarizes(NumericOf(Accumulate(EmptyAccumulator, ps), m), Readings(ps, m));
  }

  /** The daily row states, field by field, what the day's samples add up to:
      additive metrics are totals with counts, sampled metrics are mean,
      extremes and count, sleep is split by category, and total sleep is
      every asleep category but not in-bed or awake time. */
  lemma DailyRecordMeaning(dayKey: string, timezone: string, ps: seq<Prepared>, at: int)
    requires AllWellFormed(ps)
    ensures var r := BuildDailyAggregateRecord(dayKey, timezone, ps, at);
      && r.dayKey == dayKey && r.timezone == timezone && r.recomputedAtMs == at
      && r.steps == Total(Sum(Readings(ps, StepCount)), |Readings(ps, StepCount)|)
      && r.activeEnergy == Total(Sum(Readings(ps, ActiveEnergyKcal)), |Readings(ps, ActiveEnergyKcal)|)
      && r.dietaryEnergy == Total(Sum(Readings(ps, DietaryEnergyKcal)), |Readings(ps, DietaryEnergyKcal)|)
      && StatDescribes(r.restingHeartRate, Readings(ps, RestingHeartRateBpm))
      && StatDescribes(r.hrvSdnn, Readings(ps, HrvSdnnMs))
      && StatDescribes(r.bodyMass, Readings(ps, BodyMassKg))
      && StatDescribes(r.bodyFat, Readings(ps, BodyFatPercent))
      && r.sleep == SleepTotals(SleepSegments(ps), SleepMs(ps, InBed), SleepMs(ps, Asleep), SleepMs(ps, Awake),
                                SleepMs(ps, AsleepRem), SleepMs(ps, AsleepCore), SleepMs(ps, AsleepDeep))
      && r.sleepTotalAsleepMs == SleepMs(ps, Asleep) + SleepMs(ps, AsleepRem) + SleepMs(ps, AsleepCore) + SleepMs(ps, AsleepDeep)
  {
    RecordTotals(dayKey, timezone, ps, at);
    RecordStats(dayKey, timezone, ps, at);
    RecordSleep(dayKey, timezone, ps, at);
  }

  lemma RecordTotals(dayKey: string, timezone: string, ps: seq<Prepared>, at: int)
    requires AllWellFormed(ps)
    ensures var r := BuildDailyAggregateRecord(dayKey, timezone, ps, at);
      && r.dayKey == dayKey && r.timezone == timezone && r.recomputedAtMs == at
      && r.steps == Total(Sum(Readings(ps, StepCount)), |Readings(ps, StepCount)|)
      && r.activeEnergy == Total(Sum(Readings(ps, ActiveEnergyKcal)), |Readings(ps, ActiveEnergyKcal)|)
      && r.dietaryEnergy == Total(Sum(Readings(ps, DietaryEnergyKcal)), |Readings(ps, DietaryEnergyKcal)|)
  {
    var a := Accumulate(EmptyAccumulator, ps);
    var r := BuildDailyAggregateRecord(dayKey, timezone, ps, at);
    assert r.steps == a.steps && r.activeEnergy == a.activeEnergy;
    assert r.dietaryEnergy == FoldTotal(Total(0.0, 0), ps, DietaryEnergyKcal);
    AccumulateTotals(EmptyAccumulator, ps);
    FoldTotalMeaning(Total(0.0, 0), ps, DietaryEnergyKcal);
  }

  lemma RecordStats(dayKey: string, timezone: string, ps: seq<Prepared>, at: int)
    requires AllWellFormed(ps)
    ensures var r := BuildDailyAggregateRecord(dayKey, timezone, ps, at);
      && StatDescribes(r.restingHeartRate, Readings(ps, RestingHeartRateBpm))
      && StatDescribes(r.hrvSdnn, Readings(ps, HrvSdnnMs))
      && StatDescribes(r.bodyMass, Readings(ps, BodyMassKg))
      && StatDescribes(r.bodyFat, Readings(ps, BodyFatPercent))
  {
    var a := Accumulate(EmptyAccumulator, ps);
    var r := BuildDailyAggregateRecord(dayKey, timezone, ps, at);
    assert r.restingHeartRate == StatOf(NumericOf(a, RestingHeartRateBpm));
    assert r.hrvSdnn == StatOf(NumericOf(a, HrvSdnnMs));
    assert r.bodyMass == StatOf(NumericOf(a, BodyMassKg));
    assert r.bodyFat == StatOf(NumericOf(a, BodyFatPercent));
    DailyStat(ps, RestingHeartRateBpm);
    DailyStat(ps, HrvSdnnMs);
    DailyStat(ps, BodyMassKg);
    DailyStat(ps, BodyFatPercent);
  }

  lemma RecordSleep(dayKey: string, timezone: string, ps: seq<Prepared>, at: int)
    requires AllWellFormed(ps)
    ensures var r := BuildDailyAggregateRecord(dayKey, timezone, ps, at);
      && r.sleep == SleepTotals(SleepSegments(ps), SleepMs(ps, InBed), SleepMs(ps, Asleep), SleepMs(ps, Awake),
                                SleepMs(ps, AsleepRem), SleepMs(ps, AsleepCore), SleepMs(ps, AsleepDeep))
      && r.sleepTotalAsleepMs == SleepMs(ps, Asleep) + SleepMs(ps, AsleepRem) + SleepMs(ps, AsleepCore) + SleepMs(ps, AsleepDeep)
  {
    var a := Accumulate(EmptyAccumulator, ps);
    var r := BuildDailyAggregateRecord(dayKey, timezone, ps, at);
    assert r.sleep == a.sleep && r.sleepTotalAsleepMs == a.sleep.asleepMs + a.sleep.remMs + a.sleep.coreMs + a.sleep.deepMs;
    AccumulateSleep(EmptyAccumulator, ps);
  }

  lemma {:induction false} AccumulateAppend(acc: Accumulator, ps: seq<Prepared>, p: Prepared)
    requires AllWellFormed(ps) && Aggregatable(p.sample)
    ensures AllWellFormed(ps + [p])
    ensures Accumulate(acc, ps + [p]) == AddSample(Accumulate(acc, ps), p.sample)
    decreases |ps|
  {
    if |ps| > 0 {
      assert (ps + [p])[1..] == ps[1..] + [p];
      AccumulateAppend(AddSample(acc, ps[0].sample), ps[1..], p);
    } else {
      assert ps + [p] == [p];
    }
  }

  lemma {:induction false} ReadingsAppend(ps: seq<Prepared>, p: Prepared, m: Metric)
    requires AllWellFormed(ps) && Aggregatable(p.sample) && m != SleepSegment
    ensures AllWellFormed(ps + [p])
    ensures Readings(ps + [p], m) == Readings(ps, m) + (if p.sample.metric == m then [Reading(p.sample)] else [])
    decreases |ps|
  {
    if |ps| > 0 {
      assert (ps + [p])[1..] == ps[1..] + [p];
      ReadingsAppend(ps[1..], p, m);
    } else {
      assert ps + [p] == [p];
    }
  }

  /** As written, a dietary sample leaves the emitted row exactly as it was,
      while the corrected row counts it. */
  lemma AsWrittenIgnoresDietary(dayKey: string, timezone: string, ps: seq<Prepared>, p: Prepared, at: int)
    requires AllWellFormed(ps) && Aggregatable(p.sample) && p.sample.metric == DietaryEnergyKcal
    ensures AllWellFormed(ps + [p])
    ensures BuildRollup(dayKey, timezone, ps + [p], at) == BuildRollup(dayKey, timezone, ps, at)
    ensures BuildDailyAggregateRecord(dayKey, timezone, ps + [p], at).dietaryEnergy.samples
         == BuildDailyAggregateRecord(dayKey, timezone, ps, at).dietaryEnergy.samples + 1
  {
    AccumulateAppend(EmptyAccumulator, ps, p);
    ReadingsAppend(ps, p, DietaryEnergyKcal);
    FoldTotalMeaning(Total(0.0, 0), ps + [p], DietaryEnergyKcal);
    FoldTotalMeaning(Total(0.0, 0), ps, DietaryEnergyKcal);
  }
}

=== FILE: health_ingest.dfy ===
/** The ingest mutation and the listing queries of the backend
    (packages/backend/convex/healthInternal.ts). A batch is validated sample
    by sample, deduplicated by sample key and appended to the raw table;
    every day that gained a sample then has its daily row rebuilt from all
    stored samples of that day. A mutation is a transaction: a failure
    leaves both tables as they were, so it returns no new store.
 */
module HealthIngest {
  import opened Wrappers
  import opened JsNumbers
  import opened StringOrder
  import opened HealthTypes
  import opened HealthDomain
  import opened Paging

  /** A `healthRawSamples` row. */
  datatype StoredSample = StoredSample(sample: IngestSample, deviceId: string, dayKey: string, ingestedAtMs: int)

  /** The raw table, in insertion order, and the daily table keyed by day. */
  datatype HealthStore = HealthStore(raw: seq<StoredSample>, daily: map<string, DailyRecord>)

  /** The `by_sample_key` lookup finds a row. */
  predicate HasSampleKey(raw: seq<StoredSample>, key: string) {
    exists i | 0 <= i < |raw| :: raw[i].sample.sampleKey == key
  }

  /** The sample keys of the raw table. */
  function Keys(raw: seq<StoredSample>): (ks: set<string>)
    ensures forall k :: k in ks <==> HasSampleKey(raw, k)
  {
    set i | 0 <= i < |raw| :: raw[i].sample.sampleKey
  }

  /** Per-sample validation as the ingest loop sees it: a sample either
      fails with a message or comes back with the day it falls on. */
  type Validator = IngestSample -> Result<Prepared, string>

  /** What the rollup needs from validation: an accepted sample is returned
      unchanged and is fit for aggregation. */
  ghost predicate ValidatorSound(validate: Validator) {
    forall s :: validate(s).Success? ==> validate(s).value.sample == s && Aggregatable(s)
  }

  /** `validateAndPrepareSample` with the day computed in the sample's own zone. */
  function Validation(zone: ZoneDayKey): (validate: Validator)
    ensures ValidatorSound(validate)
    ensures forall s :: validate(s) == ValidateAndPrepareSample(s, zone)
  {
    assert forall s :: ValidateAndPrepareSample(s, zone).Success? ==> Aggregatable(s) by {
      forall s | ValidateAndPrepareSample(s, zone).Success? {
        WellFormedIsAggregatable(s);
      }
    }
    s => ValidateAndPrepareSample(s, zone)
  }

  /** What every row of the raw table satisfies: it passed validation with
      the day key it carries, and no two rows share a sample key. */
  predicate StoredValid(raw: seq<StoredSample>, validate: Validator) {
    && (forall i | 0 <= i < |raw| :: validate(raw[i].sample) == Success(Prepared(raw[i].sample, raw[i].dayKey)))
    && (forall i, j | 0 <= i < j < |raw| :: raw[i].sample.sampleKey != raw[j].sample.sampleKey)
  }

  const ErrBatchTooLarge := "Batch exceeds maximum size of 500"
  const ErrDayKey := "Invalid day key format, expected YYYY-MM-DD"
  const ErrDayOrder := "from must be <= to"

  // ---------------------------------------------------------------- the insert loop

  /** The loop variables: the raw table, both counters and the affected
      days in the order the `Set` first saw them. */
  datatype IngestState = IngestState(raw: seq<StoredSample>, inserted: nat, deduped: nat, affected: seq<string>)

  /** `affectedDays.add(day)`. */
  function AddDay(days: seq<string>, day: string): (r: seq<string>)
    ensures forall y :: y in r <==> y in days || y == day
  {
    if day in days then days else days + [day]
  }

  /** One admitted sample: a duplicate key bumps `deduped`, a new key is
      appended with its day and counted in `inserted`. */
  function Admit(st: IngestState, p: Prepared, deviceId: string, now: int): IngestState {
    if HasSampleKey(st.raw, p.sample.sampleKey) then st.(deduped := st.deduped + 1)
    else IngestState(st.raw + [StoredSample(p.sample, deviceId, p.dayKey, now)], st.inserted + 1, st.deduped, AddDay(st.affected, p.dayKey))
  }

  /** The loop over the batch: validate, skip a key already stored (by an
      earlier call or earlier in this batch), otherwise insert. The first
      invalid sample aborts. */
  function IngestSamples(st: IngestState, samples: seq<IngestSample>, deviceId: string, validate: Validator, now: int)
    : (r: Result<IngestState, string>)
    ensures r.Success? <==> forall i | 0 <= i < |samples| :: validate(samples[i]).Success?
    ensures r.Success? ==> r.value.inserted + r.value.deduped == st.inserted + st.deduped + |samples|
    decreases |samples|
  {
    if |samples| == 0 then Success(st)
    else match validate(samples[0])
      case Failure(e) => Failure(e)
      case Success(p) =>
        var next := Admit(st, p, deviceId, now);
        var r := IngestSamples(next, samples[1..], deviceId, validate, now);
        assert r.Success? <==> forall i | 0 <= i < |samples| :: validate(samples[i]).Success? by {
          assert forall i | 1 <= i < |samples| :: samples[1..][i - 1] == samples[i];
        }
        r
  }

  /** The samples of a batch that the loop inserts, defined on keys alone:
      those whose key is neither in `known` nor used by an earlier sample. */
  function FirstSeen(known: set<string>, samples: seq<IngestSample>): seq<IngestSample>
    decreases |samples|
  {
    if |samples| == 0 then []
    else if samples[0].sampleKey in known then FirstSeen(known, samples[1..])
    else [samples[0]] + FirstSeen(known + {samples[0].sampleKey}, samples[1..])
  }

  function SamplesOf(rows: seq<StoredSample>): (r: seq<IngestSample>)
    ensures |r| == |rows|
    ensures forall i | 0 <= i < |rows| :: r[i] == rows[i].sample
  {
    if |rows| == 0 then [] else [rows[0].sample] + SamplesOf(rows[1..])
  }

  lemma KeysAppend(raw: seq<StoredSample>, x: StoredSample)
    ensures Keys(raw + [x]) == Keys(raw) + {x.sample.sampleKey}
  {
    assert (raw + [x])[|raw|] == x;
    forall k | k in Keys(raw)
      ensures k in Keys(raw + [x])
    {
      var i :| 0 <= i < |raw| && raw[i].sample.sampleKey == k;
      assert (raw + [x])[i] == raw[i];
    }
  }

  lemma DropOne<T>(a: seq<T>, n: nat)
    requires n < |a|
    ensures a[n..] == [a[n]] + a[n + 1..]
  {
  }

  lemma SamplesOfCons(x: StoredSample, rows: seq<StoredSample>)
    ensures SamplesOf([x] + rows) == [x.sample] + SamplesOf(rows)
  {
    assert ([x] + rows)[1..] == rows;
  }

  lemma SamplesOfAppend(rows: seq<StoredSample>, x: StoredSample)
    ensures SamplesOf(rows + [x]) == SamplesOf(rows) + [x.sample]
  {
  }

  /** A key found in a table is still found once rows are appended. */
  lemma HasSampleKeyExtends(a: seq<StoredSample>, b: seq<StoredSample>, key: string)
    requires |a| <= |b| && b[..|a|] == a && HasSampleKey(a, key)
    ensures HasSampleKey(b, key)
  {
    var i :| 0 <= i < |a| && a[i].sample.sampleKey == key;
    assert b[i] == b[..|a|][i];
  }

  /** One admitted sample keeps the table's invariant and leaves its key stored. */
  lemma AdmitKeepsValid(st: IngestState, p: Prepared, deviceId: string, validate: Validator, now: int)
    requires StoredValid(st.raw, validate) && validate(p.sample) == Success(p)
    ensures var next := Admit(st, p, deviceId, now);
      StoredValid(next.raw, validate) && HasSampleKey(next.raw, p.sample.sampleKey)
  {
    if !HasSampleKey(st.raw, p.sample.sampleKey) {
      var next := Admit(st, p, deviceId, now);
      assert next.raw[|st.raw|].sample == p.sample;
      assert forall i | 0 <= i < |st.raw| :: next.raw[i] == st.raw[i];
    }
  }

  /** The loop only appends: earlier rows stay, and `inserted` counts the new ones. */
  lemma {:induction false} IngestPrefix(st: IngestState, samples: seq<IngestSample>, deviceId: string, validate: Validator, now: int)
    requires IngestSamples(st, samples, deviceId, validate, now).Success?
    ensures var r := IngestSamples(st, samples, deviceId, validate, now).value;
      && |st.raw| <= |r.raw| && r.raw[..|st.raw|] == st.raw
      && r.inserted == st.inserted + (|r.raw| - |st.raw|)
    decreases |samples|
  {
    if |samples| > 0 {
      var p := validate(samples[0]).value;
      var next := Admit(st, p, deviceId, now);
      IngestPrefix(next, samples[1..], deviceId, validate, now);
      var r := IngestSamples(st, samples, deviceId, validate, now).value;
      assert r.raw[..|st.raw|] == r.raw[..|next.raw|][..|st.raw|];
    }
  }

  /** The rows the loop appends are exactly the first-seen samples of the batch. */
  lemma {:induction false} IngestAppends(st: IngestState, samples: seq<IngestSample>, deviceId: string, validate: Validator, now: int)
    requires ValidatorSound(validate)
    requires IngestSamples(st, samples, deviceId, validate, now).Success?
    ensures var r := IngestSamples(st, samples, deviceId, validate, now).value;
      |st.raw| <= |r.raw| && SamplesOf(r.raw[|st.raw|..]) == FirstSeen(Keys(st.raw), samples)
    decreases |samples|
  {
    IngestPrefix(st, samples, deviceId, validate, now);
    var r := IngestSamples(st, samples, deviceId, validate, now).value;
    if |samples| == 0 {
      assert st.raw[|st.raw|..] == [];
    } else {
      var p := validate(samples[0]).value;
      assert p.sample == samples[0];
      var next := Admit(st, p, deviceId, now);
      assert IngestSamples(st, samples, deviceId, validate, now) == IngestSamples(next, samples[1..], deviceId, validate, now);
      IngestAppends(next, samples[1..], deviceId, validate, now);
      IngestPrefix(next, samples[1..], deviceId, validate, now);
      var tail := r.raw[|next.raw|..];
      if HasSampleKey(st.raw, samples[0].sampleKey) {
        assert next.raw == st.raw;
        assert samples[0].sampleKey in Keys(st.raw);
      } else {
        var row := StoredSample(p.sample, deviceId, p.dayKey, now);
        assert next.raw == st.raw + [row];
        KeysAppend(st.raw, row);
        assert r.raw[|st.raw|] == r.raw[..|next.raw|][|st.raw|] == row;
        DropOne(r.raw, |st.raw|);
        SamplesOfCons(row, tail);
      }
    }
  }

  /** The loop keeps the table's invariant (validated rows, unique keys)
      and leaves every key of the batch stored. */
  lemma {:induction false} IngestKeepsValid(st: IngestState, samples: seq<IngestSample>, deviceId: string, validate: Validator, now: int)
    requires ValidatorSound(validate) && StoredValid(st.raw, validate)
    requires IngestSamples(st, samples, deviceId, validate, now).Success?
    ensures StoredValid(IngestSamples(st, samples, deviceId, validate, now).value.raw, validate)
    ensures forall i | 0 <= i < |samples| :: HasSampleKey(IngestSamples(st, samples, deviceId, validate, now).value.raw, samples[i].sampleKey)
    decreases |samples|
  {
    if |samples| > 0 {
      var p := validate(samples[0]).value;
      assert p.sample == samples[0];
      var next := Admit(st, p, deviceId, now);
      AdmitKeepsValid(st, p, deviceId, validate, now);
      IngestKeepsValid(next, samples[1..], deviceId, validate, now);
      IngestPrefix(next, samples[1..], deviceId, validate, now);
      var r := IngestSamples(st, samples, deviceId, validate, now).value;
      HasSampleKeyExtends(next.raw, r.raw, samples[0].sampleKey);
      forall i | 1 <= i < |samples|
        ensures HasSampleKey(r.raw, samples[i].sampleKey)
      {
        assert samples[1..][i - 1] == samples[i];
      }
    }
  }

  /** The rows the loop appends carry the device, the server time and the
      day validation gave them. */
  lemma {:induction false} IngestRows(st: IngestState, samples: seq<IngestSample>, deviceId: string, validate: Validator, now: int)
    requires ValidatorSound(validate)
    requires IngestSamples(st, samples, deviceId, validate, now).Success?
    ensures var r := IngestSamples(st, samples, deviceId, validate, now).value;
      forall i | |st.raw| <= i < |r.raw| ::
        r.raw[i].deviceId == deviceId && r.raw[i].ingestedAtMs == now
        && validate(r.raw[i].sample) == Success(Prepared(r.raw[i].sample, r.raw[i].dayKey))
    decreases |samples|
  {
    if |samples| > 0 {
      var p := validate(samples[0]).value;
      var next := Admit(st, p, deviceId, now);
      IngestRows(next, samples[1..], deviceId, validate, now);
      IngestPrefix(next, samples[1..], deviceId, validate, now);
    }
  }

  /** The affected days are the days of the rows the loop appended. */
  lemma {:induction false} IngestAffected(st: IngestState, samples: seq<IngestSample>, deviceId: string, validate: Validator, now: int)
    requires ValidatorSound(validate)
    requires IngestSamples(st, samples, deviceId, validate, now).Success?
    ensures var r := IngestSamples(st, samples, deviceId, validate, now).value;
      forall y :: y in r.affected <==> y in st.affected || exists i | |st.raw| <= i < |r.raw| :: r.raw[i].dayKey == y
    decreases |samples|
  {
    if |samples| > 0 {
      var p := validate(samples[0]).value;
      var next := Admit(st, p, deviceId, now);
      IngestAffected(next, samples[1..], deviceId, validate, now);
      IngestPrefix(next, samples[1..], deviceId, validate, now);
      var r := IngestSamples(st, samples, deviceId, validate, now).value;
      if !HasSampleKey(st.raw, p.sample.sampleKey) {
        assert r.raw[|st.raw|] == next.raw[|st.raw|];
        forall y
          ensures y in r.affected <==> y in st.affected || exists i | |st.raw| <= i < |r.raw| :: r.raw[i].dayKey == y
        {
          if exists i | |st.raw| <= i < |r.raw| :: r.raw[i].dayKey == y {
            var i :| |st.raw| <= i < |r.raw| && r.raw[i].dayKey == y;
            if i != |st.raw| {
              assert |next.raw| <= i;
            }
          }
        }
      }
    }
  }

  /** A batch whose keys are all stored already changes no row: every
      sample is counted as a duplicate. */
  lemma {:induction false} IngestAllKnown(st: IngestState, samples: seq<IngestSample>, deviceId: string, validate: Validator, now: int)
    requires ValidatorSound(validate)
    requires forall i | 0 <= i < |samples| :: validate(samples[i]).Success?
    requires forall i | 0 <= i < |samples| :: HasSampleKey(st.raw, samples[i].sampleKey)
    ensures IngestSamples(st, samples, deviceId, validate, now) == Success(st.(deduped := st.deduped + |samples|))
    decreases |samples|
  {
    if |samples| > 0 {
      var p := validate(samples[0]).value;
      assert p.sample == samples[0];
      assert forall i | 1 <= i < |samples| :: samples[1..][i - 1] == samples[i];
      IngestAllKnown(st.(deduped := st.deduped + 1), samples[1..], deviceId, validate, now);
    }
  }

  // ---------------------------------------------------------------- recomputing days

  /** The rows of one day and one metric in insertion order: the
      `by_day_and_metric` index (ties are ordered by creation). */
  function RowsOf(raw: seq<StoredSample>, day: string, m: Metric): (r: seq<StoredSample>)
    ensures forall x :: x in r <==> x in raw && x.dayKey == day && x.sample.metric == m
  {
    if |raw| == 0 then []
    else (if raw[0].dayKey == day && raw[0].sample.metric == m then [raw[0]] else []) + RowsOf(raw[1..], day, m)
  }

  /** The rows `collectPreparedSamplesForDay` visits: metric by metric in HEALTH_METRICS order. */
  function CollectRows(raw: seq<StoredSample>, day: string, metrics: seq<Metric>): (r: seq<StoredSample>)
    ensures forall x :: x in r <==> x in raw && x.dayKey == day && x.sample.metric in metrics
  {
    if |metrics| == 0 then [] else CollectRows(raw, day, metrics[..|metrics| - 1]) + RowsOf(raw, day, metrics[|metrics| - 1])
  }

  /** Re-validating the collected rows, as `collectPreparedSamplesForDay` does; the first failure throws. */
  function PrepareAll(rows: seq<StoredSample>, validate: Validator): (r: Result<seq<Prepared>, string>)
    requires ValidatorSound(validate)
    ensures r.Success? ==> |r.value| == |rows| && AllWellFormed(r.value)
    ensures r.Success? ==> forall i | 0 <= i < |rows| :: r.value[i].sample == rows[i].sample
  {
    if |rows| == 0 then Success([])
    else match validate(rows[0].sample)
      case Failure(e) => Failure(e)
      case Success(p) =>
        match PrepareAll(rows[1..], validate)
        case Failure(e) => Failure(e)
        case Success(ps) =>
          Success([p] + ps)
  }

  /** The rows of a day, each with the day it was stored under. */
  function PreparedRows(rows: seq<StoredSample>): (ps: seq<Prepared>)
    ensures |ps| == |rows|
    ensures forall i | 0 <= i < |rows| :: ps[i] == Prepared(rows[i].sample, rows[i].dayKey)
  {
    if |rows| == 0 then [] else [Prepared(rows[0].sample, rows[0].dayKey)] + PreparedRows(rows[1..])
  }

  /** Rows that passed validation pass it again, with the day they carry. */
  lemma {:induction false} PrepareStoredRows(rows: seq<StoredSample>, validate: Validator)
    requires ValidatorSound(validate)
    requires forall i | 0 <= i < |rows| :: validate(rows[i].sample) == Success(Prepared(rows[i].sample, rows[i].dayKey))
    ensures PrepareAll(rows, validate) == Success(PreparedRows(rows))
  {
    if |rows| > 0 {
      assert forall i | 1 <= i < |rows| :: rows[1..][i - 1] == rows[i];
      PrepareStoredRows(rows[1..], validate);
    }
  }

  /** The rebuilt row of one day: none when the day has no samples, else
      `buildDailyAggregateRecord` over them with the first one's zone. */
  function DayRow(ps: seq<Prepared>, day: string, now: int): (r: Option<DailyRecord>)
    requires AllWellFormed(ps)
    ensures r.Some? <==> |ps| > 0
    ensures r.Some? ==> r.value.dayKey == day && r.value.timezone == ps[0].sample.timezone && r.value.recomputedAtMs == now
  {
    if |ps| == 0 then None
    else
      DailyRecordMeaning(day, ps[0].sample.timezone, ps, now);
      Some(BuildDailyAggregateRecord(day, ps[0].sample.timezone, ps, now))
  }

  /** One iteration of the recompute loop: collect, re-validate, then
      delete the row of an empty day or insert / patch it otherwise. */
  function RecomputeDay(raw: seq<StoredSample>, daily: map<string, DailyRecord>, day: string, validate: Validator, now: int)
    : (r: Result<map<string, DailyRecord>, string>)
    requires ValidatorSound(validate)
    ensures r.Success? ==> forall k | k != day :: (k in r.value <==> k in daily) && (k in daily ==> r.value[k] == daily[k])
    ensures r.Success? && RowsKeyed(daily) ==> RowsKeyed(r.value)
  {
    match PrepareAll(CollectRows(raw, day, HealthMetrics), validate)
    case Failure(e) => Failure(e)
    case Success(ps) =>
      match DayRow(ps, day, now)
      case None => Success(daily - {day})
      case Some(row) => Success(daily[day := row])
  }

  /** The recompute loop over the sorted affected days. */
  function RecomputeDays(raw: seq<StoredSample>, daily: map<string, DailyRecord>, days: seq<string>, validate: Validator, now: int)
    : (r: Result<map<string, DailyRecord>, string>)
    requires ValidatorSound(validate)
    ensures r.Success? ==> forall k | k !in days :: (k in r.value <==> k in daily) && (k in daily ==> r.value[k] == daily[k])
    ensures r.Success? && RowsKeyed(daily) ==> RowsKeyed(r.value)
    decreases |days|
  {
    if |days| == 0 then Success(daily)
    else match RecomputeDay(raw, daily, days[0], validate, now)
      case Failure(e) => Failure(e)
      case Success(d) => RecomputeDays(raw, d, days[1..], validate, now)
  }

  /** The row a day has after a recompute, from the stored rows alone. */
  function ExpectedRow(raw: seq<StoredSample>, day: string, validate: Validator, now: int): Option<DailyRecord>
    requires ValidatorSound(validate) && StoredValid(raw, validate)
  {
    var rows := CollectRows(raw, day, HealthMetrics);
    var ps := PreparedRows(rows);
    assert AllWellFormed(ps) by {
      forall i | 0 <= i < |ps|
        ensures Aggregatable(ps[i].sample)
      {
        assert rows[i] in raw;
      }
    }
    DayRow(ps, day, now)
  }

  /** On a valid table the recompute never fails, and every listed day
      ends up with the row its stored samples determine. */
  lemma {:induction false} RecomputeDaysMeaning(raw: seq<StoredSample>, daily: map<string, DailyRecord>, days: seq<string>, validate: Validator, now: int)
    requires ValidatorSound(validate) && StoredValid(raw, validate)
    ensures RecomputeDays(raw, daily, days, validate, now).Success?
    ensures forall k | k in days ::
      var d := RecomputeDays(raw, daily, days, validate, now).value;
      match ExpectedRow(raw, k, validate, now)
      case None => k !in d
      case Some(row) => k in d && d[k] == row
    decreases |days|
  {
    if |days| > 0 {
      var day := days[0];
      var rows := CollectRows(raw, day, HealthMetrics);
      forall i | 0 <= i < |rows|
        ensures validate(rows[i].sample) == Success(Prepared(rows[i].sample, rows[i].dayKey))
      {
        assert rows[i] in raw;
      }
      PrepareStoredRows(rows, validate);
      var d := RecomputeDay(raw, daily, day, validate, now).value;
      RecomputeDaysMeaning(raw, d, days[1..], validate, now);
      var final := RecomputeDays(raw, daily, days, validate, now).value;
      forall k | k in days
        ensures match ExpectedRow(raw, k, validate, now)
          case None => k !in final
          case Some(row) => k in final && final[k] == row
      {
        if k !in days[1..] {
          assert k == day;
        }
      }
    }
  }

  // ---------------------------------------------------------------- the mutation

  /** `upsertRawSamples`: the size check, the insert loop, then the
      recompute of every affected day in sorted order. */
  function UpsertRawSamples(store: HealthStore, deviceId: string, samples: seq<IngestSample>, validate: Validator, now: int)
    : (r: Result<(HealthStore, IngestResponse), string>)
    requires ValidatorSound(validate)
    ensures |samples| > MaxIngestBatchSize ==> r == Failure(ErrBatchTooLarge)
    ensures r.Success? ==> r.value.1.inserted + r.value.1.deduped == |samples| && r.value.1.serverTimeMs == now
    ensures r.Success? ==> StrictlySorted(r.value.1.recomputedDays)
  {
    if |samples| > MaxIngestBatchSize then Failure(ErrBatchTooLarge)
    else match IngestSamples(IngestState(store.raw, 0, 0, []), samples, deviceId, validate, now)
      case Failure(e) => Failure(e)
      case Success(st) =>
        var days := SortedOf(st.affected);
        match RecomputeDays(st.raw, store.daily, days, validate, now)
        case Failure(e) => Failure(e)
        case Success(daily) => Success((HealthStore(st.raw, daily), IngestResponse(st.inserted, st.deduped, days, now)))
  }

  /** On a valid table the mutation fails exactly when the batch is too
      large or one of its samples is invalid. */
  lemma UpsertFailsOnlyOnBadInput(store: HealthStore, deviceId: string, samples: seq<IngestSample>, validate: Validator, now: int)
    requires ValidatorSound(validate) && StoredValid(store.raw, validate)
    ensures UpsertRawSamples(store, deviceId, samples, validate, now).Failure?
        <==> |samples| > MaxIngestBatchSize || exists i | 0 <= i < |samples| :: validate(samples[i]).Failure?
  {
    if |samples| <= MaxIngestBatchSize {
      var st0 := IngestState(store.raw, 0, 0, []);
      var r := IngestSamples(st0, samples, deviceId, validate, now);
      if r.Success? {
        IngestKeepsValid(st0, samples, deviceId, validate, now);
        RecomputeDaysMeaning(r.value.raw, store.daily, SortedOf(r.value.affected), validate, now);
      }
    }
  }

  /** With the source's validator, one invalid sample anywhere in the batch
      rejects the whole call. */
  lemma UpsertRejectsInvalidSample(store: HealthStore, deviceId: string, samples: seq<IngestSample>, zone: ZoneDayKey, now: int, i: nat)
    requires i < |samples| && ValidateAndPrepareSample(samples[i], zone).Failure?
    ensures UpsertRawSamples(store, deviceId, samples, Validation(zone), now).Failure?
  {
    var validate := Validation(zone);
    assert validate(samples[i]).Failure?;
  }

  /** Ingest is append-only and dedups by key: the old rows stay as they
      were, the new rows are the first-seen samples of the batch, every
      sample key of the batch is stored afterwards, and the table keeps
      its invariant. */
  lemma UpsertAppends(store: HealthStore, deviceId: string, samples: seq<IngestSample>, validate: Validator, now: int)
    requires ValidatorSound(validate) && StoredValid(store.raw, validate)
    requires UpsertRawSamples(store, deviceId, samples, validate, now).Success?
    ensures var (s, resp) := UpsertRawSamples(store, deviceId, samples, validate, now).value;
      && |store.raw| <= |s.raw| && s.raw[..|store.raw|] == store.raw
      && SamplesOf(s.raw[|store.raw|..]) == FirstSeen(Keys(store.raw), samples)
      && resp.inserted == |s.raw| - |store.raw|
      && (forall i | 0 <= i < |samples| :: HasSampleKey(s.raw, samples[i].sampleKey))
      && StoredValid(s.raw, validate)
  {
    var st0 := IngestState(store.raw, 0, 0, []);
    IngestPrefix(st0, samples, deviceId, validate, now);
    IngestAppends(st0, samples, deviceId, validate, now);
    IngestKeepsValid(st0, samples, deviceId, validate, now);
  }

  /** The recomputed days are exactly the days of the inserted rows. */
  lemma UpsertRecomputedDays(store: HealthStore, deviceId: string, samples: seq<IngestSample>, validate: Validator, now: int)
    requires ValidatorSound(validate)
    requires UpsertRawSamples(store, deviceId, samples, validate, now).Success?
    ensures var (s, resp) := UpsertRawSamples(store, deviceId, samples, validate, now).value;
      forall y :: y in resp.recomputedDays <==> exists i | |store.raw| <= i < |s.raw| :: s.raw[i].dayKey == y
  {
    IngestAffected(IngestState(store.raw, 0, 0, []), samples, deviceId, validate, now);
  }

  /** Each recomputed day gets the row its stored samples determine (or
      loses its row if it has none); every other day keeps its row, and
      each row stays under its own day. */
  lemma UpsertDailyRows(store: HealthStore, deviceId: string, samples: seq<IngestSample>, validate: Validator, now: int)
    requires ValidatorSound(validate) && StoredValid(store.raw, validate) && RowsKeyed(store.daily)
    requires UpsertRawSamples(store, deviceId, samples, validate, now).Success?
    ensures StoredValid(UpsertRawSamples(store, deviceId, samples, validate, now).value.0.raw, validate)
    ensures var (s, resp) := UpsertRawSamples(store, deviceId, samples, validate, now).value;
      && RowsKeyed(s.daily)
      && (forall k | k in resp.recomputedDays ::
            match ExpectedRow(s.raw, k, validate, now)
            case None => k !in s.daily
            case Some(row) => k in s.daily && s.daily[k] == row)
      && (forall k | k !in resp.recomputedDays :: (k in s.daily <==> k in store.daily) && (k in store.daily ==> s.daily[k] == store.daily[k]))
  {
    var st0 := IngestState(store.raw, 0, 0, []);
    var st := IngestSamples(st0, samples, deviceId, validate, now).value;
    IngestKeepsValid(st0, samples, deviceId, validate, now);
    RecomputeDaysMeaning(st.raw, store.daily, SortedOf(st.affected), validate, now);
  }

  /** Sending the same batch again inserts nothing, counts every sample as
      a duplicate, recomputes no day and leaves both tables unchanged. */
  lemma UpsertIdempotent(store: HealthStore, deviceId: string, samples: seq<IngestSample>, validate: Validator, now: int, later: int)
    requires ValidatorSound(validate) && StoredValid(store.raw, validate)
    requires UpsertRawSamples(store, deviceId, samples, validate, now).Success?
    ensures var s := UpsertRawSamples(store, deviceId, samples, validate, now).value.0;
      UpsertRawSamples(s, deviceId, samples, validate, later)
        == Success((s, IngestResponse(0, |samples|, [], later)))
  {
    UpsertAppends(store, deviceId, samples, validate, now);
    var s := UpsertRawSamples(store, deviceId, samples, validate, now).value.0;
    IngestAllKnown(IngestState(s.raw, 0, 0, []), samples, deviceId, validate, later);
  }

  /** The rows `collectPreparedSamplesForDay` gathers are exactly the stored
      rows of that day: every metric is visited. */
  lemma CollectRowsAreTheDay(raw: seq<StoredSample>, day: string)
    ensures forall x :: x in CollectRows(raw, day, HealthMetrics) <==> x in raw && x.dayKey == day
  {
    HealthMetricsComplete();
  }

  // ---------------------------------------------------------------- listings

  /** Every daily row sits under its own day. */
  predicate RowsKeyed(daily: map<string, DailyRecord>) {
    forall k | k in daily :: daily[k].dayKey == k
  }

  /** `assertValidDayKey`. */
  function CheckDayKey(k: string): (r: Result<string, string>)
    ensures r.Success? <==> IsValidDayKey(k)
    ensures r.Success? ==> r.value == k
    ensures r.Failure? ==> r.error == ErrDayKey
  {
    if IsValidDayKey(k) then Success(k) else Failure(ErrDayKey)
  }

  /** `assertDayRange`: both keys well formed, then `from <= to`. */
  function CheckDayRange(from: string, to: string): (r: Result<(string, string), string>)
    ensures r.Success? <==> IsValidDayKey(from) && IsValidDayKey(to) && StrLe(from, to)
    ensures r.Failure? ==> r.error == (if IsValidDayKey(from) && IsValidDayKey(to) then ErrDayOrder else ErrDayKey)
  {
    if !IsValidDayKey(from) || !IsValidDayKey(to) then Failure(ErrDayKey)
    else if StrLt(to, from) then
      StrLtAsymmetric(to, from);
      StrLtIrreflexive(from);
      Failure(ErrDayOrder)
    else
      StrLtTotal(from, to);
      StrLtAsymmetric(from, to);
      Success((from, to))
  }

  /** `listDaily`: the rows whose day lies in `[from, to]`, in day order
      (the `by_day` index). The reshaping into per-metric objects only
      renames fields and is not modelled. */
  method ListDaily(daily: map<string, DailyRecord>, from: string, to: string) returns (r: Result<seq<DailyRecord>, string>)
    requires RowsKeyed(daily)
    ensures r.Success? <==> IsValidDayKey(from) && IsValidDayKey(to) && StrLe(from, to)
    ensures r.Success? ==> forall i | 0 <= i < |r.value| ::
      var k := r.value[i].dayKey; k in daily && daily[k] == r.value[i] && StrLe(from, k) && StrLe(k, to)
    ensures r.Success? ==> forall k | k in daily && StrLe(from, k) && StrLe(k, to) ::
      daily[k] in r.value
    ensures r.Success? ==> forall i, j | 0 <= i < j < |r.value| :: StrLt(r.value[i].dayKey, r.value[j].dayKey)
  {
    var checked := CheckDayRange(from, to);
    if checked.Failure? {
      return Failure(checked.error);
    }
    var inRange := set k | k in daily && StrLe(from, k) && StrLe(k, to);
    var keys := SortStrings(inRange);
    assert forall j | 0 <= j < |keys| :: keys[j] in inRange;
    var rows: seq<DailyRecord> := [];
    var i := 0;
    while i < |keys|
      invariant 0 <= i <= |keys|
      invariant |rows| == i
      invariant forall j | 0 <= j < i :: rows[j] == daily[keys[j]] && rows[j].dayKey == keys[j]
    {
      assert keys[i] in inRange;
      rows := rows + [daily[keys[i]]];
      i := i + 1;
    }
    forall k | k in inRange
      ensures daily[k] in rows
    {
      var j :| 0 <= j < |keys| && keys[j] == k;
      assert rows[j] == daily[k];
    }
    return Success(rows);
  }

  const ErrRawBounds := "fromMs and toMs must be integer millisecond timestamps"
  const ErrRawOrder := "fromMs must be <= toMs"
  const ErrRawLimit := "limit must be between 1 and 500"

  /** The start time a row is indexed by. Stored rows passed validation,
      so their start is always an integer and the fallback is never taken. */
  function StartOf(x: StoredSample): real {
    if x.sample.startTimeMs.Finite? then x.sample.startTimeMs.value else 0.0
  }

  /** The rows of metric `m` starting within `[fromMs, toMs]`. */
  predicate RawMatches(x: StoredSample, m: Metric, fromMs: int, toMs: int) {
    x.sample.metric == m && fromMs as real <= StartOf(x) <= toMs as real
  }

  predicate StartsNondecreasing(rows: seq<StoredSample>) {
    forall i, j | 0 <= i < j < |rows| :: StartOf(rows[i]) <= StartOf(rows[j])
  }

  /** Places `x` after every row that starts no later than it: the
      `by_metric_and_start` index orders by start time, ties by insertion. */
  function InsertByStart(sorted: seq<StoredSample>, x: StoredSample): (r: seq<StoredSample>)
    ensures multiset(r) == multiset(sorted) + multiset{x}
    ensures forall y :: y in r <==> y in sorted || y == x
  {
    if |sorted| == 0 then [x]
    else if StartOf(x) < StartOf(sorted[0]) then [x] + sorted
    else
      assert sorted == [sorted[0]] + sorted[1..];
      [sorted[0]] + InsertByStart(sorted[1..], x)
  }

  lemma {:induction false} InsertByStartSorted(sorted: seq<StoredSample>, x: StoredSample)
    requires StartsNondecreasing(sorted)
    ensures StartsNondecreasing(InsertByStart(sorted, x))
  {
    if |sorted| > 0 && StartOf(x) >= StartOf(sorted[0]) {
      InsertByStartSorted(sorted[1..], x);
      var rest := InsertByStart(sorted[1..], x);
      assert forall k | 0 <= k < |rest| :: StartOf(sorted[0]) <= StartOf(rest[k]) by {
        forall k | 0 <= k < |rest|
          ensures StartOf(sorted[0]) <= StartOf(rest[k])
        {
          assert rest[k] in sorted[1..] || rest[k] == x;
        }
      }
    }
  }

  /** The rows an index range scan meets, in index order. */
  function IndexScan(raw: seq<StoredSample>, m: Metric, fromMs: int, toMs: int): (r: seq<StoredSample>)
    ensures StartsNondecreasing(r)
    ensures forall x :: x in r <==> x in raw && RawMatches(x, m, fromMs, toMs)
  {
    if |raw| == 0 then []
    else
      var rest := IndexScan(raw[..|raw| - 1], m, fromMs, toMs);
      var x := raw[|raw| - 1];
      assert forall y :: y in raw <==> y in raw[..|raw| - 1] || y == x;
      if RawMatches(x, m, fromMs, toMs) then
        var r := InsertByStart(rest, x);
        InsertByStartSorted(rest, x);
        r
      else rest
  }

  /** `listRaw`: argument checks, then one page of the index scan starting at `cursor`. */
  function ListRaw(raw: seq<StoredSample>, m: Metric, fromMs: JsNumber, toMs: JsNumber, limit: JsNumber, cursor: nat)
    : (r: Result<Page<StoredSample>, string>)
    ensures r.Success? <==> IsInteger(fromMs) && IsInteger(toMs) && AsInt(fromMs) <= AsInt(toMs)
                            && IsInteger(limit) && 1 <= AsInt(limit) <= MaxRawPageSize
    ensures r.Success? ==> |r.value.items| <= AsInt(limit)
    ensures r.Success? ==> forall x | x in r.value.items :: x in raw && RawMatches(x, m, AsInt(fromMs), AsInt(toMs))
  {
    if !IsInteger(fromMs) || !IsInteger(toMs) then Failure(ErrRawBounds)
    else if AsInt(fromMs) > AsInt(toMs) then Failure(ErrRawOrder)
    else if !IsInteger(limit) || AsInt(limit) < 1 || AsInt(limit) > MaxRawPageSize then Failure(ErrRawLimit)
    else
      var all := IndexScan(raw, m, AsInt(fromMs), AsInt(toMs));
      Success(PageOf(all, cursor, AsInt(limit)))
  }

  /** Walking the pages from cursor 0 visits every matching row, in start order. */
  lemma ListRawPages(raw: seq<StoredSample>, m: Metric, fromMs: int, toMs: int, limit: nat, cursor: nat)
    requires fromMs <= toMs && 1 <= limit <= MaxRawPageSize
    requires cursor <= |IndexScan(raw, m, fromMs, toMs)|
    ensures var all := IndexScan(raw, m, fromMs, toMs);
      var r := ListRaw(raw, m, OfInt(fromMs), OfInt(toMs), OfInt(limit), cursor);
      && r.Success?
      && all[cursor..] == r.value.items + (if r.value.nextCursor.Some? then all[r.value.nextCursor.value..] else [])
      && (r.value.nextCursor.Some? ==> cursor < r.value.nextCursor.value <= |all|)
  {
  }
}

=== FILE: health_summary.dfy ===
/** The deterministic day and range summaries of the backend
    (packages/backend/convex/healthSummary.ts): hours from milliseconds,
    fixed bands for sleep and activity, and insights added by fixed rules in
    a fixed order. Numbers are exact reals; `Math.round` is floor of x + 1/2.
 */
module HealthSummary {
  import opened Wrappers
  import opened JsNumbers
  import opened HealthTypes
  import opened HealthDomain
  import opened Calendar

  // ---------------------------------------------------------------- rounding

  function Scale(decimals: nat): (m: real)
    ensures m >= 1.0
  {
    Pow10(decimals) as real
  }

  lemma DivThenMul(x: real, m: real)
    requires m > 0.0
    ensures (x / m) * m == x
  {
  }

  lemma MulThenDiv(x: real, m: real)
    requires m > 0.0
    ensures (x * m) / m == x
  {
  }

  lemma MulMonotone(a: real, b: real, m: real)
    requires a <= b && m > 0.0
    ensures a * m <= b * m
  {
  }

  /** `Math.round(x)`: the integer nearest to `x`, halves rounded up. */
  function MathRound(x: real): (k: int)
    ensures x - 0.5 < k as real <= x + 0.5
  {
    (x + 0.5).Floor
  }

  /** Only one integer lies in that half-open interval. */
  lemma MathRoundUnique(x: real, k: int)
    requires x - 0.5 < k as real <= x + 0.5
    ensures MathRound(x) == k
  {
  }

  lemma MathRoundMonotone(x: real, y: real)
    requires x <= y
    ensures MathRound(x) <= MathRound(y)
  {
  }

  /** `roundTo(value, decimals)`. */
  function RoundTo(value: real, decimals: nat): real {
    MathRound(value * Scale(decimals)) as real / Scale(decimals)
  }

  /** `roundTo` yields a multiple of 10^-decimals: the nearest one to `value`. */
  lemma RoundToUnits(value: real, decimals: nat)
    ensures RoundTo(value, decimals) * Scale(decimals) == MathRound(value * Scale(decimals)) as real
  {
    DivThenMul(MathRound(value * Scale(decimals)) as real, Scale(decimals));
  }

  lemma DivMonotone(a: real, b: real, m: real)
    requires a <= b && m > 0.0
    ensures a / m <= b / m
  {
    assert b / m - a / m == (b - a) / m;
  }

  /** `roundTo` divides the rounded scaled value back down. */
  lemma RoundToIs(value: real, decimals: nat, k: int)
    requires MathRound(value * Scale(decimals)) == k
    ensures RoundTo(value, decimals) == k as real / Scale(decimals)
  {
  }

  /** Rounding never reorders two values. */
  lemma RoundToMonotone(a: real, b: real, decimals: nat)
    requires a <= b
    ensures RoundTo(a, decimals) <= RoundTo(b, decimals)
  {
    var m := Scale(decimals);
    RoundToIs(a, decimals, MathRound(a * m));
    RoundToIs(b, decimals, MathRound(b * m));
    ScaledRoundMonotone(a, b, m);
  }

  lemma ScaledRoundMonotone(a: real, b: real, m: real)
    requires a <= b && m > 0.0
    ensures MathRound(a * m) as real / m <= MathRound(b * m) as real / m
  {
    var am, bm := a * m, b * m;
    MulMonotone(a, b, m);
    assert am <= bm;
    var ka, kb := MathRound(am), MathRound(bm);
    MathRoundMonotone(am, bm);
    assert ka as real <= kb as real;
    DivMonotone(ka as real, kb as real, m);
  }

  /** Multiples of 10^-decimals round to themselves; in particular whole
      numbers do, at any number of decimals. */
  lemma RoundToWhole(n: int, decimals: nat)
    ensures RoundTo(n as real, decimals) == n as real
  {
    var m := Scale(decimals);
    var k := n * Pow10(decimals);
    assert k as real == n as real * m;
    MathRoundUnique(n as real * m, k);
    RoundToIs(n as real, decimals, k);
    MulThenDiv(n as real, m);
  }

  const MsPerHour: int := 3_600_000

  /** `hoursFromMs`: hours, to two decimals. */
  function HoursFromMs(ms: int): real {
    RoundTo(ms as real / MsPerHour as real, 2)
  }

  // ---------------------------------------------------------------- bands

  datatype SleepBand = Short | Target | Extended
  datatype ActivityBand = Low | Moderate | High

  /** `sleepBand`: under 7 hours is short, over 9 is extended. */
  function SleepBandOf(asleepHours: real): SleepBand {
    if asleepHours < 7.0 then Short
    else if asleepHours > 9.0 then Extended
    else Target
  }

  /** `activityBand`: under 300 kcal is low, over 800 is high. */
  function ActivityBandOf(activeKcal: real): ActivityBand {
    if activeKcal < 300.0 then Low
    else if activeKcal > 800.0 then High
    else Moderate
  }

  function SleepRank(b: SleepBand): nat {
    match b
    case Short => 0
    case Target => 1
    case Extended => 2
  }

  function ActivityRank(b: ActivityBand): nat {
    match b
    case Low => 0
    case Moderate => 1
    case High => 2
  }

  /** Each band is the interval it names, both boundaries of the target
      range included, and more sleep never lowers the band. */
  lemma SleepBandIntervals(h: real, h2: real)
    ensures SleepBandOf(h) == Short <==> h < 7.0
    ensures SleepBandOf(h) == Target <==> 7.0 <= h <= 9.0
    ensures SleepBandOf(h) == Extended <==> h > 9.0
    ensures h <= h2 ==> SleepRank(SleepBandOf(h)) <= SleepRank(SleepBandOf(h2))
  {
  }

  lemma ActivityBandIntervals(kcal: real, kcal2: real)
    ensures ActivityBandOf(kcal) == Low <==> kcal < 300.0
    ensures ActivityBandOf(kcal) == Moderate <==> 300.0 <= kcal <= 800.0
    ensures ActivityBandOf(kcal) == High <==> kcal > 800.0
    ensures kcal <= kcal2 ==> ActivityRank(ActivityBandOf(kcal)) <= ActivityRank(ActivityBandOf(kcal2))
  {
  }

  // ---------------------------------------------------------------- insights

  datatype InsightCode =
    | SleepBelowTarget
    | SleepOnTarget
    | HighActivity
    | LowActivity
    | ElevatedRestingHr
    | HealthyHrv
    | NoData

  datatype Severity = Watch | Good | Info

  datatype Insight = Insight(code: InsightCode, severity: Severity, message: string)

  /** The position of each rule in the order `summarizeDay` applies them. */
  function RuleRank(c: InsightCode): nat {
    match c
    case SleepBelowTarget => 0
    case SleepOnTarget => 1
    case HighActivity => 2
    case LowActivity => 3
    case ElevatedRestingHr => 4
    case HealthyHrv => 5
    case NoData => 6
  }

  function SeverityOf(c: InsightCode): Severity {
    match c
    case SleepBelowTarget => Watch
    case SleepOnTarget => Good
    case HighActivity => Good
    case LowActivity => Info
    case ElevatedRestingHr => Watch
    case HealthyHrv => Good
    case NoData => Info
  }

  const MsgSleepBelowTarget := "Sleep was below 7 hours. Consider prioritizing recovery today."
  const MsgSleepOnTarget := "Sleep duration was within the target range."
  const MsgHighActivity := "Active calorie burn was high."
  const MsgLowActivity := "Active calorie burn was low."
  const MsgElevatedRestingHr := "Average resting heart rate was elevated."
  const MsgHealthyHrv := "HRV was in a strong range."
  const MsgNoData := "No health data was available for this day."

  function MessageOf(c: InsightCode): string {
    match c
    case SleepBelowTarget => MsgSleepBelowTarget
    case SleepOnTarget => MsgSleepOnTarget
    case HighActivity => MsgHighActivity
    case LowActivity => MsgLowActivity
    case ElevatedRestingHr => MsgElevatedRestingHr
    case HealthyHrv => MsgHealthyHrv
    case NoData => MsgNoData
  }

  /** The insight a rule adds: its code with a fixed severity and message. */
  function InsightOf(c: InsightCode): Insight {
    Insight(c, SeverityOf(c), MessageOf(c))
  }

  /** `hasAnyData`: some metric of the day has a sample. */
  predicate HasAnyData(r: DailyRecord) {
    || r.steps.samples > 0
    || r.activeEnergy.samples > 0
    || r.dietaryEnergy.samples > 0
    || r.sleep.sampleCount > 0
    || r.restingHeartRate.samples > 0
    || r.hrvSdnn.samples > 0
    || r.bodyMass.samples > 0
    || r.bodyFat.samples > 0
  }

  /** The condition under which `summarizeDay` adds each insight. */
  predicate Fires(c: InsightCode, sleep: SleepBand, activity: ActivityBand, r: DailyRecord) {
    match c
    case SleepBelowTarget => sleep == Short
    case SleepOnTarget => sleep == Target
    case HighActivity => activity == High
    case LowActivity => activity == Low
    case ElevatedRestingHr => r.restingHeartRate.samples > 0 && r.restingHeartRate.avg > 70.0
    case HealthyHrv => r.hrvSdnn.samples > 0 && r.hrvSdnn.avg >= 40.0
    case NoData => !HasAnyData(r)
  }

  /** The rules in the order `summarizeDay` applies them. */
  const Rules: seq<InsightCode> :=
    [SleepBelowTarget, SleepOnTarget, HighActivity, LowActivity, ElevatedRestingHr, HealthyHrv, NoData]

  predicate InRuleOrder(codes: seq<InsightCode>) {
    forall i, j | 0 <= i < j < |codes| :: RuleRank(codes[i]) < RuleRank(codes[j])
  }

  predicate InsightsInRuleOrder(xs: seq<Insight>) {
    forall i, j | 0 <= i < j < |xs| :: RuleRank(xs[i].code) < RuleRank(xs[j].code)
  }

  predicate HasCode(xs: seq<Insight>, c: InsightCode) {
    exists i | 0 <= i < |xs| :: xs[i].code == c
  }

  /** Applies `rules` in turn, keeping each one that fires. */
  function Fired(rules: seq<InsightCode>, fires: InsightCode -> bool): (codes: seq<InsightCode>)
    ensures forall c :: c in codes <==> c in rules && fires(c)
    ensures InRuleOrder(rules) ==> InRuleOrder(codes)
  {
    if |rules| == 0 then []
    else
      var rest := Fired(rules[1..], fires);
      var codes := (if fires(rules[0]) then [rules[0]] else []) + rest;
      assert InRuleOrder(rules) ==> InRuleOrder(codes) by {
        if InRuleOrder(rules) {
          assert InRuleOrder(rules[1..]) by {
            forall i, j | 0 <= i < j < |rules[1..]| ensures RuleRank(rules[1..][i]) < RuleRank(rules[1..][j]) {
              assert rules[1..][i] == rules[i + 1] && rules[1..][j] == rules[j + 1];
            }
          }
          forall k | 0 <= k < |rest| ensures RuleRank(rules[0]) < RuleRank(rest[k]) {
            assert rest[k] in rest;
            var j :| 0 <= j < |rules[1..]| && rules[1..][j] == rest[k];
            assert rules[j + 1] == rest[k];
          }
        }
      }
      codes
  }

  lemma RulesInOrder()
    ensures InRuleOrder(Rules)
    ensures forall c :: c in Rules
  {
    forall c ensures c in Rules {
      assert Rules[RuleRank(c)] == c;
    }
  }

  /** The insights the `rules` add when `fires` says which fire:
      in rule order, each with its fixed severity and message. */
  function InsightsFor(rules: seq<InsightCode>, fires: InsightCode -> bool): (xs: seq<Insight>)
    ensures InRuleOrder(rules) ==> InsightsInRuleOrder(xs)
    ensures forall c :: HasCode(xs, c) <==> c in rules && fires(c)
    ensures forall i | 0 <= i < |xs| :: xs[i] == InsightOf(xs[i].code)
  {
    var codes := Fired(rules, fires);
    var xs := seq(|codes|, i requires 0 <= i < |codes| => InsightOf(codes[i]));
    assert forall i | 0 <= i < |xs| :: xs[i].code == codes[i];
    assert forall c :: HasCode(xs, c) <==> c in codes by {
      forall c ensures HasCode(xs, c) <==> c in codes {
        if c in codes {
          var i :| 0 <= i < |codes| && codes[i] == c;
          assert xs[i].code == c;
        }
      }
    }
    xs
  }

  /** The insights of a day. */
  function Insights(sleep: SleepBand, activity: ActivityBand, r: DailyRecord): seq<Insight> {
    InsightsFor(Rules, c => Fires(c, sleep, activity, r))
  }

  /** Every rule is in `Rules`, so an insight is present exactly when its
      rule fires, and the insights come in rule order. */
  lemma InsightsMeaning(sleep: SleepBand, activity: ActivityBand, r: DailyRecord)
    ensures forall c :: HasCode(Insights(sleep, activity, r), c) <==> Fires(c, sleep, activity, r)
    ensures InsightsInRuleOrder(Insights(sleep, activity, r))
  {
    RulesInOrder();
  }

  // ---------------------------------------------------------------- the day summary

  datatype SleepSummary = SleepSummary(
    sampleCount: nat,
    inBedHours: real,
    asleepHours: real,
    awakeHours: real,
    remHours: real,
    coreHours: real,
    deepHours: real,
    sleepEfficiency: real)

  datatype ActivitySummary = ActivitySummary(stepCount: real, activeCaloriesKcal: real, dietaryCaloriesKcal: real)

  datatype StatSummary = StatSummary(average: real, min: real, max: real, sampleCount: nat)

  datatype Derived = Derived(calorieBalanceKcal: real, activeCaloriesBand: ActivityBand, sleepBand: SleepBand)

  /** HealthDailySummary. */
  datatype DaySummary = DaySummary(
    dayKey: string,
    timezone: string,
    sleep: SleepSummary,
    activity: ActivitySummary,
    restingHeartRate: StatSummary,
    hrvSdnn: StatSummary,
    bodyMass: StatSummary,
    bodyFat: StatSummary,
    derived: Derived,
    insights: seq<Insight>,
    recomputedAtMs: int)

  lemma RatioWithinUnit(part: int, whole: int)
    requires 0 <= part <= whole && whole > 0
    ensures 0.0 <= part as real / whole as real <= 1.0
  {
    DivThenMul(part as real, whole as real);
  }

  /** Asleep time over time in bed, to three decimals; 0 without time in bed. */
  function SleepEfficiency(totalAsleepMs: int, inBedMs: int): (e: real)
    ensures inBedMs <= 0 ==> e == 0.0
    ensures 0 <= totalAsleepMs <= inBedMs ==> 0.0 <= e <= 1.0
  {
    if inBedMs > 0 then
      var q := totalAsleepMs as real / inBedMs as real;
      if 0 <= totalAsleepMs <= inBedMs then
        RatioWithinUnit(totalAsleepMs, inBedMs);
        RoundToWhole(0, 3);
        RoundToWhole(1, 3);
        RoundToMonotone(0.0, q, 3);
        RoundToMonotone(q, 1.0, 3);
        RoundTo(q, 3)
      else RoundTo(q, 3)
    else 0.0
  }

  function StatSummaryOf(st: Stat): StatSummary {
    StatSummary(RoundTo(st.avg, 2), RoundTo(st.min, 2), RoundTo(st.max, 2), st.samples)
  }

  /** `summarizeDay`. */
  function SummarizeDay(r: DailyRecord): (s: DaySummary)
    ensures s.dayKey == r.dayKey && s.timezone == r.timezone && s.recomputedAtMs == r.recomputedAtMs
    ensures r.sleep.inBedMs <= 0 ==> s.sleep.sleepEfficiency == 0.0
  {
    var asleepHours := HoursFromMs(r.sleepTotalAsleepMs);
    var sleepBand := SleepBandOf(asleepHours);
    var activityBand := ActivityBandOf(r.activeEnergy.total);
    DaySummary(
      r.dayKey,
      r.timezone,
      SleepSummary(
        r.sleep.sampleCount,
        HoursFromMs(r.sleep.inBedMs),
        asleepHours,
        HoursFromMs(r.sleep.awakeMs),
        HoursFromMs(r.sleep.remMs),
        HoursFromMs(r.sleep.coreMs),
        HoursFromMs(r.sleep.deepMs),
        SleepEfficiency(r.sleepTotalAsleepMs, r.sleep.inBedMs)),
      ActivitySummary(RoundTo(r.steps.total, 2), RoundTo(r.activeEnergy.total, 2), RoundTo(r.dietaryEnergy.total, 2)),
      StatSummaryOf(r.restingHeartRate),
      StatSummaryOf(r.hrvSdnn),
      StatSummaryOf(r.bodyMass),
      StatSummaryOf(r.bodyFat),
      Derived(RoundTo(r.dietaryEnergy.total - r.activeEnergy.total, 2), activityBand, sleepBand),
      Insights(sleepBand, activityBand, r),
      r.recomputedAtMs)
  }

  predicate HasInsight(s: DaySummary, c: InsightCode) {
    HasCode(s.insights, c)
  }

  /** Each insight appears exactly when its rule's condition holds, with the
      fixed severity and message, in rule order. */
  lemma SummaryInsights(r: DailyRecord)
    ensures var s := SummarizeDay(r);
      && (forall c :: HasInsight(s, c) <==> Fires(c, s.derived.sleepBand, s.derived.activeCaloriesBand, r))
      && (forall i | 0 <= i < |s.insights| :: s.insights[i] == InsightOf(s.insights[i].code))
      && InsightsInRuleOrder(s.insights)
  {
    var s := SummarizeDay(r);
    assert s.insights == Insights(s.derived.sleepBand, s.derived.activeCaloriesBand, r);
    InsightsMeaning(s.derived.sleepBand, s.derived.activeCaloriesBand, r);
  }

  /** `no_data` appears exactly when all eight sample counts are zero. */
  lemma NoDataIffEmpty(r: DailyRecord)
    ensures HasInsight(SummarizeDay(r), NoData) <==>
            r.steps.samples == 0 && r.activeEnergy.samples == 0 && r.dietaryEnergy.samples == 0
            && r.sleep.sampleCount == 0 && r.restingHeartRate.samples == 0 && r.hrvSdnn.samples == 0
            && r.bodyMass.samples == 0 && r.bodyFat.samples == 0
  {
    assert Fires(NoData, SleepBandOf(HoursFromMs(r.sleepTotalAsleepMs)), ActivityBandOf(r.activeEnergy.total), r) <==> !HasAnyData(r);
  }

  /** A short night produces the watch insight and not the on-target one. */
  lemma ShortSleepInsight(r: DailyRecord)
    requires HoursFromMs(r.sleepTotalAsleepMs) < 7.0
    ensures HasInsight(SummarizeDay(r), SleepBelowTarget)
    ensures !HasInsight(SummarizeDay(r), SleepOnTarget)
  {
  }

  /** The bands of a summary agree with the figures it reports: sleep is
      short below 7 reported hours and extended above 9, activity low below
      300 kcal and high above 800 (before rounding). */
  lemma SummaryBands(r: DailyRecord)
    ensures var s := SummarizeDay(r);
      && (s.derived.sleepBand == Short <==> s.sleep.asleepHours < 7.0)
      && (s.derived.sleepBand == Extended <==> s.sleep.asleepHours > 9.0)
      && (s.derived.activeCaloriesBand == Low <==> r.activeEnergy.total < 300.0)
      && (s.derived.activeCaloriesBand == High <==> r.activeEnergy.total > 800.0)
  {
  }

  /** Efficiency is a fraction whenever asleep time does not exceed time in
      bed, and 0 when no time in bed was recorded. */
  lemma SummaryEfficiency(r: DailyRecord)
    ensures 0 <= r.sleepTotalAsleepMs <= r.sleep.inBedMs ==> 0.0 <= SummarizeDay(r).sleep.sleepEfficiency <= 1.0
    ensures r.sleep.inBedMs <= 0 ==> SummarizeDay(r).sleep.sleepEfficiency == 0.0
  {
  }

  /** 2100 kcal eaten and 550 kcal burnt give a balance of 1550 and a
      moderate activity band. */
  lemma CalorieBalanceExample(r: DailyRecord)
    requires r.dietaryEnergy.total == 2100.0 && r.activeEnergy.total == 550.0
    ensures SummarizeDay(r).derived.calorieBalanceKcal == 1550.0
    ensures SummarizeDay(r).derived.activeCaloriesBand == Moderate
  {
    RoundToWhole(1550, 2);
  }

  // ---------------------------------------------------------------- the range summary

  datatype RangeTotals = RangeTotals(
    days: nat,
    totalSteps: real,
    totalActiveCaloriesKcal: real,
    totalDietaryCaloriesKcal: real,
    averageSleepHours: real,
    averageSleepEfficiency: real)

  /** HealthSummaryRange. */
  datatype RangeSummary = RangeSummary(from: string, to: string, timezone: string, days: seq<DaySummary>, totals: RangeTotals)

  datatype DayTotals = DayTotals(steps: real, active: real, dietary: real, sleepHours: real, efficiency: real)

  /** The accumulation loop of `summarizeRange`, left to right. */
  function Accumulate(acc: DayTotals, days: seq<DaySummary>): DayTotals
    decreases |days|
  {
    if |days| == 0 then acc
    else
      var d := days[0];
      Accumulate(DayTotals(acc.steps + d.activity.stepCount, acc.active + d.activity.activeCaloriesKcal,
                           acc.dietary + d.activity.dietaryCaloriesKcal, acc.sleepHours + d.sleep.asleepHours,
                           acc.efficiency + d.sleep.sleepEfficiency), days[1..])
  }

  function Summaries(records: seq<DailyRecord>): (days: seq<DaySummary>)
    ensures |days| == |records|
    ensures forall i | 0 <= i < |records| :: days[i] == SummarizeDay(records[i])
  {
    seq(|records|, i requires 0 <= i < |records| => SummarizeDay(records[i]))
  }

  /** `summarizeRange`. */
  function SummarizeRange(records: seq<DailyRecord>, from: string, to: string, timezone: string): (s: RangeSummary)
    ensures |s.days| == |records| && s.totals.days == |records|
    ensures forall i | 0 <= i < |records| :: s.days[i] == SummarizeDay(records[i])
    ensures |records| == 0 ==> s.totals.averageSleepHours == 0.0 && s.totals.averageSleepEfficiency == 0.0
  {
    var days := Summaries(records);
    var t := Accumulate(DayTotals(0.0, 0.0, 0.0, 0.0, 0.0), days);
    var n := |days|;
    RangeSummary(from, to, timezone, days, RangeTotals(
      n,
      RoundTo(t.steps, 2),
      RoundTo(t.active, 2),
      RoundTo(t.dietary, 2),
      if n > 0 then RoundTo(t.sleepHours / n as real, 2) else 0.0,
      if n > 0 then RoundTo(t.efficiency / n as real, 3) else 0.0))
  }

  /** The sum of one figure over the days, as a reference for the loop. */
  function SumOf(days: seq<DaySummary>, f: DaySummary -> real): real
    decreases |days|
  {
    if |days| == 0 then 0.0 else f(days[0]) + SumOf(days[1..], f)
  }

  /** The five figures the range summary adds up. */
  function Steps(d: DaySummary): real { d.activity.stepCount }
  function Active(d: DaySummary): real { d.activity.activeCaloriesKcal }
  function Dietary(d: DaySummary): real { d.activity.dietaryCaloriesKcal }
  function SleepHours(d: DaySummary): real { d.sleep.asleepHours }
  function Efficiency(d: DaySummary): real { d.sleep.sleepEfficiency }

  lemma {:induction false} AccumulateSums(acc: DayTotals, days: seq<DaySummary>)
    ensures var t := Accumulate(acc, days);
      && t.steps == acc.steps + SumOf(days, Steps)
      && t.active == acc.active + SumOf(days, Active)
      && t.dietary == acc.dietary + SumOf(days, Dietary)
      && t.sleepHours == acc.sleepHours + SumOf(days, SleepHours)
      && t.efficiency == acc.efficiency + SumOf(days, Efficiency)
    decreases |days|
  {
    if |days| > 0 {
      var d := days[0];
      var next := DayTotals(acc.steps + d.activity.stepCount, acc.active + d.activity.activeCaloriesKcal,
                            acc.dietary + d.activity.dietaryCaloriesKcal, acc.sleepHours + d.sleep.asleepHours,
                            acc.efficiency + d.sleep.sleepEfficiency);
      assert Accumulate(acc, days) == Accumulate(next, days[1..]);
      AccumulateSums(next, days[1..]);
    }
  }

  /** The range totals are the rounded sums of the daily steps, active and
      dietary calories, and the rounded means of the daily asleep hours and
      sleep efficiency (both 0 for an empty range). */
  lemma RangeTotalsMeaning(records: seq<DailyRecord>, from: string, to: string, timezone: string)
    ensures var s := SummarizeRange(records, from, to, timezone); var n := |records| as real;
      && s.totals.totalSteps == RoundTo(SumOf(s.days, Steps), 2)
      && s.totals.totalActiveCaloriesKcal == RoundTo(SumOf(s.days, Active), 2)
      && s.totals.totalDietaryCaloriesKcal == RoundTo(SumOf(s.days, Dietary), 2)
      && s.totals.averageSleepHours == (if |records| > 0 then RoundTo(SumOf(s.days, SleepHours) / n, 2) else 0.0)
      && s.totals.averageSleepEfficiency == (if |records| > 0 then RoundTo(SumOf(s.days, Efficiency) / n, 3) else 0.0)
  {
    AccumulateSums(DayTotals(0.0, 0.0, 0.0, 0.0, 0.0), Summaries(records));
  }

  // ---------------------------------------------------------------- yesterday

  /** `yesterdayDayKey`: the zone's current day, minus one day. */
  function YesterdayDayKey(timezone: string, nowMs: int, zone: ZoneDayKey): (r: Result<string, string>)
    ensures r.Success? <==> DayKeyFromTimestamp(nowMs, timezone, zone).Success?
    ensures r.Success? ==> r.value == SubtractOneDayFromDayKey(DayKeyFromTimestamp(nowMs, timezone, zone).value)
  {
    match DayKeyFromTimestamp(nowMs, timezone, zone)
    case Failure(e) => Failure(e)
    case Success(today) => Success(SubtractOneDayFromDayKey(today))
  }

  /** When the zone's current day is a calendar date, yesterday is the
      previous calendar date, printed the same way. */
  lemma YesterdayIsPreviousDay(timezone: string, nowMs: int, zone: ZoneDayKey)
    requires -MaxTimeMs <= nowMs <= MaxTimeMs
    requires zone(nowMs, timezone).Success? && IsCalendarDayKey(zone(nowMs, timezone).value)
    ensures YesterdayDayKey(timezone, nowMs, zone) == Success(KeyOf(Pred(SpelledDate(zone(nowMs, timezone).value))))
  {
    DayKeyNeighbours(zone(nowMs, timezone).value);
  }

  lemma NewYearKeys(d: Date)
    requires d == Ymd(2025, 1, 1)
    ensures KeyOf(d) == "2025-01-01" && KeyOf(Pred(d)) == "2024-12-31"
  {
    assert NatToDecimal(2) == "2" && NatToDecimal(20) == "20" && NatToDecimal(202) == "202";
    assert IntToDecimal(2025) == "2025" && IntToDecimal(2024) == "2024";
    KeyOfIs(d, "2025", "01", "01");
    assert Pred(d) == Ymd(2024, 12, 31);
    KeyOfIs(Pred(d), "2024", "12", "31");
  }

  lemma KeyOfIs(d: Date, ys: string, ms: string, ds: string)
    requires IntToDecimal(d.year) == ys && Pad2(d.month) == ms && Pad2(d.day) == ds
    ensures KeyOf(d) == ys + "-" + ms + "-" + ds
  {
  }

  /** 2025-01-02T05:30Z is still 2025-01-01 in Los Angeles, so yesterday
      there is 2024-12-31. */
  lemma YesterdayInLosAngeles(zone: ZoneDayKey, d: Date, today: string)
    requires d == Ymd(2025, 1, 1) && today == "2025-01-01"
    requires zone(1_735_795_800_000, "America/Los_Angeles") == Success(today)
    ensures YesterdayDayKey("America/Los_Angeles", 1_735_795_800_000, zone) == Success("2024-12-31")
  {
    NewYearKeys(d);
    SubtractOneDayOf(d);
  }
}

=== FILE: health_types.dfy ===
/** The vocabulary shared by the backend and the device: metrics, sleep
    categories, ingest samples, the daily rollup row and the size limits.
 */
module HealthTypes {
  import opened Wrappers
  import opened JsNumbers

  datatype Metric =
    | StepCount
    | ActiveEnergyKcal
    | DietaryEnergyKcal
    | RestingHeartRateBpm
    | HrvSdnnMs
    | BodyMassKg
    | BodyFatPercent
    | SleepSegment

  /** HEALTH_METRICS, in the order every per-metric loop follows. */
  const HealthMetrics: seq<Metric> := [
    StepCount, ActiveEnergyKcal, DietaryEnergyKcal, RestingHeartRateBpm,
    HrvSdnnMs, BodyMassKg, BodyFatPercent, SleepSegment
  ]

  function MetricName(m: Metric): string {
    match m
    case StepCount => "step_count"
    case ActiveEnergyKcal => "active_energy_kcal"
    case DietaryEnergyKcal => "dietary_energy_kcal"
    case RestingHeartRateBpm => "resting_heart_rate_bpm"
    case HrvSdnnMs => "hrv_sdnn_ms"
    case BodyMassKg => "body_mass_kg"
    case BodyFatPercent => "body_fat_percent"
    case SleepSegment => "sleep_segment"
  }

  /** The first metric of `candidates` whose name is `name`. */
  function FindMetric(name: string, candidates: seq<Metric>): (r: Option<Metric>)
    ensures r.Some? ==> r.value in candidates && MetricName(r.value) == name
    ensures r.None? ==> forall m :: m in candidates ==> MetricName(m) != name
  {
    if |candidates| == 0 then None
    else if MetricName(candidates[0]) == name then Some(candidates[0])
    else FindMetric(name, candidates[1..])
  }

  /** `isHealthMetric`: the metric named `name`, if it is one of HEALTH_METRICS. */
  function MetricOfName(name: string): Option<Metric> {
    FindMetric(name, HealthMetrics)
  }

  /** Every metric is listed in HEALTH_METRICS exactly once. */
  lemma HealthMetricsComplete()
    ensures forall m: Metric :: m in HealthMetrics
    ensures |HealthMetrics| == 8
    ensures forall i, j :: 0 <= i < j < |HealthMetrics| ==> HealthMetrics[i] != HealthMetrics[j]
  {
    forall m: Metric
      ensures m in HealthMetrics
    {
      match m
      case StepCount => assert HealthMetrics[0] == m;
      case ActiveEnergyKcal => assert HealthMetrics[1] == m;
      case DietaryEnergyKcal => assert HealthMetrics[2] == m;
      case RestingHeartRateBpm => assert HealthMetrics[3] == m;
      case HrvSdnnMs => assert HealthMetrics[4] == m;
      case BodyMassKg => assert HealthMetrics[5] == m;
      case BodyFatPercent => assert HealthMetrics[6] == m;
      case SleepSegment => assert HealthMetrics[7] == m;
    }
  }

  /** Names and metrics are in one-to-one correspondence. */
  lemma MetricNameRoundTrip(m: Metric, name: string)
    ensures MetricOfName(MetricName(m)) == Some(m)
    ensures MetricOfName(name).Some? <==> exists k: Metric :: MetricName(k) == name
  {
    var r := MetricOfName(MetricName(m));
    assert r.Some? by { HealthMetricsComplete(); }
    assert MetricName(r.value) == MetricName(m);
    if exists k: Metric :: MetricName(k) == name {
      var k: Metric :| MetricName(k) == name;
      HealthMetricsComplete();
      assert k in HealthMetrics;
    }
  }

  datatype SleepCategory = InBed | Asleep | Awake | AsleepRem | AsleepCore | AsleepDeep

  const SleepCategoryValues: seq<SleepCategory> := [InBed, Asleep, Awake, AsleepRem, AsleepCore, AsleepDeep]

  function SleepCategoryName(c: SleepCategory): string {
    match c
    case InBed => "inBed"
    case Asleep => "asleep"
    case Awake => "awake"
    case AsleepRem => "asleepREM"
    case AsleepCore => "asleepCore"
    case AsleepDeep => "asleepDeep"
  }

  function FindSleepCategory(name: string, candidates: seq<SleepCategory>): (r: Option<SleepCategory>)
    ensures r.Some? ==> r.value in candidates && SleepCategoryName(r.value) == name
    ensures r.None? ==> forall c :: c in candidates ==> SleepCategoryName(c) != name
  {
    if |candidates| == 0 then None
    else if SleepCategoryName(candidates[0]) == name then Some(candidates[0])
    else FindSleepCategory(name, candidates[1..])
  }

  /** `isSleepCategoryValue`: the category named `name`, if it is one of SLEEP_CATEGORY_VALUES. */
  function SleepCategoryOfName(name: string): Option<SleepCategory> {
    FindSleepCategory(name, SleepCategoryValues)
  }

  lemma SleepCategoryNameRoundTrip(c: SleepCategory, name: string)
    ensures SleepCategoryOfName(SleepCategoryName(c)) == Some(c)
    ensures SleepCategoryOfName(name).Some? <==> exists k: SleepCategory :: SleepCategoryName(k) == name
  {
    var r := SleepCategoryOfName(SleepCategoryName(c));
    assert c in SleepCategoryValues;
    if exists k: SleepCategory :: SleepCategoryName(k) == name {
      var k: SleepCategory :| SleepCategoryName(k) == name;
      assert k in SleepCategoryValues;
    }
  }

  const MaxIngestBatchSize: nat := 500
  const MaxRawPageSize: nat := 500
  const MaxWriteIntentPageSize: nat := 200

  /** One sample as the ingest mutation receives it. The metric and the
      category are already restricted to their unions by the argument
      validator; the numbers may still be fractional, NaN or infinite. */
  datatype IngestSample = IngestSample(
    sampleKey: string,
    metric: Metric,
    startTimeMs: JsNumber,
    endTimeMs: JsNumber,
    valueNumber: Option<JsNumber>,
    categoryValue: Option<SleepCategory>,
    unit: string,
    sourceName: Option<string>,
    sourceBundleId: Option<string>,
    timezone: string)

  datatype IngestResponse = IngestResponse(
    inserted: nat,
    deduped: nat,
    recomputedDays: seq<string>,
    serverTimeMs: int)

  /** An additive metric of one day: running total and number of samples. */
  datatype Total = Total(total: real, samples: nat)

  /** A sampled metric of one day: average, extremes and number of samples. */
  datatype Stat = Stat(avg: real, min: real, max: real, samples: nat)

  /** Sleep of one day, in milliseconds per category. */
  datatype SleepTotals = SleepTotals(
    sampleCount: nat,
    inBedMs: int,
    asleepMs: int,
    awakeMs: int,
    remMs: int,
    coreMs: int,
    deepMs: int)

  /** A `healthDailyMetrics` row (HealthDailyMetricsRecord): one per day. */
  datatype DailyRecord = DailyRecord(
    dayKey: string,
    timezone: string,
    steps: Total,
    activeEnergy: Total,
    dietaryEnergy: Total,
    restingHeartRate: Stat,
    hrvSdnn: Stat,
    bodyMass: Stat,
    bodyFat: Stat,
    sleep: SleepTotals,
    sleepTotalAsleepMs: int,
    recomputedAtMs: int)
}

=== FILE: http_ingest.dfy ===
/** The ingest, daily and raw endpoints of the private API
    (packages/backend/convex/healthHttpHandlers.ts): the JSON body of an
    ingest request checked field by field, the query parameters of the two
    listings, and the status of every rejection. The Convex functions
    behind the endpoints are parameters that either answer or throw.
 */
module HttpIngest {
  import opened Wrappers
  import opened JsStrings
  import opened JsNumbers
  import opened StringOrder
  import opened Json
  import opened HealthTypes
  import opened HealthDomain
  import opened HealthIngest
  import opened ApiCommon

  /** HealthIngestRequest. */
  datatype IngestRequest = IngestRequest(deviceId: string, samples: seq<IngestSample>)

  const ErrSampleNotObject := "Each sample must be an object"
  const ErrInvalidMetric := "Invalid metric"
  const ErrSampleKeyRequired := "sampleKey is required"
  const ErrTimestamps := "startTimeMs and endTimeMs must be integer timestamps"
  const ErrUnitAndTimezone := "unit and timezone are required"
  const ErrEndBeforeStart := "endTimeMs must be >= startTimeMs"
  const ErrOptionalSource := "Optional source fields must be strings"
  const ErrCategoryRequired := "categoryValue is required for sleep_segment"
  const ErrValueRequired := "valueNumber is required for numeric metrics"
  const ErrBodyNotObject := "Body must be an object"
  const ErrDeviceIdRequired := "deviceId is required"
  const ErrSamplesNotArray := "samples must be an array"
  const ErrFromToRequired := "from and to query parameters are required"
  const ErrRawMetric := "metric must be a valid HealthMetric"
  const ErrFromMsAfterToMs := "fromMs must be <= toMs"
  const ErrIngestNotConfigured := "Ingest handler is not configured"
  const ErrDailyNotConfigured := "Daily list handler is not configured"
  const ErrRawNotConfigured := "Raw list handler is not configured"

  /** The text whose presence in a thrown message turns the answer into a 413. */
  const BatchTooLargeMarker := "Batch exceeds maximum size"
  const DefaultRawLimit: int := 100

  // ---------------------------------------------------------------- one sample

  /** `isNonEmptyString(v) && isHealthMetric(v)`: the metric a field names. */
  function MetricOfField(v: JsValue): Option<Metric> {
    if IsNonEmptyString(v) then MetricOfName(v.s) else None
  }

  /** `isNonEmptyString(v) && isSleepCategoryValue(v)`: the category a field names. */
  function CategoryOfField(v: JsValue): Option<SleepCategory> {
    if IsNonEmptyString(v) then SleepCategoryOfName(v.s) else None
  }

  /** `parseOptionalString`: an absent field, or a string. */
  function ParseOptionalString(v: JsValue): (r: Result<Option<string>, HttpError>)
    ensures r.Success? <==> v.Undefined? || v.Str?
    ensures r.Success? ==> (r.value.Some? <==> v.Str?) && (v.Str? ==> r.value.value == v.s)
    ensures r.Failure? ==> r.error == HttpError(ErrOptionalSource, 400)
  {
    if v.Undefined? then Success(None)
    else if v.Str? then Success(Some(v.s))
    else Failure(HttpError(ErrOptionalSource, 400))
  }

  /** An optional string as a JSON field holds it: absent, or a string. */
  function OptionalJson(o: Option<string>): JsValue {
    if o.Some? then Str(o.value) else Undefined
  }

  lemma OptionalStringRoundTrip(o: Option<string>)
    ensures ParseOptionalString(OptionalJson(o)) == Success(o)
  {
  }

  /** The ten fields of a sample body that `parseIngestSample` reads
      (`undefined` when missing). */
  datatype SampleFields = SampleFields(
    sampleKey: JsValue,
    metric: JsValue,
    startTimeMs: JsValue,
    endTimeMs: JsValue,
    unit: JsValue,
    timezone: JsValue,
    sourceName: JsValue,
    sourceBundleId: JsValue,
    valueNumber: JsValue,
    categoryValue: JsValue)

  function FieldsOf(v: JsValue): SampleFields {
    SampleFields(Get(v, "sampleKey"), Get(v, "metric"), Get(v, "startTimeMs"), Get(v, "endTimeMs"),
                 Get(v, "unit"), Get(v, "timezone"), Get(v, "sourceName"), Get(v, "sourceBundleId"),
                 Get(v, "valueNumber"), Get(v, "categoryValue"))
  }

  /** Everything `parseIngestSample` demands of the fields of a sample body. */
  predicate FieldsAccepted(f: SampleFields) {
    RequiredAccepted(f) && RestAccepted(f)
  }

  /** The metric, the key, the times and the unit and zone. */
  predicate RequiredAccepted(f: SampleFields) {
    && MetricOfField(f.metric).Some?
    && IsNonEmptyString(f.sampleKey)
    && IsIntegerNumber(f.startTimeMs) && IsIntegerNumber(f.endTimeMs)
    && IsNonEmptyString(f.unit) && IsNonEmptyString(f.timezone)
    && AsInt(f.endTimeMs.n) >= AsInt(f.startTimeMs.n)
  }

  /** The source fields, and the value or category the metric calls for. */
  predicate RestAccepted(f: SampleFields)
    requires MetricOfField(f.metric).Some?
  {
    && (f.sourceName.Undefined? || f.sourceName.Str?)
    && (f.sourceBundleId.Undefined? || f.sourceBundleId.Str?)
    && (if MetricOfField(f.metric).value == SleepSegment
        then CategoryOfField(f.categoryValue).Some?
        else IsFiniteNumber(f.valueNumber))
  }

  predicate SampleAccepted(v: JsValue) {
    IsRecord(v) && FieldsAccepted(FieldsOf(v))
  }

  /** The samples `parseIngestSample` can produce: the required strings are
      not blank, the times are ordered integers, and a sleep segment carries
      a category and no value while any other metric carries a finite value
      and no category. */
  predicate WireForm(s: IngestSample) {
    && !IsBlank(s.sampleKey) && !IsBlank(s.unit) && !IsBlank(s.timezone)
    && IsInteger(s.startTimeMs) && IsInteger(s.endTimeMs)
    && AsInt(s.endTimeMs) >= AsInt(s.startTimeMs)
    && (if s.metric == SleepSegment then s.categoryValue.Some? && s.valueNumber.None?
        else s.categoryValue.None? && s.valueNumber.Some? && s.valueNumber.value.Finite?)
  }

  /** The fields a client writes for a sample, the optional ones
      `undefined` when absent. */
  function FieldsJson(s: IngestSample): SampleFields {
    SampleFields(Str(s.sampleKey), Str(MetricName(s.metric)), Num(s.startTimeMs), Num(s.endTimeMs),
                 Str(s.unit), Str(s.timezone), OptionalJson(s.sourceName), OptionalJson(s.sourceBundleId),
                 if s.valueNumber.Some? then Num(s.valueNumber.value) else Undefined,
                 if s.categoryValue.Some? then Str(SleepCategoryName(s.categoryValue.value)) else Undefined)
  }

  /** The fields `f` hold the sample `s`: every field `s` keeps is the
      body's own, and the one it drops (the value of a sleep segment, the
      category of a reading) is not looked at. */
  predicate Carries(f: SampleFields, s: IngestSample) {
    var g := FieldsJson(s);
    && f.sampleKey == g.sampleKey && f.metric == g.metric
    && f.startTimeMs == g.startTimeMs && f.endTimeMs == g.endTimeMs
    && f.unit == g.unit && f.timezone == g.timezone
    && f.sourceName == g.sourceName && f.sourceBundleId == g.sourceBundleId
    && (s.valueNumber.Some? ==> f.valueNumber == g.valueNumber)
    && (s.categoryValue.Some? ==> f.categoryValue == g.categoryValue)
  }

  /** The checks of `parseIngestSample`, in source order; the first that
      fails names its message. */
  function FieldsError(f: SampleFields): (e: Option<string>)
    ensures e.None? <==> FieldsAccepted(f)
    ensures MetricOfField(f.metric).None? ==> e == Some(ErrInvalidMetric)
  {
    match RequiredError(f)
    case Some(e) => Some(e)
    case None => RestError(f)
  }

  function RequiredError(f: SampleFields): (e: Option<string>)
    ensures e.None? <==> RequiredAccepted(f)
    ensures MetricOfField(f.metric).None? ==> e == Some(ErrInvalidMetric)
  {
    if MetricOfField(f.metric).None? then Some(ErrInvalidMetric)
    else if !IsNonEmptyString(f.sampleKey) then Some(ErrSampleKeyRequired)
    else if !IsIntegerNumber(f.startTimeMs) || !IsIntegerNumber(f.endTimeMs) then Some(ErrTimestamps)
    else if !IsNonEmptyString(f.unit) || !IsNonEmptyString(f.timezone) then Some(ErrUnitAndTimezone)
    else if AsInt(f.endTimeMs.n) < AsInt(f.startTimeMs.n) then Some(ErrEndBeforeStart)
    else None
  }

  function RestError(f: SampleFields): (e: Option<string>)
    requires MetricOfField(f.metric).Some?
    ensures e.None? <==> RestAccepted(f)
  {
    if ParseOptionalString(f.sourceName).Failure? then Some(ErrOptionalSource)
    else if ParseOptionalString(f.sourceBundleId).Failure? then Some(ErrOptionalSource)
    else if MetricOfField(f.metric).value == SleepSegment then
      if CategoryOfField(f.categoryValue).None? then Some(ErrCategoryRequired) else None
    else if !IsFiniteNumber(f.valueNumber) then Some(ErrValueRequired)
    else None
  }

  /** The sample accepted fields describe. */
  function SampleOfFields(f: SampleFields): (s: IngestSample)
    requires FieldsAccepted(f)
    ensures WireForm(s) && Carries(f, s)
  {
    var m := MetricOfField(f.metric).value;
    MetricNameRoundTrip(m, f.metric.s);
    if m == SleepSegment then
      var c := CategoryOfField(f.categoryValue).value;
      SleepCategoryNameRoundTrip(c, f.categoryValue.s);
      IngestSample(f.sampleKey.s, m, f.startTimeMs.n, f.endTimeMs.n, None, Some(c), f.unit.s,
                   ParseOptionalString(f.sourceName).value, ParseOptionalString(f.sourceBundleId).value, f.timezone.s)
    else
      IngestSample(f.sampleKey.s, m, f.startTimeMs.n, f.endTimeMs.n, Some(f.valueNumber.n), None, f.unit.s,
                   ParseOptionalString(f.sourceName).value, ParseOptionalString(f.sourceBundleId).value, f.timezone.s)
  }

  /** `parseIngestSample`: an object whose fields pass the checks, read into
      a sample; a sleep segment keeps its category and drops any value, any
      other metric keeps its value and drops any category. */
  function ParseIngestSample(v: JsValue): (r: Result<IngestSample, HttpError>)
    ensures r.Success? <==> SampleAccepted(v)
    ensures !IsRecord(v) ==> r == Failure(HttpError(ErrSampleNotObject, 400))
    ensures IsRecord(v) && r.Failure? ==> r.error == HttpError(FieldsError(FieldsOf(v)).value, 400)
    ensures r.Success? ==> WireForm(r.value) && Carries(FieldsOf(v), r.value)
  {
    if !IsRecord(v) then Failure(HttpError(ErrSampleNotObject, 400))
    else
      var f := FieldsOf(v);
      match FieldsError(f)
      case Some(e) => Failure(HttpError(e, 400))
      case None => Success(SampleOfFields(f))
  }

  /** The ten fields under their names. */
  function FieldPairs(f: SampleFields): seq<(string, JsValue)> {
    [("sampleKey", f.sampleKey), ("metric", f.metric), ("startTimeMs", f.startTimeMs),
     ("endTimeMs", f.endTimeMs), ("unit", f.unit), ("timezone", f.timezone),
     ("sourceName", f.sourceName), ("sourceBundleId", f.sourceBundleId),
     ("valueNumber", f.valueNumber), ("categoryValue", f.categoryValue)]
  }

  /** The body a client sends for a sample: the fields it has. */
  function SampleJson(s: IngestSample): JsValue {
    Obj(ObjOf(FieldPairs(FieldsJson(s))))
  }

  /** Reading the fields of an object written from fields gives them back. */
  lemma FieldsOfObj(f: SampleFields)
    ensures FieldsOf(Obj(ObjOf(FieldPairs(f)))) == f
  {
    var pairs := FieldPairs(f);
    FieldNamesDistinct(f);
    ObjOfGet(pairs, 0); ObjOfGet(pairs, 1); ObjOfGet(pairs, 2); ObjOfGet(pairs, 3); ObjOfGet(pairs, 4);
    ObjOfGet(pairs, 5); ObjOfGet(pairs, 6); ObjOfGet(pairs, 7); ObjOfGet(pairs, 8); ObjOfGet(pairs, 9);
  }

  lemma FieldNamesDistinct(f: SampleFields)
    ensures DistinctKeys(FieldPairs(f))
  {
  }

  /** The fields of a wire-form sample pass every check. */
  lemma WireFormAccepted(s: IngestSample)
    requires WireForm(s)
    ensures FieldsAccepted(FieldsJson(s)) && SampleOfFields(FieldsJson(s)) == s
  {
    var f := FieldsJson(s);
    MetricFieldOfName(s.metric);
    assert RequiredAccepted(f);
    OptionalStringRoundTrip(s.sourceName);
    OptionalStringRoundTrip(s.sourceBundleId);
    if s.metric == SleepSegment {
      CategoryFieldOfName(s.categoryValue.value);
      assert RestAccepted(f);
    } else {
      assert RestAccepted(f);
    }
    var t := SampleOfFields(f);
    assert t.metric == s.metric && t.categoryValue == s.categoryValue && t.valueNumber == s.valueNumber;
  }

  lemma MetricFieldOfName(m: Metric)
    ensures MetricOfField(Str(MetricName(m))) == Some(m)
  {
    MetricNameRoundTrip(m, MetricName(m));
    MetricNameNotBlank(m);
  }

  lemma CategoryFieldOfName(c: SleepCategory)
    ensures CategoryOfField(Str(SleepCategoryName(c))) == Some(c)
  {
    SleepCategoryNameRoundTrip(c, SleepCategoryName(c));
    CategoryNameNotBlank(c);
  }

  /** Every sample of the wire form survives being sent and parsed. */
  lemma SampleRoundTrip(s: IngestSample)
    requires WireForm(s)
    ensures ParseIngestSample(SampleJson(s)) == Success(s)
  {
    FieldsOfObj(FieldsJson(s));
    WireFormAccepted(s);
    assert IsRecord(SampleJson(s));
  }

  lemma MetricNameNotBlank(m: Metric)
    ensures !IsBlank(MetricName(m))
  {
    var n := MetricName(m);
    assert !IsJsWhitespace(n[0]);
  }

  lemma CategoryNameNotBlank(c: SleepCategory)
    ensures !IsBlank(SleepCategoryName(c))
  {
    var n := SleepCategoryName(c);
    assert !IsJsWhitespace(n[0]);
  }

  /** What the HTTP check leaves to the mutation: an accepted sample whose
      key matches the key pattern passes every field check of
      `validateAndPrepareSample`. */
  lemma AcceptedSampleIsWellFormed(v: JsValue)
    requires ParseIngestSample(v).Success? && IsValidSampleKey(ParseIngestSample(v).value.sampleKey)
    ensures FieldsAreWellFormed(ParseIngestSample(v).value)
  {
  }

  // ---------------------------------------------------------------- the request

  /** An object with a device id and an array of samples. */
  predicate RequestShaped(v: JsValue) {
    IsRecord(v) && IsNonEmptyString(Get(v, "deviceId")) && Get(v, "samples").Arr?
  }

  /** The samples of a shaped request body. */
  function SampleItems(v: JsValue): seq<JsValue>
    requires RequestShaped(v)
  {
    Get(v, "samples").items
  }

  /** `parseIngestRequest`: an object with a device id and an array of at
      most 500 samples, each of which parses; a longer array is a 413 before
      any sample is looked at, and otherwise the first sample that does not
      parse gives the answer. */
  function ParseIngestRequest(v: JsValue): (r: Result<IngestRequest, HttpError>)
    ensures r.Success? <==>
      && RequestShaped(v) && |SampleItems(v)| <= MaxIngestBatchSize
      && forall i | 0 <= i < |SampleItems(v)| :: ParseIngestSample(SampleItems(v)[i]).Success?
    ensures r.Success? ==> r == ParseBatch(v)
    ensures r.Failure? ==> r.error.status in {400, 413}
    ensures r.Failure? ==> (r.error.status == 413 <==> RequestShaped(v) && |SampleItems(v)| > MaxIngestBatchSize)
    ensures (r.Failure? && RequestShaped(v) && |SampleItems(v)| <= MaxIngestBatchSize) ==> r == ParseBatch(v)
  {
    if !IsRecord(v) then Failure(HttpError(ErrBodyNotObject, 400))
    else if !IsNonEmptyString(Get(v, "deviceId")) then Failure(HttpError(ErrDeviceIdRequired, 400))
    else if !Get(v, "samples").Arr? then Failure(HttpError(ErrSamplesNotArray, 400))
    else if |SampleItems(v)| > MaxIngestBatchSize then Failure(HttpError(ErrBatchTooLarge, 413))
    else ParseBatch(v)
  }

  /** The samples of a shaped body parsed in order: the request they make,
      or the failure of the first sample that does not parse. */
  function ParseBatch(v: JsValue): (r: Result<IngestRequest, HttpError>)
    requires RequestShaped(v)
    ensures r.Success? <==> forall i | 0 <= i < |SampleItems(v)| :: ParseIngestSample(SampleItems(v)[i]).Success?
    ensures r.Success? ==>
      && Str(r.value.deviceId) == Get(v, "deviceId")
      && |r.value.samples| == |SampleItems(v)|
      && forall i | 0 <= i < |r.value.samples| :: ParseIngestSample(SampleItems(v)[i]) == Success(r.value.samples[i])
    ensures r.Failure? ==> r.error.status == 400 && FirstFailure(SampleItems(v), ParseIngestSample, r.error)
  {
    match ParseAll(SampleItems(v), ParseIngestSample)
    case Failure(e) =>
      FirstFailureIs400(SampleItems(v), e);
      Failure(e)
    case Success(samples) => Success(IngestRequest(Get(v, "deviceId").s, samples))
  }

  /** A sample is only ever rejected with a 400. */
  lemma FirstFailureIs400(items: seq<JsValue>, e: HttpError)
    requires FirstFailure(items, ParseIngestSample, e)
    ensures e.status == 400
  {
    var i :| 0 <= i < |items| && FirstFailureAt(items, ParseIngestSample, e, i);
  }

  /** The body a client sends for a request. */
  function RequestJson(q: IngestRequest): JsValue {
    Obj(map["deviceId" := Str(q.deviceId), "samples" := Arr(SamplesJson(q.samples))])
  }

  function SamplesJson(samples: seq<IngestSample>): (items: seq<JsValue>)
    ensures |items| == |samples|
  {
    seq(|samples|, i requires 0 <= i < |samples| => SampleJson(samples[i]))
  }

  /** Every run of wire-form samples survives being sent and parsed. */
  lemma SamplesRoundTrip(samples: seq<IngestSample>)
    requires forall i | 0 <= i < |samples| :: WireForm(samples[i])
    ensures ParseAll(SamplesJson(samples), ParseIngestSample) == Success(samples)
  {
    var items := SamplesJson(samples);
    forall i | 0 <= i < |items|
      ensures ParseIngestSample(items[i]) == Success(samples[i])
    {
      SampleRoundTrip(samples[i]);
    }
    var r := ParseAll(items, ParseIngestSample);
    assert r.Success?;
    assert r.value == samples;
  }

  /** Every request of at most 500 wire-form samples survives being sent and parsed. */
  lemma RequestRoundTrip(q: IngestRequest)
    requires !IsBlank(q.deviceId) && |q.samples| <= MaxIngestBatchSize
    requires forall i | 0 <= i < |q.samples| :: WireForm(q.samples[i])
    ensures ParseIngestRequest(RequestJson(q)) == Success(q)
  {
    var v := RequestJson(q);
    RequestJsonFields(q);
    SamplesRoundTrip(q.samples);
    assert ParseBatch(v) == Success(q);
  }

  lemma RequestJsonFields(q: IngestRequest)
    requires !IsBlank(q.deviceId)
    ensures var v := RequestJson(q);
      && RequestShaped(v) && Get(v, "deviceId") == Str(q.deviceId) && SampleItems(v) == SamplesJson(q.samples)
  {
    var v := RequestJson(q);
    assert Get(v, "deviceId") == Str(q.deviceId);
    assert Get(v, "samples") == Arr(SamplesJson(q.samples));
  }

  // ---------------------------------------------------------------- the handlers

  /** The status of a thrown ingest failure: 413 when the message mentions
      the batch limit, otherwise 400; a thrown non-`Error` reads "Ingest failed". */
  function IngestThrownAnswer(t: Thrown): (e: HttpError)
    ensures e.status == 400 || e.status == 413
    ensures e.error == ThrownAnswer(t, "Ingest failed").error
    ensures e.status == 413 <==> Contains(e.error, BatchTooLargeMarker)
  {
    var message := if t.ErrorThrown? then t.message else "Ingest failed";
    HttpError(message, if Contains(message, BatchTooLargeMarker) then 413 else 400)
  }

  /** The mutation's own batch-size error is answered 413, as the HTTP check's is. */
  lemma BatchErrorIs413()
    ensures IngestThrownAnswer(ErrorThrown(ErrBatchTooLarge)).status == 413
  {
    assert OccursAt(ErrBatchTooLarge, BatchTooLargeMarker, 0);
    ContainsAt(ErrBatchTooLarge, BatchTooLargeMarker);
  }

  /** `handleIngest`: the token, the JSON body, the request check, then
      the configured mutation, whose thrown error is answered by
      `IngestThrownAnswer`. */
  function HandleIngest(configured: Option<string>, header: Option<string>, body: Option<JsValue>,
                        ingest: Option<IngestRequest -> Result<IngestResponse, Thrown>>)
    : (r: Result<IngestResponse, HttpError>)
    ensures r.Success? ==> && ingest.Some? && body.Some? && ParseIngestRequest(body.value).Success?
                           && ingest.value(ParseIngestRequest(body.value).value) == Success(r.value)
    ensures r.Failure? ==> r.error.status in {400, 401, 403, 413, 500}
    ensures r.Failure? && r.error.status == 500 ==> !IsPresent(configured) || ingest.None?
  {
    Answer(RequireBearerToken(configured, header), ParseBody(body, ParseIngestRequest), ingest,
           ErrIngestNotConfigured, IngestThrownAnswer)
  }

  /** A request the endpoint lets through never trips the mutation's batch
      limit: the parsed batch holds at most 500 samples. */
  lemma ParsedBatchWithinLimit(v: JsValue)
    requires ParseIngestRequest(v).Success?
    ensures |ParseIngestRequest(v).value.samples| <= MaxIngestBatchSize
  {
  }

  /** The query checks of `handleDaily`: both keys present and well formed,
      then `from <= to`. */
  function DailyArgs(from: Option<string>, to: Option<string>): (r: Result<(string, string), HttpError>)
    ensures r.Success? <==> from.Some? && to.Some? && CheckDayRange(from.value, to.value).Success?
    ensures r.Success? ==> r.value == (from.value, to.value)
    ensures r.Failure? ==> r.error.status == 400
    ensures from.None? ==> r == Failure(HttpError(ErrFromToRequired, 400))
  {
    DayRangeAgrees(from, to);
    ParseDayRange(from, to, ErrFromToRequired)
  }

  /** The HTTP range check and the query's own check accept the same pairs. */
  lemma DayRangeAgrees(from: Option<string>, to: Option<string>)
    ensures from.Some? && to.Some? ==>
      (ParseDayRange(from, to, ErrFromToRequired).Success? <==> CheckDayRange(from.value, to.value).Success?)
  {
  }

  /** What the listings answer when the query behind them throws. */
  function DailyThrown(t: Thrown): HttpError {
    ThrownAnswer(t, "Failed to fetch daily metrics")
  }

  function RawThrown(t: Thrown): HttpError {
    ThrownAnswer(t, "Failed to fetch raw metrics")
  }

  /** `handleDaily`: the token, the range, then the configured query. */
  function HandleDaily<T>(configured: Option<string>, header: Option<string>, from: Option<string>, to: Option<string>,
                          listDaily: Option<((string, string)) -> Result<T, Thrown>>)
    : (r: Result<T, HttpError>)
    ensures r.Success? ==> && listDaily.Some? && from.Some? && to.Some? && CheckDayRange(from.value, to.value).Success?
                           && listDaily.value((from.value, to.value)) == Success(r.value)
    ensures r.Failure? ==> r.error.status in {400, 401, 403, 500}
    ensures r.Failure? && r.error.status == 500 ==> !IsPresent(configured) || listDaily.None?
  {
    Answer(RequireBearerToken(configured, header), DailyArgs(from, to), listDaily,
           ErrDailyNotConfigured, DailyThrown)
  }

  /** The arguments `handleRaw` passes to `listRaw`. */
  datatype RawArgs = RawArgs(metric: Metric, fromMs: int, toMs: int, limit: int, cursor: Option<string>)

  /** The query checks of `handleRaw`, in source order: the metric, `fromMs`,
      `toMs`, their order, then the limit (100 when absent, else 1 to 500). */
  function RawQueryArgs(metric: Option<string>, fromMs: Option<string>, toMs: Option<string>,
                        limit: Option<string>, cursor: Option<string>)
    : (r: Result<RawArgs, HttpError>)
    ensures r.Failure? ==> r.error.status == 400
    ensures r.Success? <==>
      && metric.Some? && MetricOfField(Str(metric.value)).Some?
      && ParseIntegerQueryParam(fromMs, "fromMs", None, None).Success?
      && ParseIntegerQueryParam(toMs, "toMs", None, None).Success?
      && ParseIntegerQueryParam(fromMs, "fromMs", None, None).value <= ParseIntegerQueryParam(toMs, "toMs", None, None).value
      && (limit.Some? ==> ParseIntegerQueryParam(limit, "limit", Some(1), Some(MaxRawPageSize)).Success?)
    ensures r.Success? ==>
      && Some(r.value.metric) == MetricOfName(metric.value)
      && 1 <= r.value.limit <= MaxRawPageSize
      && (limit.None? ==> r.value.limit == DefaultRawLimit)
      && r.value.cursor == CursorParam(cursor)
    ensures metric.None? ==> r == Failure(HttpError(ErrRawMetric, 400))
  {
    var m := if metric.Some? then MetricOfField(Str(metric.value)) else None;
    if m.None? then Failure(HttpError(ErrRawMetric, 400))
    else
      var f := ParseIntegerQueryParam(fromMs, "fromMs", None, None);
      if f.Failure? then Failure(f.error)
      else
        var t := ParseIntegerQueryParam(toMs, "toMs", None, None);
        if t.Failure? then Failure(t.error)
        else if f.value > t.value then Failure(HttpError(ErrFromMsAfterToMs, 400))
        else
          var l := if limit.None? then Success(DefaultRawLimit) else ParseIntegerQueryParam(limit, "limit", Some(1), Some(MaxRawPageSize));
          if l.Failure? then Failure(l.error)
          else Success(RawArgs(m.value, f.value, t.value, l.value, CursorParam(cursor)))
  }

  /** Whatever `handleRaw` lets through, the query's own argument checks accept. */
  lemma RawArgsPassListRaw(metric: Option<string>, fromMs: Option<string>, toMs: Option<string>,
                           limit: Option<string>, cursor: Option<string>, raw: seq<StoredSample>, offset: nat)
    requires RawQueryArgs(metric, fromMs, toMs, limit, cursor).Success?
    ensures var a := RawQueryArgs(metric, fromMs, toMs, limit, cursor).value;
      ListRaw(raw, a.metric, OfInt(a.fromMs), OfInt(a.toMs), OfInt(a.limit), offset).Success?
  {
  }

  /** `handleRaw`: the token, the query checks, then the configured query. */
  function HandleRaw<T>(configured: Option<string>, header: Option<string>, metric: Option<string>,
                        fromMs: Option<string>, toMs: Option<string>, limit: Option<string>, cursor: Option<string>,
                        listRaw: Option<RawArgs -> Result<T, Thrown>>)
    : (r: Result<T, HttpError>)
    ensures r.Success? ==> && listRaw.Some? && RawQueryArgs(metric, fromMs, toMs, limit, cursor).Success?
                           && listRaw.value(RawQueryArgs(metric, fromMs, toMs, limit, cursor).value) == Success(r.value)
    ensures r.Failure? ==> r.error.status in {400, 401, 403, 500}
    ensures r.Failure? && r.error.status == 500 ==> !IsPresent(configured) || listRaw.None?
  {
    Answer(RequireBearerToken(configured, header), RawQueryArgs(metric, fromMs, toMs, limit, cursor), listRaw,
           ErrRawNotConfigured, RawThrown)
  }
}

=== FILE: http_summary.dfy ===
/** The summary endpoints of the private API
    (packages/backend/convex/healthSummaryHttpHandlers.ts): the day, range
    and yesterday queries read from the query string, the structured query
    read from a JSON body, and the status of every rejection. The summary
    queries behind the endpoints are parameters that either answer or throw.
 */
module HttpSummary {
  import opened Wrappers
  import opened JsStrings
  import opened StringOrder
  import opened HealthDomain
  import opened Json
  import opened ApiCommon

  const DefaultTimezone := "UTC"
  const ErrTimezoneInput := "timezone must be a non-empty string"
  const ErrUtterance := "utterance must be a string"
  const ErrBodyNotObject := "Body must be an object"
  const ErrIntentRequired := "intent is required"
  const ErrUnknownIntent := "intent must be daily_summary, range_summary, or yesterday_summary"

  const DailyIntent := "daily_summary"
  const RangeIntent := "range_summary"
  const YesterdayIntent := "yesterday_summary"

  // ---------------------------------------------------------------- time zones

  /** `parseTimezone` for the query string: absent or blank is UTC, anything
      else is passed through as written. */
  function ParseTimezone(raw: Option<string>): (tz: string)
    ensures !IsBlank(tz)
    ensures raw.Some? && !IsBlank(raw.value) ==> tz == raw.value
    ensures raw.None? || IsBlank(raw.value) ==> tz == DefaultTimezone
  {
    if raw.None? || IsBlank(raw.value) then UtcNotBlank(); DefaultTimezone else raw.value
  }

  lemma UtcNotBlank()
    ensures !IsBlank(DefaultTimezone)
  {
    assert !IsJsWhitespace(DefaultTimezone[0]);
  }

  /** `parseTimezoneInput` for a JSON body: absent is UTC, a blank or
      non-string zone is a 400. */
  function ParseTimezoneInput(v: JsValue): (r: Result<string, HttpError>)
    ensures r.Success? <==> v.Undefined? || IsNonEmptyString(v)
    ensures r.Success? ==> !IsBlank(r.value) && (v.Str? ==> r.value == v.s)
    ensures v.Undefined? ==> r == Success(DefaultTimezone)
    ensures r.Failure? ==> r.error == HttpError(ErrTimezoneInput, 400)
  {
    if v.Undefined? then UtcNotBlank(); Success(DefaultTimezone)
    else if !IsNonEmptyString(v) then Failure(HttpError(ErrTimezoneInput, 400))
    else Success(v.s)
  }

  /** The query string and the body disagree on a blank zone: the first
      falls back to UTC, the second rejects it. */
  lemma BlankZoneDisagreement(tz: string)
    requires IsBlank(tz)
    ensures ParseTimezone(Some(tz)) == DefaultTimezone
    ensures ParseTimezoneInput(Str(tz)).Failure?
  {
    assert !IsNonEmptyString(Str(tz));
  }

  /** `optionalString` for the utterance. */
  function ParseUtterance(v: JsValue): (r: Result<Option<string>, HttpError>)
    ensures r.Success? <==> v.Undefined? || v.Str?
    ensures r.Success? ==> r.value == (if v.Str? then Some(v.s) else None)
    ensures r.Failure? ==> r.error == HttpError(ErrUtterance, 400)
  {
    if v.Undefined? then Success(None)
    else if v.Str? then Success(Some(v.s))
    else Failure(HttpError(ErrUtterance, 400))
  }

  // ---------------------------------------------------------------- the structured query

  /** StructuredHealthSummaryQuery. */
  datatype StructuredQuery =
    | DailyQuery(day: string, timezone: string, utterance: Option<string>)
    | RangeQuery(from: string, to: string, timezone: string, utterance: Option<string>)
    | YesterdayQuery(timezone: string, utterance: Option<string>)

  function IntentName(q: StructuredQuery): string {
    match q
    case DailyQuery(_, _, _) => DailyIntent
    case RangeQuery(_, _, _, _) => RangeIntent
    case YesterdayQuery(_, _) => YesterdayIntent
  }

  /** The fields of a body that `parseStructuredQuery` reads. */
  datatype QueryFields = QueryFields(
    intent: JsValue,
    utterance: JsValue,
    timezone: JsValue,
    day: JsValue,
    from: JsValue,
    to: JsValue)

  function QueryFieldsOf(v: JsValue): QueryFields {
    QueryFields(Get(v, "intent"), Get(v, "utterance"), Get(v, "timezone"), Get(v, "day"), Get(v, "from"), Get(v, "to"))
  }

  /** `typeof value === "string" ? value : null`. */
  function StringOrNull(v: JsValue): (o: Option<string>)
    ensures o.Some? <==> v.Str?
    ensures o.Some? ==> v == Str(o.value)
  {
    if v.Str? then Some(v.s) else None
  }

  /** The intent is named, and the utterance and zone are well formed. */
  predicate QueryHeadAccepted(f: QueryFields) {
    IsNonEmptyString(f.intent) && (f.utterance.Undefined? || f.utterance.Str?)
    && (f.timezone.Undefined? || IsNonEmptyString(f.timezone))
  }

  /** The day a daily query needs. */
  predicate DailyArgsAccepted(f: QueryFields) {
    f.day.Str? && IsValidDayKey(f.day.s)
  }

  /** The ordered pair of days a range query needs. */
  predicate RangeArgsAccepted(f: QueryFields) {
    f.from.Str? && f.to.Str? && IsValidDayKey(f.from.s) && IsValidDayKey(f.to.s) && StrLe(f.from.s, f.to.s)
  }

  /** The arguments the named intent needs are present and well formed. */
  predicate QueryArgsAccepted(f: QueryFields) {
    if f.intent == Str(DailyIntent) then DailyArgsAccepted(f)
    else if f.intent == Str(RangeIntent) then RangeArgsAccepted(f)
    else f.intent == Str(YesterdayIntent)
  }

  function DailyOfFields(f: QueryFields, tz: string, utterance: Option<string>): (r: Result<StructuredQuery, HttpError>)
    ensures r.Success? <==> DailyArgsAccepted(f)
    ensures r.Failure? ==> r.error.status == 400
    ensures r.Success? ==> r.value == DailyQuery(f.day.s, tz, utterance)
  {
    match ParseDayKey(StringOrNull(f.day))
    case Failure(e) => Failure(e)
    case Success(day) => Success(DailyQuery(day, tz, utterance))
  }

  function RangeOfFields(f: QueryFields, tz: string, utterance: Option<string>): (r: Result<StructuredQuery, HttpError>)
    ensures r.Success? <==> RangeArgsAccepted(f)
    ensures r.Failure? ==> r.error.status == 400
    ensures r.Success? ==> r.value == RangeQuery(f.from.s, f.to.s, tz, utterance)
  {
    match ParseDayRange(StringOrNull(f.from), StringOrNull(f.to), ErrDayKeyRequired)
    case Failure(e) => Failure(e)
    case Success(range) => Success(RangeQuery(range.0, range.1, tz, utterance))
  }

  /** The query of an intent that passed the head checks. */
  function QueryOfIntent(f: QueryFields, tz: string, utterance: Option<string>): (r: Result<StructuredQuery, HttpError>)
    ensures r.Success? <==> QueryArgsAccepted(f)
    ensures r.Failure? ==> r.error.status == 400
    ensures r.Success? ==> && Str(IntentName(r.value)) == f.intent
                           && r.value.timezone == tz && r.value.utterance == utterance
    ensures r.Success? && r.value.DailyQuery? ==> Str(r.value.day) == f.day
    ensures r.Success? && r.value.RangeQuery? ==> Str(r.value.from) == f.from && Str(r.value.to) == f.to
    ensures f.intent != Str(DailyIntent) && f.intent != Str(RangeIntent) && f.intent != Str(YesterdayIntent) ==>
      r == Failure(HttpError(ErrUnknownIntent, 400))
  {
    if f.intent == Str(DailyIntent) then DailyOfFields(f, tz, utterance)
    else if f.intent == Str(RangeIntent) then RangeOfFields(f, tz, utterance)
    else if f.intent == Str(YesterdayIntent) then Success(YesterdayQuery(tz, utterance))
    else Failure(HttpError(ErrUnknownIntent, 400))
  }

  /** The utterance and zone checks of `parseStructuredQuery`, in that order. */
  function QueryHead(f: QueryFields): (r: Result<(Option<string>, string), HttpError>)
    ensures r.Success? <==> (f.utterance.Undefined? || f.utterance.Str?)
                            && (f.timezone.Undefined? || IsNonEmptyString(f.timezone))
    ensures r.Failure? ==> r.error.status == 400
    ensures r.Success? ==> ParseUtterance(f.utterance) == Success(r.value.0)
                           && ParseTimezoneInput(f.timezone) == Success(r.value.1)
  {
    match ParseUtterance(f.utterance)
    case Failure(e) => Failure(e)
    case Success(utterance) =>
      match ParseTimezoneInput(f.timezone)
      case Failure(e) => Failure(e)
      case Success(tz) => Success((utterance, tz))
  }

  /** `parseStructuredQuery`: an object naming an intent, with an optional
      utterance and zone (UTC when absent), and the day or the ordered range
      the intent needs. */
  function ParseStructuredQuery(v: JsValue): (r: Result<StructuredQuery, HttpError>)
    ensures r.Success? <==> IsRecord(v) && QueryHeadAccepted(QueryFieldsOf(v)) && QueryArgsAccepted(QueryFieldsOf(v))
    ensures r.Failure? ==> r.error.status == 400
    ensures !IsRecord(v) ==> r == Failure(HttpError(ErrBodyNotObject, 400))
    ensures IsRecord(v) && !IsNonEmptyString(Get(v, "intent")) ==> r == Failure(HttpError(ErrIntentRequired, 400))
    ensures r.Success? ==> && Str(IntentName(r.value)) == Get(v, "intent")
                           && ParseTimezoneInput(Get(v, "timezone")) == Success(r.value.timezone)
                           && ParseUtterance(Get(v, "utterance")) == Success(r.value.utterance)
    ensures r.Success? && r.value.DailyQuery? ==> Str(r.value.day) == Get(v, "day")
    ensures r.Success? && r.value.RangeQuery? ==> Str(r.value.from) == Get(v, "from") && Str(r.value.to) == Get(v, "to")
  {
    if !IsRecord(v) then Failure(HttpError(ErrBodyNotObject, 400))
    else
      var f := QueryFieldsOf(v);
      if !IsNonEmptyString(f.intent) then Failure(HttpError(ErrIntentRequired, 400))
      else
        match QueryHead(f)
        case Failure(e) => Failure(e)
        case Success(head) => QueryOfIntent(f, head.1, head.0)
  }

  /** The queries a client can send: a zone that is not blank, well-formed
      day keys, and a range in order. */
  predicate WellFormedQuery(q: StructuredQuery) {
    && !IsBlank(q.timezone)
    && (q.DailyQuery? ==> IsValidDayKey(q.day))
    && (q.RangeQuery? ==> IsValidDayKey(q.from) && IsValidDayKey(q.to) && StrLe(q.from, q.to))
  }

  function QueryFieldsJson(q: StructuredQuery): QueryFields {
    QueryFields(Str(IntentName(q)), if q.utterance.Some? then Str(q.utterance.value) else Undefined,
                Str(q.timezone),
                if q.DailyQuery? then Str(q.day) else Undefined,
                if q.RangeQuery? then Str(q.from) else Undefined,
                if q.RangeQuery? then Str(q.to) else Undefined)
  }

  function QueryPairs(f: QueryFields): seq<(string, JsValue)> {
    [("intent", f.intent), ("utterance", f.utterance), ("timezone", f.timezone),
     ("day", f.day), ("from", f.from), ("to", f.to)]
  }

  /** The body a client sends for a query. */
  function QueryJson(q: StructuredQuery): JsValue {
    Obj(ObjOf(QueryPairs(QueryFieldsJson(q))))
  }

  lemma QueryFieldsOfObj(f: QueryFields)
    ensures QueryFieldsOf(Obj(ObjOf(QueryPairs(f)))) == f
  {
    var pairs := QueryPairs(f);
    assert DistinctKeys(pairs);
    ObjOfGet(pairs, 0); ObjOfGet(pairs, 1); ObjOfGet(pairs, 2);
    ObjOfGet(pairs, 3); ObjOfGet(pairs, 4); ObjOfGet(pairs, 5);
  }

  lemma IntentNamesNotBlank(q: StructuredQuery)
    ensures !IsBlank(IntentName(q))
  {
    assert !IsJsWhitespace(IntentName(q)[0]);
  }

  /** Every well-formed query survives being sent and parsed. */
  lemma QueryRoundTrip(q: StructuredQuery)
    requires WellFormedQuery(q)
    ensures ParseStructuredQuery(QueryJson(q)) == Success(q)
  {
    var f := QueryFieldsJson(q);
    QueryFieldsOfObj(f);
    IntentNamesNotBlank(q);
    var v := QueryJson(q);
    assert IsRecord(v) && QueryFieldsOf(v) == f;
    assert QueryHeadAccepted(f);
    var r := ParseStructuredQuery(v);
    if q.RangeQuery? {
      assert QueryArgsAccepted(f);
    }
    assert r.Success?;
  }

  // ---------------------------------------------------------------- the handlers

  /** What each endpoint answers when the query behind it throws. */
  function DailyThrown(t: Thrown): HttpError {
    ThrownAnswer(t, "Failed to fetch daily summary")
  }

  function RangeThrown(t: Thrown): HttpError {
    ThrownAnswer(t, "Failed to fetch range summary")
  }

  function YesterdayThrown(t: Thrown): HttpError {
    ThrownAnswer(t, "Failed to fetch yesterday summary")
  }

  function QueryThrown(t: Thrown): HttpError {
    ThrownAnswer(t, "Failed to execute structured health query")
  }

  /** The query checks of `handleDailySummary`: the day key, then the zone. */
  function DailyArgs(day: Option<string>, timezone: Option<string>): (r: Result<(string, string), HttpError>)
    ensures r.Success? <==> day.Some? && IsValidDayKey(day.value)
    ensures r.Success? ==> r.value == (day.value, ParseTimezone(timezone))
    ensures r.Failure? ==> r == Failure(ParseDayKey(day).error)
  {
    match ParseDayKey(day)
    case Failure(e) => Failure(e)
    case Success(d) => Success((d, ParseTimezone(timezone)))
  }

  /** `handleDailySummary`. */
  function HandleDailySummary<T>(configured: Option<string>, header: Option<string>, day: Option<string>,
                                 timezone: Option<string>, getDaily: ((string, string)) -> Result<T, Thrown>)
    : (r: Result<T, HttpError>)
    ensures r.Success? ==> && day.Some? && IsValidDayKey(day.value)
                           && getDaily((day.value, ParseTimezone(timezone))) == Success(r.value)
    ensures r.Failure? ==> r.error.status in {400, 401, 403, 500}
    ensures r.Failure? && r.error.status == 500 ==> !IsPresent(configured)
  {
    Answer(RequireBearerToken(configured, header), DailyArgs(day, timezone), Some(getDaily), "", DailyThrown)
  }

  /** The query checks of `handleRangeSummary`: both keys, their order, then the zone. */
  function RangeArgs(from: Option<string>, to: Option<string>, timezone: Option<string>)
    : (r: Result<(string, string, string), HttpError>)
    ensures r.Success? <==> ParseDayRange(from, to, ErrDayKeyRequired).Success?
    ensures r.Success? ==> r.value == (from.value, to.value, ParseTimezone(timezone))
    ensures r.Failure? ==> r == Failure(ParseDayRange(from, to, ErrDayKeyRequired).error)
  {
    match ParseDayRange(from, to, ErrDayKeyRequired)
    case Failure(e) => Failure(e)
    case Success(range) => Success((range.0, range.1, ParseTimezone(timezone)))
  }

  /** `handleRangeSummary`. */
  function HandleRangeSummary<T>(configured: Option<string>, header: Option<string>, from: Option<string>,
                                 to: Option<string>, timezone: Option<string>,
                                 getRange: ((string, string, string)) -> Result<T, Thrown>)
    : (r: Result<T, HttpError>)
    ensures r.Success? ==> && from.Some? && to.Some? && IsValidDayKey(from.value) && IsValidDayKey(to.value)
                           && StrLe(from.value, to.value)
                           && getRange((from.value, to.value, ParseTimezone(timezone))) == Success(r.value)
    ensures r.Failure? ==> r.error.status in {400, 401, 403, 500}
    ensures r.Failure? && r.error.status == 500 ==> !IsPresent(configured)
  {
    Answer(RequireBearerToken(configured, header), RangeArgs(from, to, timezone), Some(getRange), "", RangeThrown)
  }

  /** `handleYesterdaySummary`: only the token can be refused before the query runs. */
  function HandleYesterdaySummary<T>(configured: Option<string>, header: Option<string>, timezone: Option<string>,
                                     getYesterday: string -> Result<T, Thrown>)
    : (r: Result<T, HttpError>)
    ensures r.Success? <==> RequireBearerToken(configured, header).Success? && getYesterday(ParseTimezone(timezone)).Success?
    ensures r.Success? ==> getYesterday(ParseTimezone(timezone)) == Success(r.value)
    ensures r.Failure? ==> r.error.status in {400, 401, 403, 500}
  {
    Answer(RequireBearerToken(configured, header), Success(ParseTimezone(timezone)), Some(getYesterday), "", YesterdayThrown)
  }

  /** The summary query a structured query runs. */
  function RunQuery<T>(q: StructuredQuery, getDaily: ((string, string)) -> Result<T, Thrown>,
                       getRange: ((string, string, string)) -> Result<T, Thrown>,
                       getYesterday: string -> Result<T, Thrown>): (r: Result<T, Thrown>)
    ensures q.DailyQuery? ==> r == getDaily((q.day, q.timezone))
    ensures q.RangeQuery? ==> r == getRange((q.from, q.to, q.timezone))
    ensures q.YesterdayQuery? ==> r == getYesterday(q.timezone)
  {
    match q
    case DailyQuery(day, tz, _) => getDaily((day, tz))
    case RangeQuery(from, to, tz, _) => getRange((from, to, tz))
    case YesterdayQuery(tz, _) => getYesterday(tz)
  }

  /** `handleQuery`: the token, the JSON body, the structured query, then
      the summary query the intent names. */
  function HandleQuery<T>(configured: Option<string>, header: Option<string>, body: Option<JsValue>,
                          run: StructuredQuery -> Result<T, Thrown>)
    : (r: Result<T, HttpError>)
    ensures r.Success? ==> && body.Some? && ParseStructuredQuery(body.value).Success?
                           && run(ParseStructuredQuery(body.value).value) == Success(r.value)
    ensures r.Failure? ==> r.error.status in {400, 401, 403, 500}
    ensures r.Failure? && r.error.status == 500 ==> !IsPresent(configured)
  {
    Answer(RequireBearerToken(configured, header), ParseBody(body, ParseStructuredQuery), Some(run), "", QueryThrown)
  }
}

=== FILE: http_write_intents.dfy ===
/** The write-intent endpoints of the private API
    (packages/backend/convex/healthWriteIntentHttpHandlers.ts): the JSON
    bodies of a create and of an ack checked field by field, the query of
    the pending listing, and the status of every rejection. The Convex
    functions behind the endpoints are parameters that either answer or
    throw.
 */
module HttpWriteIntents {
  import opened Wrappers
  import opened JsStrings
  import opened JsNumbers
  import opened Json
  import opened HealthTypes
  import opened WriteIntents
  import opened ApiCommon

  const ErrBodyNotObject := "Body must be an object"
  const ErrExternalIdRequired := "externalId is required"
  const ErrWriteMetric := "metric must be active_energy_kcal or dietary_energy_kcal"
  const ErrIntegerTimes := "startTimeMs and endTimeMs must be integers"
  const ErrEndBeforeStart := "endTimeMs must be >= startTimeMs"
  const ErrFiniteValue := "valueNumber must be a finite number"
  const ErrUnitRequired := "unit is required"
  const ErrTimezoneRequired := "timezone is required"
  const ErrTags := "tags must be an array of strings"
  const ErrNote := "note must be a string"
  const ErrSourceName := "sourceName must be a string"
  const ErrSourceBundleId := "sourceBundleId must be a string"
  const ErrAckStatus := "status must be applied, failed, or skipped"
  const ErrAppliedAt := "appliedAtMs must be an integer timestamp"
  const ErrHealthkitUuid := "healthkitUuid must be a string"
  const ErrErrorCode := "errorCode must be a string"
  const ErrErrorMessage := "errorMessage must be a string"

  // ---------------------------------------------------------------- names

  function WriteMetricName(m: WriteMetric): string {
    if m.ActiveEnergyKcal? then "active_energy_kcal" else "dietary_energy_kcal"
  }

  /** `isNonEmptyString(v) && isWriteMetric(v)`: the metric a field names. */
  function WriteMetricOfField(v: JsValue): (m: Option<WriteMetric>)
    ensures m.Some? ==> v == Str(WriteMetricName(m.value))
  {
    if v == Str("active_energy_kcal") then Some(WriteMetric.ActiveEnergyKcal)
    else if v == Str("dietary_energy_kcal") then Some(WriteMetric.DietaryEnergyKcal)
    else None
  }

  function AckStatusName(s: AckStatus): string {
    match s
    case AckApplied => "applied"
    case AckFailed => "failed"
    case AckSkipped => "skipped"
  }

  /** `isNonEmptyString(v) && isAckStatus(v)`: the status a field names. */
  function AckStatusOfField(v: JsValue): (s: Option<AckStatus>)
    ensures s.Some? ==> v == Str(AckStatusName(s.value))
  {
    if v == Str("applied") then Some(AckApplied)
    else if v == Str("failed") then Some(AckFailed)
    else if v == Str("skipped") then Some(AckSkipped)
    else None
  }

  /** Every write metric is read back from its name. */
  lemma WriteMetricNameRoundTrip(m: WriteMetric)
    ensures WriteMetricOfField(Str(WriteMetricName(m))) == Some(m)
  {
  }

  /** Every ack status is read back from its name. */
  lemma AckStatusNameRoundTrip(s: AckStatus)
    ensures AckStatusOfField(Str(AckStatusName(s))) == Some(s)
  {
  }

  // ---------------------------------------------------------------- tags

  function TagOf(v: JsValue): (r: Result<string, HttpError>)
    ensures r.Success? <==> v.Str?
    ensures r.Success? ==> v == Str(r.value)
    ensures r.Failure? ==> r.error == HttpError(ErrTags, 400)
  {
    if v.Str? then Success(v.s) else Failure(HttpError(ErrTags, 400))
  }

  /** `parseTags`: no tags is the empty list, otherwise an array of strings. */
  function ParseTags(v: JsValue): (r: Result<seq<string>, HttpError>)
    ensures r.Success? <==> v.Undefined? || (v.Arr? && forall i | 0 <= i < |v.items| :: v.items[i].Str?)
    ensures r.Success? && v.Undefined? ==> r.value == []
    ensures r.Success? && v.Arr? ==> |r.value| == |v.items| && forall i | 0 <= i < |v.items| :: v.items[i] == Str(r.value[i])
    ensures r.Failure? ==> r.error == HttpError(ErrTags, 400)
  {
    if v.Undefined? then Success([])
    else if !v.Arr? then Failure(HttpError(ErrTags, 400))
    else
      var r := ParseAll(v.items, TagOf);
      if r.Failure? then
        var i :| 0 <= i < |v.items| && FirstFailureAt(v.items, TagOf, r.error, i);
        Failure(HttpError(ErrTags, 400))
      else r
  }

  function TagsJson(tags: seq<string>): (v: JsValue)
    ensures v.Arr? && |v.items| == |tags|
  {
    Arr(seq(|tags|, i requires 0 <= i < |tags| => Str(tags[i])))
  }

  lemma TagsRoundTrip(tags: seq<string>)
    ensures ParseTags(TagsJson(tags)) == Success(tags)
  {
    var v := TagsJson(tags);
    assert forall i | 0 <= i < |tags| :: v.items[i] == Str(tags[i]);
    var r := ParseTags(v);
    assert r.Success?;
    assert r.value == tags;
  }

  // ---------------------------------------------------------------- optional strings

  /** An optional field that must be a string when present. */
  function OptionalText(v: JsValue, err: string): (r: Result<Option<string>, HttpError>)
    ensures r.Success? <==> v.Undefined? || v.Str?
    ensures r.Success? ==> r.value == (if v.Str? then Some(v.s) else None)
    ensures r.Failure? ==> r.error == HttpError(err, 400)
  {
    if v.Undefined? then Success(None)
    else if v.Str? then Success(Some(v.s))
    else Failure(HttpError(err, 400))
  }

  function TextJson(o: Option<string>): JsValue {
    if o.Some? then Str(o.value) else Undefined
  }

  predicate Optional(v: JsValue) {
    v.Undefined? || v.Str?
  }

  // ---------------------------------------------------------------- create

  /** The fields of a create body that `parseCreateBody` reads. */
  datatype CreateFields = CreateFields(
    externalId: JsValue,
    metric: JsValue,
    startTimeMs: JsValue,
    endTimeMs: JsValue,
    valueNumber: JsValue,
    unit: JsValue,
    timezone: JsValue,
    tags: JsValue,
    note: JsValue,
    sourceName: JsValue,
    sourceBundleId: JsValue)

  function CreateFieldsOf(v: JsValue): CreateFields {
    CreateFields(Get(v, "externalId"), Get(v, "metric"), Get(v, "startTimeMs"), Get(v, "endTimeMs"),
                 Get(v, "valueNumber"), Get(v, "unit"), Get(v, "timezone"), Get(v, "tags"),
                 Get(v, "note"), Get(v, "sourceName"), Get(v, "sourceBundleId"))
  }

  /** The id, the metric, the times and the value. */
  predicate CreateHeadAccepted(f: CreateFields) {
    && IsNonEmptyString(f.externalId)
    && WriteMetricOfField(f.metric).Some?
    && IsIntegerNumber(f.startTimeMs) && IsIntegerNumber(f.endTimeMs)
    && AsInt(f.endTimeMs.n) >= AsInt(f.startTimeMs.n)
    && IsFiniteNumber(f.valueNumber)
  }

  /** The unit, the zone, the tags and the optional texts. */
  predicate CreateTailAccepted(f: CreateFields) {
    && IsNonEmptyString(f.unit) && IsNonEmptyString(f.timezone)
    && ParseTags(f.tags).Success?
    && Optional(f.note) && Optional(f.sourceName) && Optional(f.sourceBundleId)
  }

  predicate CreateAccepted(f: CreateFields) {
    CreateHeadAccepted(f) && CreateTailAccepted(f)
  }

  function CreateHeadError(f: CreateFields): (e: Option<string>)
    ensures e.None? <==> CreateHeadAccepted(f)
    ensures !IsNonEmptyString(f.externalId) ==> e == Some(ErrExternalIdRequired)
  {
    if !IsNonEmptyString(f.externalId) then Some(ErrExternalIdRequired)
    else if WriteMetricOfField(f.metric).None? then Some(ErrWriteMetric)
    else if !IsIntegerNumber(f.startTimeMs) || !IsIntegerNumber(f.endTimeMs) then Some(ErrIntegerTimes)
    else if AsInt(f.endTimeMs.n) < AsInt(f.startTimeMs.n) then Some(ErrEndBeforeStart)
    else if !IsFiniteNumber(f.valueNumber) then Some(ErrFiniteValue)
    else None
  }

  function CreateTailError(f: CreateFields): (e: Option<string>)
    ensures e.None? <==> CreateTailAccepted(f)
  {
    if !IsNonEmptyString(f.unit) then Some(ErrUnitRequired)
    else if !IsNonEmptyString(f.timezone) then Some(ErrTimezoneRequired)
    else if ParseTags(f.tags).Failure? then Some(ErrTags)
    else if !Optional(f.note) then Some(ErrNote)
    else if !Optional(f.sourceName) then Some(ErrSourceName)
    else if !Optional(f.sourceBundleId) then Some(ErrSourceBundleId)
    else None
  }

  /** The checks of `parseCreateBody` on the fields, in source order. */
  function CreateError(f: CreateFields): (e: Option<string>)
    ensures e.None? <==> CreateAccepted(f)
  {
    if CreateHeadError(f).Some? then CreateHeadError(f) else CreateTailError(f)
  }

  /** The payload accepted fields describe; the tags are always a list. */
  function PayloadOfFields(f: CreateFields): (p: Payload)
    requires CreateAccepted(f)
    ensures PayloadIsValid(p) && p.tags.Some?
    ensures Str(p.externalId) == f.externalId && Str(WriteMetricName(p.metric)) == f.metric
    ensures Num(p.startTimeMs) == f.startTimeMs && Num(p.endTimeMs) == f.endTimeMs
    ensures Num(p.valueNumber) == f.valueNumber
    ensures Str(p.unit) == f.unit && Str(p.timezone) == f.timezone
    ensures ParseTags(f.tags) == Success(p.tags.value)
    ensures TextJson(p.note) == f.note && TextJson(p.sourceName) == f.sourceName
    ensures TextJson(p.sourceBundleId) == f.sourceBundleId
  {
    Payload(f.externalId.s, WriteMetricOfField(f.metric).value, f.startTimeMs.n, f.endTimeMs.n, f.valueNumber.n,
            f.unit.s, f.timezone.s, OptionalText(f.note, ErrNote).value, OptionalText(f.sourceName, ErrSourceName).value,
            OptionalText(f.sourceBundleId, ErrSourceBundleId).value, Some(ParseTags(f.tags).value))
  }

  /** `parseCreateBody`, answered 400 by `handleCreateIntent`: an object
      whose fields pass the checks, read into a payload. */
  function ParseCreateBody(v: JsValue): (r: Result<Payload, HttpError>)
    ensures r.Success? <==> IsRecord(v) && CreateAccepted(CreateFieldsOf(v))
    ensures r.Failure? ==> r.error.status == 400
    ensures !IsRecord(v) ==> r == Failure(HttpError(ErrBodyNotObject, 400))
    ensures IsRecord(v) && r.Failure? ==> r.error.error == CreateError(CreateFieldsOf(v)).value
    ensures r.Success? ==> r.value == PayloadOfFields(CreateFieldsOf(v))
  {
    if !IsRecord(v) then Failure(HttpError(ErrBodyNotObject, 400))
    else
      var f := CreateFieldsOf(v);
      match CreateError(f)
      case Some(e) => Failure(HttpError(e, 400))
      case None => Success(PayloadOfFields(f))
  }

  /** Whatever the HTTP check lets through, the mutation's own payload
      check accepts unchanged. */
  lemma CreateBodyPassesAssertPayload(v: JsValue)
    requires ParseCreateBody(v).Success?
    ensures AssertPayload(ParseCreateBody(v).value) == Success(ParseCreateBody(v).value)
  {
  }

  /** The fields a client writes for a payload. */
  function CreateFieldsJson(p: Payload): CreateFields {
    CreateFields(Str(p.externalId), Str(WriteMetricName(p.metric)), Num(p.startTimeMs), Num(p.endTimeMs),
                 Num(p.valueNumber), Str(p.unit), Str(p.timezone),
                 if p.tags.Some? then TagsJson(p.tags.value) else Undefined,
                 TextJson(p.note), TextJson(p.sourceName), TextJson(p.sourceBundleId))
  }

  function CreatePairs(f: CreateFields): seq<(string, JsValue)> {
    [("externalId", f.externalId), ("metric", f.metric), ("startTimeMs", f.startTimeMs),
     ("endTimeMs", f.endTimeMs), ("valueNumber", f.valueNumber), ("unit", f.unit),
     ("timezone", f.timezone), ("tags", f.tags), ("note", f.note),
     ("sourceName", f.sourceName), ("sourceBundleId", f.sourceBundleId)]
  }

  /** The body a client sends to create a payload. */
  function CreateJson(p: Payload): JsValue {
    Obj(ObjOf(CreatePairs(CreateFieldsJson(p))))
  }

  lemma CreateFieldsOfObj(f: CreateFields)
    ensures CreateFieldsOf(Obj(ObjOf(CreatePairs(f)))) == f
  {
    var pairs := CreatePairs(f);
    CreateNamesDistinct(f);
    ObjOfGet(pairs, 0); ObjOfGet(pairs, 1); ObjOfGet(pairs, 2); ObjOfGet(pairs, 3);
    ObjOfGet(pairs, 4); ObjOfGet(pairs, 5); ObjOfGet(pairs, 6); ObjOfGet(pairs, 7);
    ObjOfGet(pairs, 8); ObjOfGet(pairs, 9); ObjOfGet(pairs, 10);
  }

  lemma CreateNamesDistinct(f: CreateFields)
    ensures DistinctKeys(CreatePairs(f))
  {
  }

  lemma CreateFieldsAccepted(p: Payload)
    requires PayloadIsValid(p) && p.tags.Some?
    ensures CreateAccepted(CreateFieldsJson(p)) && PayloadOfFields(CreateFieldsJson(p)) == p
  {
    var f := CreateFieldsJson(p);
    CreateHeadOfPayload(p);
    CreateTailOfPayload(p);
    var q := PayloadOfFields(f);
    assert q.metric == p.metric by {
      WriteMetricNameRoundTrip(p.metric);
    }
    assert q.tags == p.tags by {
      TagsRoundTrip(p.tags.value);
    }
    TextJsonInjective(q.note, p.note);
    TextJsonInjective(q.sourceName, p.sourceName);
    TextJsonInjective(q.sourceBundleId, p.sourceBundleId);
  }

  lemma TextJsonInjective(a: Option<string>, b: Option<string>)
    ensures TextJson(a) == TextJson(b) ==> a == b
  {
  }

  lemma CreateHeadOfPayload(p: Payload)
    requires PayloadIsValid(p)
    ensures CreateHeadAccepted(CreateFieldsJson(p))
  {
    WriteMetricNameRoundTrip(p.metric);
  }

  lemma CreateTailOfPayload(p: Payload)
    requires PayloadIsValid(p) && p.tags.Some?
    ensures CreateTailAccepted(CreateFieldsJson(p))
  {
    TagsRoundTrip(p.tags.value);
  }

  /** Every payload the mutation accepts, tags given, survives being sent
      and parsed. */
  lemma CreateRoundTrip(p: Payload)
    requires PayloadIsValid(p) && p.tags.Some?
    ensures ParseCreateBody(CreateJson(p)) == Success(p)
  {
    CreateFieldsOfObj(CreateFieldsJson(p));
    CreateFieldsAccepted(p);
    assert IsRecord(CreateJson(p));
  }

  // ---------------------------------------------------------------- ack

  /** HealthWriteIntentAckRequest. */
  datatype AckRequest = AckRequest(externalId: string, status: AckStatus, args: AckArgs)

  datatype AckFields = AckFields(
    externalId: JsValue,
    status: JsValue,
    appliedAtMs: JsValue,
    healthkitUuid: JsValue,
    errorCode: JsValue,
    errorMessage: JsValue)

  function AckFieldsOf(v: JsValue): AckFields {
    AckFields(Get(v, "externalId"), Get(v, "status"), Get(v, "appliedAtMs"), Get(v, "healthkitUuid"),
              Get(v, "errorCode"), Get(v, "errorMessage"))
  }

  predicate AckAccepted(f: AckFields) {
    && IsNonEmptyString(f.externalId)
    && AckStatusOfField(f.status).Some?
    && (f.appliedAtMs.Undefined? || IsIntegerNumber(f.appliedAtMs))
    && Optional(f.healthkitUuid) && Optional(f.errorCode) && Optional(f.errorMessage)
  }

  /** The checks of `parseAckBody` on the fields, in source order. */
  function AckError(f: AckFields): (e: Option<string>)
    ensures e.None? <==> AckAccepted(f)
    ensures !IsNonEmptyString(f.externalId) ==> e == Some(ErrExternalIdRequired)
  {
    if !IsNonEmptyString(f.externalId) then Some(ErrExternalIdRequired)
    else if AckStatusOfField(f.status).None? then Some(ErrAckStatus)
    else if !f.appliedAtMs.Undefined? && !IsIntegerNumber(f.appliedAtMs) then Some(ErrAppliedAt)
    else if !Optional(f.healthkitUuid) then Some(ErrHealthkitUuid)
    else if !Optional(f.errorCode) then Some(ErrErrorCode)
    else if !Optional(f.errorMessage) then Some(ErrErrorMessage)
    else None
  }

  function AppliedAtJson(t: Option<int>): JsValue {
    if t.Some? then Num(OfInt(t.value)) else Undefined
  }

  function AckOfFields(f: AckFields): (a: AckRequest)
    requires AckAccepted(f)
    ensures Str(a.externalId) == f.externalId && Str(AckStatusName(a.status)) == f.status
    ensures AppliedAtJson(a.args.appliedAtMs) == f.appliedAtMs
    ensures TextJson(a.args.healthkitUuid) == f.healthkitUuid
    ensures TextJson(a.args.errorCode) == f.errorCode && TextJson(a.args.errorMessage) == f.errorMessage
  {
    var appliedAt := if f.appliedAtMs.Undefined? then None else Some(AsInt(f.appliedAtMs.n));
    AckRequest(f.externalId.s, AckStatusOfField(f.status).value,
               AckArgs(appliedAt, OptionalText(f.healthkitUuid, ErrHealthkitUuid).value,
                       OptionalText(f.errorCode, ErrErrorCode).value, OptionalText(f.errorMessage, ErrErrorMessage).value))
  }

  /** `parseAckBody`, answered 400 by `handleAckIntent`. */
  function ParseAckBody(v: JsValue): (r: Result<AckRequest, HttpError>)
    ensures r.Success? <==> IsRecord(v) && AckAccepted(AckFieldsOf(v))
    ensures r.Failure? ==> r.error.status == 400
    ensures !IsRecord(v) ==> r == Failure(HttpError(ErrBodyNotObject, 400))
    ensures IsRecord(v) && r.Failure? ==> r.error.error == AckError(AckFieldsOf(v)).value
    ensures r.Success? ==> r.value == AckOfFields(AckFieldsOf(v)) && !IsBlank(r.value.externalId)
  {
    if !IsRecord(v) then Failure(HttpError(ErrBodyNotObject, 400))
    else
      var f := AckFieldsOf(v);
      match AckError(f)
      case Some(e) => Failure(HttpError(e, 400))
      case None => Success(AckOfFields(f))
  }

  function AckFieldsJson(a: AckRequest): AckFields {
    AckFields(Str(a.externalId), Str(AckStatusName(a.status)), AppliedAtJson(a.args.appliedAtMs),
              TextJson(a.args.healthkitUuid), TextJson(a.args.errorCode), TextJson(a.args.errorMessage))
  }

  function AckPairs(f: AckFields): seq<(string, JsValue)> {
    [("externalId", f.externalId), ("status", f.status), ("appliedAtMs", f.appliedAtMs),
     ("healthkitUuid", f.healthkitUuid), ("errorCode", f.errorCode), ("errorMessage", f.errorMessage)]
  }

  /** The body a client sends to ack. */
  function AckJson(a: AckRequest): JsValue {
    Obj(ObjOf(AckPairs(AckFieldsJson(a))))
  }

  lemma AckFieldsOfObj(f: AckFields)
    ensures AckFieldsOf(Obj(ObjOf(AckPairs(f)))) == f
  {
    var pairs := AckPairs(f);
    assert DistinctKeys(pairs);
    ObjOfGet(pairs, 0); ObjOfGet(pairs, 1); ObjOfGet(pairs, 2);
    ObjOfGet(pairs, 3); ObjOfGet(pairs, 4); ObjOfGet(pairs, 5);
  }

  /** Every ack with a non-blank id survives being sent and parsed. */
  lemma AckRoundTrip(a: AckRequest)
    requires !IsBlank(a.externalId)
    ensures ParseAckBody(AckJson(a)) == Success(a)
  {
    var f := AckFieldsJson(a);
    AckFieldsOfObj(f);
    assert AckAccepted(f);
    var b := AckOfFields(f);
    assert b.status == a.status;
    assert b.args == a.args;
    assert IsRecord(AckJson(a));
  }

  // ---------------------------------------------------------------- handlers

  /** What each handler answers when the Convex function behind it throws. */
  function CreateThrown(t: Thrown): HttpError {
    ThrownAnswer(t, "Failed to upsert write intent")
  }

  function ListPendingThrown(t: Thrown): HttpError {
    ThrownAnswer(t, "Failed to list pending write intents")
  }

  function AckThrown(t: Thrown): HttpError {
    ThrownAnswer(t, "Failed to ack write intent")
  }


  /** `handleCreateIntent`: the token, the JSON body, the payload check,
      then the upsert. */
  function HandleCreateIntent<T>(configured: Option<string>, header: Option<string>, body: Option<JsValue>,
                                 upsert: Payload -> Result<T, Thrown>)
    : (r: Result<T, HttpError>)
    ensures r.Success? ==> && body.Some? && ParseCreateBody(body.value).Success?
                           && AssertPayload(ParseCreateBody(body.value).value).Success?
                           && upsert(ParseCreateBody(body.value).value) == Success(r.value)
    ensures r.Failure? ==> r.error.status in {400, 401, 403, 500}
    ensures r.Failure? && r.error.status == 500 ==> !IsPresent(configured)
  {
    Answer(RequireBearerToken(configured, header), ParseBody(body, ParseCreateBody), Some(upsert), "",
           CreateThrown)
  }

  /** The query checks of `handleListPending`: a limit of 1 to 200 is
      required, and an empty cursor is no cursor. */
  function ListPendingArgs(limit: Option<string>, cursor: Option<string>): (r: Result<(int, Option<string>), HttpError>)
    ensures r.Success? <==> ParseIntegerQueryParam(limit, "limit", Some(1), Some(MaxWriteIntentPageSize)).Success?
    ensures r.Failure? ==> r.error.status == 400
    ensures r.Success? ==> && 1 <= r.value.0 <= MaxWriteIntentPageSize
                           && r.value.0 == ParseIntegerQueryParam(limit, "limit", Some(1), Some(MaxWriteIntentPageSize)).value
                           && r.value.1 == CursorParam(cursor)
  {
    var l := ParseIntegerQueryParam(limit, "limit", Some(1), Some(MaxWriteIntentPageSize));
    if l.Failure? then Failure(l.error) else Success((l.value, CursorParam(cursor)))
  }

  /** Whatever limit the endpoint lets through, the query accepts. */
  lemma ListArgsPassListPending(limit: Option<string>, cursor: Option<string>, rows: seq<Intent>, offset: Option<nat>, nowArg: Option<int>, clockMs: int)
    requires ListPendingArgs(limit, cursor).Success?
    ensures ListPendingWriteIntents(rows, OfInt(ListPendingArgs(limit, cursor).value.0), offset, nowArg, clockMs).Success?
  {
  }

  /** `handleListPending`: the token, the query, then the listing. */
  function HandleListPending<T>(configured: Option<string>, header: Option<string>, limit: Option<string>,
                                cursor: Option<string>, list: ((int, Option<string>)) -> Result<T, Thrown>)
    : (r: Result<T, HttpError>)
    ensures r.Success? ==> && ListPendingArgs(limit, cursor).Success?
                           && list(ListPendingArgs(limit, cursor).value) == Success(r.value)
    ensures r.Failure? ==> r.error.status in {400, 401, 403, 500}
    ensures r.Failure? && r.error.status == 500 ==> !IsPresent(configured)
  {
    Answer(RequireBearerToken(configured, header), ListPendingArgs(limit, cursor), Some(list), "",
           ListPendingThrown)
  }

  /** `handleAckIntent`: the token, the JSON body, the ack check, then the ack. */
  function HandleAckIntent<T>(configured: Option<string>, header: Option<string>, body: Option<JsValue>,
                              ack: AckRequest -> Result<T, Thrown>)
    : (r: Result<T, HttpError>)
    ensures r.Success? ==> && body.Some? && ParseAckBody(body.value).Success?
                           && ack(ParseAckBody(body.value).value) == Success(r.value)
    ensures r.Failure? ==> r.error.status in {400, 401, 403, 500}
    ensures r.Failure? && r.error.status == 500 ==> !IsPresent(configured)
  {
    Answer(RequireBearerToken(configured, header), ParseBody(body, ParseAckBody), Some(ack), "",
           AckThrown)
  }
}

=== FILE: js_numbers.dfy ===
/** JavaScript numbers as far as the health code observes them: finite
    values (exact reals) versus NaN and the infinities, `Number.isInteger`,
    `String(n)` for integers, and `Number(string)` on decimal text.
 */
module JsNumbers {
  import opened Wrappers
  import opened JsStrings

  /** A JavaScript number: a finite value, or one of NaN, +Infinity, -Infinity. */
  datatype JsNumber = Finite(value: real) | NonFinite

  predicate IsIntegral(r: real) {
    r.Floor as real == r
  }

  /** `Number.isInteger(n)`. */
  predicate IsInteger(n: JsNumber) {
    n.Finite? && IsIntegral(n.value)
  }

  /** The integer held by a number that passed `Number.isInteger`. */
  function AsInt(n: JsNumber): (i: int)
    requires IsInteger(n)
    ensures i as real == n.value
  {
    n.value.Floor
  }

  function OfInt(i: int): (n: JsNumber)
    ensures IsInteger(n) && AsInt(n) == i
  {
    Finite(i as real)
  }

  // ---------------------------------------------------------------- digits

  predicate IsDigit(c: char) {
    '0' <= c <= '9'
  }

  predicate AllDigits(s: string) {
    forall k :: 0 <= k < |s| ==> IsDigit(s[k])
  }

  function DigitValue(c: char): (d: nat)
    requires IsDigit(c)
    ensures d < 10
  {
    (c as int) - ('0' as int)
  }

  function DigitChar(d: nat): (c: char)
    requires d < 10
    ensures IsDigit(c) && DigitValue(c) == d
  {
    ((('0' as int) + d) as char)
  }

  /** The value of a string of decimal digits, most significant first ("" is 0). */
  function DigitsValue(s: string): nat
    requires AllDigits(s)
  {
    if |s| == 0 then 0 else DigitsValue(s[..|s| - 1]) * 10 + DigitValue(s[|s| - 1])
  }

  function Pow10(k: nat): (p: nat)
    ensures p >= 1
  {
    if k == 0 then 1 else 10 * Pow10(k - 1)
  }

  function Pow2(k: nat): (p: nat)
    ensures p >= 1
  {
    if k == 0 then 1 else 2 * Pow2(k - 1)
  }

  lemma {:induction false} Pow2Monotone(a: nat, b: nat)
    requires a <= b
    ensures Pow2(a) <= Pow2(b)
    decreases b
  {
    if a < b {
      Pow2Monotone(a, b - 1);
    }
  }

  /** Digit strings with no superfluous leading zero, as `String(n)` prints them. */
  predicate IsCanonicalDigits(s: string) {
    |s| > 0 && AllDigits(s) && (|s| > 1 ==> s[0] != '0')
  }

  /** `String(n)` for a non-negative integer: canonical digits denoting `n`. */
  function NatToDecimal(n: nat): (r: string)
    ensures IsCanonicalDigits(r)
    ensures DigitsValue(r) == n
  {
    if n < 10 then
      [DigitChar(n)]
    else
      var p := NatToDecimal(n / 10);
      var r := p + [DigitChar(n % 10)];
      assert r[..|r| - 1] == p;
      r
  }

  /** `String(i)` for any integer. */
  function IntToDecimal(i: int): string {
    if i < 0 then "-" + NatToDecimal(-i) else NatToDecimal(i)
  }

  lemma {:induction false} DigitsValueAtLeastLead(s: string)
    requires |s| > 0 && AllDigits(s)
    ensures DigitsValue(s) >= DigitValue(s[0])
  {
    if |s| > 1 {
      DigitsValueAtLeastLead(s[..|s| - 1]);
    }
  }

  /** Canonical digit strings are exactly what `String(n)` prints. */
  lemma {:induction false} DecimalOfDigits(s: string)
    requires IsCanonicalDigits(s)
    ensures NatToDecimal(DigitsValue(s)) == s
  {
    if |s| > 1 {
      var p := s[..|s| - 1];
      DigitsValueAtLeastLead(p);
      DecimalOfDigits(p);
      assert s == p + [s[|s| - 1]];
    }
  }

  /** `String(n)` has at most `k + 1` digits exactly when `n < 10^(k+1)`. */
  lemma {:induction false} DecimalLength(n: nat, k: nat)
    ensures |NatToDecimal(n)| <= k + 1 <==> n < Pow10(k + 1)
  {
    if n >= 10 && k > 0 {
      DecimalLength(n / 10, k - 1);
    }
  }

  lemma {:induction false} DigitsValueBound(s: string)
    requires AllDigits(s)
    ensures DigitsValue(s) < Pow10(|s|)
  {
    if |s| > 0 {
      DigitsValueBound(s[..|s| - 1]);
    }
  }

  /** Digit strings of one length are equal exactly when their values are. */
  lemma {:induction false} DigitsValueInjective(a: string, b: string)
    requires |a| == |b| && AllDigits(a) && AllDigits(b)
    ensures DigitsValue(a) == DigitsValue(b) <==> a == b
  {
    if |a| > 0 {
      var n := |a| - 1;
      DigitsValueInjective(a[..n], b[..n]);
      assert DigitsValue(a) == DigitsValue(b) ==> DigitValue(a[n]) == DigitValue(b[n]);
      assert a == a[..n] + [a[n]] && b == b[..n] + [b[n]];
    }
  }

  /** `String(n).padStart(2, "0")`. */
  function Pad2(n: nat): (r: string)
    ensures |r| >= 2 && AllDigits(r)
    ensures n < 100 ==> |r| == 2
  {
    DecimalLength(n, 1);
    if n < 10 then "0" + NatToDecimal(n) else NatToDecimal(n)
  }

  lemma Pad2Value(n: nat)
    ensures DigitsValue(Pad2(n)) == n
  {
    if n < 10 {
      assert Pad2(n)[..1] == "0";
    }
  }

  // ---------------------------------------------------------------- Number(string)

  /** Unsigned decimal literal: digits, optionally a dot and more digits, at least one digit overall. */
  function DecimalLiteral(t: string): Option<real> {
    match IndexOf(t, '.')
    case None =>
      if |t| > 0 && AllDigits(t) then Some(DigitsValue(t) as real) else None
    case Some(i) =>
      var whole := t[..i];
      var frac := t[i + 1..];
      if |whole| + |frac| > 0 && AllDigits(whole) && AllDigits(frac) then
        Some(DigitsValue(whole) as real + (DigitsValue(frac) as real) / (Pow10(|frac|) as real))
      else None
  }

  function UnsignedNumber(t: string): JsNumber {
    if t == "Infinity" then NonFinite
    else match DecimalLiteral(t)
      case Some(v) => Finite(v)
      case None => NonFinite
  }

  function Negate(n: JsNumber): JsNumber {
    match n
    case Finite(v) => Finite(-v)
    case NonFinite => NonFinite
  }

  /** `Number(s)` on the decimal forms of StringNumericLiteral: surrounding
      whitespace ignored, blank text is 0, optional sign, digits with an
      optional fraction, `Infinity`; any other text is NaN. */
  function NumberOfString(s: string): JsNumber {
    var t := Trim(s);
    if |t| == 0 then Finite(0.0)
    else if t[0] == '-' then Negate(UnsignedNumber(t[1..]))
    else if t[0] == '+' then UnsignedNumber(t[1..])
    else UnsignedNumber(t)
  }

  lemma UnsignedDigits(s: string)
    requires |s| > 0 && AllDigits(s)
    ensures UnsignedNumber(s) == Finite(DigitsValue(s) as real)
  {
    assert s != "Infinity" by { assert IsDigit(s[0]); }
    assert forall i :: 0 <= i < |s| ==> s[i] != '.';
  }

  /** `Number` of a non-empty digit string is the value of the digits. */
  lemma NumberOfDigits(s: string)
    requires |s| > 0 && AllDigits(s)
    ensures NumberOfString(s) == Finite(DigitsValue(s) as real)
  {
    assert IsDigit(s[0]) && IsDigit(s[|s| - 1]);
    TrimNoEdgeWhitespace(s);
    UnsignedDigits(s);
  }

  /** Reading back what `String(n)` wrote gives `n` again. */
  lemma NumberOfNatDecimal(n: nat)
    ensures NumberOfString(NatToDecimal(n)) == Finite(n as real)
  {
    NumberOfDigits(NatToDecimal(n));
  }

  /** The same round trip for negative integers. */
  lemma NumberOfIntDecimal(i: int)
    ensures NumberOfString(IntToDecimal(i)) == Finite(i as real)
  {
    if i < 0 {
      var s := IntToDecimal(i);
      var d := NatToDecimal(-i);
      assert IsDigit(d[|d| - 1]);
      TrimNoEdgeWhitespace(s);
      assert s[0] == '-' && s[1..] == d;
      UnsignedDigits(d);
    } else {
      NumberOfNatDecimal(i);
    }
  }
}

=== FILE: js_strings.dfy ===
/** The few JavaScript string operations the health code relies on:
    `trim`, `startsWith`, `includes`, ASCII `toLowerCase`, and the
    code-unit ordering used by `<`, `<=` and `Array.prototype.sort`.
 */
module JsStrings {
  import opened Wrappers

  /** The characters `String.prototype.trim` removes: ECMAScript WhiteSpace and LineTerminator. */
  predicate IsJsWhitespace(c: char) {
    ('\U{0009}' <= c <= '\U{000D}') || c == ' ' || c == '\U{00A0}' || c == '\U{1680}'
    || ('\U{2000}' <= c <= '\U{200A}') || c == '\U{2028}' || c == '\U{2029}'
    || c == '\U{202F}' || c == '\U{205F}' || c == '\U{3000}' || c == '\U{FEFF}'
  }

  predicate AllWhitespace(s: string) {
    forall k :: 0 <= k < |s| ==> IsJsWhitespace(s[k])
  }

  /** Drops leading whitespace; the result is a suffix of `s`. */
  function TrimStart(s: string): (r: string)
    ensures |r| <= |s| && r == s[|s| - |r|..]
    ensures |r| > 0 ==> !IsJsWhitespace(r[0])
    ensures AllWhitespace(s[..|s| - |r|])
  {
    if |s| > 0 && IsJsWhitespace(s[0]) then
      var r := TrimStart(s[1..]);
      DropAfterFirst(s, |s| - 1 - |r|);
      WhitespaceCons(s, |s| - |r|);
      r
    else
      assert s[..0] == [];
      s
  }

  /** Drops trailing whitespace; the result is a prefix of `s`. */
  function TrimEnd(s: string): (r: string)
    ensures |r| <= |s| && r == s[..|r|]
    ensures |r| > 0 ==> !IsJsWhitespace(r[|r| - 1])
    ensures AllWhitespace(s[|r|..])
  {
    if |s| > 0 && IsJsWhitespace(s[|s| - 1]) then
      var r := TrimEnd(s[..|s| - 1]);
      TakeBeforeLast(s, |r|);
      WhitespaceSnoc(s, |r|);
      r
    else
      assert s[|s|..] == [];
      s
  }

  /** Slicing after dropping the first element is slicing further along. */
  lemma DropAfterFirst<T>(s: seq<T>, n: nat)
    requires n + 1 <= |s|
    ensures s[1..][n..] == s[n + 1..] && s[1..][..n] == s[1..n + 1]
  {
  }

  /** Slicing after dropping the last element is slicing the whole. */
  lemma TakeBeforeLast<T>(s: seq<T>, n: nat)
    requires n + 1 <= |s|
    ensures s[..|s| - 1][..n] == s[..n] && s[..|s| - 1][n..] == s[n..|s| - 1]
  {
  }

  /** Whitespace followed by whitespace. */
  lemma WhitespaceCons(s: string, n: nat)
    requires 1 <= n <= |s| && IsJsWhitespace(s[0]) && AllWhitespace(s[1..n])
    ensures AllWhitespace(s[..n])
  {
    forall k | 0 <= k < n
      ensures IsJsWhitespace(s[..n][k])
    {
      if k > 0 {
        assert s[..n][k] == s[1..n][k - 1];
      }
    }
  }

  /** Whitespace followed by a whitespace character. */
  lemma WhitespaceSnoc(s: string, n: nat)
    requires n < |s| && IsJsWhitespace(s[|s| - 1]) && AllWhitespace(s[n..|s| - 1])
    ensures AllWhitespace(s[n..])
  {
    forall k | 0 <= k < |s| - n
      ensures IsJsWhitespace(s[n..][k])
    {
      if k < |s| - 1 - n {
        assert s[n..][k] == s[n..|s| - 1][k];
      }
    }
  }

  /** `s.trim()`: no whitespace at either end, and only whitespace removed
      (`TrimRemovesOnlyEdges`). */
  function Trim(s: string): (r: string)
    ensures |r| <= |s|
    ensures |r| > 0 ==> !IsJsWhitespace(r[0]) && !IsJsWhitespace(r[|r| - 1])
    ensures |r| == 0 <==> AllWhitespace(s)
  {
    var a := TrimStart(s);
    var r := TrimEnd(a);
    assert |r| > 0 ==> r[0] == a[0];
    assert |r| == 0 ==> s == s[..|s| - |a|] + a[|r|..];
    r
  }

  /** A suffix `a` of `s` and a prefix `r` of it split `s` in three. */
  lemma SplitAround<T>(s: seq<T>, a: seq<T>, r: seq<T>)
    requires |a| <= |s| && a == s[|s| - |a|..]
    requires |r| <= |a| && r == a[..|r|]
    ensures s == s[..|s| - |a|] + r + a[|r|..]
  {
    assert s == s[..|s| - |a|] + a;
    assert a == r + a[|r|..];
  }

  /** The whitespace `Trim` removes from the start of `s`. */
  function LeadingWhitespace(s: string): string {
    s[..|s| - |TrimStart(s)|]
  }

  /** The whitespace `Trim` removes from the end of `s`. */
  function TrailingWhitespace(s: string): string {
    TrimStart(s)[|Trim(s)|..]
  }

  /** What `Trim` removes from either end of `s` is whitespace. */
  lemma TrimmedEdgesAreWhitespace(s: string)
    ensures AllWhitespace(LeadingWhitespace(s)) && AllWhitespace(TrailingWhitespace(s))
  {
  }

  /** `s` is its trim between the whitespace removed from its two ends. */
  lemma TrimRemovesOnlyEdges(s: string)
    ensures s == LeadingWhitespace(s) + Trim(s) + TrailingWhitespace(s)
  {
    SplitAround(s, TrimStart(s), Trim(s));
  }

  /** `s.trim().length === 0`. */
  predicate IsBlank(s: string) {
    |Trim(s)| == 0
  }

  /** A string with no whitespace at either end is its own trim. */
  lemma TrimNoEdgeWhitespace(s: string)
    requires |s| > 0 ==> !IsJsWhitespace(s[0]) && !IsJsWhitespace(s[|s| - 1])
    ensures Trim(s) == s
  {
  }

  /** Trimming twice is trimming once. */
  lemma TrimIdempotent(s: string)
    ensures Trim(Trim(s)) == Trim(s)
  {
    TrimNoEdgeWhitespace(Trim(s));
  }

  predicate StartsWith(s: string, prefix: string) {
    |prefix| <= |s| && s[..|prefix|] == prefix
  }

  /** `s.includes(part)`. */
  predicate Contains(s: string, part: string)
    decreases |s|
  {
    StartsWith(s, part) || (|s| > 0 && Contains(s[1..], part))
  }

  /** `part` occurs in `s` at offset `i`. */
  predicate OccursAt(s: string, part: string, i: int) {
    0 <= i <= |s| - |part| && s[i..i + |part|] == part
  }

  /** `includes` holds exactly when `part` occurs at some offset of `s`. */
  lemma {:induction false} ContainsAt(s: string, part: string)
    ensures Contains(s, part) <==> exists i :: OccursAt(s, part, i)
    decreases |s|
  {
    if StartsWith(s, part) {
      assert OccursAt(s, part, 0);
    }
    if |s| > 0 {
      ContainsAt(s[1..], part);
      if Contains(s[1..], part) {
        var i :| OccursAt(s[1..], part, i);
        assert OccursAt(s, part, i + 1);
      }
      if exists i :: OccursAt(s, part, i) {
        var i :| OccursAt(s, part, i);
        if i > 0 {
          assert OccursAt(s[1..], part, i - 1);
        }
      }
    } else if exists i :: OccursAt(s, part, i) {
      var i :| OccursAt(s, part, i);
      assert i == 0;
    }
  }

  /** A string cannot include a part whose first character it lacks. */
  lemma {:induction false} NotContainsWithoutFirstChar(s: string, part: string)
    requires |part| > 0 && part[0] !in s
    ensures !Contains(s, part)
    decreases |s|
  {
    if |s| > 0 {
      NotContainsWithoutFirstChar(s[1..], part);
    }
  }

  /** `s.indexOf(c)`: the first position of `c`, if any. */
  function IndexOf(s: string, c: char): (r: Option<nat>)
    ensures r.Some? ==> r.value < |s| && s[r.value] == c && c !in s[..r.value]
    ensures r.None? ==> c !in s
  {
    if |s| == 0 then None
    else if s[0] == c then Some(0)
    else match IndexOf(s[1..], c)
      case None => None
      case Some(i) =>
        assert s[..i + 1] == [s[0]] + s[1..][..i];
        Some(i + 1)
  }

  /** `s.split(sep)` for a one-character separator: the pieces between separators, at least one. */
  function Split(s: string, sep: char): (parts: seq<string>)
    ensures |parts| >= 1
    ensures forall i :: 0 <= i < |parts| ==> sep !in parts[i]
    decreases |s|
  {
    match IndexOf(s, sep)
    case None => [s]
    case Some(i) => [s[..i]] + Split(s[i + 1..], sep)
  }

  /** Splitting text that starts with a separator-free piece. */
  lemma SplitFirst(a: string, b: string, sep: char)
    requires sep !in a
    ensures Split(a + [sep] + b, sep) == [a] + Split(b, sep)
  {
    var s := a + [sep] + b;
    assert s[..|a|] == a;
    assert s[|a| + 1..] == b;
    assert s[|a|] == sep;
    var r := IndexOf(s, sep);
    assert r.Some?;
    assert forall j :: 0 <= j < |a| ==> s[j] == a[j];
    assert forall k :: |a| < k <= |s| ==> s[..k][|a|] == sep;
  }

  lemma SplitNone(a: string, sep: char)
    requires sep !in a
    ensures Split(a, sep) == [a]
  {
  }

  function LowerAsciiChar(c: char): char {
    if 'A' <= c <= 'Z' then ((c as int) + 32) as char else c
  }

  /** `toLowerCase`, restricted to ASCII letters. */
  function ToLowerAscii(s: string): (r: string)
    ensures |r| == |s|
    ensures forall k :: 0 <= k < |s| ==> r[k] == LowerAsciiChar(s[k])
  {
    if |s| == 0 then "" else [LowerAsciiChar(s[0])] + ToLowerAscii(s[1..])
  }
}

=== FILE: json.dfy ===
/** Parsed JSON request bodies and the shape checks every HTTP handler
    applies to them before trusting a field.
 */
module Json {
  import opened JsStrings
  import opened JsNumbers

  datatype JsValue =
    | Undefined
    | Null
    | Bool(b: bool)
    | Num(n: JsNumber)
    | Str(s: string)
    | Arr(items: seq<JsValue>)
    | Obj(fields: map<string, JsValue>)

  /** `typeof value === "object" && value !== null`: objects and arrays. */
  predicate IsRecord(v: JsValue) {
    v.Obj? || v.Arr?
  }

  /** `value[key]`; an array or a missing key reads as `undefined`. */
  function Get(v: JsValue, key: string): (r: JsValue)
    ensures r != Undefined ==> v.Obj? && key in v.fields && r == v.fields[key]
  {
    if v.Obj? && key in v.fields then v.fields[key] else Undefined
  }

  /** `fields` with `key` set to `v`, or unchanged when `v` is absent. */
  function Put(fields: map<string, JsValue>, key: string, v: JsValue): map<string, JsValue> {
    if v.Undefined? then fields else fields[key := v]
  }

  /** The object literal `{k0: v0, k1: v1, ...}`, an `undefined` value
      leaving its key out, as `JSON.stringify` does. */
  function ObjOf(pairs: seq<(string, JsValue)>): map<string, JsValue> {
    if |pairs| == 0 then map[] else Put(ObjOf(pairs[1..]), pairs[0].0, pairs[0].1)
  }

  predicate DistinctKeys(pairs: seq<(string, JsValue)>) {
    forall a, b | 0 <= a < b < |pairs| :: pairs[a].0 != pairs[b].0
  }

  /** A key the literal does not name reads as `undefined`. */
  lemma {:induction false} ObjOfMissing(pairs: seq<(string, JsValue)>, key: string)
    requires forall j | 0 <= j < |pairs| :: pairs[j].0 != key
    ensures Get(Obj(ObjOf(pairs)), key) == Undefined
  {
    if |pairs| > 0 {
      assert forall j | 0 <= j < |pairs| - 1 :: pairs[1..][j] == pairs[j + 1];
      ObjOfMissing(pairs[1..], key);
    }
  }

  /** Reading a key of a literal with distinct keys gives its value back,
      `undefined` included. */
  lemma {:induction false} ObjOfGet(pairs: seq<(string, JsValue)>, i: int)
    requires 0 <= i < |pairs| && DistinctKeys(pairs)
    ensures Get(Obj(ObjOf(pairs)), pairs[i].0) == pairs[i].1
  {
    assert forall j | 0 <= j < |pairs| - 1 :: pairs[1..][j] == pairs[j + 1];
    if i == 0 {
      ObjOfMissing(pairs[1..], pairs[0].0);
    } else {
      assert pairs[i] == pairs[1..][i - 1];
      ObjOfGet(pairs[1..], i - 1);
    }
  }

  /** A string whose trim is not empty. */
  predicate IsNonEmptyString(v: JsValue) {
    v.Str? && !IsBlank(v.s)
  }

  predicate IsFiniteNumber(v: JsValue) {
    v.Num? && v.n.Finite?
  }

  predicate IsIntegerNumber(v: JsValue) {
    v.Num? && IsInteger(v.n)
  }
}

=== FILE: normalize.dfy ===
/** Turning HealthKit samples into ingest samples on the device
    (apps/native/lib/health/normalize.ts): quantity samples keep their
    value, sleep samples have their HealthKit code mapped to a sleep stage;
    samples without a proper interval, and sleep samples with an unknown
    code, are dropped. A Date's time value is a JsNumber (NaN for an invalid
    date).
 */
module Normalize {
  import opened Wrappers
  import opened JsNumbers
  import opened HealthTypes
  import opened HealthDomain

  datatype SourceRevision = SourceRevision(name: string, bundleIdentifier: string)

  datatype QuantitySampleLike = QuantitySampleLike(
    uuid: string,
    startMs: JsNumber,
    endMs: JsNumber,
    quantity: JsNumber,
    unit: string,
    source: SourceRevision)

  datatype SleepSampleLike = SleepSampleLike(
    uuid: string,
    startMs: JsNumber,
    endMs: JsNumber,
    value: JsNumber,
    source: SourceRevision)

  // ---------------------------------------------------------------- sleep codes

  /** The HealthKit code of each sleep stage (SLEEP_VALUE_*). */
  function HealthKitSleepCode(c: SleepCategory): nat {
    match c
    case InBed => 0
    case Asleep => 1
    case Awake => 2
    case AsleepCore => 3
    case AsleepDeep => 4
    case AsleepRem => 5
  }

  /** `mapSleepCategoryValue`: the stage of a HealthKit code, nothing for any
      other number. */
  function MapSleepCategoryValue(value: JsNumber): (r: Option<SleepCategory>)
    ensures r.Some? ==> value == Finite(HealthKitSleepCode(r.value) as real)
    ensures r.None? ==> forall c: SleepCategory :: value != Finite(HealthKitSleepCode(c) as real)
  {
    if value == Finite(0.0) then Some(InBed)
    else if value == Finite(2.0) then Some(Awake)
    else if value == Finite(3.0) then Some(AsleepCore)
    else if value == Finite(4.0) then Some(AsleepDeep)
    else if value == Finite(5.0) then Some(AsleepRem)
    else if value == Finite(1.0) then Some(Asleep)
    else None
  }

  /** Every stage is recovered from its code: the map is the inverse of the
      code table, and codes outside 0..5 map to nothing. */
  lemma SleepCodeRoundTrip(c: SleepCategory, value: JsNumber)
    ensures MapSleepCategoryValue(Finite(HealthKitSleepCode(c) as real)) == Some(c)
    ensures value.Finite? && (value.value < 0.0 || value.value > 5.0) ==> MapSleepCategoryValue(value).None?
  {
  }

  // ---------------------------------------------------------------- sample keys

  /** `buildSampleKey`: the metric name, a colon, the HealthKit uuid. */
  function BuildSampleKey(metric: Metric, sampleUuid: string): string {
    MetricName(metric) + ":" + sampleUuid
  }

  lemma MetricNameHasNoColon(m: Metric)
    ensures ':' !in MetricName(m) && |MetricName(m)| <= 22
  {
  }

  /** Text without a colon, a colon, anything: the first part is fixed by
      the whole. */
  lemma ColonPrefixUnique(a: string, u1: string, b: string, u2: string)
    requires ':' !in a && ':' !in b && a + ":" + u1 == b + ":" + u2
    ensures a == b && u1 == u2
  {
    var k := a + ":" + u1;
    assert k[|a|] == ':' && k[|b|] == ':';
    if |a| != |b| {
      assert false;
    }
    assert a == k[..|a|] == b;
    assert u1 == k[|a| + 1..] == u2;
  }

  /** A key names its metric and its uuid: distinct samples of distinct
      metrics never share a key. */
  lemma SampleKeyInjective(m1: Metric, u1: string, m2: Metric, u2: string)
    requires BuildSampleKey(m1, u1) == BuildSampleKey(m2, u2)
    ensures m1 == m2 && u1 == u2
  {
    var a, b := MetricName(m1), MetricName(m2);
    MetricNameHasNoColon(m1);
    MetricNameHasNoColon(m2);
    ColonPrefixUnique(a, u1, b, u2);
    MetricNameRoundTrip(m1, a);
    MetricNameRoundTrip(m2, b);
  }

  lemma MetricNameKeyChars(m: Metric)
    ensures forall i | 0 <= i < |MetricName(m)| :: IsSampleKeyChar(MetricName(m)[i])
  {
  }

  /** A HealthKit uuid made of key characters, short enough, gives a key the
      backend accepts. */
  lemma SampleKeyAccepted(metric: Metric, sampleUuid: string)
    requires forall i | 0 <= i < |sampleUuid| :: IsSampleKeyChar(sampleUuid[i])
    requires |sampleUuid| <= 177
    ensures IsValidSampleKey(BuildSampleKey(metric, sampleUuid))
  {
    var name := MetricName(metric);
    var k := BuildSampleKey(metric, sampleUuid);
    MetricNameHasNoColon(metric);
    MetricNameKeyChars(metric);
    forall i | 0 <= i < |k|
      ensures IsSampleKeyChar(k[i])
    {
      if i < |name| {
        assert k[i] == name[i];
      } else if i > |name| {
        assert k[i] == sampleUuid[i - |name| - 1];
      }
    }
  }

  // ---------------------------------------------------------------- intervals

  /** Both instants are finite and the end is not before the start. */
  predicate HasInterval(startMs: JsNumber, endMs: JsNumber) {
    startMs.Finite? && endMs.Finite? && endMs.value >= startMs.value
  }

  // ---------------------------------------------------------------- quantity samples

  /** The ingest sample for a kept quantity sample. */
  function QuantityIngest(metric: Metric, s: QuantitySampleLike, timezone: string): IngestSample {
    IngestSample(BuildSampleKey(metric, s.uuid), metric, s.startMs, s.endMs, Some(s.quantity), None,
                 s.unit, Some(s.source.name), Some(s.source.bundleIdentifier), timezone)
  }

  /** The map step of `normalizeQuantitySamples`: null for a bad interval. */
  function QuantityOrNull(metric: Metric, s: QuantitySampleLike, timezone: string): Option<IngestSample> {
    if !HasInterval(s.startMs, s.endMs) then None else Some(QuantityIngest(metric, s, timezone))
  }

  /** `samples.map(f).filter(x => x !== null)`. */
  function MapDropNull(metric: Metric, samples: seq<QuantitySampleLike>, timezone: string): (r: seq<IngestSample>)
    ensures |r| <= |samples|
  {
    if |samples| == 0 then []
    else
      var head := QuantityOrNull(metric, samples[0], timezone);
      (if head.Some? then [head.value] else []) + MapDropNull(metric, samples[1..], timezone)
  }

  /** `normalizeQuantitySamples`, for a metric other than sleep. */
  function NormalizeQuantitySamples(metric: Metric, samples: seq<QuantitySampleLike>, timezone: string): (r: seq<IngestSample>)
    requires metric != SleepSegment
    ensures |r| <= |samples|
    ensures forall i | 0 <= i < |r| :: r[i].metric == metric && r[i].timezone == timezone
    ensures forall i | 0 <= i < |r| :: HasInterval(r[i].startTimeMs, r[i].endTimeMs)
    ensures forall i | 0 <= i < |r| :: r[i].valueNumber.Some? && r[i].categoryValue.None?
  {
    KeptQuantityMapped(metric, samples, timezone);
    MapDropNull(metric, samples, timezone)
  }

  /** The samples with a proper interval, in input order. */
  function KeptQuantity(samples: seq<QuantitySampleLike>): (kept: seq<QuantitySampleLike>)
    ensures |kept| <= |samples|
    ensures forall s :: s in kept <==> s in samples && HasInterval(s.startMs, s.endMs)
  {
    if |samples| == 0 then []
    else (if HasInterval(samples[0].startMs, samples[0].endMs) then [samples[0]] else []) + KeptQuantity(samples[1..])
  }

  /** Mapping then dropping nulls is keeping the good samples and then
      converting each of them: the output is the good samples, in order,
      one ingest sample each. */
  lemma {:induction false} KeptQuantityMapped(metric: Metric, samples: seq<QuantitySampleLike>, timezone: string)
    ensures var r := MapDropNull(metric, samples, timezone);
      var kept := KeptQuantity(samples);
      |r| == |kept| && forall i | 0 <= i < |r| :: r[i] == QuantityIngest(metric, kept[i], timezone)
  {
    if |samples| > 0 {
      var r, rest := MapDropNull(metric, samples, timezone), MapDropNull(metric, samples[1..], timezone);
      var kept, keptRest := KeptQuantity(samples), KeptQuantity(samples[1..]);
      KeptQuantityMapped(metric, samples[1..], timezone);
      if HasInterval(samples[0].startMs, samples[0].endMs) {
        assert r == [QuantityIngest(metric, samples[0], timezone)] + rest;
        assert kept == [samples[0]] + keptRest;
        forall i | 0 <= i < |r|
          ensures r[i] == QuantityIngest(metric, kept[i], timezone)
        {
          if i > 0 {
            assert r[i] == rest[i - 1] && kept[i] == keptRest[i - 1];
          }
        }
      } else {
        assert r == rest && kept == keptRest;
      }
    }
  }

  /** The device test's example: one good step sample of 250 counts. */
  lemma QuantityExample(s: QuantitySampleLike)
    requires s.uuid == "quantity-1" && s.quantity == Finite(250.0) && s.unit == "count"
    requires s.startMs == Finite(1_735_725_600_000.0) && s.endMs == Finite(1_735_725_900_000.0)
    requires s.source == SourceRevision("Apple Watch", "com.apple.health")
    ensures NormalizeQuantitySamples(StepCount, [s], "America/Los_Angeles") ==
      [IngestSample("step_count:quantity-1", StepCount, Finite(1_735_725_600_000.0), Finite(1_735_725_900_000.0),
                    Some(Finite(250.0)), None, "count", Some("Apple Watch"), Some("com.apple.health"), "America/Los_Angeles")]
  {
    assert HasInterval(s.startMs, s.endMs);
    assert BuildSampleKey(StepCount, s.uuid) == "step_count:quantity-1";
    assert MapDropNull(StepCount, [s][1..], "America/Los_Angeles") == [];
    assert MapDropNull(StepCount, [s], "America/Los_Angeles") == [QuantityIngest(StepCount, s, "America/Los_Angeles")];
  }

  // ---------------------------------------------------------------- sleep samples

  /** The ingest sample for a kept sleep sample with stage `c`. */
  function SleepIngest(s: SleepSampleLike, c: SleepCategory, timezone: string): IngestSample {
    IngestSample(BuildSampleKey(SleepSegment, s.uuid), SleepSegment, s.startMs, s.endMs, None, Some(c),
                 "ms", Some(s.source.name), Some(s.source.bundleIdentifier), timezone)
  }

  /** Whether the loop of `normalizeSleepSamples` keeps a sample. */
  predicate KeepsSleep(s: SleepSampleLike) {
    HasInterval(s.startMs, s.endMs) && MapSleepCategoryValue(s.value).Some?
  }

  /** The reference result: each kept sample converted, in input order. */
  function SleepSpec(samples: seq<SleepSampleLike>, timezone: string): (r: seq<IngestSample>)
    ensures |r| <= |samples|
  {
    if |samples| == 0 then []
    else
      var last := samples[|samples| - 1];
      SleepSpec(samples[..|samples| - 1], timezone)
        + (if KeepsSleep(last) then [SleepIngest(last, MapSleepCategoryValue(last.value).value, timezone)] else [])
  }

  /** `normalizeSleepSamples`: the loop that skips bad intervals and unknown
      codes and pushes the rest. */
  method NormalizeSleepSamples(samples: seq<SleepSampleLike>, timezone: string) returns (normalized: seq<IngestSample>)
    ensures normalized == SleepSpec(samples, timezone)
    ensures |normalized| <= |samples|
    ensures forall i | 0 <= i < |normalized| :: normalized[i].metric == SleepSegment && normalized[i].unit == "ms"
    ensures forall i | 0 <= i < |normalized| :: normalized[i].categoryValue.Some? && normalized[i].valueNumber.None?
    ensures forall i | 0 <= i < |normalized| :: HasInterval(normalized[i].startTimeMs, normalized[i].endTimeMs)
  {
    normalized := [];
    var k := 0;
    while k < |samples|
      invariant 0 <= k <= |samples|
      invariant normalized == SleepSpec(samples[..k], timezone)
      invariant forall i | 0 <= i < |normalized| :: normalized[i].metric == SleepSegment && normalized[i].unit == "ms"
      invariant forall i | 0 <= i < |normalized| :: normalized[i].categoryValue.Some? && normalized[i].valueNumber.None?
      invariant forall i | 0 <= i < |normalized| :: HasInterval(normalized[i].startTimeMs, normalized[i].endTimeMs)
    {
      var sample := samples[k];
      assert samples[..k + 1][..k] == samples[..k];
      if !HasInterval(sample.startMs, sample.endMs) {
        k := k + 1;
        continue;
      }
      var mappedCategory := MapSleepCategoryValue(sample.value);
      if mappedCategory.None? {
        k := k + 1;
        continue;
      }
      normalized := normalized + [SleepIngest(sample, mappedCategory.value, timezone)];
      k := k + 1;
    }
    assert samples[..k] == samples;
  }

  /** The sleep output holds exactly the kept samples: each one's stage is
      the mapped code, and every sample with a proper interval and a known
      code appears. */
  lemma {:induction false} SleepSpecMembers(samples: seq<SleepSampleLike>, timezone: string, s: SleepSampleLike)
    ensures s in samples && KeepsSleep(s) ==> SleepIngest(s, MapSleepCategoryValue(s.value).value, timezone) in SleepSpec(samples, timezone)
    ensures forall x | x in SleepSpec(samples, timezone) ::
      exists t | t in samples && KeepsSleep(t) :: x == SleepIngest(t, MapSleepCategoryValue(t.value).value, timezone)
    decreases |samples|
  {
    if |samples| > 0 {
      var init := samples[..|samples| - 1];
      SleepSpecMembers(init, timezone, s);
      assert forall t | t in init :: t in samples;
      if s in samples && s !in init {
        assert s == samples[|samples| - 1];
      }
    }
  }

  /** The device test's example: a REM sample is kept with stage asleepREM
      and key "sleep_segment:sleep-1"; a sample with code 99 is dropped. */
  lemma SleepExample(a: SleepSampleLike, b: SleepSampleLike)
    requires a.uuid == "sleep-1" && a.value == Finite(5.0)
    requires a.startMs == Finite(1_735_689_600_000.0) && a.endMs == Finite(1_735_689_660_000.0)
    requires b.value == Finite(99.0) && HasInterval(b.startMs, b.endMs)
    ensures var r := SleepSpec([a, b], "UTC");
      |r| == 1 && r[0].categoryValue == Some(AsleepRem) && r[0].sampleKey == "sleep_segment:sleep-1"
  {
    assert [a, b][..1] == [a];
    assert [a][..0] == [];
  }
}

=== FILE: paging.dfy ===
/** Convex-style pagination over an index scan. The scan is the sequence of
    matching rows in index order; an opaque continuation cursor is modelled
    as the offset of the next row, as the handler tests' fake database does.
 */
module Paging {
  import opened Wrappers

  datatype Page<T> = Page(items: seq<T>, nextCursor: Option<nat>)

  /** The page of at most `limit` rows starting at offset `cursor`; the
      cursor is absent exactly when the page reaches the end of the scan. */
  function PageOf<T>(all: seq<T>, cursor: nat, limit: nat): (p: Page<T>)
    ensures |p.items| <= limit
    ensures forall x | x in p.items :: x in all
    ensures forall i | 0 <= i < |p.items| :: cursor + i < |all| && p.items[i] == all[cursor + i]
    ensures p.nextCursor.None? <==> cursor + limit >= |all|
    ensures p.nextCursor.Some? ==> p.nextCursor.value <= |all| && (limit >= 1 ==> cursor < p.nextCursor.value)
    ensures cursor <= |all| ==> all[cursor..] == p.items + (if p.nextCursor.Some? then all[p.nextCursor.value..] else [])
  {
    var start := if cursor <= |all| then cursor else |all|;
    var end := if start + limit <= |all| then start + limit else |all|;
    assert forall x | x in all[start..end] :: x in all;
    assert all[start..] == all[start..end] + all[end..];
    Page(all[start..end], if end == |all| then None else Some(end))
  }

  /** Following `nextCursor` from offset 0 reads every row of the scan once,
      in order: the pages concatenate to the scan. */
  function ReadAll<T>(all: seq<T>, cursor: nat, limit: nat): (rows: seq<T>)
    requires limit >= 1 && cursor <= |all|
    ensures rows == all[cursor..]
    decreases |all| - cursor
  {
    var p := PageOf(all, cursor, limit);
    match p.nextCursor
    case None => p.items
    case Some(next) => p.items + ReadAll(all, next, limit)
  }
}

=== FILE: string_order.dfy ===
/** JavaScript's default string ordering (code unit by code unit, a proper
    prefix first), used by the source for `from > to` checks, for
    `Array.prototype.sort()` of day keys and by the `by_day` index.
 */
module StringOrder {

  predicate StrLt(a: string, b: string) {
    if |a| == 0 then |b| > 0
    else if |b| == 0 then false
    else if a[0] != b[0] then a[0] < b[0]
    else StrLt(a[1..], b[1..])
  }

  predicate StrLe(a: string, b: string) {
    a == b || StrLt(a, b)
  }

  lemma {:induction false} StrLtIrreflexive(a: string)
    ensures !StrLt(a, a)
  {
    if |a| > 0 {
      StrLtIrreflexive(a[1..]);
    }
  }

  lemma {:induction false} StrLtTransitive(a: string, b: string, c: string)
    requires StrLt(a, b) && StrLt(b, c)
    ensures StrLt(a, c)
  {
    if |a| > 0 && |b| > 0 && |c| > 0 && a[0] == b[0] && b[0] == c[0] {
      StrLtTransitive(a[1..], b[1..], c[1..]);
    }
  }

  /** Any two strings are equal or ordered one way. */
  lemma {:induction false} StrLtTotal(a: string, b: string)
    ensures a == b || StrLt(a, b) || StrLt(b, a)
  {
    if |a| > 0 && |b| > 0 && a[0] == b[0] {
      StrLtTotal(a[1..], b[1..]);
      if a[1..] == b[1..] {
        assert a == [a[0]] + a[1..] && b == [b[0]] + b[1..];
      }
    }
  }

  /** At most one of `a < b` and `b < a` holds. */
  lemma {:induction false} StrLtAsymmetric(a: string, b: string)
    ensures !(StrLt(a, b) && StrLt(b, a))
  {
    if StrLt(a, b) && StrLt(b, a) {
      StrLtTransitive(a, b, a);
      StrLtIrreflexive(a);
    }
  }

  /** Comparing texts that start with pieces of one length: the pieces decide first. */
  lemma {:induction false} StrLtConcat(a: string, b: string, c: string, d: string)
    requires |a| == |c|
    ensures StrLt(a + b, c + d) <==> StrLt(a, c) || (a == c && StrLt(b, d))
  {
    if |a| == 0 {
      assert a + b == b && c + d == d;
    } else {
      assert (a + b)[1..] == a[1..] + b;
      assert (c + d)[1..] == c[1..] + d;
      StrLtConcat(a[1..], b, c[1..], d);
      assert a == [a[0]] + a[1..] && c == [c[0]] + c[1..];
    }
  }

  predicate StrictlySorted(s: seq<string>) {
    forall i, j :: 0 <= i < j < |s| ==> StrLt(s[i], s[j])
  }

  /** Adds `x` to a strictly sorted sequence, keeping it strictly sorted (a set insert). */
  function InsertSorted(s: seq<string>, x: string): (r: seq<string>)
    requires StrictlySorted(s)
    ensures StrictlySorted(r)
    ensures forall y :: y in r <==> y in s || y == x
  {
    if |s| == 0 then [x]
    else if x == s[0] then s
    else if StrLt(x, s[0]) then
      assert forall j :: 0 < j < |s| ==> StrLt(x, s[j]) by {
        forall j | 0 < j < |s| { StrLtTransitive(x, s[0], s[j]); }
      }
      [x] + s
    else
      StrLtTotal(x, s[0]);
      var rest := InsertSorted(s[1..], x);
      assert forall y :: y in rest ==> StrLt(s[0], y);
      [s[0]] + rest
  }

  /** `Array.from(set).sort()` where the set's elements were added in the
      order of `xs`: the strictly sorted sequence of the elements of `xs`. */
  function SortedOf(xs: seq<string>): (r: seq<string>)
    ensures StrictlySorted(r)
    ensures forall y :: y in r <==> y in xs
  {
    if |xs| == 0 then [] else InsertSorted(SortedOf(xs[..|xs| - 1]), xs[|xs| - 1])
  }

  /** `Array.from(items).sort()` for a set of strings: a strictly sorted sequence of exactly its elements. */
  method SortStrings(items: set<string>) returns (r: seq<string>)
    ensures StrictlySorted(r)
    ensures forall y :: y in r <==> y in items
  {
    r := [];
    var rest := items;
    while rest != {}
      invariant StrictlySorted(r)
      invariant forall y :: y in r <==> y in items && y !in rest
      invariant rest <= items
      decreases rest
    {
      var x :| x in rest;
      r := InsertSorted(r, x);
      rest := rest - {x};
    }
  }

  /** Two strictly sorted sequences with the same elements are the same sequence. */
  lemma {:induction false} StrictlySortedUnique(a: seq<string>, b: seq<string>)
    requires StrictlySorted(a) && StrictlySorted(b)
    requires forall y :: y in a <==> y in b
    ensures a == b
    decreases |a|
  {
    assert |a| > 0 ==> a[0] in b;
    assert |b| > 0 ==> b[0] in a;
    if |a| > 0 && |b| > 0 {
      assert a[0] == b[0] by {
        if a[0] != b[0] {
          var i :| 0 <= i < |b| && b[i] == a[0];
          var j :| 0 <= j < |a| && a[j] == b[0];
          StrLtAsymmetric(a[0], b[0]);
        }
      }
      forall y
        ensures y in a[1..] <==> y in b[1..]
      {
        if y in a[1..] {
          var i :| 1 <= i < |a| && a[i] == y;
          StrLtIrreflexive(y);
          assert y != b[0];
          assert y in b;
          var k :| 0 <= k < |b| && b[k] == y;
          assert b[1..][k - 1] == y;
        }
        if y in b[1..] {
          var i :| 1 <= i < |b| && b[i] == y;
          StrLtIrreflexive(y);
          assert y != a[0];
          assert y in a;
          var k :| 0 <= k < |a| && a[k] == y;
          assert a[1..][k - 1] == y;
        }
      }
      StrictlySortedUnique(a[1..], b[1..]);
      assert a == [a[0]] + a[1..] && b == [b[0]] + b[1..];
    }
  }
}

=== FILE: summary_queries.dfy ===
/** The summary queries over the daily table
    (packages/backend/convex/healthSummaryInternal.ts): a stored row when
    there is one, an all-zero record otherwise, and the day, range and
    "yesterday" compositions. The daily table is the map from day key to row
    kept by the ingest module; the clock is a parameter.
 */
module SummaryQueries {
  import opened Wrappers
  import opened JsStrings
  import opened StringOrder
  import opened HealthTypes
  import opened HealthDomain
  import opened Calendar
  import opened HealthIngest
  import opened HealthSummary

  const ErrTimezone := "timezone is required"

  /** `emptyDailyMetricsRecord`: every total, count and bucket zero. */
  function EmptyDailyMetricsRecord(dayKey: string, timezone: string, nowMs: int): (r: DailyRecord)
    ensures r.dayKey == dayKey && r.timezone == timezone && r.recomputedAtMs == nowMs
    ensures !HasAnyData(r)
    ensures r.sleep.inBedMs == 0 && r.sleepTotalAsleepMs == 0 && r.activeEnergy.total == 0.0
  {
    var none := Stat(0.0, 0.0, 0.0, 0);
    DailyRecord(dayKey, timezone, Total(0.0, 0), Total(0.0, 0), Total(0.0, 0), none, none, none, none,
                SleepTotals(0, 0, 0, 0, 0, 0, 0), 0, nowMs)
  }

  /** No sleep and no active energy: short sleep, low activity. */
  lemma IdleDayBands(r: DailyRecord)
    requires r.sleepTotalAsleepMs == 0 && r.activeEnergy.total == 0.0
    ensures SummarizeDay(r).derived.sleepBand == Short && SummarizeDay(r).derived.activeCaloriesBand == Low
  {
    RoundToWhole(0, 2);
    assert HoursFromMs(r.sleepTotalAsleepMs) == 0.0;
  }

  lemma FiresWithoutData(r: DailyRecord)
    requires !HasAnyData(r)
    ensures forall c :: Fires(c, Short, Low, r) <==> c == SleepBelowTarget || c == LowActivity || c == NoData
  {
  }

  /** A day without data is summarised as short sleep, low activity and no
      data, and nothing else. */
  lemma EmptySummaryInsights(dayKey: string, timezone: string, nowMs: int)
    ensures var s := SummarizeDay(EmptyDailyMetricsRecord(dayKey, timezone, nowMs));
      forall c :: HasInsight(s, c) <==> c == SleepBelowTarget || c == LowActivity || c == NoData
  {
    var r := EmptyDailyMetricsRecord(dayKey, timezone, nowMs);
    SummaryInsights(r);
    IdleDayBands(r);
    FiresWithoutData(r);
  }

  /** The row of the by-day index for `day`, or the empty record. */
  function RowOrEmpty(daily: map<string, DailyRecord>, day: string, timezone: string, nowMs: int): (r: DailyRecord)
    ensures day in daily ==> r == daily[day]
    ensures day !in daily ==> r == EmptyDailyMetricsRecord(day, timezone, nowMs)
  {
    if day in daily then daily[day] else EmptyDailyMetricsRecord(day, timezone, nowMs)
  }

  /** `assertTimezone`. */
  function CheckTimezone(timezone: string): (r: Result<string, string>)
    ensures r.Success? <==> !IsBlank(timezone)
    ensures r.Failure? ==> r.error == ErrTimezone
  {
    if IsBlank(timezone) then Failure(ErrTimezone) else Success(timezone)
  }

  /** `getDailySummary`: the day key, then the timezone, then the lookup. */
  function GetDailySummary(daily: map<string, DailyRecord>, day: string, timezone: string, nowMs: int): (r: Result<DaySummary, string>)
    ensures r.Success? <==> IsValidDayKey(day) && !IsBlank(timezone)
    ensures !IsValidDayKey(day) ==> r == Failure(ErrDayKey)
    ensures IsValidDayKey(day) && IsBlank(timezone) ==> r == Failure(ErrTimezone)
    ensures RowsKeyed(daily) && r.Success? ==> r.value.dayKey == day
    ensures r.Success? && day !in daily ==> HasInsight(r.value, NoData) && r.value.recomputedAtMs == nowMs
  {
    match CheckDayKey(day)
    case Failure(e) => Failure(e)
    case Success(_) =>
      match CheckTimezone(timezone)
      case Failure(e) => Failure(e)
      case Success(_) =>
        Success(StoredDaySummary(daily, day, timezone, nowMs))
  }

  /** The summary of the stored row of `day`, or of an empty day when there
      is none: it is about `day`, and an empty day says there is no data. */
  function StoredDaySummary(daily: map<string, DailyRecord>, day: string, timezone: string, nowMs: int): (s: DaySummary)
    ensures RowsKeyed(daily) ==> s.dayKey == day
    ensures day !in daily ==> HasInsight(s, NoData) && s.recomputedAtMs == nowMs
  {
    EmptySummaryInsights(day, timezone, nowMs);
    SummarizeDay(RowOrEmpty(daily, day, timezone, nowMs))
  }

  /** The records `getRangeSummary` summarises: one per day of the range. */
  function RangeRecords(daily: map<string, DailyRecord>, days: seq<string>, timezone: string, nowMs: int): (records: seq<DailyRecord>)
    ensures |records| == |days|
    ensures forall i | 0 <= i < |days| :: records[i] == RowOrEmpty(daily, days[i], timezone, nowMs)
  {
    seq(|days|, i requires 0 <= i < |days| => RowOrEmpty(daily, days[i], timezone, nowMs))
  }

  /** The rows the by-day index yields between `from` and `to`, by day. */
  function RowsBetween(daily: map<string, DailyRecord>, from: string, to: string): (rows: map<string, DailyRecord>)
    ensures forall k :: k in rows <==> k in daily && StrLe(from, k) && StrLe(k, to)
    ensures forall k | k in rows :: rows[k] == daily[k]
  {
    map k | k in daily && StrLe(from, k) && StrLe(k, to) :: daily[k]
  }

  /** `getRangeSummary`: range and timezone checks, then one summary per day
      of `buildDayRange`, each from the stored row or an empty record. The
      rows are read through the by-day index between `from` and `to`, so a
      row is found exactly when its key is in the table and in the range. */
  function GetRangeSummary(daily: map<string, DailyRecord>, from: string, to: string, timezone: string, nowMs: int): (r: Result<RangeSummary, string>)
    ensures r.Success? <==> IsValidDayKey(from) && IsValidDayKey(to) && StrLe(from, to) && !IsBlank(timezone)
    ensures r.Failure? ==> r.error == (if !IsValidDayKey(from) || !IsValidDayKey(to) then ErrDayKey
                                       else if !StrLe(from, to) then ErrDayOrder else ErrTimezone)
    ensures r.Success? ==> |r.value.days| == |BuildDayRange(from, to)| && r.value.totals.days == |BuildDayRange(from, to)|
  {
    match CheckDayRange(from, to)
    case Failure(e) => Failure(e)
    case Success(_) =>
      match CheckTimezone(timezone)
      case Failure(e) => Failure(e)
      case Success(_) =>
        Success(SummarizeRange(RangeRecords(RowsBetween(daily, from, to), BuildDayRange(from, to), timezone, nowMs), from, to, timezone))
  }

  lemma SortedBetween(days: seq<string>, i: int)
    requires StrictlySorted(days) && 0 <= i < |days|
    ensures StrLe(days[0], days[i]) && StrLe(days[i], days[|days| - 1])
  {
  }

  /** Between two calendar dates the range runs from `from` to `to`, in
      order, through every calendar date in between. */
  lemma CalendarRangeBetween(from: string, to: string)
    requires IsCalendarDayKey(from) && IsCalendarDayKey(to) && StrLe(from, to)
    ensures var days := BuildDayRange(from, to);
      && |days| > 0 && days[0] == from && days[|days| - 1] == to && StrictlySorted(days)
      && (forall k :: IsCalendarDayKey(k) && StrLe(from, k) && StrLe(k, to) ==> k in days)
      && (forall i | 0 <= i < |days| :: StrLe(from, days[i]) && StrLe(days[i], to))
  {
    BuildDayRangeCalendar(from, to);
    var days := BuildDayRange(from, to);
    forall i | 0 <= i < |days| ensures StrLe(from, days[i]) && StrLe(days[i], to) {
      SortedBetween(days, i);
    }
  }

  /** For calendar dates the range summary has one day per calendar day from
      `from` to `to`, in order, each summarising the stored row for that day
      or, when there is none, an empty day. */
  lemma RangeSummaryDays(daily: map<string, DailyRecord>, from: string, to: string, timezone: string, nowMs: int)
    requires IsCalendarDayKey(from) && IsCalendarDayKey(to) && StrLe(from, to) && !IsBlank(timezone)
    ensures var r := GetRangeSummary(daily, from, to, timezone, nowMs);
      var days := BuildDayRange(from, to);
      && r.Success?
      && days[0] == from && days[|days| - 1] == to && StrictlySorted(days)
      && (forall k :: IsCalendarDayKey(k) && StrLe(from, k) && StrLe(k, to) ==> k in days)
      && forall i | 0 <= i < |days| :: r.value.days[i] == SummarizeDay(RowOrEmpty(daily, days[i], timezone, nowMs))
  {
    CalendarRangeBetween(from, to);
    var days := BuildDayRange(from, to);
    var records := RangeRecords(RowsBetween(daily, from, to), days, timezone, nowMs);
    assert GetRangeSummary(daily, from, to, timezone, nowMs) == Success(SummarizeRange(records, from, to, timezone));
    RecordsInRange(daily, from, to, days, timezone, nowMs);
  }

  /** Reading through the index between `from` and `to` finds the same row
      as the table for every day in that range. */
  lemma RecordsInRange(daily: map<string, DailyRecord>, from: string, to: string, days: seq<string>, timezone: string, nowMs: int)
    requires forall i | 0 <= i < |days| :: StrLe(from, days[i]) && StrLe(days[i], to)
    ensures var records := RangeRecords(RowsBetween(daily, from, to), days, timezone, nowMs);
      forall i | 0 <= i < |days| :: records[i] == RowOrEmpty(daily, days[i], timezone, nowMs)
  {
  }

  /** `getYesterdaySummary`: timezone check, then the row of exactly
      `yesterdayDayKey(timezone, now)`, where `now` is the argument when
      given and the clock otherwise. */
  function GetYesterdaySummary(daily: map<string, DailyRecord>, timezone: string, nowArg: Option<int>, clockMs: int, zone: ZoneDayKey): (r: Result<DaySummary, string>)
    ensures IsBlank(timezone) ==> r == Failure(ErrTimezone)
    ensures !IsBlank(timezone) ==> (r.Success? <==> YesterdayDayKey(timezone, nowArg.GetOr(clockMs), zone).Success?)
    ensures RowsKeyed(daily) && r.Success? ==> r.value.dayKey == YesterdayDayKey(timezone, nowArg.GetOr(clockMs), zone).value
  {
    match CheckTimezone(timezone)
    case Failure(e) => Failure(e)
    case Success(_) =>
      var nowMs := nowArg.GetOr(clockMs);
      match YesterdayDayKey(timezone, nowMs, zone)
      case Failure(e) => Failure(e)
      case Success(day) => Success(StoredDaySummary(daily, day, timezone, nowMs))
  }

  /** When the zone's current day is a calendar date, the yesterday summary
      is the summary of the previous calendar date. */
  lemma YesterdaySummaryDay(daily: map<string, DailyRecord>, timezone: string, nowMs: int, zone: ZoneDayKey)
    requires RowsKeyed(daily) && !IsBlank(timezone)
    requires -MaxTimeMs <= nowMs <= MaxTimeMs
    requires zone(nowMs, timezone).Success? && IsCalendarDayKey(zone(nowMs, timezone).value)
    ensures var r := GetYesterdaySummary(daily, timezone, Some(nowMs), 0, zone);
      r.Success? && r.value.dayKey == KeyOf(Pred(SpelledDate(zone(nowMs, timezone).value)))
  {
    YesterdayIsPreviousDay(timezone, nowMs, zone);
  }
}

=== FILE: sync.dfy ===
/** The device's pull sync (apps/native/lib/health/sync.ts): for each metric
    in HEALTH_METRICS order, read the stored cursor, fetch the samples of the
    window behind it, upload them in batches (each with up to three tries),
    and only then store the new cursor; finally save a summary of the run.
    The secure store is a map of cursor strings plus the saved summary;
    HealthKit, the upload call and the clock are parameters. The window,
    retry and classification helpers that sync.ts:71-135 repeats are the
    ones of the SyncLogic module.
 */
module Sync {
  import opened Wrappers
  import opened JsNumbers
  import opened StringOrder
  import opened HealthTypes
  import opened SyncLogic

  // ---------------------------------------------------------------- batching

  /** The batches laid end to end. */
  function Concat<T>(batches: seq<seq<T>>): seq<T> {
    if |batches| == 0 then [] else batches[0] + Concat(batches[1..])
  }

  /** `chunkSamples`: consecutive slices of `batchSize` samples, the last one
      possibly shorter. A batch size below one would never advance. */
  function ChunkSamples<T>(samples: seq<T>, batchSize: nat): (batches: seq<seq<T>>)
    requires batchSize >= 1
    ensures Concat(batches) == samples
    ensures forall i | 0 <= i < |batches| :: 0 < |batches[i]| <= batchSize
    ensures forall i | 0 <= i < |batches| - 1 :: |batches[i]| == batchSize
    decreases |samples|
  {
    if |samples| == 0 then []
    else if |samples| <= batchSize then
      assert Concat([samples]) == samples + Concat([]);
      [samples]
    else
      var rest := ChunkSamples(samples[batchSize..], batchSize);
      assert ([samples[..batchSize]] + rest)[1..] == rest;
      [samples[..batchSize]] + rest
  }

  // ---------------------------------------------------------------- cursors

  /** `parseNumberOrNull`: the stored text as a whole number of
      milliseconds, or nothing when absent, not finite or negative. */
  function ParseNumberOrNull(rawValue: Option<string>): (r: Option<nat>)
    ensures rawValue.None? ==> r.None?
    ensures r.Some? ==> NumberOfString(rawValue.value).Finite?
    ensures r.Some? ==> r.value as real <= NumberOfString(rawValue.value).value < r.value as real + 1.0
    ensures rawValue.Some? && NumberOfString(rawValue.value).Finite? && NumberOfString(rawValue.value).value >= 0.0 ==> r.Some?
  {
    match rawValue
    case None => None
    case Some(text) =>
      match NumberOfString(text)
      case NonFinite => None
      case Finite(parsed) => if parsed < 0.0 then None else Some(parsed.Floor)
  }

  /** `readCursor`: the stored cursor, or 0. */
  function ReadCursor(cursors: map<Metric, string>, metric: Metric): (c: nat)
    ensures metric !in cursors ==> c == 0
  {
    ParseNumberOrNull(if metric in cursors then Some(cursors[metric]) else None).GetOr(0)
  }

  /** `writeCursor`: `String(endTimeMs)` under the metric's key. */
  function WriteCursor(cursors: map<Metric, string>, metric: Metric, endTimeMs: int): (r: map<Metric, string>)
    ensures r.Keys == cursors.Keys + {metric}
    ensures forall m | m in cursors && m != metric :: r[m] == cursors[m]
  {
    cursors[metric := IntToDecimal(endTimeMs)]
  }

  /** Reading back a written cursor gives the written time, or 0 for a time
      before the epoch. */
  lemma CursorRoundTrip(cursors: map<Metric, string>, metric: Metric, endTimeMs: int)
    ensures ReadCursor(WriteCursor(cursors, metric, endTimeMs), metric) == (if endTimeMs >= 0 then endTimeMs else 0)
  {
    NumberOfIntDecimal(endTimeMs);
  }

  // ---------------------------------------------------------------- one metric

  datatype MetricStats = MetricStats(
    metric: Metric,
    fetched: nat,
    uploaded: nat,
    inserted: int,
    deduped: int,
    cursorStartMs: int,
    cursorEndMs: int)

  /** `toMetricStatsBase`: nothing fetched or uploaded yet. */
  function ToMetricStatsBase(metric: Metric, cursorStartMs: int, cursorEndMs: int): (s: MetricStats)
    ensures s.metric == metric && s.cursorStartMs == cursorStartMs && s.cursorEndMs == cursorEndMs
    ensures s.fetched == 0 && s.uploaded == 0 && s.inserted == 0 && s.deduped == 0
  {
    MetricStats(metric, 0, 0, 0, 0, cursorStartMs, cursorEndMs)
  }

  /** What the device and the server do, as seen by the sync: the clock read
      for each metric, the HealthKit query of a window in a timezone, and
      the k-th try of uploading a batch of a metric. */
  datatype SyncEnv = SyncEnv(
    timezone: string,
    clock: Metric -> int,
    fetch: (Metric, int, int, string) -> Attempt<seq<IngestSample>>,
    ingest: (Metric, seq<IngestSample>, nat) -> Attempt<IngestResponse>)

  /** Uploading one batch of a metric: `retryWithBackoff` with three tries. */
  function UploadRun(env: SyncEnv, metric: Metric, batch: seq<IngestSample>): RetryRun<IngestResponse> {
    RetryWithBackoff((k: nat) => env.ingest(metric, batch, k), 3)
  }

  /** What the uploads of one metric add up to. */
  datatype BatchTotals = BatchTotals(uploaded: nat, inserted: int, deduped: int, days: seq<string>)

  /** The final outcome of uploading a batch. */
  type Uploader = seq<IngestSample> -> Attempt<IngestResponse>

  /** The uploads of `batches`, in order, stopping at the first batch whose
      tries all fail. */
  function UploadBatches(upload: Uploader, batches: seq<seq<IngestSample>>): (r: Result<BatchTotals, HealthFailure>)
    ensures r.Success? <==> forall b | b in batches :: upload(b).Returned?
    ensures r.Success? ==> r.value.uploaded == |Concat(batches)|
    decreases |batches|
  {
    if |batches| == 0 then Success(BatchTotals(0, 0, 0, []))
    else
      match upload(batches[0])
      case Threw(e) => Failure(e)
      case Returned(response) =>
        match UploadBatches(upload, batches[1..])
        case Failure(e) => Failure(e)
        case Success(t) =>
          assert forall b | b in batches :: b == batches[0] || b in batches[1..];
          Success(BatchTotals(|batches[0]| + t.uploaded, response.inserted + t.inserted, response.deduped + t.deduped,
                              response.recomputedDays + t.days))
  }

  /** The days a metric's uploads report are the days of the server's
      answers, all of them and no others. */
  lemma {:induction false} UploadDays(upload: Uploader, batches: seq<seq<IngestSample>>, d: string)
    requires UploadBatches(upload, batches).Success?
    ensures d in UploadBatches(upload, batches).value.days <==>
      exists b | b in batches :: d in upload(b).value.recomputedDays
    decreases |batches|
  {
    if |batches| > 0 {
      UploadDays(upload, batches[1..], d);
      assert forall b | b in batches :: b == batches[0] || b in batches[1..];
    }
  }

  /** A failed metric fails with the error of its first failing batch, every
      batch before which was uploaded. */
  lemma {:induction false} UploadStopsAtFirstFailure(upload: Uploader, batches: seq<seq<IngestSample>>)
    requires UploadBatches(upload, batches).Failure?
    ensures exists j | 0 <= j < |batches| ::
      && (forall b | b in batches[..j] :: upload(b).Returned?)
      && upload(batches[j]) == Threw(UploadBatches(upload, batches).error)
    decreases |batches|
  {
    if upload(batches[0]).Returned? {
      assert UploadBatches(upload, batches) == UploadBatches(upload, batches[1..]);
      UploadStopsAtFirstFailure(upload, batches[1..]);
      var j :| 0 <= j < |batches[1..]|
        && (forall b | b in batches[1..][..j] :: upload(b).Returned?)
        && upload(batches[1..][j]) == Threw(UploadBatches(upload, batches[1..]).error);
      forall b | b in batches[..j + 1]
        ensures upload(b).Returned?
      {
        var i :| 0 <= i <= j && batches[i] == b;
        if i > 0 {
          assert b == batches[1..][..j][i - 1];
        }
      }
      assert batches[1..][j] == batches[j + 1];
    } else {
      assert batches[..0] == [];
      assert upload(batches[0]) == Threw(UploadBatches(upload, batches).error);
    }
  }

  /** The retried upload of the batches of `metric`. */
  function MetricUploader(env: SyncEnv, metric: Metric): Uploader {
    (batch: seq<IngestSample>) => UploadRun(env, metric, batch).outcome
  }

  /** One metric of the loop: its previous cursor, window, fetch and
      uploads, with the stats it records and the days the server
      recomputed; a failed fetch or upload throws. */
  function SyncMetric(env: SyncEnv, cursors: map<Metric, string>, metric: Metric): (r: Result<(MetricStats, seq<string>), HealthFailure>)
    ensures r.Success? ==> r.value.0.metric == metric
    ensures r.Success? ==> r.value.0.cursorStartMs == ReadCursor(cursors, metric) && r.value.0.cursorEndMs == env.clock(metric)
    ensures r.Success? ==> r.value.0.uploaded == r.value.0.fetched
  {
    var previousCursor := ReadCursor(cursors, metric);
    var window := BuildCursorWindow(previousCursor, env.clock(metric));
    var base := ToMetricStatsBase(metric, previousCursor, window.toMs);
    match env.fetch(metric, window.fromMs, window.toMs, env.timezone)
    case Threw(e) => Failure(e)
    case Returned(samples) =>
      var batches := ChunkSamples(samples, HealthSyncBatchSize);
      match UploadBatches(MetricUploader(env, metric), batches)
      case Failure(e) => Failure(e)
      case Success(t) =>
        Success((base.(fetched := |samples|, uploaded := t.uploaded, inserted := t.inserted, deduped := t.deduped), t.days))
  }

  /** The batches `metric` uploads when its stored cursor is
      `previousCursor`, or nothing when the HealthKit query throws. */
  function FetchedBatches(env: SyncEnv, metric: Metric, previousCursor: nat): Option<seq<seq<IngestSample>>> {
    var window := BuildCursorWindow(previousCursor, env.clock(metric));
    match env.fetch(metric, window.fromMs, window.toMs, env.timezone)
    case Threw(_) => None
    case Returned(samples) => Some(ChunkSamples(samples, HealthSyncBatchSize))
  }

  /** `d` is a day the server answered as recomputed for one of the batches
      `metric` uploads from the cursor `previousCursor`. */
  ghost predicate ServerDay(env: SyncEnv, metric: Metric, previousCursor: nat, d: string) {
    var batches := FetchedBatches(env, metric, previousCursor);
    && batches.Some?
    && exists b | b in batches.value ::
         MetricUploader(env, metric)(b).Returned? && d in MetricUploader(env, metric)(b).value.recomputedDays
  }

  /** The days a completed metric reports are exactly the days the server
      answered for its batches. */
  lemma SyncMetricDays(env: SyncEnv, cursors: map<Metric, string>, metric: Metric, d: string)
    requires SyncMetric(env, cursors, metric).Success?
    ensures d in SyncMetric(env, cursors, metric).value.1 <==> ServerDay(env, metric, ReadCursor(cursors, metric), d)
  {
    var window := BuildCursorWindow(ReadCursor(cursors, metric), env.clock(metric));
    var samples := env.fetch(metric, window.fromMs, window.toMs, env.timezone).value;
    UploadDays(MetricUploader(env, metric), ChunkSamples(samples, HealthSyncBatchSize), d);
  }

  // ---------------------------------------------------------------- the loop

  function SumInserted(stats: seq<MetricStats>): int {
    if |stats| == 0 then 0 else stats[0].inserted + SumInserted(stats[1..])
  }

  function SumDeduped(stats: seq<MetricStats>): int {
    if |stats| == 0 then 0 else stats[0].deduped + SumDeduped(stats[1..])
  }

  /** What the loop leaves: stats of the completed metrics, the running
      totals, the days the server recomputed, the stored cursors and the
      error that ended the loop, if any. */
  datatype SyncPass = SyncPass(
    completed: seq<MetricStats>,
    totalInserted: int,
    totalDeduped: int,
    days: seq<string>,
    cursors: map<Metric, string>,
    failure: Option<HealthFailure>)

  /** The body of the per-metric loop, given the stored cursors. */
  type MetricStep = (map<Metric, string>, Metric) -> Result<(MetricStats, seq<string>), HealthFailure>

  function MetricStepOf(env: SyncEnv): MetricStep {
    (cursors: map<Metric, string>, metric: Metric) => SyncMetric(env, cursors, metric)
  }

  /** A step reports stats for its own metric, with all that it fetched
      uploaded. */
  ghost predicate StepKeepsStats(step: MetricStep) {
    forall cursors, metric | step(cursors, metric).Success? ::
      step(cursors, metric).value.0.metric == metric && step(cursors, metric).value.0.uploaded == step(cursors, metric).value.0.fetched
  }

  lemma MetricStepKeepsStats(env: SyncEnv)
    ensures StepKeepsStats(MetricStepOf(env))
  {
  }

  /** The loop of `runHealthSync` over `metrics`: a metric's cursor is
      written after all of its batches are uploaded; the first failure
      ends the loop with the cursors written so far. */
  function SyncFrom(step: MetricStep, metrics: seq<Metric>, cursors: map<Metric, string>): (q: SyncPass)
    ensures |q.completed| <= |metrics|
    ensures q.failure.None? <==> |q.completed| == |metrics|
    decreases |metrics|
  {
    if |metrics| == 0 then SyncPass([], 0, 0, [], cursors, None)
    else
      match step(cursors, metrics[0])
      case Failure(e) => SyncPass([], 0, 0, [], cursors, Some(e))
      case Success((stats, days)) =>
        var rest := SyncFrom(step, metrics[1..], WriteCursor(cursors, metrics[0], stats.cursorEndMs));
        SyncPass([stats] + rest.completed, stats.inserted + rest.totalInserted, stats.deduped + rest.totalDeduped,
                 days + rest.days, rest.cursors, rest.failure)
  }

  /** With a step that reports its own metric, the completed stats follow
      the metric list, each with everything it fetched uploaded. */
  lemma {:induction false} SyncStats(step: MetricStep, metrics: seq<Metric>, cursors: map<Metric, string>)
    requires StepKeepsStats(step)
    ensures var q := SyncFrom(step, metrics, cursors);
      forall i | 0 <= i < |q.completed| :: q.completed[i].metric == metrics[i] && q.completed[i].uploaded == q.completed[i].fetched
    decreases |metrics|
  {
    if |metrics| > 0 {
      match step(cursors, metrics[0])
      case Failure(e) =>
      case Success((stats, days)) =>
        var written := WriteCursor(cursors, metrics[0], stats.cursorEndMs);
        var rest := SyncFrom(step, metrics[1..], written);
        SyncStats(step, metrics[1..], written);
        var completed := [stats] + rest.completed;
        assert SyncFrom(step, metrics, cursors).completed == completed;
        forall i | 1 <= i < |completed|
          ensures completed[i].metric == metrics[i] && completed[i].uploaded == completed[i].fetched
        {
          assert completed[i] == rest.completed[i - 1] && metrics[i] == metrics[1..][i - 1];
        }
    }
  }

  /** The run's totals are the sums of the per-metric stats. */
  lemma {:induction false} SyncTotals(step: MetricStep, metrics: seq<Metric>, cursors: map<Metric, string>)
    ensures var q := SyncFrom(step, metrics, cursors);
      q.totalInserted == SumInserted(q.completed) && q.totalDeduped == SumDeduped(q.completed)
    decreases |metrics|
  {
    if |metrics| > 0 {
      match step(cursors, metrics[0])
      case Failure(e) =>
      case Success((stats, days)) =>
        var rest := SyncFrom(step, metrics[1..], WriteCursor(cursors, metrics[0], stats.cursorEndMs));
        SyncTotals(step, metrics[1..], WriteCursor(cursors, metrics[0], stats.cursorEndMs));
        assert ([stats] + rest.completed)[1..] == rest.completed;
    }
  }

  /** Cursors are written for the completed metrics only: the cursor of any
      other metric is left as it was. */
  lemma {:induction false} SyncCursorOf(step: MetricStep, metrics: seq<Metric>, cursors: map<Metric, string>, m: Metric)
    ensures var q := SyncFrom(step, metrics, cursors);
      m in metrics[..|q.completed|] ==> m in q.cursors
    ensures var q := SyncFrom(step, metrics, cursors);
      m !in metrics[..|q.completed|] ==> (m in q.cursors <==> m in cursors) && (m in cursors ==> q.cursors[m] == cursors[m])
    decreases |metrics|
  {
    if |metrics| > 0 {
      var r := step(cursors, metrics[0]);
      if r.Success? {
        var written := WriteCursor(cursors, metrics[0], r.value.0.cursorEndMs);
        var rest := SyncFrom(step, metrics[1..], written);
        SyncCursorOf(step, metrics[1..], written, m);
        assert metrics[..1 + |rest.completed|] == [metrics[0]] + metrics[1..][..|rest.completed|];
      }
    }
  }

  /** Once a metric has completed, its cursor holds the end of its window,
      provided no later metric of the list is the same metric. */
  lemma {:induction false} CompletedCursorWritten(step: MetricStep, metrics: seq<Metric>, cursors: map<Metric, string>, i: nat)
    requires forall a, b | 0 <= a < b < |metrics| :: metrics[a] != metrics[b]
    requires i < |SyncFrom(step, metrics, cursors).completed|
    ensures var q := SyncFrom(step, metrics, cursors);
      metrics[i] in q.cursors && q.cursors[metrics[i]] == IntToDecimal(q.completed[i].cursorEndMs)
    decreases |metrics|
  {
    match step(cursors, metrics[0])
    case Failure(e) =>
    case Success((stats, days)) =>
      var written := WriteCursor(cursors, metrics[0], stats.cursorEndMs);
      var rest := SyncFrom(step, metrics[1..], written);
      if i == 0 {
        SyncCursorOf(step, metrics[1..], written, metrics[0]);
        assert metrics[0] !in metrics[1..][..|rest.completed|];
      } else {
        assert forall a, b | 0 <= a < b < |metrics[1..]| :: metrics[1..][a] != metrics[1..][b] by {
          forall a, b | 0 <= a < b < |metrics[1..]| ensures metrics[1..][a] != metrics[1..][b] {
            assert metrics[1..][a] == metrics[a + 1] && metrics[1..][b] == metrics[b + 1];
          }
        }
        CompletedCursorWritten(step, metrics[1..], written, i - 1);
      }
  }

  /** With distinct metrics, the days a pass collects are exactly the days
      the server answered for the batches of its completed metrics, each
      uploaded from the cursor stored before the pass. */
  lemma {:induction false} SyncDays(env: SyncEnv, metrics: seq<Metric>, cursors: map<Metric, string>, d: string)
    requires Distinct(metrics)
    ensures var q := SyncFrom(MetricStepOf(env), metrics, cursors);
      d in q.days <==> exists i | 0 <= i < |q.completed| :: ServerDay(env, metrics[i], ReadCursor(cursors, metrics[i]), d)
    decreases |metrics|
  {
    if |metrics| > 0 {
      var step := MetricStepOf(env);
      var first := SyncMetric(env, cursors, metrics[0]);
      if first.Success? {
        var written := WriteCursor(cursors, metrics[0], first.value.0.cursorEndMs);
        var rest := SyncFrom(step, metrics[1..], written);
        var q := SyncFrom(step, metrics, cursors);
        assert q.days == first.value.1 + rest.days && |q.completed| == 1 + |rest.completed|;
        assert Distinct(metrics[1..]) by {
          forall a, b | 0 <= a < b < |metrics[1..]| ensures metrics[1..][a] != metrics[1..][b] {
            assert metrics[1..][a] == metrics[a + 1] && metrics[1..][b] == metrics[b + 1];
          }
        }
        SyncMetricDays(env, cursors, metrics[0], d);
        SyncDays(env, metrics[1..], written, d);
        forall j | 0 <= j < |rest.completed|
          ensures ServerDay(env, metrics[1..][j], ReadCursor(written, metrics[1..][j]), d)
              == ServerDay(env, metrics[j + 1], ReadCursor(cursors, metrics[j + 1]), d)
        {
          assert metrics[1..][j] == metrics[j + 1];
          WrittenCursorKeepsOthers(cursors, metrics[0], first.value.0.cursorEndMs, metrics[j + 1]);
        }
      }
    }
  }

  /** Writing one metric's cursor leaves what every other metric reads. */
  lemma WrittenCursorKeepsOthers(cursors: map<Metric, string>, metric: Metric, endTimeMs: int, m: Metric)
    requires m != metric
    ensures ReadCursor(WriteCursor(cursors, metric, endTimeMs), m) == ReadCursor(cursors, m)
  {
  }

  // ---------------------------------------------------------------- runHealthSync

  /** The device facts `runHealthSync` checks before syncing. */
  datatype DeviceCaps = DeviceCaps(supportedPlatform: bool, available: bool, readPermission: bool)

  datatype SyncSummary = SyncSummary(
    startedAtMs: int,
    completedAtMs: int,
    inserted: int,
    deduped: int,
    recomputedDays: seq<string>,
    metrics: seq<MetricStats>)

  datatype SyncRunResult = SyncRunResult(supported: bool, authorized: bool, summary: Option<SyncSummary>, error: Option<string>)

  /** The secure store: cursors by metric and the last saved summary. */
  datatype DeviceStore = DeviceStore(cursors: map<Metric, string>, lastSummary: Option<SyncSummary>)

  const ErrNotIos := "HealthKit sync is only available on iOS"
  const ErrUnavailable := "Health data is not available on this device"
  const ErrNotGranted := "Health permissions were not granted"

  /** The body of `runHealthSync` after the early answers: the loop over
      `metrics`, then the summary, which is saved. A failure that escapes
      the loop throws, after the cursors of the completed metrics have been
      written, and saves nothing. */
  function SyncAll(store: DeviceStore, env: SyncEnv, metrics: seq<Metric>, startedAtMs: int, completedAtMs: int): (r: (Result<SyncRunResult, HealthFailure>, DeviceStore))
    ensures r.0.Failure? ==> r.1.lastSummary == store.lastSummary
    ensures r.0.Success? ==> r.0.value.supported && r.0.value.authorized && r.0.value.error.None?
    ensures r.0.Success? ==> r.0.value.summary.Some? && r.1.lastSummary == r.0.value.summary
  {
    var q := SyncFrom(MetricStepOf(env), metrics, store.cursors);
    if q.failure.Some? then (Failure(q.failure.value), store.(cursors := q.cursors))
    else
      var summary := SyncSummary(startedAtMs, completedAtMs, q.totalInserted, q.totalDeduped, SortedOf(q.days), q.completed);
      (Success(SyncRunResult(true, true, Some(summary), None)), DeviceStore(q.cursors, Some(summary)))
  }

  /** `runHealthSync`: an unsupported platform, unavailable data or a denied
      permission answers at once and writes nothing; otherwise every metric
      of HEALTH_METRICS is synced in order. */
  function RunHealthSync(caps: DeviceCaps, store: DeviceStore, env: SyncEnv, startedAtMs: int, completedAtMs: int): (r: (Result<SyncRunResult, HealthFailure>, DeviceStore))
    ensures !(caps.supportedPlatform && caps.available && caps.readPermission) ==> r.1 == store && r.0.Success? && r.0.value.summary.None?
    ensures !caps.supportedPlatform ==> r.0.value == SyncRunResult(false, false, None, Some(ErrNotIos))
    ensures caps.supportedPlatform && !caps.available ==> r.0.value == SyncRunResult(true, false, None, Some(ErrUnavailable))
    ensures caps.supportedPlatform && caps.available && !caps.readPermission ==> r.0.value == SyncRunResult(true, false, None, Some(ErrNotGranted))
    ensures caps.supportedPlatform && caps.available && caps.readPermission ==> r == SyncAll(store, env, HealthMetrics, startedAtMs, completedAtMs)
  {
    if !caps.supportedPlatform then (Success(SyncRunResult(false, false, None, Some(ErrNotIos))), store)
    else if !caps.available then (Success(SyncRunResult(true, false, None, Some(ErrUnavailable))), store)
    else if !caps.readPermission then (Success(SyncRunResult(true, false, None, Some(ErrNotGranted))), store)
    else SyncAll(store, env, HealthMetrics, startedAtMs, completedAtMs)
  }

  predicate Distinct(metrics: seq<Metric>) {
    forall a, b | 0 <= a < b < |metrics| :: metrics[a] != metrics[b]
  }

  /** A completed sync: one stats entry per metric, in order, each with
      everything fetched uploaded, started at the stored cursor and with its
      cursor advanced to the end of its window; the totals are the sums of
      the entries; the recomputed days are sorted, without repeats, and
      exactly the days the server answered for the uploaded batches. */
  lemma CompletedSync(store: DeviceStore, env: SyncEnv, metrics: seq<Metric>, startedAtMs: int, completedAtMs: int)
    requires Distinct(metrics)
    ensures var (result, after) := SyncAll(store, env, metrics, startedAtMs, completedAtMs);
      result.Success? ==>
        && result.value.summary.Some?
        && var s := result.value.summary.value;
        && |s.metrics| == |metrics|
        && (forall i | 0 <= i < |metrics| :: s.metrics[i].metric == metrics[i])
        && (forall i | 0 <= i < |s.metrics| :: s.metrics[i].uploaded == s.metrics[i].fetched)
        && (forall i | 0 <= i < |metrics| :: metrics[i] in after.cursors && after.cursors[metrics[i]] == IntToDecimal(s.metrics[i].cursorEndMs))
        && s.inserted == SumInserted(s.metrics) && s.deduped == SumDeduped(s.metrics)
        && StrictlySorted(s.recomputedDays)
        && (forall d :: d in s.recomputedDays <==>
              exists i | 0 <= i < |metrics| :: ServerDay(env, metrics[i], ReadCursor(store.cursors, metrics[i]), d))
  {
    var q := SyncFrom(MetricStepOf(env), metrics, store.cursors);
    MetricStepKeepsStats(env);
    SyncStats(MetricStepOf(env), metrics, store.cursors);
    SyncTotals(MetricStepOf(env), metrics, store.cursors);
    forall i | 0 <= i < |q.completed|
      ensures metrics[i] in q.cursors && q.cursors[metrics[i]] == IntToDecimal(q.completed[i].cursorEndMs)
    {
      CompletedCursorWritten(MetricStepOf(env), metrics, store.cursors, i);
    }
    forall d {
      SyncDays(env, metrics, store.cursors, d);
    }
  }

  /** The cursors `after` differ from `before` as a loop stopped at index
      `n` leaves them: the first `n` metrics have a cursor, and the rest
      keep whatever cursor they had. */
  predicate CursorsWrittenBefore(metrics: seq<Metric>, n: nat, before: map<Metric, string>, after: map<Metric, string>)
    requires n <= |metrics|
  {
    && (forall i | 0 <= i < n :: metrics[i] in after)
    && (forall m | m in metrics[n..] :: (m in after <==> m in before))
    && (forall m | m in metrics[n..] && m in before :: after[m] == before[m])
  }

  /** In a list without repeats, the loop writes the cursors of the
      metrics it completed and keeps those of the others. */
  lemma PassCursors(step: MetricStep, metrics: seq<Metric>, cursors: map<Metric, string>)
    requires Distinct(metrics)
    ensures var q := SyncFrom(step, metrics, cursors);
      CursorsWrittenBefore(metrics, |q.completed|, cursors, q.cursors)
  {
    var q := SyncFrom(step, metrics, cursors);
    var n := |q.completed|;
    forall i | 0 <= i < n
      ensures metrics[i] in q.cursors
    {
      assert metrics[i] == metrics[..n][i];
      SyncCursorOf(step, metrics, cursors, metrics[i]);
    }
    forall m | m in metrics[n..]
      ensures (m in q.cursors <==> m in cursors) && (m in cursors ==> q.cursors[m] == cursors[m])
    {
      assert m !in metrics[..n];
      SyncCursorOf(step, metrics, cursors, m);
    }
  }

  /** A sync that throws has written the cursors of the metrics before the
      failing one and no other: the failing metric and the ones after it
      keep their cursors, and no summary is saved. */
  lemma FailedSyncKeepsLaterCursors(store: DeviceStore, env: SyncEnv, metrics: seq<Metric>, startedAtMs: int, completedAtMs: int)
    requires Distinct(metrics)
    ensures var r := SyncAll(store, env, metrics, startedAtMs, completedAtMs);
      r.0.Failure? ==>
        && r.1.lastSummary == store.lastSummary
        && exists n | 0 <= n < |metrics| :: CursorsWrittenBefore(metrics, n, store.cursors, r.1.cursors)
  {
    var q := SyncFrom(MetricStepOf(env), metrics, store.cursors);
    if q.failure.Some? {
      var n := |q.completed|;
      assert n < |metrics|;
      assert SyncAll(store, env, metrics, startedAtMs, completedAtMs).1 == store.(cursors := q.cursors);
      PassCursors(MetricStepOf(env), metrics, store.cursors);
    }
  }

  /** HEALTH_METRICS lists each metric once, so both facts apply to a run. */
  lemma HealthMetricsDistinct()
    ensures Distinct(HealthMetrics)
  {
    HealthMetricsComplete();
  }
}

=== FILE: sync_logic.dfy ===
/** The device's pull-sync helpers (apps/native/lib/health/sync-logic.ts):
    the fetch window behind the stored cursor, which failures are worth a
    retry, and the retry loop with its doubling waits. Timers are left out:
    the loop returns the waits it would sleep as data, and the call it
    retries is a function of the attempt number.
 */
module SyncLogic {
  import opened Wrappers
  import opened JsStrings
  import opened JsNumbers

  /** HEALTH_CURSOR_OVERLAP_MS: one day. */
  const HealthCursorOverlapMs: int := 24 * 60 * 60 * 1000

  /** HEALTH_SYNC_BATCH_SIZE. */
  const HealthSyncBatchSize: nat := 500

  // ---------------------------------------------------------------- cursor window

  datatype CursorWindow = CursorWindow(fromMs: int, toMs: int)

  /** `buildCursorWindow`: everything on a first sync, otherwise from one day
      before the last successful end, never before the epoch, up to now. */
  function BuildCursorWindow(lastSuccessfulEndTimeMs: int, nowMs: int): (w: CursorWindow)
    ensures w.toMs == nowMs
    ensures 0 <= w.fromMs <= (if lastSuccessfulEndTimeMs > 0 then lastSuccessfulEndTimeMs else 0)
    ensures lastSuccessfulEndTimeMs <= HealthCursorOverlapMs ==> w.fromMs == 0
    ensures lastSuccessfulEndTimeMs > HealthCursorOverlapMs ==> w.fromMs == lastSuccessfulEndTimeMs - HealthCursorOverlapMs
  {
    if lastSuccessfulEndTimeMs <= 0 then CursorWindow(0, nowMs)
    else
      var fromMs := if lastSuccessfulEndTimeMs - HealthCursorOverlapMs > 0 then lastSuccessfulEndTimeMs - HealthCursorOverlapMs else 0;
      CursorWindow(fromMs, nowMs)
  }

  /** The window re-reads the whole day before the cursor: an instant at or
      after the epoch and at most one day before the cursor, up to now, lies
      in the window. */
  lemma WindowOverlapsLastDay(lastSuccessfulEndTimeMs: int, nowMs: int, t: int)
    requires 0 <= t <= nowMs && lastSuccessfulEndTimeMs - HealthCursorOverlapMs <= t
    ensures var w := BuildCursorWindow(lastSuccessfulEndTimeMs, nowMs);
      w.fromMs <= t <= w.toMs
  {
  }

  /** The two examples of the device tests: a first sync starts at the epoch;
      a cursor two days in starts one day in. */
  lemma CursorWindowExamples()
    ensures BuildCursorWindow(0, 1_000_000) == CursorWindow(0, 1_000_000)
    ensures BuildCursorWindow(2 * 86_400_000, 2 * 86_400_000 + 60_000) == CursorWindow(86_400_000, 2 * 86_400_000 + 60_000)
  {
  }

  // ---------------------------------------------------------------- retry classification

  /** What a failed call throws: a `HealthApiError` (status code absent for
      a transport failure), another `Error`, or a thrown non-error value. */
  datatype HealthFailure =
    | ApiError(message: string, statusCode: Option<int>)
    | PlainError(message: string)
    | NotAnError

  /** The outcome of one asynchronous call. */
  datatype Attempt<+T> = Returned(value: T) | Threw(error: HealthFailure)

  predicate IsTransientStatus(status: int) {
    status == 408 || status == 425 || status == 429 || status >= 500
  }

  /** The message fragments that mark a plain error as transient. */
  const TransientWords: seq<string> := ["network", "timeout", "temporar", "failed to fetch"]

  lemma TransientWordsListed(lower: string)
    ensures (exists w | w in TransientWords :: Contains(lower, w))
        <==> Contains(lower, "network") || Contains(lower, "timeout") || Contains(lower, "temporar") || Contains(lower, "failed to fetch")
  {
    assert TransientWords[0] == "network" && TransientWords[1] == "timeout";
    assert TransientWords[2] == "temporar" && TransientWords[3] == "failed to fetch";
  }

  /** `shouldRetryHealthError`. */
  function ShouldRetryHealthError(e: HealthFailure): (retry: bool)
    ensures e.ApiError? ==> (retry <==> e.statusCode.None? || IsTransientStatus(e.statusCode.value))
    ensures e.PlainError? ==> (retry <==> exists w | w in TransientWords :: Contains(ToLowerAscii(e.message), w))
    ensures e.NotAnError? ==> !retry
  {
    match e
    case ApiError(_, status) =>
      if status.None? then true
      else if status.value == 408 || status.value == 425 || status.value == 429 then true
      else status.value >= 500
    case PlainError(message) =>
      var lower := ToLowerAscii(message);
      TransientWordsListed(lower);
      Contains(lower, "network") || Contains(lower, "timeout") || Contains(lower, "temporar") || Contains(lower, "failed to fetch")
    case NotAnError => false
  }

  lemma LowerAsciiIdempotent(s: string)
    ensures ToLowerAscii(ToLowerAscii(s)) == ToLowerAscii(s)
  {
    var once := ToLowerAscii(s);
    assert forall k | 0 <= k < |s| :: LowerAsciiChar(LowerAsciiChar(s[k])) == LowerAsciiChar(s[k]);
    assert ToLowerAscii(once) == once;
  }

  /** The message test ignores case: a message and its lower-case form are
      classified alike. */
  lemma RetryIgnoresCase(message: string)
    ensures ShouldRetryHealthError(PlainError(message)) == ShouldRetryHealthError(PlainError(ToLowerAscii(message)))
  {
    LowerAsciiIdempotent(message);
  }

  /** The device tests' cases: 408, 429 and 503 are retried, 401 and 403
      are not. */
  lemma RetryStatusExamples(message: string)
    ensures ShouldRetryHealthError(ApiError(message, Some(408)))
    ensures ShouldRetryHealthError(ApiError(message, Some(429)))
    ensures ShouldRetryHealthError(ApiError(message, Some(503)))
    ensures !ShouldRetryHealthError(ApiError(message, Some(401)))
    ensures !ShouldRetryHealthError(ApiError(message, Some(403)))
    ensures ShouldRetryHealthError(ApiError(message, None))
  {
  }

  /** "Network request failed" is a network-level error and is retried. */
  lemma NetworkMessageRetried(message: string)
    requires message == "Network request failed"
    ensures ShouldRetryHealthError(PlainError(message))
  {
    var lower := ToLowerAscii(message);
    assert message[..7] == "Network";
    forall k | 0 <= k < 7
      ensures lower[k] == "network"[k]
    {
      assert lower[k] == LowerAsciiChar(message[k]);
    }
    assert lower[..7] == "network";
    assert OccursAt(lower, "network", 0);
    ContainsAt(lower, "network");
    assert Contains(lower, "network");
  }

  // ---------------------------------------------------------------- retry with backoff

  function Min(a: int, b: int): int {
    if a < b then a else b
  }

  function Max(a: int, b: int): int {
    if a < b then b else a
  }

  /** The wait after failed attempt `attempt` (counted from 1): half a
      second doubled per attempt, at most eight seconds. */
  function RetryWaitMs(attempt: nat): nat
    requires attempt >= 1
  {
    Min(8000, 500 * Pow2(attempt - 1))
  }

  /** The waits run 500, 1000, 2000, 4000, then 8000 ms for good, and never
      shrink. */
  lemma RetryWaitSchedule(a: nat, b: nat)
    requires 1 <= a <= b
    ensures RetryWaitMs(a) <= RetryWaitMs(b)
    ensures a <= 5 ==> RetryWaitMs(a) == 500 * Pow2(a - 1)
    ensures a >= 5 ==> RetryWaitMs(a) == 8000
  {
    Pow2Monotone(a - 1, b - 1);
    if a >= 5 {
      assert Pow2(4) == 16;
      Pow2Monotone(4, a - 1);
    } else {
      assert Pow2(4) == 16;
      Pow2Monotone(a - 1, 4);
    }
  }

  /** One run of `retryWithBackoff`: the final outcome, the number of calls
      made and the waits slept between them. */
  datatype RetryRun<+T> = RetryRun(outcome: Attempt<T>, calls: nat, waits: seq<nat>)

  /** The loop of `retryWithBackoff` after `made` calls have failed with a
      retryable error; `call(k)` is what the k-th call (from 1) yields. */
  function RetryFrom<T>(call: nat -> Attempt<T>, maxAttempts: int, made: nat): (run: RetryRun<T>)
    ensures made < run.calls <= Max(made + 1, maxAttempts)
    ensures run.outcome == call(run.calls)
    ensures forall k | made < k < run.calls :: call(k).Threw? && k < maxAttempts && ShouldRetryHealthError(call(k).error)
    ensures run.outcome.Threw? ==> run.calls >= maxAttempts || !ShouldRetryHealthError(run.outcome.error)
    ensures |run.waits| == run.calls - made - 1
    ensures forall i | 0 <= i < |run.waits| :: run.waits[i] == RetryWaitMs(made + 1 + i)
    decreases if made < maxAttempts then maxAttempts - made else 0
  {
    var attempt := made + 1;
    match call(attempt)
    case Returned(v) => RetryRun(Returned(v), attempt, [])
    case Threw(e) =>
      if attempt >= maxAttempts || !ShouldRetryHealthError(e) then RetryRun(Threw(e), attempt, [])
      else
        var rest := RetryFrom(call, maxAttempts, attempt);
        RetryRun(rest.outcome, rest.calls, [RetryWaitMs(attempt)] + rest.waits)
  }

  /** `retryWithBackoff(fn, maxAttempts)`. */
  function RetryWithBackoff<T>(call: nat -> Attempt<T>, maxAttempts: int): (run: RetryRun<T>)
    ensures 1 <= run.calls <= Max(1, maxAttempts)
    ensures run.outcome == call(run.calls)
  {
    RetryFrom(call, maxAttempts, 0)
  }

  /** The loop stops at the first call that returns, or that throws an error
      not worth retrying, or that uses up the attempts; every earlier call
      threw a retryable error; a wait follows each failed call but the last. */
  lemma RetryStopsAtFirstDecisiveCall<T>(call: nat -> Attempt<T>, maxAttempts: int)
    ensures var run := RetryWithBackoff(call, maxAttempts);
      && (run.outcome.Returned? || run.calls >= maxAttempts || !ShouldRetryHealthError(run.outcome.error))
      && (forall k | 1 <= k < run.calls :: call(k).Threw? && ShouldRetryHealthError(call(k).error))
      && |run.waits| == run.calls - 1
      && (forall i | 0 <= i < |run.waits| :: run.waits[i] == RetryWaitMs(i + 1))
  {
    var run := RetryFrom(call, maxAttempts, 0);
    assert forall i | 0 <= i < |run.waits| :: run.waits[i] == RetryWaitMs(0 + 1 + i);
  }

  /** With three attempts, as the sync uses, at most 500 then 1000 ms are
      slept. */
  lemma ThreeAttemptsWaits<T>(call: nat -> Attempt<T>)
    ensures var run := RetryWithBackoff(call, 3);
      run.calls <= 3 && run.waits <= [500, 1000]
  {
    var run := RetryFrom(call, 3, 0);
    assert Pow2(1) == 2;
    assert forall i | 0 <= i < |run.waits| :: run.waits[i] == RetryWaitMs(1 + i);
  }
}

=== FILE: wrappers.dfy ===
/** Failure-compatible wrappers shared by every module of the model.
    - Option<T> stands for a JavaScript value that may be `undefined` or `null`.
    - Result<T, E> stands for an operation that either returns a value or
      throws / answers with an error.
 */
module Wrappers {

  datatype Option<+T> = None | Some(value: T) {

    /** The value, or `default` when absent (JavaScript's `??`). */
    function GetOr(default: T): T {
      match this
      case Some(v) => v
      case None => default
    }
  }

  datatype Result<+T, +E> = Success(value: T) | Failure(error: E) {

    predicate IsFailure() {
      Failure?
    }

    function PropagateFailure<U>(): Result<U, E>
      requires Failure?
    {
      Failure(error)
    }

    function Extract(): T
      requires Success?
    {
      value
    }
  }
}

=== FILE: write_intents.dfy ===
/** The write-intent queue (packages/backend/convex/healthWriteIntentsInternal.ts):
    intents to write energy entries into the phone's health store, keyed by
    an external id, with a pending / applied / skipped lifecycle and retry
    times that back off exponentially. The table is a sequence in creation
    order (the position is the row id); the clock is a parameter.
 */
module WriteIntents {
  import opened Wrappers
  import opened JsStrings
  import opened JsNumbers
  import opened HealthTypes
  import opened Paging

  datatype WriteMetric = ActiveEnergyKcal | DietaryEnergyKcal

  /** The stored statuses; `Failed` is declared by the schema but no
      operation here ever stores it. */
  datatype IntentStatus = Pending | Applied | Failed | Skipped

  datatype AckStatus = AckApplied | AckFailed | AckSkipped

  /** What a client asks to write (HealthWriteIntentPayload). */
  datatype Payload = Payload(
    externalId: string,
    metric: WriteMetric,
    startTimeMs: JsNumber,
    endTimeMs: JsNumber,
    valueNumber: JsNumber,
    unit: string,
    timezone: string,
    note: Option<string>,
    sourceName: Option<string>,
    sourceBundleId: Option<string>,
    tags: Option<seq<string>>)

  /** A stored intent (HealthWriteIntent without its row id). */
  datatype Intent = Intent(
    payload: Payload,
    tags: seq<string>,
    status: IntentStatus,
    attemptCount: nat,
    createdAtMs: int,
    updatedAtMs: int,
    nextRetryAtMs: int,
    lastAttemptAtMs: Option<int>,
    healthkitUuid: Option<string>,
    failureCode: Option<string>,
    failureMessage: Option<string>,
    appliedAtMs: Option<int>)

  const ErrExternalId := "externalId is required"
  const ErrTimes := "startTimeMs and endTimeMs must be integer timestamps"
  const ErrTimeOrder := "endTimeMs must be >= startTimeMs"
  const ErrValue := "valueNumber must be a finite number"
  const ErrUnit := "unit is required"
  const ErrTimezone := "timezone is required"
  const ErrNotFound := "Intent not found"
  const ErrIntentLimit := "limit must be between 1 and 200"

  // ---------------------------------------------------------------- payload check

  predicate PayloadIsValid(p: Payload) {
    && !IsBlank(p.externalId)
    && IsInteger(p.startTimeMs) && IsInteger(p.endTimeMs)
    && AsInt(p.endTimeMs) >= AsInt(p.startTimeMs)
    && p.valueNumber.Finite?
    && !IsBlank(p.unit)
    && !IsBlank(p.timezone)
  }

  /** `assertPayload`: the checks in source order, the first failing one
      giving the error. */
  function AssertPayload(p: Payload): (r: Result<Payload, string>)
    ensures r.Success? <==> PayloadIsValid(p)
    ensures r.Success? ==> r.value == p
    ensures IsBlank(p.externalId) ==> r == Failure(ErrExternalId)
    ensures !IsBlank(p.externalId) && !(IsInteger(p.startTimeMs) && IsInteger(p.endTimeMs)) ==> r == Failure(ErrTimes)
    ensures !IsBlank(p.externalId) && IsInteger(p.startTimeMs) && IsInteger(p.endTimeMs)
            && AsInt(p.endTimeMs) < AsInt(p.startTimeMs)
            ==> r == Failure(ErrTimeOrder)
    ensures !IsBlank(p.externalId) && IsInteger(p.startTimeMs) && IsInteger(p.endTimeMs)
            && AsInt(p.endTimeMs) >= AsInt(p.startTimeMs) && !p.valueNumber.Finite?
            ==> r == Failure(ErrValue)
    ensures !IsBlank(p.externalId) && IsInteger(p.startTimeMs) && IsInteger(p.endTimeMs)
            && AsInt(p.endTimeMs) >= AsInt(p.startTimeMs) && p.valueNumber.Finite? && IsBlank(p.unit)
            ==> r == Failure(ErrUnit)
    ensures r.Failure? && !IsBlank(p.externalId) && IsInteger(p.startTimeMs) && IsInteger(p.endTimeMs)
            && AsInt(p.endTimeMs) >= AsInt(p.startTimeMs) && p.valueNumber.Finite? && !IsBlank(p.unit)
            ==> r.error == ErrTimezone
  {
    if IsBlank(p.externalId) then Failure(ErrExternalId)
    else if !IsInteger(p.startTimeMs) || !IsInteger(p.endTimeMs) then Failure(ErrTimes)
    else if AsInt(p.endTimeMs) < AsInt(p.startTimeMs) then Failure(ErrTimeOrder)
    else if !p.valueNumber.Finite? then Failure(ErrValue)
    else if IsBlank(p.unit) then Failure(ErrUnit)
    else if IsBlank(p.timezone) then Failure(ErrTimezone)
    else Success(p)
  }

  // ---------------------------------------------------------------- backoff

  const BackoffBaseMs: nat := 300_000
  const BackoffCapMs: nat := 86_400_000

  /** `backoffMs`: five minutes doubled per attempt up to six doublings,
      capped at a day. */
  function BackoffMs(attemptCount: nat): nat {
    var multiplier := Pow2(if attemptCount < 6 then attemptCount else 6);
    if BackoffBaseMs * multiplier < BackoffCapMs then BackoffBaseMs * multiplier else BackoffCapMs
  }

  /** The wait never shrinks as failures accumulate; from the sixth attempt
      on it is 300,000 x 64 = 19,200,000 ms, so the one-day cap is never
      reached. */
  lemma BackoffSchedule(a: nat, b: nat)
    ensures a <= b ==> BackoffMs(a) <= BackoffMs(b)
    ensures a >= 6 ==> BackoffMs(a) == 19_200_000
    ensures BackoffMs(a) == BackoffBaseMs * Pow2(if a < 6 then a else 6) <= 19_200_000 < BackoffCapMs
  {
    assert Pow2(6) == 64;
    Pow2Monotone(if a < 6 then a else 6, 6);
    if a <= b {
      Pow2Monotone(if a < 6 then a else 6, if b < 6 then b else 6);
    }
  }

  /** The first failure (stored attempt count 1) waits ten minutes. */
  lemma FirstRetryWaitsTenMinutes()
    ensures BackoffMs(1) == 600_000
  {
  }

  // ---------------------------------------------------------------- lookups

  /** The `by_external_id` index: the first row with that external id. */
  function FindIntent(rows: seq<Intent>, externalId: string): (r: Option<nat>)
    ensures r.Some? ==> r.value < |rows| && rows[r.value].payload.externalId == externalId
    ensures r.Some? ==> forall j | 0 <= j < r.value :: rows[j].payload.externalId != externalId
    ensures r.None? ==> forall j | 0 <= j < |rows| :: rows[j].payload.externalId != externalId
  {
    if |rows| == 0 then None
    else if rows[0].payload.externalId == externalId then Some(0)
    else match FindIntent(rows[1..], externalId)
      case None => None
      case Some(i) => Some(i + 1)
  }

  predicate UniqueExternalIds(rows: seq<Intent>) {
    forall i, j | 0 <= i < |rows| && 0 <= j < |rows| && rows[i].payload.externalId == rows[j].payload.externalId :: i == j
  }

  // ---------------------------------------------------------------- upsert

  datatype UpsertResult = UpsertResult(created: bool, intent: Intent)

  /** A new pending intent, due now. */
  function NewIntent(p: Payload, nowMs: int): (i: Intent)
    ensures i.status == Pending && i.attemptCount == 0
    ensures i.createdAtMs == nowMs && i.updatedAtMs == nowMs && i.nextRetryAtMs == nowMs
  {
    Intent(p, p.tags.GetOr([]), Pending, 0, nowMs, nowMs, nowMs, None, None, None, None, None)
  }

  /** The patch an upsert applies to an existing intent: new payload,
      lifecycle reset, creation time kept. */
  function ResetIntent(prior: Intent, p: Payload, nowMs: int): (i: Intent)
    ensures i.createdAtMs == prior.createdAtMs && i.payload == p
    ensures i.status == Pending && i.attemptCount == 0 && i.nextRetryAtMs == nowMs && i.updatedAtMs == nowMs
    ensures i.lastAttemptAtMs.None? && i.healthkitUuid.None? && i.failureCode.None? && i.failureMessage.None? && i.appliedAtMs.None?
  {
    Intent(p, p.tags.GetOr([]), Pending, 0, prior.createdAtMs, nowMs, nowMs, None, None, None, None, None)
  }

  /** `upsertWriteIntent`. */
  function UpsertWriteIntent(rows: seq<Intent>, p: Payload, nowMs: int): (r: Result<(seq<Intent>, UpsertResult), string>)
    ensures r.Success? <==> PayloadIsValid(p)
    ensures r.Success? && r.value.1.created ==> r.value.0 == rows + [NewIntent(p, nowMs)] && r.value.1.intent == NewIntent(p, nowMs)
    ensures r.Success? && !r.value.1.created ==>
      exists k | 0 <= k < |rows| && rows[k].payload.externalId == p.externalId ::
        r.value.0 == rows[k := ResetIntent(rows[k], p, nowMs)] && r.value.1.intent == r.value.0[k]
  {
    match AssertPayload(p)
    case Failure(e) => Failure(e)
    case Success(_) =>
      match FindIntent(rows, p.externalId)
      case None => Success((rows + [NewIntent(p, nowMs)], UpsertResult(true, NewIntent(p, nowMs))))
      case Some(k) =>
        var updated := rows[k := ResetIntent(rows[k], p, nowMs)];
        assert rows[k].payload.externalId == p.externalId && updated[k] == ResetIntent(rows[k], p, nowMs);
        Success((updated, UpsertResult(false, updated[k])))
  }

  lemma UniqueAppend(rows: seq<Intent>, x: Intent)
    requires UniqueExternalIds(rows)
    requires forall j | 0 <= j < |rows| :: rows[j].payload.externalId != x.payload.externalId
    ensures UniqueExternalIds(rows + [x])
  {
    var rows' := rows + [x];
    forall i, j | 0 <= i < |rows'| && 0 <= j < |rows'| && rows'[i].payload.externalId == rows'[j].payload.externalId
      ensures i == j
    {
      if i < |rows| && j < |rows| {
        assert rows'[i] == rows[i] && rows'[j] == rows[j];
      }
    }
  }

  lemma UniqueUpdate(rows: seq<Intent>, k: nat, x: Intent)
    requires UniqueExternalIds(rows) && k < |rows|
    requires x.payload.externalId == rows[k].payload.externalId
    ensures UniqueExternalIds(rows[k := x])
  {
    var rows' := rows[k := x];
    forall i, j | 0 <= i < |rows'| && 0 <= j < |rows'| && rows'[i].payload.externalId == rows'[j].payload.externalId
      ensures i == j
    {
      assert rows'[i].payload.externalId == rows[i].payload.externalId;
      assert rows'[j].payload.externalId == rows[j].payload.externalId;
    }
  }

  /** The facts of an upsert of a valid payload into a table with unique
      external ids. */
  predicate UpsertKeepsUnique(rows: seq<Intent>, p: Payload, r: Result<(seq<Intent>, UpsertResult), string>) {
    && r.Success?
    && (r.value.1.created <==> forall j | 0 <= j < |rows| :: rows[j].payload.externalId != p.externalId)
    && UniqueExternalIds(r.value.0)
    && exists k | 0 <= k < |r.value.0| :: r.value.0[k].payload.externalId == p.externalId
  }

  lemma UpsertNewId(rows: seq<Intent>, p: Payload, nowMs: int)
    requires UniqueExternalIds(rows) && PayloadIsValid(p) && FindIntent(rows, p.externalId).None?
    ensures UpsertKeepsUnique(rows, p, UpsertWriteIntent(rows, p, nowMs))
  {
    assert AssertPayload(p).Success?;
    var x := NewIntent(p, nowMs);
    assert UpsertWriteIntent(rows, p, nowMs) == Success((rows + [x], UpsertResult(true, x)));
    UniqueAppend(rows, x);
    assert (rows + [x])[|rows|] == x;
  }

  lemma UpsertKnownId(rows: seq<Intent>, p: Payload, nowMs: int, k: nat)
    requires UniqueExternalIds(rows) && PayloadIsValid(p) && FindIntent(rows, p.externalId) == Some(k)
    ensures UpsertKeepsUnique(rows, p, UpsertWriteIntent(rows, p, nowMs))
  {
    assert AssertPayload(p).Success?;
    var x := ResetIntent(rows[k], p, nowMs);
    assert UpsertWriteIntent(rows, p, nowMs) == Success((rows[k := x], UpsertResult(false, x)));
    UniqueUpdate(rows, k, x);
    assert rows[k := x][k] == x;
  }

  /** Upsert creates exactly when the external id is new and leaves at most
      one intent per external id. */
  lemma UpsertKeepsOnePerExternalId(rows: seq<Intent>, p: Payload, nowMs: int)
    requires UniqueExternalIds(rows) && PayloadIsValid(p)
    ensures var r := UpsertWriteIntent(rows, p, nowMs);
      && r.Success?
      && (r.value.1.created <==> forall j | 0 <= j < |rows| :: rows[j].payload.externalId != p.externalId)
      && UniqueExternalIds(r.value.0)
      && exists k | 0 <= k < |r.value.0| :: r.value.0[k].payload.externalId == p.externalId
  {
    match FindIntent(rows, p.externalId)
    case None => UpsertNewId(rows, p, nowMs);
    case Some(k) => UpsertKnownId(rows, p, nowMs, k);
  }

  // ---------------------------------------------------------------- ack

  /** The fields an ack may carry besides the status. */
  datatype AckArgs = AckArgs(
    appliedAtMs: Option<int>,
    healthkitUuid: Option<string>,
    errorCode: Option<string>,
    errorMessage: Option<string>)

  /** The patch `ackWriteIntent` applies for each status. A field patched to
      `undefined` is removed, which is `None` here. */
  function AckPatch(i: Intent, status: AckStatus, args: AckArgs, nowMs: int): Intent {
    match status
    case AckApplied =>
      i.(status := Applied, updatedAtMs := nowMs, appliedAtMs := Some(args.appliedAtMs.GetOr(nowMs)),
         healthkitUuid := args.healthkitUuid, failureCode := None, failureMessage := None, lastAttemptAtMs := Some(nowMs))
    case AckSkipped =>
      i.(status := Skipped, updatedAtMs := nowMs, lastAttemptAtMs := Some(nowMs), failureCode := None, failureMessage := None)
    case AckFailed =>
      i.(status := Pending, attemptCount := i.attemptCount + 1, updatedAtMs := nowMs, lastAttemptAtMs := Some(nowMs),
         nextRetryAtMs := nowMs + BackoffMs(i.attemptCount + 1), failureCode := args.errorCode, failureMessage := args.errorMessage)
  }

  /** `ackWriteIntent`: unknown ids fail; otherwise the row of that id is
      patched and returned, and no other row changes. */
  function AckWriteIntent(rows: seq<Intent>, externalId: string, status: AckStatus, args: AckArgs, nowMs: int)
    : (r: Result<(seq<Intent>, Intent), string>)
    ensures r.Failure? <==> forall j | 0 <= j < |rows| :: rows[j].payload.externalId != externalId
    ensures r.Failure? ==> r.error == ErrNotFound
    ensures r.Success? ==> |r.value.0| == |rows|
    ensures r.Success? ==>
      exists k | 0 <= k < |rows| && rows[k].payload.externalId == externalId ::
           r.value.0 == rows[k := AckPatch(rows[k], status, args, nowMs)] && r.value.1 == r.value.0[k]
  {
    match FindIntent(rows, externalId)
    case None => Failure(ErrNotFound)
    case Some(k) =>
      var updated := rows[k := AckPatch(rows[k], status, args, nowMs)];
      Success((updated, updated[k]))
  }

  /** What each ack does to the intent it finds: applied records when and
      what was written and keeps the attempt count; skipped only closes the
      intent; failed puts it back in the queue, never in `Failed`, one
      attempt later and due after the backoff for the new count. All clear
      or replace the failure fields and record the attempt time. */
  lemma AckOutcome(i: Intent, status: AckStatus, args: AckArgs, nowMs: int)
    ensures var j := AckPatch(i, status, args, nowMs);
      && j.payload == i.payload && j.createdAtMs == i.createdAtMs && j.updatedAtMs == nowMs && j.lastAttemptAtMs == Some(nowMs)
      && j.status != Failed
    ensures var j := AckPatch(i, status, args, nowMs);
      status == AckApplied ==>
        && j.status == Applied && j.attemptCount == i.attemptCount && j.nextRetryAtMs == i.nextRetryAtMs
        && j.appliedAtMs == Some(args.appliedAtMs.GetOr(nowMs)) && j.healthkitUuid == args.healthkitUuid
        && j.failureCode.None? && j.failureMessage.None?
    ensures var j := AckPatch(i, status, args, nowMs);
      status == AckSkipped ==>
        && j.status == Skipped && j.attemptCount == i.attemptCount
        && j.appliedAtMs == i.appliedAtMs && j.healthkitUuid == i.healthkitUuid
        && j.failureCode.None? && j.failureMessage.None?
    ensures var j := AckPatch(i, status, args, nowMs);
      status == AckFailed ==>
        && j.status == Pending && j.attemptCount == i.attemptCount + 1
        && nowMs + 600_000 <= j.nextRetryAtMs <= nowMs + 19_200_000
        && j.failureCode == args.errorCode && j.failureMessage == args.errorMessage
  {
    BackoffSchedule(1, i.attemptCount + 1);
    BackoffSchedule(i.attemptCount + 1, i.attemptCount + 1);
    FirstRetryWaitsTenMinutes();
  }

  predicate NoneFailed(rows: seq<Intent>) {
    forall j | 0 <= j < |rows| :: rows[j].status != Failed
  }

  lemma NoneFailedAppend(rows: seq<Intent>, x: Intent)
    requires NoneFailed(rows) && x.status != Failed
    ensures NoneFailed(rows + [x])
  {
    assert forall j | 0 <= j < |rows| :: (rows + [x])[j] == rows[j];
  }

  lemma NoneFailedUpdate(rows: seq<Intent>, k: nat, x: Intent)
    requires NoneFailed(rows) && k < |rows| && x.status != Failed
    ensures NoneFailed(rows[k := x])
  {
  }

  lemma UpsertNeverFails(rows: seq<Intent>, p: Payload, nowMs: int)
    requires NoneFailed(rows)
    ensures UpsertWriteIntent(rows, p, nowMs).Success? ==> NoneFailed(UpsertWriteIntent(rows, p, nowMs).value.0)
  {
    if AssertPayload(p).Success? {
      match FindIntent(rows, p.externalId)
      case None =>
        NoneFailedAppend(rows, NewIntent(p, nowMs));
      case Some(k) =>
        NoneFailedUpdate(rows, k, ResetIntent(rows[k], p, nowMs));
    }
  }

  lemma AckNeverFails(rows: seq<Intent>, externalId: string, status: AckStatus, args: AckArgs, nowMs: int)
    requires NoneFailed(rows)
    ensures AckWriteIntent(rows, externalId, status, args, nowMs).Success?
            ==> NoneFailed(AckWriteIntent(rows, externalId, status, args, nowMs).value.0)
  {
    match FindIntent(rows, externalId)
    case None =>
    case Some(k) =>
      AckOutcome(rows[k], status, args, nowMs);
      NoneFailedUpdate(rows, k, AckPatch(rows[k], status, args, nowMs));
  }

  /** No sequence of upserts and acks ever stores the `failed` status. */
  lemma NeverFailed(rows: seq<Intent>, p: Payload, externalId: string, status: AckStatus, args: AckArgs, nowMs: int)
    requires NoneFailed(rows)
    ensures UpsertWriteIntent(rows, p, nowMs).Success? ==> NoneFailed(UpsertWriteIntent(rows, p, nowMs).value.0)
    ensures AckWriteIntent(rows, externalId, status, args, nowMs).Success?
            ==> NoneFailed(AckWriteIntent(rows, externalId, status, args, nowMs).value.0)
  {
    UpsertNeverFails(rows, p, nowMs);
    AckNeverFails(rows, externalId, status, args, nowMs);
  }

  // ---------------------------------------------------------------- listings

  /** Places `x` after every row whose key is no larger: an index ordered by
      `key`, ties by creation. */
  function InsertByKey(sorted: seq<Intent>, x: Intent, key: Intent -> int): (r: seq<Intent>)
    ensures |r| == |sorted| + 1
    ensures forall y :: y in r <==> y in sorted || y == x
  {
    if |sorted| == 0 then [x]
    else if key(x) < key(sorted[0]) then [x] + sorted
    else
      assert sorted == [sorted[0]] + sorted[1..];
      [sorted[0]] + InsertByKey(sorted[1..], x, key)
  }

  predicate KeysNondecreasing(rows: seq<Intent>, key: Intent -> int) {
    forall i, j | 0 <= i < j < |rows| :: key(rows[i]) <= key(rows[j])
  }

  lemma {:induction false} InsertByKeySorted(sorted: seq<Intent>, x: Intent, key: Intent -> int)
    requires KeysNondecreasing(sorted, key)
    ensures KeysNondecreasing(InsertByKey(sorted, x, key), key)
  {
    if |sorted| > 0 && key(x) >= key(sorted[0]) {
      InsertByKeySorted(sorted[1..], x, key);
      var rest := InsertByKey(sorted[1..], x, key);
      forall k | 0 <= k < |rest|
        ensures key(sorted[0]) <= key(rest[k])
      {
        assert rest[k] in sorted[1..] || rest[k] == x;
      }
    }
  }

  /** The rows of an index scan: those satisfying `keep`, in index order. */
  function Scan(rows: seq<Intent>, keep: Intent -> bool, key: Intent -> int): (r: seq<Intent>)
    ensures KeysNondecreasing(r, key)
    ensures forall x :: x in r <==> x in rows && keep(x)
  {
    if |rows| == 0 then []
    else
      var rest := Scan(rows[..|rows| - 1], keep, key);
      var x := rows[|rows| - 1];
      assert forall y :: y in rows <==> y in rows[..|rows| - 1] || y == x;
      if keep(x) then
        InsertByKeySorted(rest, x, key);
        InsertByKey(rest, x, key)
      else rest
  }

  predicate IsDue(i: Intent, nowMs: int) {
    i.status == Pending && i.nextRetryAtMs <= nowMs
  }

  function RetryKey(i: Intent): int {
    i.nextRetryAtMs
  }

  predicate IsPageLimit(limit: JsNumber, max: nat) {
    IsInteger(limit) && 1 <= AsInt(limit) <= max
  }

  /** The pending intents due by `nowMs`, in the order of the
      `by_status_retry` index: earliest retry first, ties by creation. */
  function DueScan(rows: seq<Intent>, nowMs: int): (r: seq<Intent>)
    ensures forall x :: x in r <==> x in rows && IsDue(x, nowMs)
    ensures KeysNondecreasing(r, RetryKey)
  {
    Scan(rows, x => IsDue(x, nowMs), RetryKey)
  }

  /** `listPendingWriteIntents`: pending intents due by `now`, earliest retry
      first, one page at a time. The page is the slice of the due scan at
      the cursor (absent: the start); its cursor is null exactly when the
      slice reaches the end of the scan. */
  function ListPendingWriteIntents(rows: seq<Intent>, limit: JsNumber, cursor: Option<nat>, nowArg: Option<int>, clockMs: int)
    : (r: Result<Page<Intent>, string>)
    ensures r.Success? <==> IsPageLimit(limit, MaxWriteIntentPageSize)
    ensures r.Failure? ==> r.error == ErrIntentLimit
    ensures r.Success? ==> |r.value.items| <= AsInt(limit)
    ensures r.Success? ==> forall x | x in r.value.items :: x in rows && IsDue(x, nowArg.GetOr(clockMs))
    ensures r.Success? ==> KeysNondecreasing(r.value.items, RetryKey)
    ensures r.Success? ==> var all := DueScan(rows, nowArg.GetOr(clockMs)); var c := cursor.GetOr(0);
      && (r.value.nextCursor.None? <==> c + AsInt(limit) >= |all|)
      && (r.value.nextCursor.Some? ==> c < r.value.nextCursor.value <= |all|)
      && (c <= |all| ==> all[c..] == r.value.items + (if r.value.nextCursor.Some? then all[r.value.nextCursor.value..] else []))
  {
    if !IsPageLimit(limit, MaxWriteIntentPageSize) then Failure(ErrIntentLimit)
    else
      var nowMs := nowArg.GetOr(clockMs);
      var all := DueScan(rows, nowMs);
      var p := PageOf(all, cursor.GetOr(0), AsInt(limit));
      assert forall x | x in p.items :: x in all;
      PageKeepsOrder(all, cursor.GetOr(0), AsInt(limit));
      Success(p)
  }

  /** A page of a scan ordered by `key` is itself ordered by `key`. */
  lemma PageKeepsOrder(all: seq<Intent>, cursor: nat, limit: nat)
    requires KeysNondecreasing(all, RetryKey)
    ensures KeysNondecreasing(PageOf(all, cursor, limit).items, RetryKey)
  {
    var p := PageOf(all, cursor, limit);
    forall i, j | 0 <= i < j < |p.items|
      ensures RetryKey(p.items[i]) <= RetryKey(p.items[j])
    {
      assert p.items[i] == all[cursor + i] && p.items[j] == all[cursor + j];
    }
  }

  /** A client following `nextCursor` through `listPendingWriteIntents`,
      starting at `cursor`: everything it reads, page after page. */
  function ReadPending(rows: seq<Intent>, limit: nat, cursor: nat, nowMs: int): (read: seq<Intent>)
    requires 1 <= limit <= MaxWriteIntentPageSize && cursor <= |DueScan(rows, nowMs)|
    ensures read == DueScan(rows, nowMs)[cursor..]
    decreases |DueScan(rows, nowMs)| - cursor
  {
    var r := ListPendingWriteIntents(rows, OfInt(limit), Some(cursor), Some(nowMs), 0);
    match r.value.nextCursor
    case None => r.value.items
    case Some(next) => r.value.items + ReadPending(rows, limit, next, nowMs)
  }

  /** Paging through the pending intents from the start visits every due
      intent once, in index order, and nothing else. */
  lemma PendingPagesCoverDue(rows: seq<Intent>, limit: nat, nowMs: int)
    requires 1 <= limit <= MaxWriteIntentPageSize
    ensures var read := ReadPending(rows, limit, 0, nowMs);
      && (forall x :: x in read <==> x in rows && IsDue(x, nowMs))
      && KeysNondecreasing(read, RetryKey)
  {
    assert DueScan(rows, nowMs)[0..] == DueScan(rows, nowMs);
  }

  function CreatedKey(i: Intent): int {
    i.createdAtMs
  }

  /** `listWriteIntentStatuses`: the first `limit` intents in creation
      order, or, for one status, the first `limit` of that status by
      creation time. */
  function ListWriteIntentStatuses(rows: seq<Intent>, status: Option<IntentStatus>, limit: JsNumber): (r: Result<seq<Intent>, string>)
    ensures r.Success? <==> IsPageLimit(limit, MaxWriteIntentPageSize)
    ensures r.Success? ==> |r.value| <= AsInt(limit)
    ensures r.Success? && status.None? ==> r.value == rows[..if |rows| < AsInt(limit) then |rows| else AsInt(limit)]
    ensures r.Success? && status.Some? ==> forall x | x in r.value :: x in rows && x.status == status.value
    ensures r.Success? && status.Some? ==> KeysNondecreasing(r.value, CreatedKey)
    ensures r.Success? && status.Some? && |r.value| < AsInt(limit) ==>
      forall x | x in rows && x.status == status.value :: x in r.value
  {
    if !IsPageLimit(limit, MaxWriteIntentPageSize) then Failure(ErrIntentLimit)
    else
      var n := AsInt(limit);
      match status
      case None => Success(rows[..if |rows| < n then |rows| else n])
      case Some(s) =>
        var all := Scan(rows, (x: Intent) => x.status == s, CreatedKey);
        assert forall x | x in all :: x in rows && x.status == s;
        var page := all[..if |all| < n then |all| else n];
        assert forall x | x in page :: x in all;
        assert KeysNondecreasing(page, CreatedKey) by {
          forall i, j | 0 <= i < j < |page| ensures CreatedKey(page[i]) <= CreatedKey(page[j]) {
            assert page[i] == all[i] && page[j] == all[j];
          }
        }
        assert |page| < n ==> page == all;
        Success(page)
  }
}

=== FILE: writeback.dfy ===
/** The device's write-back pass (apps/native/lib/health/writeback-core.ts):
    ask for write permission, then page through the pending write intents
    fifty at a time, apply each one to HealthKit and acknowledge the outcome
    to the server, counting what was applied, failed and skipped.

    The four dependencies are parameters. Each answers as a function of what
    it is asked; the clock is read by the number of acknowledgements sent
    before. A thrown error ends the whole pass, as the source has no catch.
 */
module WriteBack {
  import opened Wrappers
  import opened SyncLogic
  import opened WriteIntents

  /** DEFAULT_PAGE_SIZE. */
  const DefaultPageSize: nat := 50

  /** What applying one intent to HealthKit reports. */
  datatype ApplyResult = ApplyResult(
    status: AckStatus,
    healthkitUuid: Option<string>,
    errorCode: Option<string>,
    errorMessage: Option<string>)

  /** The acknowledgement sent for one intent. */
  datatype AckRequest = AckRequest(
    externalId: string,
    status: AckStatus,
    appliedAtMs: Option<int>,
    healthkitUuid: Option<string>,
    errorCode: Option<string>,
    errorMessage: Option<string>)

  /** One page of `listPending`; a `None` cursor is the JSON `null`. */
  datatype PendingPage = PendingPage(items: seq<Intent>, nextCursor: Option<string>)

  /** HealthWriteBackResult. */
  datatype WriteBackResult = WriteBackResult(totalPulled: nat, applied: nat, failed: nat, skipped: nat)

  datatype WriteBackDeps = WriteBackDeps(
    requestWritePermissions: Attempt<bool>,
    listPending: (nat, Option<string>) -> Attempt<PendingPage>,
    applyToHealthKit: Intent -> Attempt<ApplyResult>,
    ack: AckRequest -> Attempt<()>,
    clock: nat -> int)

  // ---------------------------------------------------------------- one page

  /** The acknowledgement built from an apply result; the time of applying
      is sent only for an applied intent. */
  function AckRequestOf(intent: Intent, r: ApplyResult, nowMs: int): AckRequest {
    AckRequest(
      intent.payload.externalId,
      r.status,
      if r.status == AckApplied then Some(nowMs) else None,
      r.healthkitUuid,
      r.errorCode,
      r.errorMessage)
  }

  /** What an acknowledgement must say about the intent it answers. */
  predicate AckAnswers(q: AckRequest, intent: Intent, r: ApplyResult) {
    && q.externalId == intent.payload.externalId
    && q.status == r.status
    && (q.appliedAtMs.Some? <==> r.status == AckApplied)
    && q.healthkitUuid == r.healthkitUuid
    && q.errorCode == r.errorCode
    && q.errorMessage == r.errorMessage
  }

  /** `acks` answers `intents` one for one and in order, each intent having
      been applied successfully. */
  predicate AcksFor(apply: Intent -> Attempt<ApplyResult>, intents: seq<Intent>, acks: seq<AckRequest>) {
    && |acks| == |intents|
    && forall i | 0 <= i < |intents| :: apply(intents[i]).Returned? && AckAnswers(acks[i], intents[i], apply(intents[i]).value)
  }

  /** The number of acknowledgements carrying status `s`. */
  function CountStatus(acks: seq<AckRequest>, s: AckStatus): (n: nat)
    ensures n <= |acks|
    decreases |acks|
  {
    if acks == [] then 0
    else (if acks[0].status == s then 1 else 0) + CountStatus(acks[1..], s)
  }

  datatype Tally = Tally(applied: nat, failed: nat, skipped: nat)

  function Bump(t: Tally, s: AckStatus): Tally {
    match s
    case AckApplied => t.(applied := t.applied + 1)
    case AckFailed => t.(failed := t.failed + 1)
    case AckSkipped => t.(skipped := t.skipped + 1)
  }

  /** The tally that counting `acks` by status gives. */
  function TallyOf(acks: seq<AckRequest>): Tally {
    Tally(CountStatus(acks, AckApplied), CountStatus(acks, AckFailed), CountStatus(acks, AckSkipped))
  }

  /** The inner loop over one page: the error that ended it, if any, the
      acknowledgements sent (one that threw included) and the counters. */
  datatype PageRun = PageRun(error: Option<HealthFailure>, acks: seq<AckRequest>, tally: Tally)

  /** The `for` loop over a page's intents; `sent` acknowledgements went
      out before it. */
  function ProcessIntents(deps: WriteBackDeps, intents: seq<Intent>, sent: nat): (p: PageRun)
    ensures p.error.None? ==> AcksFor(deps.applyToHealthKit, intents, p.acks)
    ensures p.error.None? ==> p.tally == TallyOf(p.acks)
    ensures p.error.Some? ==>
      (exists x | x in intents :: deps.applyToHealthKit(x).Threw?) || (exists q | q in p.acks :: deps.ack(q).Threw?)
    ensures |p.acks| <= |intents|
    decreases |intents|
  {
    if intents == [] then PageRun(None, [], Tally(0, 0, 0))
    else
      match deps.applyToHealthKit(intents[0])
      case Threw(e) => PageRun(Some(e), [], Tally(0, 0, 0))
      case Returned(r) =>
        var q := AckRequestOf(intents[0], r, deps.clock(sent));
        match deps.ack(q)
        case Threw(e) => PageRun(Some(e), [q], Tally(0, 0, 0))
        case Returned(_) =>
          var rest := ProcessIntents(deps, intents[1..], sent + 1);
          ConsRunFacts(deps, intents, r, q, rest);
          PageRun(rest.error, [q] + rest.acks, Bump(rest.tally, r.status))
  }

  /** The postcondition of `ProcessIntents`, as one predicate. */
  ghost predicate PageRunFacts(deps: WriteBackDeps, intents: seq<Intent>, p: PageRun) {
    && (p.error.None? ==> AcksFor(deps.applyToHealthKit, intents, p.acks))
    && (p.error.None? ==> p.tally == TallyOf(p.acks))
    && (p.error.Some? ==>
      (exists x | x in intents :: deps.applyToHealthKit(x).Threw?) || (exists q | q in p.acks :: deps.ack(q).Threw?))
    && |p.acks| <= |intents|
  }

  /** An intent applied and acknowledged, in front of the rest of the page. */
  lemma ConsRunFacts(deps: WriteBackDeps, intents: seq<Intent>, r: ApplyResult, q: AckRequest, rest: PageRun)
    requires intents != [] && deps.applyToHealthKit(intents[0]) == Returned(r)
    requires AckAnswers(q, intents[0], r) && deps.ack(q).Returned?
    requires PageRunFacts(deps, intents[1..], rest)
    ensures PageRunFacts(deps, intents, PageRun(rest.error, [q] + rest.acks, Bump(rest.tally, r.status)))
  {
    if rest.error.Some? {
      if x :| x in intents[1..] && deps.applyToHealthKit(x).Threw? {
        assert x in intents;
      } else {
        var q' :| q' in rest.acks && deps.ack(q').Threw?;
        assert q' in [q] + rest.acks;
      }
    } else {
      assert ([q] + rest.acks)[1..] == rest.acks;
    }
  }

  // ---------------------------------------------------------------- facts about acknowledgements

  lemma {:induction false} AcksForConcat(apply: Intent -> Attempt<ApplyResult>, i1: seq<Intent>, k1: seq<AckRequest>, i2: seq<Intent>, k2: seq<AckRequest>)
    requires AcksFor(apply, i1, k1) && AcksFor(apply, i2, k2)
    ensures AcksFor(apply, i1 + i2, k1 + k2)
    decreases |i1|
  {
    if i1 != [] {
      AcksForConcat(apply, i1[1..], k1[1..], i2, k2);
      assert (i1 + i2)[1..] == i1[1..] + i2;
      assert (k1 + k2)[1..] == k1[1..] + k2;
    } else {
      assert i1 + i2 == i2 && k1 + k2 == k2;
    }
  }

  lemma {:induction false} CountStatusConcat(a: seq<AckRequest>, b: seq<AckRequest>, s: AckStatus)
    ensures CountStatus(a + b, s) == CountStatus(a, s) + CountStatus(b, s)
    decreases |a|
  {
    if a == [] {
      assert a + b == b;
    } else {
      CountStatusConcat(a[1..], b, s);
      assert (a + b)[1..] == a[1..] + b;
    }
  }

  /** Every acknowledgement has exactly one of the three statuses. */
  lemma {:induction false} CountStatusPartition(acks: seq<AckRequest>)
    ensures CountStatus(acks, AckApplied) + CountStatus(acks, AckFailed) + CountStatus(acks, AckSkipped) == |acks|
    decreases |acks|
  {
    if acks != [] {
      CountStatusPartition(acks[1..]);
    }
  }

  // ---------------------------------------------------------------- the paging loop

  /** How a pass ended: with its counters, with the first error thrown, or
      with the server still offering pages when the page bound ran out. */
  datatype WriteBackOutcome = Finished(result: WriteBackResult) | Aborted(error: HealthFailure) | OutOfPages

  /** A pass: its outcome, the cursors passed to `listPending` (`None` is
      no cursor), the pages received and the acknowledgements sent. */
  datatype WriteBackRun = WriteBackRun(
    outcome: WriteBackOutcome,
    requested: seq<Option<string>>,
    pages: seq<PendingPage>,
    acks: seq<AckRequest>)

  /** The intents of `pages`, in page order. */
  function Items(pages: seq<PendingPage>): seq<Intent>
    decreases |pages|
  {
    if pages == [] then [] else pages[0].items + Items(pages[1..])
  }

  lemma {:induction false} ItemsAppend(pages: seq<PendingPage>, page: PendingPage)
    ensures Items(pages + [page]) == Items(pages) + page.items
    decreases |pages|
  {
    if pages == [] {
      assert Items([page]) == page.items + Items([]);
      assert page.items + [] == page.items;
      assert [] + [page] == [page];
    } else {
      ItemsAppend(pages[1..], page);
      assert (pages + [page])[1..] == pages[1..] + [page];
    }
  }

  /** The requests and pages of a pass fit together: the first request
      has no cursor, each later one carries the non-null `nextCursor` of
      the page before, each page is the server's answer to its request, and
      a request without a page is one whose listing threw. */
  predicate Paged(deps: WriteBackDeps, requested: seq<Option<string>>, pages: seq<PendingPage>) {
    && |pages| <= |requested| <= |pages| + 1
    && (|requested| > 0 ==> requested[0] == None)
    && (forall i | 0 <= i < |pages| :: deps.listPending(DefaultPageSize, requested[i]) == Returned(pages[i]))
    && (forall i | 0 <= i < |requested| - 1 :: pages[i].nextCursor.Some? && requested[i + 1] == pages[i].nextCursor)
    && (|requested| == |pages| + 1 ==> deps.listPending(DefaultPageSize, requested[|pages|]).Threw?)
  }

  /** Asking for the page after the last one received keeps the trace
      well formed, whether the listing answers or throws. */
  lemma PagedExtend(deps: WriteBackDeps, requested: seq<Option<string>>, pages: seq<PendingPage>, cursor: Option<string>)
    requires Paged(deps, requested, pages) && |requested| == |pages|
    requires pages == [] ==> cursor.None?
    requires pages != [] ==> pages[|pages| - 1].nextCursor.Some? && cursor == pages[|pages| - 1].nextCursor
    ensures deps.listPending(DefaultPageSize, cursor).Threw? ==> Paged(deps, requested + [cursor], pages)
    ensures deps.listPending(DefaultPageSize, cursor).Returned? ==>
      Paged(deps, requested + [cursor], pages + [deps.listPending(DefaultPageSize, cursor).value])
  {
    var req := requested + [cursor];
    assert forall i | 0 <= i < |requested| :: req[i] == requested[i];
    if deps.listPending(DefaultPageSize, cursor).Returned? {
      var ps := pages + [deps.listPending(DefaultPageSize, cursor).value];
      assert forall i | 0 <= i < |pages| :: ps[i] == pages[i];
    }
  }

  /** What a pass that had write permission guarantees, however it ended:
      at most `maxPages` listings, a well-formed trace of requests and
      pages, an abort only for an error thrown by a listing, an apply or an
      acknowledgement, a stop for lack of pages only while the server still
      offered a cursor; and when the pass finishes, at the first page whose
      `nextCursor` is null, every intent pulled acknowledged once, in order,
      with the status HealthKit reported, and counted once as applied,
      failed or skipped. */
  predicate PassFacts(deps: WriteBackDeps, maxPages: nat, run: WriteBackRun) {
    && |run.requested| <= maxPages
    && Paged(deps, run.requested, run.pages)
    && (|run.requested| == |run.pages| + 1 ==> run.outcome.Aborted?)
    && (run.outcome.Aborted? && |run.requested| == |run.pages| && run.pages != [] ==>
          (exists x | x in run.pages[|run.pages| - 1].items :: deps.applyToHealthKit(x).Threw?)
          || (exists q | q in run.acks :: deps.ack(q).Threw?))
    && (run.outcome.OutOfPages? ==>
          |run.requested| == maxPages && (maxPages > 0 ==> |run.pages| == maxPages && run.pages[maxPages - 1].nextCursor.Some?))
    && (run.outcome.Finished? && run.pages != [] ==> run.pages[|run.pages| - 1].nextCursor.None?)
    && (run.outcome.Finished? ==>
          && |run.acks| == |Items(run.pages)|
          && (forall i | 0 <= i < |run.acks| ::
                && deps.applyToHealthKit(Items(run.pages)[i]).Returned?
                && AckAnswers(run.acks[i], Items(run.pages)[i], deps.applyToHealthKit(Items(run.pages)[i]).value))
          && run.outcome.result.totalPulled == |Items(run.pages)|
          && Tally(run.outcome.result.applied, run.outcome.result.failed, run.outcome.result.skipped) == TallyOf(run.acks)
          && run.outcome.result.totalPulled == run.outcome.result.applied + run.outcome.result.failed + run.outcome.result.skipped)
  }

  // The ways out of the loop, each shown to meet PassFacts (an apply or
  // acknowledgement that throws is PageThrewExit, below).

  lemma OutOfPagesExit(deps: WriteBackDeps, maxPages: nat, requested: seq<Option<string>>, pages: seq<PendingPage>, acks: seq<AckRequest>)
    requires |requested| == |pages| == maxPages && Paged(deps, requested, pages)
    requires pages != [] ==> pages[|pages| - 1].nextCursor.Some?
    ensures PassFacts(deps, maxPages, WriteBackRun(OutOfPages, requested, pages, acks))
  {
  }

  lemma ListingThrewExit(deps: WriteBackDeps, maxPages: nat, requested: seq<Option<string>>, pages: seq<PendingPage>, acks: seq<AckRequest>, e: HealthFailure)
    requires |requested| == |pages| + 1 <= maxPages && Paged(deps, requested, pages)
    ensures PassFacts(deps, maxPages, WriteBackRun(Aborted(e), requested, pages, acks))
  {
  }

  lemma FinishedExit(deps: WriteBackDeps, maxPages: nat, requested: seq<Option<string>>, pages: seq<PendingPage>, acks: seq<AckRequest>, totalPulled: nat, t: Tally)
    requires |requested| == |pages| <= maxPages && Paged(deps, requested, pages)
    requires pages != [] ==> pages[|pages| - 1].nextCursor.None?
    requires AcksFor(deps.applyToHealthKit, Items(pages), acks)
    requires totalPulled == |Items(pages)| && t == TallyOf(acks)
    ensures PassFacts(deps, maxPages, WriteBackRun(Finished(WriteBackResult(totalPulled, t.applied, t.failed, t.skipped)), requested, pages, acks))
  {
    CountStatusPartition(acks);
  }

  /** `runHealthWriteBackWithDependencies`, calling `listPending` at most
      `maxPages` times. Without write permission nothing is listed,
      applied or acknowledged and every counter is zero. */
  method RunHealthWriteBack(deps: WriteBackDeps, maxPages: nat) returns (run: WriteBackRun)
    ensures deps.requestWritePermissions == Returned(false) ==> run == WriteBackRun(Finished(WriteBackResult(0, 0, 0, 0)), [], [], [])
    ensures deps.requestWritePermissions.Threw? ==> run == WriteBackRun(Aborted(deps.requestWritePermissions.error), [], [], [])
    ensures deps.requestWritePermissions == Returned(true) && maxPages > 0 ==> |run.requested| >= 1
    ensures PassFacts(deps, maxPages, run)
  {
    match deps.requestWritePermissions
    case Threw(e) =>
      return WriteBackRun(Aborted(e), [], [], []);
    case Returned(granted) =>
      if !granted {
        return WriteBackRun(Finished(WriteBackResult(0, 0, 0, 0)), [], [], []);
      }
      run := PullPending(deps, maxPages);
  }

  /** The loop's variables between two pages. */
  datatype PullState = PullState(
    cursor: Option<string>,
    isDone: bool,
    requested: seq<Option<string>>,
    pages: seq<PendingPage>,
    acks: seq<AckRequest>,
    totalPulled: nat,
    tally: Tally)

  /** The loop invariant: the trace so far is well formed, the cursor is
      the last page's `nextCursor`, every intent pulled is acknowledged and
      the counters agree with the acknowledgements. */
  ghost predicate PullInv(deps: WriteBackDeps, maxPages: nat, s: PullState) {
    PullShape(deps, maxPages, s) && PullCounts(deps, s)
  }

  /** The pages listed so far, each at the cursor its predecessor named. */
  ghost predicate PullShape(deps: WriteBackDeps, maxPages: nat, s: PullState) {
    && |s.requested| == |s.pages| <= maxPages
    && Paged(deps, s.requested, s.pages)
    && (s.pages == [] ==> s.cursor.None? && !s.isDone)
    && (s.pages != [] ==> s.cursor == s.pages[|s.pages| - 1].nextCursor && (s.isDone <==> s.cursor.None?))
  }

  /** The acknowledgements and counters of the intents listed so far. */
  ghost predicate PullCounts(deps: WriteBackDeps, s: PullState) {
    && AcksFor(deps.applyToHealthKit, Items(s.pages), s.acks)
    && s.totalPulled == |Items(s.pages)|
    && s.tally == TallyOf(s.acks)
  }

  datatype PullStep = Continue(state: PullState) | Stop(run: WriteBackRun)

  /** One turn of the `while (!isDone)` loop: list the page at the cursor,
      apply and acknowledge its intents, and move the cursor on; or stop,
      when the page bound is reached or something throws. */
  method PullPage(deps: WriteBackDeps, maxPages: nat, s: PullState) returns (step: PullStep)
    requires PullInv(deps, maxPages, s) && !s.isDone
    ensures step.Continue? ==> PullInv(deps, maxPages, step.state) && |step.state.requested| == |s.requested| + 1
    ensures step.Stop? ==> PassFacts(deps, maxPages, step.run)
    ensures step.Stop? ==> |step.run.requested| == if |s.requested| == maxPages then maxPages else |s.requested| + 1
  {
    if |s.requested| == maxPages {
      OutOfPagesExit(deps, maxPages, s.requested, s.pages, s.acks);
      return Stop(WriteBackRun(OutOfPages, s.requested, s.pages, s.acks));
    }
    PagedExtend(deps, s.requested, s.pages, s.cursor);
    match deps.listPending(DefaultPageSize, s.cursor)
    case Threw(e) =>
      ListingThrewExit(deps, maxPages, s.requested + [s.cursor], s.pages, s.acks, e);
      return Stop(WriteBackRun(Aborted(e), s.requested + [s.cursor], s.pages, s.acks));
    case Returned(page) =>
      step := ApplyPage(deps, maxPages, s, page);
  }

  /** The state after a listed page was applied and acknowledged in full. */
  function Accept(s: PullState, page: PendingPage, p: PageRun): PullState {
    PullState(
      page.nextCursor,
      page.nextCursor.None?,
      s.requested + [s.cursor],
      s.pages + [page],
      s.acks + p.acks,
      s.totalPulled + |page.items|,
      Tally(s.tally.applied + p.tally.applied, s.tally.failed + p.tally.failed, s.tally.skipped + p.tally.skipped))
  }

  /** A page whose intents were all applied and acknowledged keeps the loop
      invariant. */
  lemma PageAccepted(deps: WriteBackDeps, maxPages: nat, s: PullState, page: PendingPage, p: PageRun)
    requires PullInv(deps, maxPages, s) && !s.isDone && |s.requested| < maxPages
    requires deps.listPending(DefaultPageSize, s.cursor) == Returned(page)
    requires p == ProcessIntents(deps, page.items, |s.acks|) && p.error.None?
    ensures PullInv(deps, maxPages, Accept(s, page, p))
  {
    AcceptedShape(deps, maxPages, s, page, p);
    AcceptedCounts(deps, s, page, p);
  }

  lemma AcceptedShape(deps: WriteBackDeps, maxPages: nat, s: PullState, page: PendingPage, p: PageRun)
    requires PullShape(deps, maxPages, s) && !s.isDone && |s.requested| < maxPages
    requires deps.listPending(DefaultPageSize, s.cursor) == Returned(page)
    ensures PullShape(deps, maxPages, Accept(s, page, p))
  {
    PagedExtend(deps, s.requested, s.pages, s.cursor);
  }

  lemma AcceptedCounts(deps: WriteBackDeps, s: PullState, page: PendingPage, p: PageRun)
    requires PullCounts(deps, s)
    requires AcksFor(deps.applyToHealthKit, page.items, p.acks) && p.tally == TallyOf(p.acks)
    ensures PullCounts(deps, Accept(s, page, p))
  {
    ItemsAppend(s.pages, page);
    AcksForConcat(deps.applyToHealthKit, Items(s.pages), s.acks, page.items, p.acks);
    TallyOfConcat(s.acks, p.acks);
  }

  lemma TallyOfConcat(a: seq<AckRequest>, b: seq<AckRequest>)
    ensures TallyOf(a + b)
         == Tally(TallyOf(a).applied + TallyOf(b).applied, TallyOf(a).failed + TallyOf(b).failed, TallyOf(a).skipped + TallyOf(b).skipped)
  {
    CountStatusConcat(a, b, AckApplied);
    CountStatusConcat(a, b, AckFailed);
    CountStatusConcat(a, b, AckSkipped);
  }

  /** A page on which an apply or an acknowledgement threw ends the pass
      with that error. */
  lemma PageThrewExit(deps: WriteBackDeps, maxPages: nat, s: PullState, page: PendingPage, p: PageRun)
    requires PullInv(deps, maxPages, s) && !s.isDone && |s.requested| < maxPages
    requires deps.listPending(DefaultPageSize, s.cursor) == Returned(page)
    requires p == ProcessIntents(deps, page.items, |s.acks|) && p.error.Some?
    ensures PassFacts(deps, maxPages, WriteBackRun(Aborted(p.error.value), s.requested + [s.cursor], s.pages + [page], s.acks + p.acks))
  {
    PagedExtend(deps, s.requested, s.pages, s.cursor);
    if !exists x | x in page.items :: deps.applyToHealthKit(x).Threw? {
      var q :| q in p.acks && deps.ack(q).Threw?;
      assert q in s.acks + p.acks;
    }
  }

  /** The `for` loop over a listed page and the cursor update after it. */
  method ApplyPage(deps: WriteBackDeps, maxPages: nat, s: PullState, page: PendingPage) returns (step: PullStep)
    requires PullInv(deps, maxPages, s) && !s.isDone && |s.requested| < maxPages
    requires deps.listPending(DefaultPageSize, s.cursor) == Returned(page)
    ensures step.Continue? ==> PullInv(deps, maxPages, step.state) && |step.state.requested| == |s.requested| + 1
    ensures step.Stop? ==> PassFacts(deps, maxPages, step.run) && |step.run.requested| == |s.requested| + 1
  {
    var p := ProcessIntents(deps, page.items, |s.acks|);
    if p.error.Some? {
      PageThrewExit(deps, maxPages, s, page, p);
      return Stop(WriteBackRun(Aborted(p.error.value), s.requested + [s.cursor], s.pages + [page], s.acks + p.acks));
    }
    PageAccepted(deps, maxPages, s, page, p);
    return Continue(Accept(s, page, p));
  }

  /** The `while (!isDone)` loop: list a page, apply and acknowledge its
      intents, follow its `nextCursor` until it is null. */
  method PullPending(deps: WriteBackDeps, maxPages: nat) returns (run: WriteBackRun)
    ensures maxPages > 0 ==> |run.requested| >= 1
    ensures PassFacts(deps, maxPages, run)
  {
    var s := PullState(None, false, [], [], [], 0, Tally(0, 0, 0));
    assert Items([]) == [];
    while !s.isDone
      invariant PullInv(deps, maxPages, s)
      decreases maxPages - |s.requested|, !s.isDone
    {
      var step := PullPage(deps, maxPages, s);
      match step
      case Stop(r) =>
        return r;
      case Continue(next) =>
        s := next;
    }
    FinishedExit(deps, maxPages, s.requested, s.pages, s.acks, s.totalPulled, s.tally);
    return WriteBackRun(Finished(WriteBackResult(s.totalPulled, s.tally.applied, s.tally.failed, s.tally.skipped)), s.requested, s.pages, s.acks);
  }

  /** The device test's pass: two pages, "e-1" applied, "e-2" failed and
      "e-3" skipped, acknowledged in that order, three pulled. */
  method TwoPageExample(deps: WriteBackDeps, i1: Intent, i2: Intent, i3: Intent) returns (run: WriteBackRun)
    requires i1.payload.externalId == "e-1" && i2.payload.externalId == "e-2" && i3.payload.externalId == "e-3"
    requires deps.requestWritePermissions == Returned(true)
    requires deps.listPending(50, None) == Returned(PendingPage([i1, i2], Some("cursor-2")))
    requires deps.listPending(50, Some("cursor-2")) == Returned(PendingPage([i3], None))
    requires deps.applyToHealthKit(i1) == Returned(ApplyResult(AckApplied, Some("hk-1"), None, None))
    requires deps.applyToHealthKit(i2) == Returned(ApplyResult(AckFailed, None, Some("mock_failure"), Some("mock failed apply")))
    requires deps.applyToHealthKit(i3) == Returned(ApplyResult(AckSkipped, None, Some("mock_skipped"), Some("mock skipped apply")))
    requires forall q :: deps.ack(q).Returned?
    ensures run.outcome == Finished(WriteBackResult(3, 1, 1, 1))
    ensures |run.acks| == 3
    ensures run.acks[0].externalId == "e-1" && run.acks[0].status == AckApplied
    ensures run.acks[1].externalId == "e-2" && run.acks[1].status == AckFailed
    ensures run.acks[2].externalId == "e-3" && run.acks[2].status == AckSkipped
  {
    run := RunHealthWriteBack(deps, 2);
    TwoPagesListed(deps, i1, i2, i3, run);
    var acks := run.acks;
    assert AckAnswers(acks[0], i1, deps.applyToHealthKit(i1).value);
    assert AckAnswers(acks[1], i2, deps.applyToHealthKit(i2).value);
    assert AckAnswers(acks[2], i3, deps.applyToHealthKit(i3).value);
    OneOfEachTally(acks);
  }

  /** In the device test's pass both pages are listed and the pass finishes. */
  lemma TwoPagesListed(deps: WriteBackDeps, i1: Intent, i2: Intent, i3: Intent, run: WriteBackRun)
    requires deps.listPending(50, None) == Returned(PendingPage([i1, i2], Some("cursor-2")))
    requires deps.listPending(50, Some("cursor-2")) == Returned(PendingPage([i3], None))
    requires deps.applyToHealthKit(i1).Returned? && deps.applyToHealthKit(i2).Returned?
    requires deps.applyToHealthKit(i3).Returned?
    requires forall q :: deps.ack(q).Returned?
    requires PassFacts(deps, 2, run) && |run.requested| >= 1
    ensures run.outcome.Finished? && Items(run.pages) == [i1, i2, i3]
  {
    var page1 := PendingPage([i1, i2], Some("cursor-2"));
    var page2 := PendingPage([i3], None);
    assert forall x | x in page1.items :: deps.applyToHealthKit(x).Returned?;
    assert run.pages[0] == page1;
    assert run.pages[1] == page2;
    assert run.pages == [page1, page2];
    assert Items(run.pages) == [i1, i2, i3] by {
      assert Items(run.pages) == page1.items + Items([page2]);
      assert Items([page2]) == page2.items + Items([]);
    }
    assert forall x | x in page2.items :: deps.applyToHealthKit(x).Returned?;
    assert !run.outcome.Aborted?;
  }

  /** Three acknowledgements, applied, failed and skipped, count one of each. */
  lemma OneOfEachTally(acks: seq<AckRequest>)
    requires |acks| == 3
    requires acks[0].status == AckApplied && acks[1].status == AckFailed && acks[2].status == AckSkipped
    ensures TallyOf(acks) == Tally(1, 1, 1)
  {
    var tail := acks[2..];
    assert tail[1..] == [] && tail[0] == acks[2];
    assert CountStatus(tail, AckApplied) == 0 && CountStatus(tail, AckFailed) == 0 && CountStatus(tail, AckSkipped) == 1;
    var mid := acks[1..];
    assert mid[1..] == tail && mid[0] == acks[1];
    assert CountStatus(mid, AckApplied) == 0 && CountStatus(mid, AckFailed) == 1 && CountStatus(mid, AckSkipped) == 1;
  }
}
